=== FILE: README.md ===
# ai-flow, modelled in Dafny

ai-flow is a daily pipeline spread over many scripts. It collects trending
items (GitHub trending projects, Hacker News and V2EX posts, awesome-lists,
arXiv papers), has a language-model service summarise them, and mails the
result to a list of subscribers, with archives and previews on the side.
This project models the deterministic logic in those scripts: filtering,
ranking and grouping; retry loops with their sleeps; batching and
delivery with per-recipient results; parsing of the service's answers and
of trend text with defaults; truncation; the archive index; and template
substitution. The network, the language-model service, SMTP, the clock and
the file system are oracles. Their answers are parameters of the model,
and the pauses of the retry loops and of the mail batches are returned as
traces of seconds.

Every `.dfy` file holds one module:

- `wrappers.dfy` (`Option`, `Result`), `seqs.dfy` (slicing, filter, count,
  flatten), `text.dfy` (Python's `str` operations: `find`, `replace`,
  `split`, `join`, `strip`, `lower`, decimal digits), `dict.dfy` (an
  insertion-ordered `dict`), `sorting.dfy` (a stable sort by descending
  key), `retry.dfy` (the shared retry loop), `batching.dfy` (contiguous
  batches), `subscribers.dfy` (the cleaned subscriber list) and
  `mail_template.dfy` (the placeholders of the emergency mail template).
- One module per script of the pipeline: `deals.dfy`
  (ai_deals_all_app.py), `email_sender.dfy` (core/email_sender.py),
  `scraper.dfy` (core/scraper.py), `analyzer.dfy` (core/ai_analyzer.py),
  `settings.dfy` (config/settings.py), `immediate_send.dfy`
  (immediate_send_now.py), `emergency_send.dfy`
  (emergency_send_beautiful.py), `arxiv.dfy` (arxiv_app.py),
  `archive.dfy` (sync_arxiv_data.py and sync_projects.py), `demo.dfy`
  (instant_demo.py), `display.dfy` (app_simple.py and
  simple_display_test.py), `run_now.dfy` (run_now.py), `crawl.dfy`
  (immediate_github_crawl.py), `yesterday.dfy`
  (test_with_yesterday_data.py), `urgent.dfy` (urgent_send_now.py),
  `emergency_fix.dfy` with `simple_report.dfy` (emergency_fix.py) and
  `preview.dfy` (quick_preview.py).

Strings are `seq<char>`. Python's `str.replace` is modelled as a
left-to-right, non-overlapping replacement. `split` is modelled on a
non-empty separator, and `strip` on Python's whitespace set. A retry loop
takes a sequence of attempt outcomes. A sender takes one acceptance flag
per SMTP send. The result of every run says what was sent, in what order,
and which pauses were taken.

One point where the code and its documentation disagree is followed as
the code has it. core/ai_analyzer.py opens a new section only for a line
that starts with "##": a line with a single '#' is body text, and the
"###" branch can never be reached because "##" is checked first.

Verify with:

    dafny verify --resource-limit 2000000 --verification-time-limit 0 --warn-contradictory-assumptions *.dfy

## Model

| member | source | states |
|---|---|---|
| Scraper.TrendingUrl | core/scraper.py:53-56 | "all" asks for the bare trending page, any other language one path segment below it |
| Scraper.TrendingUrlInjective | core/scraper.py:53-56 | two languages that ask for the same page are the same language |
| Scraper.FirstDigits | core/scraper.py:174 | the digit run found is non-empty and all digits; nothing is found exactly when no digit follows the start |
| Scraper.ExtractNumber | core/scraper.py:167-180 | a number is read exactly when the text holds a digit, so empty text has none |
| Scraper.DigitsSurviveReplace | core/scraper.py:174 | removing the commas keeps a digit exactly when the text had one |
| Scraper.CommasIgnored | core/scraper.py:174 | thousands separators do not change the number read |
| Scraper.NumberRoundTrip | core/scraper.py:167-180 | a number written in decimal, with no digit or comma around it, is read back as itself |
| Scraper.DigitsAt | core/scraper.py:174 | the first digit run of a text is the first maximal digit block it holds |
| Scraper.SpaceRunEnd | core/scraper.py:188 | the whitespace run matched after the digits consists only of whitespace |
| Scraper.StarsAt | core/scraper.py:188 | a match at a position yields a non-empty digit string |
| Scraper.ExtractStarsToday | core/scraper.py:182-194 | a count is read exactly when the lowercased text matches digits, optional whitespace and "stars today" somewhere; anything else gives None |
| Scraper.FirstStars | core/scraper.py:188-189 | the search finds nothing exactly when no position from the start on matches |
| Scraper.StarsTodayRoundTrip | core/scraper.py:182-194 | "N stars today", with any spacing and any letter case of the words, reads back as N |
| Scraper.StarsAtStart | core/scraper.py:188 | digits, spaces and the words at the very start are the leftmost match |
| Scraper.LowerAppend | core/scraper.py:188 | lowercasing works piecewise on concatenations |
| Scraper.ProjectUrl | core/scraper.py:129-130 | a non-empty link becomes an absolute github.com address, a missing or empty one the empty text |
| Scraper.ParseResponse | core/scraper.py:105-165 | an unparseable page gives no projects, otherwise one project per page item |
| Scraper.ProjectsAt | core/scraper.py:121-159 | the project at each position is built from the page item at that position |
| Scraper.ParsedNumbering | core/scraper.py:121-159 | projects are numbered 1..n in page order and carry the requested language |
| Scraper.OutcomeOfParse | core/scraper.py:67-83 | an attempt succeeds exactly when the 200 page yields projects and stops the loop exactly when it yields none |
| Scraper.Pow2 | core/scraper.py:98 | the backoff wait is always at least one second |
| Scraper.Scrape | core/scraper.py:35-103 | success exactly when the last attempt made was a 200 page with projects, and then those projects; failure returns none; every earlier attempt failed; the waits are 2, 4, 8, ... seconds and none follows the last attempt |
| Scraper.Tries | core/scraper.py:46-100 | the loop ends at the first success, at an empty page or after the allowed attempts, running out exactly when every allowed attempt failed, and waits 2^k seconds after the k-th failure |
| Scraper.SavedLineParses | core/scraper.py:217-219 | every line written by save_projects is accepted by the immediate sender's project-line parser |
| Scraper.SavedLine | core/scraper.py:219 | definition: "{index}. [{title}]:{description}({url})"; stated by SavedLineParses |
| Scraper.DigitsHaveNoBrackets | core/scraper.py:219 | the index written before the title holds no bracket |
| Analyzer.AnalyzerKey | core/ai_analyzer.py:40-57 | the analyzer starts exactly when the explicit or the environment key is non-empty, the explicit key winning; otherwise it raises |
| Analyzer.Labelled | core/ai_analyzer.py:119-124 | every line of the answer, unchanged and in order, is paired with the section in force where it stands: the first with the incoming section, each next one with the section the previous line leaves behind |
| Analyzer.LabelledCons | core/ai_analyzer.py:119-124 | the first line keeps the incoming section and the rest are read under the section it opens |
| Analyzer.StepSection | core/ai_analyzer.py:121-124 | one pass of the loop changes the current section exactly as the section labelling does |
| Analyzer.Run | core/ai_analyzer.py:120-140 | scanning lines only ever adds trends and insights and never replaces a highlight once found |
| Analyzer.RunTrends | core/ai_analyzer.py:120-136 | the gathered trends are the non-blank lines of the trend section, in order, stripped of '-' and ' ' |
| Analyzer.RunInsights | core/ai_analyzer.py:120-138 | the gathered insights are the lines of the insight section that start with "1.", "2." or "3.", in order, stripped of digits, dots and spaces |
| Analyzer.RunHighlight | core/ai_analyzer.py:125-134 | the highlight is the first non-blank line of the highlight section, unless one was already found |
| Analyzer.RunPrediction | core/ai_analyzer.py:139-140 | each prediction line overwrites the previous one, so the last line of the section wins |
| Analyzer.LastPredictionCons | core/ai_analyzer.py:139-140 | reading a prediction line in front only changes the fallback for the lines after it |
| Analyzer.TrendEntryStep | core/ai_analyzer.py:135-136 | one line adds a trend exactly when it is a content line of the trend section |
| Analyzer.InsightEntryStep | core/ai_analyzer.py:137-138 | one line adds an insight exactly when it is a numbered content line of the insight section |
| Analyzer.PredictionEntryStep | core/ai_analyzer.py:139-140 | one line replaces the prediction exactly when it is a content line of the prediction section |
| Analyzer.DefaultAnalysis | core/ai_analyzer.py:176-197 | the fallback record claims 15 projects, one trend, three insights and the single category "综合" |
| Analyzer.ParseStructured | core/ai_analyzer.py:97-174 | an answer without content gives the default record; any other answer gives one to three trends and insights, a non-empty prediction, no categories, and as project count the number of its lines whose stripped text starts with "[" |
| Analyzer.ParsedProjectCount | core/ai_analyzer.py:155 | an answer written line by line counts exactly those of its lines that start with "[" after stripping |
| Analyzer.ParsedTrendsScan | core/ai_analyzer.py:163 | the record keeps at most the first three gathered trends, or the default trend when none was gathered |
| Analyzer.ParsedInsightsScan | core/ai_analyzer.py:164 | the record keeps at most the first three gathered insights, or the default insight |
| Analyzer.ParsedHighlightScan | core/ai_analyzer.py:143-152 | a highlight line found becomes the highlight project, otherwise the fixed fallback project is used |
| Analyzer.ParsedPredictionScan | core/ai_analyzer.py:165 | an empty prediction is replaced by the default prediction |
| Analyzer.ParseTrends | core/ai_analyzer.py:110-163 | the record's trends are the first three lines of the trend section, or the default when the section is empty |
| Analyzer.ParseInsights | core/ai_analyzer.py:110-164 | the record's insights are the first three numbered lines of the insight section, or the default |
| Analyzer.ParseHighlight | core/ai_analyzer.py:110-152 | the record's highlight is built from the first line of the highlight section, or is the fallback project |
| Analyzer.ParsePrediction | core/ai_analyzer.py:110-165 | the record's prediction is the last line of the prediction section, or the default when there is none |
| Analyzer.PredictionChoice | core/ai_analyzer.py:139-165 | a prediction read from the section is never empty, so the default is used exactly when the section is empty |
| Analyzer.InsightLines | core/ai_analyzer.py:246-247 | one numbered line per insight |
| Analyzer.InsightLinesAt | core/ai_analyzer.py:246-247 | the i-th insight becomes the line "n. insight" with n the start number plus i, so from 1 the lines read "1. ", "2. ", ... |
| Analyzer.FormatAnalysisText | core/ai_analyzer.py:218-258 | the formatted report always ends with the signature line |
| Analyzer.JoinEndsWithLast | core/ai_analyzer.py:258 | text joined from lines ends with the last line |
| Analyzer.RunAppend | core/ai_analyzer.py:120-140 | scanning two blocks of lines in a row is scanning their concatenation |
| Analyzer.InertRun | core/ai_analyzer.py:120-140 | headings and blank lines gather nothing |
| Analyzer.HeadingStep | core/ai_analyzer.py:121-124 | "### name" opens the section called name |
| Analyzer.BlankStep | core/ai_analyzer.py:125-140 | a blank line changes nothing |
| Analyzer.TrendsRun | core/ai_analyzer.py:135-136 | the trend lines written by the formatter, read in the trend section, give back exactly those trends |
| Analyzer.TrendStep | core/ai_analyzer.py:135-136 | "- t" read in the trend section adds t |
| Analyzer.InsightStep | core/ai_analyzer.py:137-138 | "n. x" with n from 1 to 3, read in the insight section, adds x |
| Analyzer.InsightsRun | core/ai_analyzer.py:137-138 | the numbered insight lines written by the formatter give back the insights |
| Analyzer.HighlightRun | core/ai_analyzer.py:125-134 | the formatter's highlight block sets the highlight from its one content line |
| Analyzer.TailRun | core/ai_analyzer.py:139-140 | in the formatted report the signature line, in the prediction section, replaces the prediction |
| Analyzer.ContentStep | core/ai_analyzer.py:139-140 | a clean content line of the prediction section becomes the prediction |
| Analyzer.FormatNoNewlines | core/ai_analyzer.py:228-258 | no formatted line holds a line break when no field does |
| Analyzer.FormatRun | core/ai_analyzer.py:218-258 | scanning the formatted report finds its trends, its insights and its highlight line, and the signature as the prediction |
| Analyzer.FormatParse | core/ai_analyzer.py:97-258 | parsing the formatted report gives back the first three trends, the insights and the highlight line; the prediction read back is the signature line that follows it in the same section |
| EmailSender.NewSender | core/email_sender.py:18-44 | a sender without an address or without a password is refused; otherwise the settings are kept as given |
| EmailSender.Body | core/email_sender.py:79-83 | a present, non-empty HTML body replaces the text body |
| EmailSender.SendEmail | core/email_sender.py:46-99 | the result is the server's acceptance, with no exception escaping, and the mail goes to the given address with the given subject and the chosen body |
| EmailSender.Distinct | core/email_sender.py:122-138 | the result dict has no more keys than sends |
| EmailSender.DistinctMembers | core/email_sender.py:138 | an address is a key of the results exactly when it was in the recipient list |
| EmailSender.LastResult | core/email_sender.py:138 | an address has a recorded outcome exactly when it was sent to |
| EmailSender.LastResultSnoc | core/email_sender.py:138 | a later send to the same address overwrites its outcome |
| EmailSender.DistinctSnoc | core/email_sender.py:138 | a repeated address adds no new key |
| EmailSender.RecordStep | core/email_sender.py:138 | one more assignment keeps the dict equal to its reference description |
| EmailSender.RecordSpec | core/email_sender.py:122-138 | the results have one key per distinct address, in order of first appearance, holding the outcome of its last send |
| EmailSender.RecordNext | core/email_sender.py:127-138 | one more send extends the dict of the earlier sends by one assignment |
| EmailSender.SendBatch | core/email_sender.py:101-149 | one mail per list entry, in list order, all alike but for the address; the results are the reference dict; a one-second pause between sends and none after the last |
| EmailSender.Deliver | core/email_sender.py:130-143 | the next mail joins the trace, followed by a pause unless it was the last |
| EmailSender.RecordOne | core/email_sender.py:138 | recording the next send gives the reference dict of the longer prefix |
| EmailSender.Pauses | core/email_sender.py:141-143 | each pause lasts one second |
| EmailSender.KindOf | core/email_sender.py:176-181 | "python" in any letter case gives the AI report, "rust" the Web3 report, anything else the generic report |
| EmailSender.KindIgnoresCase | core/email_sender.py:176-181 | the subject does not depend on the letter case of the language |
| EmailSender.LowerTwice | core/email_sender.py:176 | lowercasing twice is lowercasing once |
| EmailSender.SubjectDetermines | core/email_sender.py:176-181 | different report kinds or different dates give different subjects |
| EmailSender.Subject | core/email_sender.py:176-181 | definition: the subject is the kind's badge, the date and the kind's title; stated by SubjectDetermines and KindIgnoresCase |
| EmailSender.Successes | core/email_sender.py:146 | no more successes than results |
| EmailSender.Failures | core/email_sender.py:279 | no more failures than results |
| EmailSender.LogOf | core/email_sender.py:252-281 | every result is counted once, as a success or as a failure, and at most the first ten addresses are logged, in result order |
| EmailSender.SendTrending | core/email_sender.py:151-226 | every recipient gets the same subject and body; when the log directory cannot be created the call reports no results although the mails went out; otherwise the results are the batch results and the log counts them; a one-second pause between sends and none after the last |
| Sorting.SortDesc | ai_deals_all_app.py:213 | `sort(key=..., reverse=True)`: the result is ordered by decreasing key, is a permutation of the input, and keeps items with equal keys in their input order |
| Sorting.TopBy | ai_deals_all_app.py:213-215 | the first n after the stable descending sort: ordered, drawn from the input, no left-out item scores higher than a kept one, equal keys in input order |
| Sorting.SortedUnique | ai_deals_all_app.py:213 | two descending orders of the same items that keep equal keys in the same relative order are equal, so the stable sort is determined |
| Sorting.InsertFrontPermutes | ai_deals_all_app.py:213 | inserting into the sorted prefix neither loses nor adds an item |
| Deals.Items | ai_deals_all_app.py:173-211 | no response means no item; failed requests contribute nothing and the others contribute their lists in request order |
| Deals.Ids | ai_deals_all_app.py:189 | the ids checked for de-duplication are those of the retained posts, in order |
| Deals.HnStepFacts | ai_deals_all_app.py:182-206 | one hit keeps the retained posts well formed (non-empty ids, gated titles, no id twice), only appends, appends that hit's post, and a gated hit with an id ends up retained |
| Deals.HnCollect | ai_deals_all_app.py:173-211 | every retained post comes from a hit, every gated hit with an id has its id retained, and no id is retained twice |
| Deals.HnGate | ai_deals_all_app.py:192-198 | definition: the lowercased title names an AI term and a deal term; stated by HnStepFacts and HnCollect |
| Deals.HnCollectShift | ai_deals_all_app.py:182-206 | the facts of the hit loop carry over from the rest of the hits to all of them |
| Deals.ScrapeHackerNews | ai_deals_all_app.py:155-219 | the first 15 collected posts after the stable sort by descending score: exactly min(15, collected) distinct gated posts, ordered by score, drawn from the collected ones, none left out scoring above a kept one, posts of equal score in collection order |
| Deals.DistinctOnce | ai_deals_all_app.py:189 | with pairwise distinct ids every post occurs once |
| Deals.FirstSeenWins | ai_deals_all_app.py:189-190 | of two hits with the same id only the first is kept |
| Deals.LinkUrl | ai_deals_all_app.py:267 | an absolute link is kept and a relative one is resolved against github.com, so every address starts with "http" |
| Deals.AwesomeItems | ai_deals_all_app.py:258-275 | the link loop of one repository never yields more items than there are links |
| Deals.AwesomeItemsShape | ai_deals_all_app.py:263-269 | every item carries the list's source name, score 0, an address starting with "http" and a title whose lowercase names a keyword |
| Deals.AwesomeItemsLinked | ai_deals_all_app.py:258-269 | when every matching link has an href, there is one item per matching link, the i-th built from the i-th matching link's text and resolved href |
| Deals.AwesomeCons | ai_deals_all_app.py:258-269 | one pass over a link that does not raise adds its item, if it matches, before the items of the remaining links |
| Deals.AwesomeItemsAppend | ai_deals_all_app.py:258-269 | links scanned in two runs give the first run's items followed by the second's, when the first run holds no matching link without an href |
| Deals.AwesomeStops | ai_deals_all_app.py:258-275 | a matching link without an href raises: the repository keeps the items before it and none of the links after it |
| Deals.AllAwesomeItems | ai_deals_all_app.py:240-275 | when every repository's request failed there are no items |
| Deals.AllAwesomeShape | ai_deals_all_app.py:242-269 | every item has score 0, an address starting with "http", a keyword in its lowercased title and the source name of one of the repositories |
| Deals.AllAwesomeAppend | ai_deals_all_app.py:242-275 | repositories scanned in two runs give the first run's items followed by the second's |
| Deals.AllAwesomeOne | ai_deals_all_app.py:242-275 | a single repository gives its own link loop's items, or none when its page was not fetched |
| Deals.ScrapeGithubAwesome | ai_deals_all_app.py:222-282 | the first ten items over the four lists, in page order and unranked: exactly min(10, items) of them, a prefix of all items, each with score 0, a keyword in its title and one of the four lists as its source |
| Deals.V2exCollect | ai_deals_all_app.py:307-325 | one V2EX deal per gated topic, none missed and none de-duplicated |
| Deals.V2exGate | ai_deals_all_app.py:308-316 | definition: an AI term and a deal term, each in the lowercased title or content; stated by V2exCollect and V2exCollectOne |
| Deals.V2exCollectAppend | ai_deals_all_app.py:307-325 | topics collected in two runs give the first run's deals followed by the second's, so deals keep their topics' order |
| Deals.V2exCollectOne | ai_deals_all_app.py:307-325 | one topic yields its deal exactly when it passes both keyword gates, and nothing otherwise |
| Deals.ScrapeV2ex | ai_deals_all_app.py:285-337 | the first ten gated topics after the stable sort by descending replies: exactly min(10, collected), all marked V2EX, drawn from the collected deals, none left out with more replies than a kept one, equal reply counts in collection order |
| Deals.V2exRepeats | ai_deals_all_app.py:299-305 | every node request fetches the same hot list, so one qualifying topic is reported four times |
| Deals.FirstSeen | ai_deals_all_app.py:364-369 | a source is a group key exactly when some deal comes from it |
| Deals.GroupBySource | ai_deals_all_app.py:363-369 | one group per source in order of first appearance, each holding that source's deals in order, and no group for a source without deals |
| Deals.GroupStep | ai_deals_all_app.py:365-369 | appending one deal keeps the grouping equal to its reference description |
| Deals.HnDeals | ai_deals_all_app.py:348-349 | one deal per Hacker News post, in order, so the posts' descending score order carries over |
| Deals.Report | ai_deals_all_app.py:360-361 | the report opens with the dated title line and is nothing more when no deal was found |
| Deals.GroupsTextSections | ai_deals_all_app.py:371-373 | every group of the report gets its heading with its own number of deals |
| Deals.ReportSections | ai_deals_all_app.py:360-379 | each source a deal came from has its section in the report, headed by the number of deals from that source |
| Deals.ScrapeAllSources | ai_deals_all_app.py:340-386 | the deals are Hacker News, then GitHub, then V2EX; success means the report was written and holds at least one deal; at most 35 deals |
| Deals.Job | ai_deals_all_app.py:389-425 | at most three attempts, 180 seconds apart and none after the last; the result is the first attempt whose scrape and analysis both succeed, otherwise the job fails after three attempts |
| Deals.NewlinesToBreaks | ai_deals_all_app.py:58 | every newline becomes `<br>`: the result is the text's newline-separated pieces joined by `<br>`, with no line break left, and text without one is unchanged |
| Deals.BreaksBetweenLines | ai_deals_all_app.py:58 | newline-free lines joined by newlines come out joined by `<br>` |
| Deals.StripFences | ai_deals_all_app.py:45-51 | the unfenced reply is stripped and never longer than the reply |
| Deals.HtmlBody | ai_deals_all_app.py:41-59 | content that already holds `<html>` or `<h2>` is used as is after removing the fences; anything else becomes its newline-separated pieces joined by `<br>` |
| Deals.LooksLikeHtml | ai_deals_all_app.py:54 | definition: the content holds `<html>` or `<h2>`; stated by HtmlBody |
| Deals.HtmlBodyOfLines | ai_deals_all_app.py:41-59 | a plain, unfenced reply written line by line reaches the mail as those lines separated by `<br>` |
| Deals.FencesRemoved | ai_deals_all_app.py:45-51 | a reply fenced in "```html" ... "```" loses exactly its fences and the surrounding whitespace |
| Deals.UnfencedUnchanged | ai_deals_all_app.py:45-51 | unfenced, already stripped content passes through unchanged |
| Arxiv.QuerySnoc | arxiv_app.py:41-44 | the categories appear in the query in list order, joined by " OR " |
| Arxiv.Query | arxiv_app.py:41-44 | definition: the "cat:" terms joined by " OR "; stated by QuerySnoc |
| Arxiv.Aged | arxiv_app.py:93-102 | one (age, paper) pair per paper, in input order, an unparsable date counting as 99 days |
| Arxiv.SelectAged | arxiv_app.py:80-121 | at most topN papers are returned unchanged; otherwise no more papers than given |
| Arxiv.SelectTopPapers | arxiv_app.py:80-121 | with no more papers than wanted the list is returned as is |
| Arxiv.GroupsSorted | arxiv_app.py:104-106 | the sorted fresh group followed by the sorted older group is in ascending age |
| Arxiv.GroupsSameKey | arxiv_app.py:93-106 | within one age the two groups together keep the input order |
| Arxiv.GroupsAreOneSort | arxiv_app.py:93-106 | the two sorted groups, one after the other, are the whole list stably sorted by age |
| Arxiv.GroupSizes | arxiv_app.py:93-102 | every paper lands in exactly one group |
| Arxiv.TopUp | arxiv_app.py:109-119 | cutting the fresh group and topping it up from the older group takes the first topN of both together |
| Arxiv.SelectIsYoungest | arxiv_app.py:80-121 | with more papers than wanted the selection is the topN youngest papers by a stable sort on age: every paper left out is at least as old as every paper taken |
| Arxiv.SelectNonPositive | arxiv_app.py:109-113 | with topN of zero or less the loop still takes one paper, exactly when some paper is fresh |
| Arxiv.Shorten | arxiv_app.py:183 | short text is kept; longer text is cut to max_length characters and gets "..." |
| Arxiv.KeepSentences | arxiv_app.py:210-221 | the whole sentences kept fit the budget and the result ends with a full stop unless empty |
| Arxiv.SummarizeAsWritten | arxiv_app.py:207-225 | a short translation is kept; otherwise the result fits the limit or is the bare "..." |
| Arxiv.OneLongSentenceLost | arxiv_app.py:221-223 | a long translation without a full stop is reduced to "..." |
| Arxiv.Summarize | arxiv_app.py:207-225 | the intended shortening: a short translation is kept, the whole sentences that fit when there are any, otherwise the first max_length characters and "..." |
| Arxiv.OneLongSentenceKept | arxiv_app.py:221-223 | with the intended fallback a long translation without a full stop keeps its first max_length characters |
| Arxiv.SummariesAgree | arxiv_app.py:207-225 | the intended and the written shortening agree unless no whole sentence fits |
| Arxiv.TranslateAndSummarize | arxiv_app.py:170-229 | without a key or when the call raises the text is shortened; a short stripped answer is returned as is; a long one fits the limit or is the bare "..." |
| Arxiv.LongAnswerLost | arxiv_app.py:205-225 | a long answer without a full stop is sent as "..." |
| Arxiv.TranslateAndSummarizeCorrected | arxiv_app.py:170-229 | the same call with the intended shortening: a long answer is cut to at most max_length plus three characters |
| Arxiv.LongAnswerKept | arxiv_app.py:205-225 | with the intended shortening that answer keeps its first max_length characters and "..." |
| Arxiv.TrailingWord | arxiv_app.py:255-258 | the last word is a suffix of the text without whitespace |
| Arxiv.LastWord | arxiv_app.py:255-258 | `split()[-1]` raises exactly on a blank name and otherwise gives a non-empty word without whitespace |
| Arxiv.TrailingWordOf | arxiv_app.py:255-258 | a word after whitespace is the last word |
| Arxiv.LastWordOfName | arxiv_app.py:255-258 | the surname of "Given Family" is "Family" |
| Arxiv.LastWords | arxiv_app.py:258 | one surname per author name when none is blank |
| Arxiv.LastWordsBlank | arxiv_app.py:258 | the surnames are missing exactly when some name is blank |
| Arxiv.LastWordsCons | arxiv_app.py:258 | the surnames of a name followed by a list are its surname followed by theirs, and missing when either is |
| Arxiv.AuthorLine | arxiv_app.py:253-259 | with three or more authors only the first name matters: its surname followed by " 等", and a blank first name raises; with one or two authors a blank name raises and a single author gives their surname; no authors give the empty line |
| Arxiv.OneAuthor | arxiv_app.py:256-259 | a single author "Given Family" gives "Family" alone |
| Arxiv.ManyAuthors | arxiv_app.py:254-255 | three or more authors give the first surname followed by " 等" |
| Arxiv.TwoAuthors | arxiv_app.py:256-259 | two authors give both surnames joined by ", " |
| Arxiv.OneLineTitle | arxiv_app.py:262 | same length as the title, each newline replaced by a space and every other character kept in place |
| Arxiv.SendToAllSubscribers | arxiv_app.py:327-356 | without a subscriber file nothing is sent; otherwise every send counts, the result is whether one succeeded, and a two-second pause follows every successful send except a last one |
| Archive.RowHasCells | sync_arxiv_data.py:104 | a row has a first cell to read its date from |
| Archive.FindHeader | sync_arxiv_data.py:89-94 | the header row found is the first row followed by a "---" line; the search fails with an IndexError when the last line is a row and no header was found before it; otherwise there is no table |
| Archive.RowsEnd | sync_arxiv_data.py:92-93 | the table runs over rows only and stops at the first line that is not one |
| Archive.TableEnd | sync_arxiv_data.py:87-94 | the table end follows the run of rows after the header; the search raises exactly when it reaches a row at the last line |
| Archive.FirstOlder | sync_arxiv_data.py:99-110 | the row found is the first one after the table whose date sorts before today |
| Archive.LastRow | sync_arxiv_data.py:114-119 | the last row of the file, or none when there is no row |
| Archive.InsertAt | sync_arxiv_data.py:106-118 | inserting keeps everything before and after the new line |
| Archive.Position | sync_arxiv_data.py:97-119 | the new row has a place exactly when the file has a row |
| Archive.UpdateLines | sync_arxiv_data.py:86-121 | the header search raises exactly when the table end is missing; a file without rows is unchanged; otherwise exactly the new row is inserted somewhere |
| Archive.TableKept | sync_arxiv_data.py:97-119 | the rows of the first table stay in place and the result is the old lines with the new row inserted at or after the table end, whatever the dates |
| Archive.PositionAfterTable | sync_arxiv_data.py:97-119 | with any row in the file the new row has a place, at or after the table end |
| Archive.TableEndRow | sync_arxiv_data.py:92-93 | the line before a non-zero table end is a row |
| Archive.RowByFirst | sync_arxiv_data.py:90 | a line is a row exactly when its first character is '\|' |
| Archive.NewestLast | sync_arxiv_data.py:96-119 | when the only rows are those of the first table the new row goes right after it, below all older dates |
| Archive.NewestLastExample | sync_arxiv_data.py:96-119 | in a one-row index the row of 2024-01-01 stays above the new row of 2024-01-02 |
| Archive.PositionNewestFirst | sync_arxiv_data.py:96 | the corrected insertion point exists exactly when the file has a row |
| Archive.FirstDataRow | sync_arxiv_data.py:89-91 | the first data row lies inside the first table |
| Archive.UpdateLinesNewestFirst | sync_arxiv_data.py:86-121 | the corrected update raises exactly when the table end is missing, leaves a file without rows alone, and otherwise inserts exactly the new row |
| Archive.InsertKeepsDescending | sync_arxiv_data.py:96 | putting today before the first older date keeps the dates newest first |
| Archive.NewestFirstPlace | sync_arxiv_data.py:96-110 | the corrected row goes before the first older data row and after all newer ones |
| Archive.Dates | sync_arxiv_data.py:104 | the dates of a stretch of rows, one per row |
| Archive.NewestFirstKeepsOrder | sync_arxiv_data.py:96 | with the corrected insertion a table whose dates run newest first still does after the new row |
| Archive.TableRows | sync_arxiv_data.py:89-93 | every line from the first data row to the table end is a row |
| Archive.IndexEntry | sync_arxiv_data.py:84 | the new row holds the date right after its opening "\| " |
| Archive.UpdateIndex | sync_arxiv_data.py:70-126 | an index that already mentions the date anywhere is left as is; otherwise it raises exactly when the header search does, stays as it was without any row, and else becomes its lines with the new row inserted at or after the end of the first table, joined by newlines |
| Archive.UpdateIndexNewestFirst | sync_arxiv_data.py:70-126 | the same update with the insertion the comment describes: no change when the date is present, and a failure exactly when the header search fails |
| Archive.JoinContains | sync_arxiv_data.py:121 | the joined index holds whatever one of its lines holds |
| Archive.UpdateIndexIdempotent | sync_arxiv_data.py:80-126 | after the code's own insertion, a second update on the same day leaves the index unchanged |
| Archive.Preview | sync_arxiv_data.py:59 | the JSON preview is the first twenty lines |
| Archive.Latest | sync_arxiv_data.py:24-26 | the log chosen is a log name that no other name sorts after |
| Archive.ChooseLog | sync_arxiv_data.py:19-31 | today's log when it exists, else the name that sorts last with its stem as the date, and none only when there is no log |
| Archive.SyncArxiv | sync_arxiv_data.py:12-68 | no log means failure; the run raises exactly when the index update does; otherwise the date is the chosen log's, the index is the update_index result for that date and its two files, the Markdown is the dated title, the two quote lines and the log text, the line count is that of the stripped log, and the preview is its first twenty lines |
| Archive.TemplateLines | sync_arxiv_data.py:78 | the template index is a title, a blank line, the heading row, the rule line and an empty last line |
| Archive.TemplateFirstRow | sync_arxiv_data.py:78-121 | the first day's row goes right after the rule line of the template, as written and as corrected |
| Archive.EmptyTable | sync_arxiv_data.py:86-121 | a table with a header and no data row gets the new row right after its rule line |
| Archive.EntryAfterHeader | sync_projects.py:97-99 | a README with the header once, at its head, gets the entry right after it |
| Archive.InsertEntry | sync_projects.py:97-99 | a README without the exact header is left unchanged; one with it gets the entry right after the header |
| Archive.SecondRunAddsAgain | sync_projects.py:92-99 | there is no duplicate check: a second run on the same day adds a second entry |
| Archive.FirstExisting | sync_projects.py:21-37 | the source used is the first that exists |
| Archive.SyncProjects | sync_projects.py:13-108 | the sync succeeds exactly when a source exists, can be read and the Markdown is written; the source is the first existing one of the four candidates, so today's log wins; the Markdown is the dated title, the table header and the source text; the project count is the number of lines of the stripped text; on success the README gets the dated entry inserted, into the template when it did not exist; a failed JSON or README write does not change the outcome |
| Settings.EnvOr | config/settings.py:57-59 | an environment variable's value when it is set, the default otherwise |
| Settings.DefaultAI | config/settings.py:13-19 | the AI section uses glm-4-flash, six retries 300 seconds apart and a 120-second timeout |
| Settings.DefaultEmail | config/settings.py:22-28 | mail goes through smtp.163.com on port 465 |
| Settings.Load | config/settings.py:55-74 | the API key and the mail password come from the environment and default to empty; the sender comes from SENDER_EMAIL and defaults to the fixed address; the model is glm-4-flash, mail goes through smtp.163.com:465, and the scraper, tracking and app sections, retries and timeouts are the dataclass defaults |
| Settings.Validate | config/settings.py:76-86 | the key is checked before the password: valid exactly when both are non-empty, a missing key is reported whatever the password |
| Settings.LoadedValid | config/settings.py:55-86 | a freshly loaded configuration is valid exactly when both secrets are set to something non-empty |
| Settings.ScraperDefaultsAgree | config/settings.py:31-36 | the scraper section's timeout, tries and address are the scraper's own defaults |
| Subscribers.TrimClean | run_now.py:110 | stripping a non-blank line gives a clean address |
| Subscribers.CleanKept | run_now.py:110 | a clean line is kept unchanged |
| Subscribers.SubscriberList | run_now.py:110 | one address per non-blank line, each non-empty and without surrounding whitespace |
| Subscribers.SubscribersIdempotent | run_now.py:110 | reading the cleaned list back gives the same list |
| Subscribers.SubscribersCons | run_now.py:110 | the list of a file is the first line's address, if any, followed by the rest's |
| Subscribers.BlankLinesIgnored | run_now.py:110 | a blank line anywhere in the file does not change the list |
| Subscribers.SubscribersOrSender | emergency_send_beautiful.py:164-177 | the list from the file, or the sender's own address when there is no file |
| UrgentSend.AnalysisFile | urgent_send_now.py:28-36 | today's file when present, else today's emergency file, and none only when neither exists |
| UrgentSend.FirstPreferred | urgent_send_now.py:58-61 | the position of the first address at 163.com, qq.com or gmail.com, and none exactly when there is no such address |
| UrgentSend.TestRecipient | urgent_send_now.py:55-66 | a recipient from the list, present exactly when the list is not empty |
| UrgentSend.RecipientIsFirstPreferred | urgent_send_now.py:58-61 | the first preferred address wins wherever it stands |
| UrgentSend.RecipientFallsBackToFirst | urgent_send_now.py:63-65 | without a preferred address the first one is used |
| UrgentSend.RecipientClean | urgent_send_now.py:50-66 | the recipient read from the file is a cleaned address |
| UrgentSend.ExtractInfo | urgent_send_now.py:70-99 | only the subscriber count depends on the input: eleven projects in seven categories |
| UrgentSend.InfoIgnoresContent | urgent_send_now.py:70-99 | two different analyses give the same summary |
| UrgentSend.InfoConsistent | urgent_send_now.py:77-93 | the fixed summary is self-consistent: seven categories whose counts add up to the eleven projects |
| UrgentSend.Excerpt | urgent_send_now.py:248 | the mail shows at most the first 800 characters of the analysis, followed by "..." even when nothing was cut |
| UrgentSend.ExcerptIgnoresTail | urgent_send_now.py:248 | nothing after the 800th character reaches the mail |
| UrgentSend.Run | urgent_send_now.py:28-346 | a missing analysis file or subscriber file ends the run; otherwise one mail goes to the test recipient; the run succeeds exactly when the send and the saving of the HTML copy both succeed, and a failure records whether the mail had gone out |
| UrgentSend.DeliveredButFailed | urgent_send_now.py:322-346 | a delivered mail whose HTML copy cannot be written still reports failure |
| Crawl.Fetch | immediate_github_crawl.py:31-69 | the fetch fails only when every IP gives no 200 and the domain request raises |
| Crawl.FetchPicksFirst | immediate_github_crawl.py:44-54 | the first IP answering 200 supplies the page, whatever the later IPs and the domain would do |
| Crawl.FetchFallsToDomain | immediate_github_crawl.py:61-69 | when no IP answers 200 the domain's page is used whatever its status, and the fetch fails exactly when that request raises |
| Crawl.Url | immediate_github_crawl.py:82-86 | the link is the site plus href, or "未知" when href is missing or empty |
| Crawl.Line | immediate_github_crawl.py:88-89 | the line written for an item is never empty |
| Crawl.Lines | immediate_github_crawl.py:78-90 | at most one line per item, none exactly when no item has a title |
| Crawl.ParseTrending | immediate_github_crawl.py:71-92 | the parsed text is empty exactly when no item has a title |
| Crawl.LinesFiltered | immediate_github_crawl.py:78-90 | the lines are those of the titled items, in order, each numbered by its position among all items |
| Crawl.NumberedTail | immediate_github_crawl.py:78 | numbering the items from a position gives the first item that position and the rest the following ones |
| Crawl.IndexGap | immediate_github_crawl.py:78-90 | an untitled item between two titled ones leaves a gap: the lines are numbered 1 and 3 |
| Crawl.Report | immediate_github_crawl.py:173-186 | the error report holds the time and the project count, and ends with the fixed trailer |
| Crawl.CountAsWritten | immediate_github_crawl.py:177 | the count as written is at least one, and exactly one when the text holds no backslash followed by 'n' |
| Crawl.LineCount | immediate_github_crawl.py:177 | the count meant is at least one, and exactly one when the text holds no newline |
| Crawl.CountAsWrittenIsOne | immediate_github_crawl.py:177 | the report splits at a backslash followed by 'n', so text without a backslash counts as one project |
| Crawl.LineCountJoin | immediate_github_crawl.py:92 | newline-joined lines count as as many lines as there are |
| Crawl.CountDiscrepancy | immediate_github_crawl.py:177 | two lines are reported as one project as written, while they are two lines |
| Crawl.AnalyzeAsWritten | immediate_github_crawl.py:94-186 | short input gets the fixed fallback without the service; a usable reply is returned as is; otherwise the report with the count as written |
| Crawl.Analyze | immediate_github_crawl.py:94-186 | the same decisions with the report counting lines |
| Crawl.ReportCountsLines | immediate_github_crawl.py:173-186 | with the correction, the report on parsed lines counts every line |
| Crawl.OneShortProject | immediate_github_crawl.py:98-100 | a single short project is real data yet gets the fixed fallback instead of the service's reply |
| Crawl.SingleLine | immediate_github_crawl.py:78-92 | a single titled item gives exactly its own line |
| Crawl.ShortFallbackFor | immediate_github_crawl.py:98-100 | text under 50 characters gets the fallback whatever the key and the service |
| Crawl.AuthCode | immediate_github_crawl.py:388-396 | the current password variable when set and non-empty, else the old misspelt one, and none when both are unset or empty |
| Crawl.GetEmails | immediate_github_crawl.py:27-29 | every line of the file is an address candidate, none holding a newline |
| Crawl.BlankLinesKept | immediate_github_crawl.py:27-29 | blank lines are read back as addresses |
| Crawl.SubscriberRound | immediate_github_crawl.py:415-430 | the switched-off round sends batches of at most 20 in order up to the first refused one, with a 2-second pause after each, the last one included |
| Crawl.RoundReachesAll | immediate_github_crawl.py:421-430 | when every batch goes through each subscriber gets the mail once, in file order, and there are as many pauses as batches |
| Crawl.SendEmail | immediate_github_crawl.py:384-437 | no password or a failed confirmation send gives false; otherwise only the confirmation address gets the mail, since the subscriber round is switched off |
| Display.RepoName | app_simple.py:58 | a title without '/' gives itself stripped |
| Display.RepoNameOfPath | simple_display_test.py:45 | "owner/repo" gives the repository name back |
| Display.ParseItems | app_simple.py:50-66 | one project per page item, numbered 1..n in page order, with the stripped title and the site plus href as link; a missing href is a precondition, since the script concatenates it unguarded |
| Display.ScrapeSimple | app_simple.py:24-68 | projects come back exactly when the domain answers 200, or raises and the IP answers 200; they are parsed from the response used |
| Display.DomainAnswerDecides | app_simple.py:27-44 | once the domain answers, the IP is irrelevant and a non-200 status gives no projects |
| Display.ScrapeDisplayTest | simple_display_test.py:8-55 | the IP request is not guarded, so the scrape raises exactly when both requests raise; otherwise it is the app's scrape |
| Display.BlockLines | app_simple.py:78-84 | every project shows five lines |
| Display.Blocks | app_simple.py:78-84 | one block per project, in order |
| Display.TextDisplay | app_simple.py:70-89 | no projects give the fixed "no data" message |
| Display.TextDisplayLines | app_simple.py:70-89 | read back line by line the text is the heading, the rule, a blank line, five lines per project in order and the closing self-introduction |
| Display.DisplayLinesOneLine | simple_display_test.py:164-179 | every line of the display is free of newlines when its fields are |
| Display.BlockAt | simple_display_test.py:172-177 | the lines of the project at position i are the lines 5i to 5i+4 of the body |
| Display.HtmlPieces | simple_display_test.py:144-155 | a project's HTML block is thirteen pieces, its fields between fixed markup |
| Display.HtmlBlock | simple_display_test.py:144-155 | definition: the thirteen pieces of a project's block, concatenated; stated by HtmlBlockShows and HtmlBlocksOne |
| Display.HtmlDisplay | simple_display_test.py:57-162 | no projects give the fixed page; otherwise the page starts with the head and the time stamp and ends with the closing markup |
| Display.HtmlBlocksAppend | simple_display_test.py:144 | the blocks of a list are the blocks of its parts, in order |
| Display.HtmlBlocksOne | simple_display_test.py:144-155 | a single project gives exactly its own block |
| Display.HtmlBlockShows | simple_display_test.py:146-152 | a block shows the "#index", the repository name, the link and the description or "无描述" |
| Display.SimpleJob | app_simple.py:112-156 | at most three attempts; a result exactly when one of them gives a non-empty list whose text is written, built from the first such; a 60-second pause only between attempts |
| Display.JobTries | app_simple.py:120-153 | the retry loop stops at the first non-empty list and sleeps a minute before each further attempt |
| Display.JobOutcomes | app_simple.py:123-153 | an attempt succeeds exactly when it gives a non-empty list and its text is written; an exception, an empty list and a failed write all fail |
| Display.UnsavedRetried | app_simple.py:127-153 | a non-empty scrape whose text cannot be written fails the attempt like an empty one |
| Display.SendEmails | app_simple.py:108-110 | sends go in list order and the first refused one raises, so the addresses reached are exactly those before it |
| EmergencySend.ProjectCount | emergency_send_beautiful.py:82-85 | the count is the number of lines holding both brackets, and 15 when there is none, so it is never zero |
| EmergencySend.ProjectCountOfLines | emergency_send_beautiful.py:82-83 | a text written line by line counts exactly its bracketed lines |
| EmergencySend.NoticeAfterAnchor | emergency_send_beautiful.py:110-111 | a page with one trends container gets the notice right after it and is otherwise unchanged |
| EmergencySend.InsertNotice | emergency_send_beautiful.py:110-111 | a page without a trends container gets no notice; one with a container gets the notice right after it |
| EmergencySend.Notice | emergency_send_beautiful.py:94-107 | definition: the outage notice naming today and yesterday (layout whitespace left out); stated by NoticeAfterAnchor and TemplateFilled |
| EmergencySend.EmergencyEmail | emergency_send_beautiful.py:71-120 | the template is used exactly when its file exists |
| EmergencySend.TemplateFilled | emergency_send_beautiful.py:87-111 | a template whose only placeholder is the analysis slot carries the analysis in its place, followed by the notice insertion |
| EmergencySend.AcceptedRun | emergency_send_beautiful.py:204-227 | the number of batches accepted in a row from the first: all of them are accepted and the next one, if any, is refused |
| EmergencySend.MoreFollow | emergency_send_beautiful.py:230 | the pause test `i + batch_size < len(recipients)` holds exactly when another batch follows |
| EmergencySend.SentStep | emergency_send_beautiful.py:207-227 | one more batch sent extends the sent prefix by it and the count by its size |
| EmergencySend.SendEmergency | emergency_send_beautiful.py:179-260 | no password or no recipient fails before any send; otherwise the batches of 20 go in order up to the first refused one, which aborts the rest; the count is what was sent, all recipients on full success; a 5-second pause only when another batch follows |
| MailTemplate.Fill | emergency_fix.py:247-255 | the four placeholder replacements leave a template without braces unchanged |
| MailTemplate.BracesAtSlot | emergency_fix.py:247-255 | in a template whose only braces are the analysis slot's, a two-brace pattern can only occur at the slot |
| MailTemplate.NoDateSlot | emergency_fix.py:247 | such a template holds no date placeholder |
| MailTemplate.ContentOnlyFilled | emergency_fix.py:247-255 | filling such a template puts the analysis in place of its slot and changes nothing else |
| EmergencyFix.Probe | emergency_fix.py:18-49 | the probe fails exactly when both requests raise; any answer, whatever its status, yields at most its first 500 characters, the domain's before the IP's |
| EmergencyFix.Link | emergency_fix.py:117 | the link is non-empty exactly when href is present and non-empty |
| EmergencyFix.TrendLines | emergency_fix.py:110-118 | one line per item among the first fifteen, numbered from 1 in page order, untitled items included |
| EmergencyFix.SixteenthIgnored | emergency_fix.py:112 | items after the fifteenth never reach the text |
| EmergencyFix.TrendLineOneLine | emergency_fix.py:119 | a trend line has no line break when the item's fields have none |
| EmergencyFix.TrendLine | emergency_fix.py:119 | definition: "{i}. [{title}]: {description} ({url})"; stated by TrendLineOneLine, LineBracketed and TrendLines |
| EmergencyFix.TrendsSplit | emergency_fix.py:110-123 | the parsed text read back line by line gives one line per kept item, in order |
| EmergencyFix.BackupData | emergency_fix.py:128-146 | without the saved file the five sample lines are used |
| EmergencyFix.BackupUndated | emergency_fix.py:136-139 | a saved file that never mentions 2026-02-14 is used unchanged |
| EmergencyFix.BackupRedated | emergency_fix.py:138 | a single mention of 2026-02-14 becomes today's date and nothing else changes |
| EmergencyFix.TodayTrends | emergency_fix.py:95-126 | a failed probe gives the backup; a parsed preview gives its trend lines joined by newlines |
| EmergencyFix.PreviewOnly | emergency_fix.py:99-108 | only the first 500 characters of the page can influence the trends |
| EmergencyFix.ApiCheck | emergency_fix.py:51-93 | the check passes exactly when the key is non-empty and the test call succeeds; a missing key fails first |
| EmergencyFix.Analyze | emergency_fix.py:148-208 | a failed check gives the fixed report; a successful call gives the reply to the first 2000 characters of the trends |
| EmergencyFix.AnalysisSeesPrefix | emergency_fix.py:197 | trends that agree on their first 2000 characters get the same analysis |
| EmergencyFix.ProjectCount | emergency_fix.py:251-252 | the project count is at most the number of lines |
| EmergencyFix.ProjectCountJoin | emergency_fix.py:251-252 | over newline-joined lines the count is the number of lines holding both brackets |
| EmergencyFix.SimpleAnalysisCountsNone | emergency_fix.py:210-254 | the fixed report has no bracketed line, so a mail built from it announces zero projects: there is no default count |
| EmergencyFix.CountNone | emergency_fix.py:252 | lines without '[' count as no project |
| EmergencyFix.TrendsAllCounted | emergency_fix.py:110-123 | the trend text itself counts one project per kept item |
| EmergencyFix.LineBracketed | emergency_fix.py:119 | every trend line holds both brackets |
| EmergencyFix.CountAll | emergency_fix.py:252 | lines that all hold both brackets all count |
| EmergencyFix.PlainPage | emergency_fix.py:259-270 | the page used without a template contains the analysis |
| EmergencyFix.BeautifulEmail | emergency_fix.py:236-270 | without a template file the mail still contains the analysis |
| EmergencyFix.TemplateFilled | emergency_fix.py:242-258 | a template whose only placeholder is the analysis slot gets the analysis in its place and nothing else changes |
| EmergencyFix.FirstRecipient | emergency_fix.py:284-293 | the first cleaned subscriber, or the default address when the file is missing or holds no address |
| EmergencyFix.DefaultClean | emergency_fix.py:293 | the default address is a clean address |
| EmergencyFix.RecipientIgnoresLater | emergency_fix.py:292-293 | lines after the first address never change the test recipient |
| EmergencyFix.SendTest | emergency_fix.py:272-319 | an empty password sends nothing; otherwise one mail to the first recipient, reported by whether the send raised |
| EmergencyFix.Run | emergency_fix.py:321-379 | the first probe only decides the network flag; the trends are those of the second probe, the analysis is that of those trends, the mail is built from the analysis, and one test mail goes to the first recipient |
| EmergencyFix.FirstProbeIrrelevant | emergency_fix.py:321-379 | two runs that differ only in the first probe give the same trends, analysis, mail and test send |
| EmergencyFix.OfflineRunIsFixed | emergency_fix.py:321-379 | with no network and no key the trends are the backup and the mail carries the fixed report, announcing zero projects |
| SimpleReport.PlainJoin | emergency_fix.py:215-234 | two lines without a newline or '[' make one without |
| SimpleReport.SimpleLinesPlain | emergency_fix.py:215-234 | no line of the fixed report holds a newline or '[' |
| ImmediateSend.ParseProjectLine | immediate_send_now.py:95 | a line gives a project exactly when it is non-blank and holds '[', ']' and ':' |
| ImmediateSend.IsProjectLine | immediate_send_now.py:95 | definition: a non-blank line holding '[', ']' and ':'; stated by ParseProjectLine and ParseBuiltLine |
| ImmediateSend.ParseProjects | immediate_send_now.py:92-101 | one project per project line |
| Text.NonBlankAt | immediate_send_now.py:95 | a visible character makes a line non-blank |
| ImmediateSend.ParseBuiltLine | immediate_send_now.py:97-101 | a line written as prefix, "[name]:" and description parses back to the stripped name and description, when the prefix has no bracket and the name no ']' |
| ImmediateSend.ParsedFields | immediate_send_now.py:95-101 | a project line gives the fields read between its brackets and after them |
| ImmediateSend.BuiltLineFields | immediate_send_now.py:97-101 | the first '[' and the first ']' of such a line delimit the name, and the description starts two characters after the ']' |
| ImmediateSend.FieldsAt | immediate_send_now.py:97-101 | the fields are the stripped text between the first brackets and the stripped text from two past the ']' |
| ImmediateSend.ProjectFields | immediate_send_now.py:97-101 | definition: the stripped text between the first '[' and the first ']', and the stripped text from two past that ']'; stated by FieldsAt and ParseBuiltLine |
| ImmediateSend.TailTrimmed | immediate_send_now.py:101 | a line ending right after "]:" has the empty description |
| ImmediateSend.BuiltLineFacts | immediate_send_now.py:97-98 | where the first '[' and the first ']' of a written line sit |
| ImmediateSend.FirstProject | immediate_send_now.py:104-107 | the first project comes from the first project line |
| ImmediateSend.ExtractInfo | immediate_send_now.py:61-111 | with no project line all defaults stay; otherwise the highlight takes the first project's name, and its description unless empty, and the count is the number of project lines; the category count stays 7 |
| ImmediateSend.OneLineAnalysis | immediate_send_now.py:92-111 | a one-line analysis "[name]: description" sets the highlight to the stripped name and counts one project |
| ImmediateSend.SplitSingle | immediate_send_now.py:92 | a text without newline is a single line |
| ImmediateSend.ProjectsOfOne | immediate_send_now.py:93-101 | a single project line gives its one project |
| ImmediateSend.CountAllTrue | immediate_send_now.py:355 | an accepted batch counts all its recipients |
| ImmediateSend.SendBeautiful | immediate_send_now.py:339-378 | recipients go in contiguous batches of 40; a recipient is reached when its batch is accepted or, after a refused batch, its own send is; the total is the number reached and never exceeds the list, with no pause anywhere |
| ImmediateSend.SendSingles | immediate_send_now.py:362-376 | a refused batch is retried recipient by recipient, and only the accepted singles count |
| ImmediateSend.BatchOf | immediate_send_now.py:341-342 | the recipient at position j belongs to batch j / 40 |
| ImmediateSend.BatchAppend | immediate_send_now.py:341-376 | one more batch keeps every recipient's outcome right and leaves the earlier batches alone |
| QuickPreview.BuiltinMarked | quick_preview.py:18-34 | the built-in page holds the `{{ content }}` mark, which no substitution fills |
| QuickPreview.ReadTemplate | quick_preview.py:12-34 | the file's text, or the built-in page when reading raises |
| QuickPreview.FirstPresent | quick_preview.py:120-125 | the first listed template path that exists, and none exactly when no path exists |
| QuickPreview.ChooseTemplate | quick_preview.py:111-129 | the page is never empty: the built-in one when no path exists, otherwise the text read from the first existing path unless that is empty |
| QuickPreview.EmptyFileUsesBuiltin | quick_preview.py:127-129 | an existing but empty template file counts as no template |
| QuickPreview.SampleData | quick_preview.py:38-63 | the sample carries the date given, three categories, trends and insights, and the counts 15, 8 and 121 |
| QuickPreview.SampleCountsDisagree | quick_preview.py:47-62 | the sample's figures disagree with its own content: three categories against eight, twelve projects against fifteen |
| QuickPreview.CategoryHtml | quick_preview.py:80 | a category block is a complete element, from '<' to '>' |
| QuickPreview.CategoriesHtml | quick_preview.py:78-80 | the blocks of a non-empty list start with '<' and end with '>' |
| QuickPreview.CategoriesNoBrace | quick_preview.py:78-80 | category blocks bring no brace when the categories have none |
| QuickPreview.TrendsNoBrace | quick_preview.py:86-87 | trend badges bring no brace when the trends have none |
| QuickPreview.InsightsNoBrace | quick_preview.py:92-93 | insight blocks bring no brace when the insights have none |
| QuickPreview.LoopStepsInert | quick_preview.py:81-94 | once every `{% endfor %}` has become the category blocks none is left, so the trend and insight replacements never change the page, whatever the template |
| QuickPreview.CorrectedLoopsFill | quick_preview.py:86-94 | with the trend and insight loops replaced first, a trend loop in an otherwise brace-free template becomes the trend badges and nothing else changes |
| QuickPreview.SampleDataPlain | quick_preview.py:38-63 | the sample data brings no brace into the page |
| QuickPreview.FillScalars | quick_preview.py:71-75 | the date and highlight replacements leave a text without braces unchanged |
| QuickPreview.FillCounts | quick_preview.py:97-100 | the prediction and count replacements leave a text without braces unchanged |
| QuickPreview.LoopsAsWritten | quick_preview.py:77-94 | the loop replacements in the source's order leave a text without braces unchanged |
| QuickPreview.LoopsCorrected | quick_preview.py:77-94 | the loop replacements with trends and insights first leave a text without braces unchanged |
| QuickPreview.Render | quick_preview.py:64-102 | a template without any brace holds no placeholder and is rendered unchanged |
| QuickPreview.RenderCorrected | quick_preview.py:64-102 | with the loop order corrected, a template without any brace is still rendered unchanged |
| QuickPreview.SlotMismatch | quick_preview.py:71-100 | in a template whose only braces open one `{{ ` slot, another placeholder that differs from it does not occur |
| QuickPreview.DateFilled | quick_preview.py:71 | the `{{ date }}` slot of an otherwise brace-free template becomes the date and nothing else changes, in both renderings |
| QuickPreview.ProjectCountFilled | quick_preview.py:98 | the `{{ project_count }}` slot of an otherwise brace-free template becomes the project count in decimal and nothing else changes, in both renderings |
| QuickPreview.CountSlotNotScalar | quick_preview.py:71-75 | such a template holds none of the date and highlight placeholders |
| QuickPreview.CountSlotNotLoop | quick_preview.py:78-94 | such a template holds none of the loop patterns |
| QuickPreview.CountSlotFilled | quick_preview.py:97-100 | the count replacements turn the project-count slot into the count and change nothing else |
| QuickPreview.ScalarsAbsent | quick_preview.py:71-75 | when none of the date and highlight placeholders occurs, their replacements change nothing |
| QuickPreview.LoopsAbsent | quick_preview.py:78-94 | when none of the loop patterns occurs, both loop orders change nothing |
| RunNow.CapInput | run_now.py:70-71 | text within 4000 characters is passed on unchanged; longer text keeps exactly its first 4000 characters followed by the cut mark |
| RunNow.CapIdempotent | run_now.py:70-71 | capping an already capped text changes nothing |
| RunNow.LineFields | run_now.py:90-98 | a line passes only if it holds "]:" and '('; the title kept has no '[' and the link no '(' and no trailing ')' |
| RunNow.RebuiltLines | run_now.py:89-99 | at most one rebuilt line per line |
| RunNow.Rebuilt | run_now.py:99 | definition: "{title_part}]:{desc}({url})"; stated by ScrapedLineRebuilt and BackupOfScrape |
| RunNow.Backup | run_now.py:101-105 | the backup is at most ten rebuilt lines of the first fifteen, joined by newlines, followed by the fixed trailer |
| RunNow.RawLines | run_now.py:39-47 | one scraped line per entry |
| RunNow.RawLine | run_now.py:47 | definition: "{index}. [{title}]:{description}({url})"; stated by RawLineSingle and ScrapedLineRebuilt |
| RunNow.ScrapedLineRebuilt | run_now.py:90-99 | a scraped line of a plain entry passes the test and comes back as the same line without its '[' |
| RunNow.LineHalves | run_now.py:92-93 | such a line splits at its one "]:" into exactly two parts |
| RunNow.TailFields | run_now.py:96-98 | the part after "]:" is cut at its last '(' into the description and the link without its ')' |
| RunNow.HeadTitle | run_now.py:94 | removing the '[' of the numbered title part leaves the number and the title |
| RunNow.RebuiltEvery | run_now.py:89-99 | lines that all pass are all rebuilt, in order |
| RunNow.RebuiltStep | run_now.py:89-99 | one passing line in front adds its rebuilt line in front |
| RunNow.BackupOfScrape | run_now.py:86-105 | after a failed call on a scrape of plain entries the backup holds the first ten scraped lines, each without its '[', then the trailer |
| RunNow.ScrapedAt | run_now.py:46 | the scraped line at an index holds no newline and is recovered |
| RunNow.RawLineSingle | run_now.py:46 | the line of a plain entry holds no newline |
| RunNow.DigitsNoBrackets | run_now.py:46 | the index written in front of a line brings no bracket, parenthesis or newline |
| RunNow.Analysis | run_now.py:57-105 | the reply when the service answers; otherwise the backup, from the raw text when the client could not be made and from the capped text when the call failed |
| RunNow.ServiceInput | run_now.py:70-79 | the service never gets more than 4000 characters and the cut mark |
| RunNow.FailurePointIrrelevant | run_now.py:70-105 | for a text within the cap it makes no difference where the service failed |
| RunNow.SendEmails | run_now.py:113-147 | no password or a failed confirmation send raises before any subscriber is mailed; otherwise each subscriber send is caught and the result is the number accepted, at most the number of subscribers |
| YesterdayTest.Candidates | test_with_yesterday_data.py:21-27 | three candidate files are tried, the first named after the current date |
| YesterdayTest.Extract | test_with_yesterday_data.py:36-41 | every extracted line is stripped, non-empty, starts with a digit and holds ". [" |
| YesterdayTest.ExtractMembers | test_with_yesterday_data.py:36-41 | a line is extracted exactly when it passes the project-line test and some line of the file strips to it |
| YesterdayTest.ReadFrom | test_with_yesterday_data.py:29-54 | the source reported is one of the candidate paths or the sample marker; a path reported exists, yields project lines and supplies exactly those lines, newline-joined |
| YesterdayTest.ReadYesterday | test_with_yesterday_data.py:21-54 | the projects come from the candidate file the source names, the lines extracted from it joined by newlines, or are the sample when the source is the sample marker |
| YesterdayTest.FirstUsableFile | test_with_yesterday_data.py:29-45 | the first existing candidate with at least one project line decides the projects (joined by newlines) and the source, whatever later candidates hold; files without project lines are passed over |
| YesterdayTest.NoUsableFile | test_with_yesterday_data.py:47-54 | when no candidate exists with a project line, the fixed five-project sample is used with the sample marker as source |
| YesterdayTest.DataDate | test_with_yesterday_data.py:149 | the shown date is 2026-02-14 when the source names it and the current date otherwise |
| YesterdayTest.ReplaceAllAppend | test_with_yesterday_data.py:152-157 | applying a list of replacements in sequence splits over concatenation of the list |
| YesterdayTest.ReplaceAllAbsent | test_with_yesterday_data.py:152-157 | replacements whose patterns do not occur leave the text unchanged |
| YesterdayTest.Mismatch | test_with_yesterday_data.py:152-157 | a newline-led pattern that disagrees with what follows the text's only newline does not occur |
| YesterdayTest.ReplaceLed | test_with_yesterday_data.py:152-157 | a single newline-led pattern in otherwise newline-free text is replaced in place |
| YesterdayTest.StyledIsFinal | test_with_yesterday_data.py:152-157 | once a heading or list item is styled, none of the six patterns matches any more |
| YesterdayTest.TagsFinal | test_with_yesterday_data.py:152-157 | the heading and list-item tags start with '<' and hold no newline |
| YesterdayTest.HeadingSteps | test_with_yesterday_data.py:152-153 | the heading styling is the spaced replacement followed by the bare one |
| YesterdayTest.StyleNoNewline | test_with_yesterday_data.py:152-157 | text without a newline is not styled at all |
| YesterdayTest.HeadingSpacedLine | test_with_yesterday_data.py:152-157 | in a text whose only newline opens it, a "### " heading becomes a section heading with its space consumed |
| YesterdayTest.HeadingSpaced | test_with_yesterday_data.py:152-157 | a "### " heading on any line of any text becomes a section heading with its space consumed, and the text before and after it is styled on its own |
| YesterdayTest.HeadingBareLine | test_with_yesterday_data.py:152-157 | in a text whose only newline opens it, a "###" heading with no space after it becomes the same section heading |
| YesterdayTest.HeadingBare | test_with_yesterday_data.py:152-157 | a "###" heading with no space after it, on any line of any text, becomes the same section heading, the text around it styled on its own |
| YesterdayTest.BareNoSpaced | test_with_yesterday_data.py:152-153 | a bare heading not followed by a space holds no spaced heading |
| YesterdayTest.ReversedOrderKeepsSpace | test_with_yesterday_data.py:152-153 | had the bare form been replaced first, the space after a spaced heading would remain in the mail |
| YesterdayTest.BareFirst | test_with_yesterday_data.py:152-153 | the bare pattern matches inside a spaced heading and leaves its space |
| YesterdayTest.SpacedAfter | test_with_yesterday_data.py:152-153 | after that, the spaced pattern finds nothing to replace |
| YesterdayTest.ListItemLine | test_with_yesterday_data.py:154-157 | in a text whose only newline opens it, each of the four list markers becomes a list item and nothing else changes |
| YesterdayTest.ListItem | test_with_yesterday_data.py:154-157 | each of the four list markers opening any line of any text becomes a list item, the text around it styled on its own |
| YesterdayTest.ReplaceAllAtNewline | test_with_yesterday_data.py:152-157 | patterns whose only newline leads them never match across a newline, so the replacements work on the text before a newline and on the rest separately |
| YesterdayTest.StyleAppend | test_with_yesterday_data.py:152-157 | styling splits at every newline: the styled text is the styled part before a newline followed by the styled rest |
| YesterdayTest.Style | test_with_yesterday_data.py:152-157 | definition: the heading replacements, then the list replacements; stated by StyleAppend, StyleByLines and StyleOneLine |
| YesterdayTest.StyleByLines | test_with_yesterday_data.py:152-157 | the six replacements in their order style a text of any number of lines exactly as styling it line by line does: the first line kept, every later line a heading, a list item or itself |
| YesterdayTest.StyleOneLine | test_with_yesterday_data.py:152-157 | one line after a newline comes out as a section heading ("### " or bare "###"), a list item ("- ", "1. ", "2. ", "3. ") or unchanged |
| YesterdayTest.PlainLine | test_with_yesterday_data.py:152-157 | a line opened by none of the markers is left as it is |
| YesterdayTest.NoMatchAtLead | test_with_yesterday_data.py:152-157 | in a text whose only newline opens it, a newline-led pattern matches only at the start |
| YesterdayTest.SendTest | test_with_yesterday_data.py:475-521 | a missing or empty password or a failed connection gives false before any send; otherwise the two test addresses are sent to in order with a one-second pause after each, stopping at the first refused send, and the result is true exactly when every send was accepted |
| YesterdayTest.AcceptedRunIs | test_with_yesterday_data.py:500-508 | the number of sends made is the position of the first refusal, or all of them |
| Demo.OwnerRepo | instant_demo.py:35-38 | a name with a '/' splits at its first '/' into an owner without '/' and the rest, which rejoin to the name; a name without one is ("unknown", name) |
| Demo.ParsedProject | instant_demo.py:40-46 | a parsed project keeps the matched name and description and always carries an owner and a repository |
| Demo.ParsedStars | instant_demo.py:45 | the rating is one to five star glyphs, their number being the description's length modulo five plus one |
| Demo.ListOpening | instant_demo.py:27 | a line is recognised as a list entry only when it opens with digits followed by ". [" |
| Demo.ProjectBody | instant_demo.py:29 | a matched entry has a non-empty name holding no ']' |
| Demo.ParseDemoLine | instant_demo.py:25-32 | only a stripped line with the list opening yields a project |
| Demo.ParseDemoLines | instant_demo.py:25-46 | one project per line that parses |
| Demo.ParseDemoLinesBuilt | instant_demo.py:25-46 | a line written as `n. [name]: description` after other lines adds its stripped project after theirs |
| Demo.DigitRunOfNumber | instant_demo.py:27 | the digit run of a written number ends exactly where the number ends |
| Demo.DigitRunFrom | instant_demo.py:27 | a run of digits ending at a non-digit is scanned to that non-digit |
| Demo.ParseBuiltDemoLine | instant_demo.py:25-46 | a line written as `n. [name]: description` parses back to the stripped name and description |
| Demo.BuiltLineParts | instant_demo.py:26-29 | such a line is already stripped, opens a list entry, and its remainder is the name, "]: " and the description |
| Demo.ParsedFrom | instant_demo.py:26-32 | a stripped list entry whose remainder splits into a name and a rest parses to the stripped pair |
| Demo.ParsedTrimmed | instant_demo.py:29-32 | the space after the colon disappears when the description is stripped |
| Demo.BuiltLineTrimmed | instant_demo.py:26 | a written line whose description ends in a visible character is unchanged by stripping |
| Demo.BuiltLineOpening | instant_demo.py:27 | a written line's list opening ends just after its "[" |
| Demo.OpeningOf | instant_demo.py:27 | a number followed by ". [" opens the list entry just after the "[" |
| Demo.BuiltBody | instant_demo.py:29 | the remainder `name]: description` matches with the name and the description led by its space |
| Demo.SearchHighlight | instant_demo.py:57 | a found highlight has a non-empty name without ']' and a non-empty description |
| Demo.SearchHighlightSpec | instant_demo.py:57 | a found highlight starts at some '[' of the line; when none is found, no '[' starts a match |
| Demo.BracketDash | instant_demo.py:57 | a match right after '[' is the name, "] - " and the rest, which together make up the text |
| Demo.FirstWith | instant_demo.py:49-53 | the first line holding the marker, with no earlier line holding it, and none exactly when no line does |
| Demo.ReadDemoData | instant_demo.py:14-84 | a missing log gives the built-in data; otherwise at most fifteen parsed projects are kept, the count is of all parsed projects or fifteen when none parsed, and the highlight and the summary are read from the first line holding each marker |
| Demo.DemoHighlight | instant_demo.py:48-63 | no line with the highlight marker gives the default project; otherwise the regex match on the first such line gives the highlight, and no match gives the default |
| Demo.DemoSummary | instant_demo.py:65-72 | the whole first line holding the summary marker, or the default summary when no line holds it |
| Demo.HighlightFound | instant_demo.py:57 | a line `x[name] - description` with no '[' in x matches with that name and description |
| Demo.BracketDashBuilt | instant_demo.py:57 | after the '[', the text splits at its first ']' into the name and, past " - ", the description |
| Demo.SearchSkip | instant_demo.py:57 | the search passes over positions without '[' |
| Demo.HighlightOfLine | instant_demo.py:48-80 | a log whose first highlight line reads `x[name] - description` gets that project as its highlight |
| Demo.FirstMatch | instant_demo.py:109-118 | the category of the first rule with a keyword in the text, every earlier rule having none, or the fallback when no rule matches |
| Demo.FirstMatchStep | instant_demo.py:109-118 | a non-matching rule placed in front does not change the first match of the rest |
| Demo.Categorize | instant_demo.py:104-118 | a project's category is one of the four rule categories or "other" |
| Demo.VisionFirst | instant_demo.py:109-110 | a description that mentions vision is categorised as vision AI whatever else it mentions |
| Demo.Having | instant_demo.py:139 | no more texts hold a word than there are texts |
| Demo.CountStep | instant_demo.py:130-131 | one word's step adds one to that word's count when the text holds it, and changes no other count |
| Demo.CountWords | instant_demo.py:129-131 | counting keeps keys distinct |
| Demo.CountWordsGet | instant_demo.py:129-131 | one text adds one to the count of each distinct word it holds and leaves every other count unchanged |
| Demo.DistinctTail | instant_demo.py:125 | the tail of a distinct word list is distinct and lacks its head |
| Demo.Tally | instant_demo.py:126-131 | the counts after all texts have distinct keys |
| Demo.TallyGet | instant_demo.py:126-131 | a word has a count exactly when it is a counted word held by some text, and the count is the number of those texts |
| Demo.TechCounts | instant_demo.py:125-131 | the tech-word counts have distinct keys |
| Demo.TechWordsDistinct | instant_demo.py:125 | the six tech words are distinct |
| Demo.TechCountsGet | instant_demo.py:125-131 | a word has a tech count exactly when it is a tech word some description mentions, and the count is the number of such descriptions |
| Demo.TopIndex | instant_demo.py:134 | the chosen entry has the greatest count, and every earlier entry a strictly smaller one |
| Demo.TopNote | instant_demo.py:133-135 | there is one top-word note exactly when some count exists |
| Demo.PrivacyNote | instant_demo.py:140-141 | there is one privacy note exactly when the count is positive, and it carries that count |
| Demo.OpenNote | instant_demo.py:146-147 | there is one open-source note exactly when the count exceeds three, and it carries that count |
| Demo.Insights | instant_demo.py:120-149 | at most three insights are produced |
| Demo.FirstChars | instant_demo.py:135-147 | the three notes start with different characters, which tells them apart |
| Demo.NoteIn | instant_demo.py:120-149 | a note kind occurs in the joined notes exactly when its own part is non-empty |
| Demo.NoteFirst | instant_demo.py:120-149 | a note kind in the first part occurs exactly when that part is non-empty, and then it leads the list |
| Demo.NoteLast | instant_demo.py:120-149 | a note kind in the last part occurs exactly when that part is non-empty |
| Demo.TopNoteCondition | instant_demo.py:124-135 | the top-word note appears exactly when some description mentions a tech word, and then it is the first insight |
| Demo.PrivacyNoteCondition | instant_demo.py:137-141 | the privacy note appears exactly when some description has a privacy keyword, and it carries the number of such descriptions |
| Demo.OpenNoteCondition | instant_demo.py:143-147 | the open-source note appears exactly when more than three descriptions have an open-source keyword, and it carries that number |
| Demo.TechKeys | instant_demo.py:126-133 | the counts are non-empty exactly when some tech word is mentioned |
| Demo.TopWordWins | instant_demo.py:133-135 | the top word is a tech word, reported with its true count, and no tech word is mentioned more often |
| Demo.WordBounded | instant_demo.py:134 | every count in the dict is at most the greatest one |
| Demo.GetAt | instant_demo.py:131 | with distinct keys, looking up the key at a position finds the value at that position |
| Demo.Prediction | instant_demo.py:151-156 | the growth prediction is given exactly when there are more than ten projects, and the infrastructure one otherwise |
| Retry.Run | core/scraper.py:46-103 | at most the allowed number of attempts; every attempt before the last made one failed; the loop ends exhausted exactly when all allowed attempts fail, and otherwise on the success or stop it reports; one sleep follows each failed attempt that another attempt follows, with that attempt's delay |
| Batching.BatchCount | emergency_send_beautiful.py:209 | the batch count is the ceiling of the item count divided by the batch size, zero for no items |
| Batching.Chunks | emergency_send_beautiful.py:207-208 | the batches concatenate back to the list in order, their number is the batch count, each is non-empty and at most the batch size, and all but the last are full |

## Left out

- Network access is not modelled: HTTP requests, the arXiv client, DNS and IP probing, and the HTML selectors (pyquery, BeautifulSoup). Their responses and the items they find are parameters.
- The language-model service (ZhipuAI chat calls) is not modelled. Its answer is a parameter, absent when the call raises or returns nothing. Prompts are not modelled. `analyze_trends` in core/ai_analyzer.py is that single call.
- SMTP sessions are not modelled: yagmail and smtplib connections, login and close. Each send is an acceptance flag.
- `test_connection` in core/scraper.py and core/email_sender.py is left out because it only probes the network.
- Files are not read or written. Their contents, their existence and whether a write succeeds are parameters. This covers JSON dumps, `save_analysis` in core/ai_analyzer.py, `os.makedirs` and the `git` subprocess.
- Time is a parameter. `datetime.now` and date strings are passed in, and arXiv publication dates are given as ages in days (None when unparsable). The `time.sleep` calls of the retry loops and of the mail batches are returned as traces of seconds. The pauses between scraping requests are not traced; see the three Deals lines below.
- Scheduling (`schedule`, the endless loops of `run_scheduled` and `daily_task`) is left out.
- Entry points are left out: the `main` functions and `__main__` blocks, `input()` confirmations and `sys.exit` checks. The main of immediate_github_crawl.py only chains the modelled steps.
- Printing and logging to the console are left out.
- HTML and CSS page bodies are abbreviated to the pieces the logic inserts or tests. Jinja2 rendering (`render_html_template`), the HTML page of instant_demo.py and its category grouping (instant_demo.py:162-175) are left out. So is the built-in page of emergency_send_beautiful.py beyond its placeholders.
- `create_app_patch` in emergency_send_beautiful.py is left out because it rewrites source files on disk.
- run_now.py:66-67 decodes bytes as UTF-8, ignoring errors. The model receives text.
- `lower()` is modelled for ASCII letters only, because Unicode case folding is out of scope. Chinese keywords are unaffected.
- Text.IsDigit: accepts only the ASCII digits '0' to '9'. Python's `\d` in a regular expression (core/scraper.py:174, 188; instant_demo.py:27) and `str.isdigit` (test_with_yesterday_data.py:40) also accept the other Unicode decimal digits, such as full-width or Arabic-Indic ones. Text holding only such digits is treated as holding no digit.
- Text.SplitLines: splits only at '\n'. Python's `str.splitlines` (immediate_github_crawl.py:29) also breaks lines at '\r', '\v', '\f', '\x1c' to '\x1e', '\x85', '\u2028' and '\u2029'. An address file using those breaks would yield fewer, longer lines in the model.
- Hard-coded credentials and addresses are kept only where the logic compares against them, such as the fixed sender and the test addresses.
- EmergencySend.EmergencyEmail: its own contract states only that a mail exists exactly when a template does. The filled content is stated by EmergencySend.TemplateFilled, for templates whose other text has no '{'.
- YesterdayTest.Candidates: states the number of candidates and the first one. The two fixed dated names are in its body.
- UrgentSend.ExtractInfo: states the live subscriber count and the fixed counts. The other constant fields are stated only by UrgentSend.InfoIgnoresContent and UrgentSend.InfoConsistent.
- Deals.ScrapeHackerNews: does not trace the one-second pause after each query (ai_deals_all_app.py:208). The fetch outcome merges a request that raised, which skips the pause, with a non-200 answer, which still pauses, so the pause count is not determined by the parameters.
- Deals.ScrapeGithubAwesome: does not trace the two-second pause after each repository (ai_deals_all_app.py:272), for the same reason.
- Deals.ScrapeV2ex: does not trace the two-second pause after each node (ai_deals_all_app.py:326), for the same reason.
- Demo.Insights: states the bound of three. Which insights appear is stated by Demo.TopNoteCondition, Demo.PrivacyNoteCondition and Demo.OpenNoteCondition.

## Findings

| source | as written | input that shows it | evidently intended | confidence | as-written member | corrected member |
|---|---|---|---|---|---|---|
| arxiv_app.py:221-223 | when no whole sentence fits, `translated` is already `''`, so the fallback `translated[:max_length] + "..."` gives just "..." | a translation longer than the limit with no '。', e.g. 200 characters for a 150-character limit | the translation's first `max_length` characters followed by "..." | high, not executed | Arxiv.SummarizeAsWritten (with Arxiv.OneLongSentenceLost), used by Arxiv.TranslateAndSummarize (with Arxiv.LongAnswerLost) | Arxiv.Summarize (with Arxiv.OneLongSentenceKept), used by Arxiv.TranslateAndSummarizeCorrected (with Arxiv.LongAnswerKept) |
| sync_arxiv_data.py:96-119 | rows of the first table are copied unchanged, so the new row goes after the last row, below older dates | an index whose only row is 2024-01-01, updated for 2024-01-02 | the "date-descending" order of the inline comment: the new row before the first older row | high, not executed | Archive.UpdateLines (with Archive.NewestLastExample), used by Archive.UpdateIndex | Archive.UpdateLinesNewestFirst (with Archive.NewestFirstKeepsOrder), used by Archive.UpdateIndexNewestFirst |
| immediate_github_crawl.py:177 | the project count splits on `'\\n'`, a backslash followed by 'n', inside an f-string, so text without a backslash always counts as one project | two project lines joined by a newline | the number of lines | high, not executed | Crawl.AnalyzeAsWritten (with Crawl.CountDiscrepancy) | Crawl.Analyze (with Crawl.ReportCountsLines) |
| quick_preview.py:81-94 | every `{% endfor %}` is replaced by the category blocks before the trend and insight loops are looked for, and both loop patterns end in `{% endfor %}` | any template with a trend loop and at least one category | the trend and insight loops replaced by their badges and items | high, not executed | QuickPreview.LoopsAsWritten (with QuickPreview.LoopStepsInert) | QuickPreview.LoopsCorrected (with QuickPreview.CorrectedLoopsFill) |

=== FILE: analyzer.dfy ===
/** The analyzer of the core package (core/ai_analyzer.py): the AI service's
    text answer is read section by section into a structured analysis, with
    defaults for everything missing, and an analysis is written back out as
    text. The AI call itself is an oracle: its answer (None when the service
    returned no content) is a parameter. */
module Analyzer {
  import opened Wrappers
  import opened Seqs
  import opened Text

  datatype ProjectAnalysis = ProjectAnalysis(
    title: string, description: string, url: string, category: string,
    technologyHighlight: string, potentialApplications: string,
    isHighlight: bool, starsToday: Option<nat>)

  datatype TrendAnalysis = TrendAnalysis(
    date: string, totalProjects: nat, highlight: ProjectAnalysis,
    categories: seq<(string, seq<string>)>, trends: seq<string>, insights: seq<string>,
    prediction: string, analysisTime: string)

  /** The constructor: the explicit key, else the environment's, and a
      ValueError when both are missing or empty. */
  function AnalyzerKey(apiKey: string, envKey: Option<string>): (r: Result<string>)
    ensures r.Ok? <==> apiKey != "" || (envKey.Some? && envKey.value != "")
    ensures r.Ok? ==> r.value != ""
    ensures apiKey != "" ==> r == Ok(apiKey)
  {
    var key := if apiKey != "" then apiKey else if envKey.Some? then envKey.value else "";
    if key == "" then Err("ZHIPUAI_API_KEY 未设置") else Ok(key)
  }

  // ----------------------------------------------------------- the sections

  const HashSpace: set<char> := {'#', ' '}
  const DashSpace: set<char> := {'-', ' '}
  const NumberDotSpace: set<char> := {'1', '2', '3', '.', ' '}

  const HighlightSection := "最惊艳项目"
  const TrendSection := "今日技术趋势"
  const InsightSection := "深度洞察"
  const PredictionSection := "预测建议"

  /** A line starting with "##" (so also "###") opens a section. */
  predicate IsHeading(line: string)
  {
    StartsWith(line, "##")
  }

  predicate IsInsightLine(line: string)
  {
    StartsWith(line, "1.") || StartsWith(line, "2.") || StartsWith(line, "3.")
  }

  /** What the loop of parse_structured_analysis has gathered so far. */
  datatype Scan = Scan(section: string, highlight: Option<string>, trends: seq<string>,
                       insights: seq<string>, prediction: string)

  const Start := Scan("", None, [], [], "")

  /** One pass of the loop body: the branches in their source order. */
  function Step(st: Scan, line: string): Scan
  {
    if IsHeading(line) then st.(section := Strip(line, HashSpace))
    else if st.section == HighlightSection && !IsBlank(line) && st.highlight.None? then
      st.(highlight := Some(Trim(line)))
    else if st.section == TrendSection && !IsBlank(line) then
      st.(trends := st.trends + [Strip(line, DashSpace)])
    else if st.section == InsightSection && !IsBlank(line) && IsInsightLine(line) then
      st.(insights := st.insights + [Strip(line, NumberDotSpace)])
    else if st.section == PredictionSection && !IsBlank(line) then
      st.(prediction := Trim(line))
    else st
  }

  /** The loop over all lines: what has been gathered is only ever added
      to, and the first highlight line found stays. */
  function Run(st: Scan, lines: seq<string>): (r: Scan)
    ensures st.trends <= r.trends && st.insights <= r.insights
    ensures st.highlight.Some? ==> r.highlight == st.highlight
    ensures |lines| == 0 ==> r == st
    decreases |lines|
  {
    if |lines| == 0 then st else Run(Step(st, lines[0]), lines[1..])
  }

  // ----------------------------------------------- the reference description

  function NextSection(section: string, line: string): string
  {
    if IsHeading(line) then Strip(line, HashSpace) else section
  }

  /** Every line paired with the section in force where it stands. */
  function Labelled(section: string, lines: seq<string>): (r: seq<(string, string)>)
    ensures |r| == |lines|
    ensures forall i | 0 <= i < |r| :: r[i].1 == lines[i]
    ensures |r| > 0 ==> r[0].0 == section
    ensures forall i | 0 < i < |r| :: r[i].0 == NextSection(r[i - 1].0, lines[i - 1])
    decreases |lines|
  {
    if |lines| == 0 then []
    else [(section, lines[0])] + Labelled(NextSection(section, lines[0]), lines[1..])
  }

  /** A non-blank line that is not a heading. */
  predicate IsContent(p: (string, string))
  {
    !IsHeading(p.1) && !IsBlank(p.1)
  }

  predicate IsHighlightEntry(p: (string, string)) { IsContent(p) && p.0 == HighlightSection }
  predicate IsTrendEntry(p: (string, string)) { IsContent(p) && p.0 == TrendSection }
  predicate IsInsightEntry(p: (string, string)) { IsContent(p) && p.0 == InsightSection && IsInsightLine(p.1) }
  predicate IsPredictionEntry(p: (string, string)) { IsContent(p) && p.0 == PredictionSection }

  function TrendText(p: (string, string)): string { Strip(p.1, DashSpace) }
  function InsightText(p: (string, string)): string { Strip(p.1, NumberDotSpace) }

  lemma LabelledCons(section: string, lines: seq<string>)
    requires |lines| > 0
    ensures Labelled(section, lines)[0] == (section, lines[0])
    ensures Labelled(section, lines)[1..] == Labelled(NextSection(section, lines[0]), lines[1..])
  {
  }

  lemma StepSection(st: Scan, line: string)
    ensures Step(st, line).section == NextSection(st.section, line)
  {
  }

  /** Trends are the lines of the trend section, in order, with '-' and
      ' ' stripped from both ends. */
  lemma {:induction false} RunTrends(st: Scan, lines: seq<string>)
    ensures Run(st, lines).trends == st.trends + Map(Filter(Labelled(st.section, lines), IsTrendEntry), TrendText)
    decreases |lines|
  {
    if |lines| > 0 {
      var next := Step(st, lines[0]);
      StepSection(st, lines[0]);
      RunTrends(next, lines[1..]);
      var l := Labelled(st.section, lines);
      LabelledCons(st.section, lines);
      MapFilterCons(l, IsTrendEntry, TrendText);
      TrendEntryStep(st, lines[0]);
    }
  }

  lemma TrendEntryStep(st: Scan, line: string)
    ensures var p := (st.section, line);
      Step(st, line).trends == st.trends + Map(if IsTrendEntry(p) then [p] else [], TrendText)
  {
  }

  lemma InsightEntryStep(st: Scan, line: string)
    ensures var p := (st.section, line);
      Step(st, line).insights == st.insights + Map(if IsInsightEntry(p) then [p] else [], InsightText)
  {
  }

  lemma PredictionEntryStep(st: Scan, line: string)
    ensures Step(st, line).prediction
            == if IsPredictionEntry((st.section, line)) then Trim(line) else st.prediction
  {
  }

  /** Insights are the "1."/"2."/"3." lines of the insight section, in order,
      with digits 1-3, '.' and ' ' stripped from both ends. */
  lemma {:induction false} RunInsights(st: Scan, lines: seq<string>)
    ensures Run(st, lines).insights == st.insights + Map(Filter(Labelled(st.section, lines), IsInsightEntry), InsightText)
    decreases |lines|
  {
    if |lines| > 0 {
      var next := Step(st, lines[0]);
      StepSection(st, lines[0]);
      RunInsights(next, lines[1..]);
      var l := Labelled(st.section, lines);
      LabelledCons(st.section, lines);
      MapFilterCons(l, IsInsightEntry, InsightText);
      InsightEntryStep(st, lines[0]);
    }
  }

  /** The highlight is the first line of the highlight section, unless one
      was already found. */
  lemma {:induction false} RunHighlight(st: Scan, lines: seq<string>)
    ensures var hs := Filter(Labelled(st.section, lines), IsHighlightEntry);
      Run(st, lines).highlight
        == if st.highlight.Some? then st.highlight
           else if |hs| == 0 then None else Some(Trim(hs[0].1))
    decreases |lines|
  {
    if |lines| > 0 {
      var next := Step(st, lines[0]);
      StepSection(st, lines[0]);
      RunHighlight(next, lines[1..]);
      var l := Labelled(st.section, lines);
      LabelledCons(st.section, lines);
      var head := if IsHighlightEntry(l[0]) then [l[0]] else [];
      assert Filter(l, IsHighlightEntry) == head + Filter(l[1..], IsHighlightEntry);
    }
  }

  /** The prediction is the last line of the prediction section: each one
      overwrites the one before. */
  lemma {:induction false} RunPrediction(st: Scan, lines: seq<string>)
    ensures var ps := Filter(Labelled(st.section, lines), IsPredictionEntry);
      Run(st, lines).prediction == LastPrediction(ps, st.prediction)
    decreases |lines|
  {
    if |lines| > 0 {
      var next := Step(st, lines[0]);
      StepSection(st, lines[0]);
      RunPrediction(next, lines[1..]);
      var l := Labelled(st.section, lines);
      LabelledCons(st.section, lines);
      FilterCons(l, IsPredictionEntry);
      LastPredictionCons(l[0], Filter(l[1..], IsPredictionEntry), st.prediction);
      PredictionEntryStep(st, lines[0]);
    } else {
      assert Labelled(st.section, lines) == [];
    }
  }

  /** The text of the last entry, or `default` when there is none. */
  function LastPrediction(ps: seq<(string, string)>, default: string): string
  {
    if |ps| == 0 then default else Trim(ps[|ps| - 1].1)
  }

  /** Reading one more entry in front only changes the fallback. */
  lemma LastPredictionCons(p: (string, string), rest: seq<(string, string)>, default: string)
    ensures LastPrediction((if IsPredictionEntry(p) then [p] else []) + rest, default)
            == LastPrediction(rest, if IsPredictionEntry(p) then Trim(p.1) else default)
  {
    var head := if IsPredictionEntry(p) then [p] else [];
    LastAfterHead(head, rest);
  }

  // ----------------------------------------------------------- the analysis

  const DefaultTrend := "AI技术创新持续活跃"
  const DefaultInsight := "今日趋势显示AI项目多样性增加"
  const DefaultPrediction := "AI与各行业融合将继续深化"

  const FallbackHighlight := ProjectAnalysis("AI趋势项目", "今日GitHub趋势中最引人注目的项目", "", "综合",
                                             "AI驱动的创新", "多种应用场景", true, None)

  function FoundHighlight(line: string): ProjectAnalysis
  {
    ProjectAnalysis("待解析", line, "", "惊艳项目", "", "", true, None)
  }

  /** `l.strip().startswith('[')` */
  predicate IsBracketLine(line: string)
  {
    StartsWith(Trim(line), "[")
  }

  /** create_default_analysis: the record used when parsing fails. */
  function DefaultAnalysis(date: string, time: string): (r: TrendAnalysis)
    ensures r.totalProjects == 15 && |r.trends| == 1 && |r.insights| == 3
    ensures r.highlight.isHighlight && r.categories == [("综合", ["AI项目"])]
  {
    TrendAnalysis(date, 15,
      ProjectAnalysis("GitHub趋势分析", "今日AI项目趋势分析报告", "", "综合", "多领域AI应用", "技术开发、商业应用", true, None),
      [("综合", ["AI项目"])], ["AI技术持续创新"], ["AI项目多样性增加", "开源社区活跃", "实用工具类项目增多"],
      "AI与实体经济融合将加速", time)
  }

  /** parse_structured_analysis. An answer without content (None) makes the
      `split` raise, which the handler turns into the default analysis;
      nothing else in the loop can raise. */
  function ParseStructured(raw: Option<string>, date: string, time: string): (r: TrendAnalysis)
    ensures raw.None? ==> r == DefaultAnalysis(date, time)
    ensures raw.Some? ==> && 1 <= |r.trends| <= 3 && 1 <= |r.insights| <= 3
                          && r.prediction != "" && r.categories == [] && r.highlight.isHighlight
                          && r.totalProjects <= |Split(raw.value, "\n")|
    ensures raw.Some? ==> r.totalProjects == Count(Split(raw.value, "\n"), IsBracketLine)
    ensures r.date == date && r.analysisTime == time
  {
    if raw.None? then DefaultAnalysis(date, time)
    else
      var lines := Split(raw.value, "\n");
      var st := Run(Start, lines);
      TrendAnalysis(date, Count(lines, IsBracketLine),
        if st.highlight.Some? then FoundHighlight(st.highlight.value) else FallbackHighlight,
        [],
        if |st.trends| > 0 then Take(st.trends, 3) else [DefaultTrend],
        if |st.insights| > 0 then Take(st.insights, 3) else [DefaultInsight],
        if st.prediction != "" then st.prediction else DefaultPrediction,
        time)
  }

  /** An answer written line by line counts its lines whose stripped form
      opens with '['. */
  lemma ParsedProjectCount(lines: seq<string>, date: string, time: string)
    requires |lines| >= 1
    requires forall i | 0 <= i < |lines| :: '\n' !in lines[i]
    ensures ParseStructured(Some(Join(lines, "\n")), date, time).totalProjects == Count(lines, IsBracketLine)
  {
    SplitJoin(lines, '\n');
  }

  /** Each gathered field comes from the scan of the whole answer. */
  lemma ParsedTrendsScan(raw: string, date: string, time: string)
    ensures var st := Run(Start, Split(raw, "\n"));
      ParseStructured(Some(raw), date, time).trends
        == (if |st.trends| > 0 then Take(st.trends, 3) else [DefaultTrend])
  {
  }

  lemma ParsedInsightsScan(raw: string, date: string, time: string)
    ensures var st := Run(Start, Split(raw, "\n"));
      ParseStructured(Some(raw), date, time).insights
        == (if |st.insights| > 0 then Take(st.insights, 3) else [DefaultInsight])
  {
  }

  lemma ParsedHighlightScan(raw: string, date: string, time: string)
    ensures var st := Run(Start, Split(raw, "\n"));
      ParseStructured(Some(raw), date, time).highlight
        == (if st.highlight.Some? then FoundHighlight(st.highlight.value) else FallbackHighlight)
  {
  }

  lemma ParsedPredictionScan(raw: string, date: string, time: string)
    ensures var st := Run(Start, Split(raw, "\n"));
      ParseStructured(Some(raw), date, time).prediction
        == (if st.prediction != "" then st.prediction else DefaultPrediction)
  {
  }

  /** The parsed trends against the reference description: the first
      three entries of the trend section, or the default when it has none. */
  lemma ParseTrends(raw: string, date: string, time: string)
    ensures var ts := Map(Filter(Labelled("", Split(raw, "\n")), IsTrendEntry), TrendText);
      ParseStructured(Some(raw), date, time).trends == (if |ts| == 0 then [DefaultTrend] else Take(ts, 3))
  {
    var lines := Split(raw, "\n");
    ParsedTrendsScan(raw, date, time);
    RunTrends(Start, lines);
    var ts := Map(Filter(Labelled("", lines), IsTrendEntry), TrendText);
    assert Start.trends + ts == ts;
  }

  /** The parsed insights: the first three numbered entries of the insight
      section, or the default. */
  lemma ParseInsights(raw: string, date: string, time: string)
    ensures var xs := Map(Filter(Labelled("", Split(raw, "\n")), IsInsightEntry), InsightText);
      ParseStructured(Some(raw), date, time).insights == (if |xs| == 0 then [DefaultInsight] else Take(xs, 3))
  {
    var lines := Split(raw, "\n");
    ParsedInsightsScan(raw, date, time);
    RunInsights(Start, lines);
    var xs := Map(Filter(Labelled("", lines), IsInsightEntry), InsightText);
    assert Start.insights + xs == xs;
  }

  /** The parsed highlight: the first line of the highlight section, or the
      fallback project. */
  lemma ParseHighlight(raw: string, date: string, time: string)
    ensures var hs := Filter(Labelled("", Split(raw, "\n")), IsHighlightEntry);
      ParseStructured(Some(raw), date, time).highlight
        == (if |hs| == 0 then FallbackHighlight else FoundHighlight(Trim(hs[0].1)))
  {
    ParsedHighlightScan(raw, date, time);
    RunHighlight(Start, Split(raw, "\n"));
  }

  /** The parsed prediction: the last line of the prediction section, or the
      default. */
  lemma ParsePrediction(raw: string, date: string, time: string)
    ensures var ps := Filter(Labelled("", Split(raw, "\n")), IsPredictionEntry);
      ParseStructured(Some(raw), date, time).prediction == LastPrediction(ps, DefaultPrediction)
  {
    var lines := Split(raw, "\n");
    ParsedPredictionScan(raw, date, time);
    RunPrediction(Start, lines);
    PredictionChoice(Run(Start, lines).prediction, Filter(Labelled("", lines), IsPredictionEntry));
  }

  /** A prediction found in the section is never empty, so the default is
      used exactly when the section has no entry. */
  lemma PredictionChoice(found: string, ps: seq<(string, string)>)
    requires forall i | 0 <= i < |ps| :: IsPredictionEntry(ps[i])
    requires found == LastPrediction(ps, "")
    ensures (if found != "" then found else DefaultPrediction) == LastPrediction(ps, DefaultPrediction)
  {
    if |ps| > 0 {
      assert IsPredictionEntry(ps[|ps| - 1]);
    }
  }

  // ------------------------------------------------------------- formatting

  const Signature := "我是谢苹果，AI信息流2.0，由nanobot智能优化，复活了。"

  function TrendLine(t: string): string { "- " + t }

  /** `f"{i}. {insight}"` numbered from `from`. */
  function InsightLines(xs: seq<string>, from: nat): (r: seq<string>)
    ensures |r| == |xs|
    decreases |xs|
  {
    if |xs| == 0 then [] else [NatToString(from) + ". " + xs[0]] + InsightLines(xs[1..], from + 1)
  }

  /** The line of the i-th insight carries the number `from + i`. */
  lemma {:induction false} InsightLinesAt(xs: seq<string>, from: nat)
    ensures forall i | 0 <= i < |xs| :: InsightLines(xs, from)[i] == NatToString(from + i) + ". " + xs[i]
    decreases |xs|
  {
    if |xs| > 0 {
      InsightLinesAt(xs[1..], from + 1);
      var r := InsightLines(xs, from);
      assert r[1..] == InsightLines(xs[1..], from + 1);
      forall i | 0 < i < |xs|
        ensures r[i] == NatToString(from + i) + ". " + xs[i]
      {
        assert r[i] == r[1..][i - 1];
      }
    }
  }

  function Header(a: TrendAnalysis): seq<string>
  {
    ["## " + a.date + " GitHub趋势分析报告", "", "### 分析时间: " + a.analysisTime,
     "### 分析项目数: " + NatToString(a.totalProjects), ""]
  }

  function HighlightBlock(a: TrendAnalysis): seq<string>
  {
    ["### " + HighlightSection, a.highlight.title + " - " + a.highlight.description, "", "### " + TrendSection]
  }

  function Tail(a: TrendAnalysis): seq<string>
  {
    ["", "### " + PredictionSection, a.prediction, "", "---", Signature]
  }

  function FormatLines(a: TrendAnalysis): seq<string>
  {
    Header(a) + HighlightBlock(a) + Map(a.trends, TrendLine) + ["", "### " + InsightSection]
    + InsightLines(a.insights, 1) + Tail(a)
  }

  /** format_analysis_text: the lines joined with newlines. */
  function FormatAnalysisText(a: TrendAnalysis): (text: string)
    ensures |text| >= |Signature|
    ensures EndsWith(text, Signature)
  {
    var lines := FormatLines(a);
    JoinEndsWithLast(lines, "\n");
    Join(lines, "\n")
  }

  lemma {:induction false} JoinEndsWithLast(parts: seq<string>, sep: string)
    requires |parts| > 0
    ensures EndsWith(Join(parts, sep), parts[|parts| - 1])
    decreases |parts|
  {
    if |parts| > 1 {
      JoinEndsWithLast(parts[1..], sep);
      assert Join(parts, sep) == parts[0] + sep + Join(parts[1..], sep);
    }
  }

  // ------------------------------------------------ reading the text back

  lemma {:induction false} RunAppend(st: Scan, a: seq<string>, b: seq<string>)
    ensures Run(st, a + b) == Run(Run(st, a), b)
    decreases |a|
  {
    if |a| > 0 {
      assert (a + b)[0] == a[0];
      assert (a + b)[1..] == a[1..] + b;
      RunAppend(Step(st, a[0]), a[1..], b);
    } else {
      assert a + b == b;
    }
  }

  /** Everything but the current section. */
  predicate SameData(s1: Scan, s2: Scan)
  {
    s1.highlight == s2.highlight && s1.trends == s2.trends
    && s1.insights == s2.insights && s1.prediction == s2.prediction
  }

  /** Headings and blank lines gather nothing. */
  lemma {:induction false} InertRun(st: Scan, lines: seq<string>)
    requires forall i | 0 <= i < |lines| :: IsHeading(lines[i]) || IsBlank(lines[i])
    ensures SameData(Run(st, lines), st)
    decreases |lines|
  {
    if |lines| > 0 {
      InertRun(Step(st, lines[0]), lines[1..]);
    }
  }

  predicate NoHashEnds(name: string)
  {
    |name| > 0 && name[0] !in HashSpace && name[|name| - 1] !in HashSpace
  }

  /** "### name" opens the section `name`. */
  lemma HeadingStep(st: Scan, name: string)
    requires NoHashEnds(name)
    ensures Step(st, "### " + name) == st.(section := name)
  {
    var line := "### " + name;
    assert line[..2] == "##";
    StripLeading("### ", name, HashSpace);
    StripUnchanged(name, HashSpace);
  }

  lemma BlankStep(st: Scan)
    ensures Step(st, "") == st
  {
    StripEmpty(Whitespace);
  }

  /** A text whose ends are not in `cs`. */
  predicate CleanFor(t: string, cs: set<char>)
  {
    |t| > 0 ==> t[0] !in cs && t[|t| - 1] !in cs
  }

  /** The trend lines, read in the trend section, give back the trends. */
  lemma {:induction false} TrendsRun(st: Scan, ts: seq<string>)
    requires st.section == TrendSection
    requires forall i | 0 <= i < |ts| :: CleanFor(ts[i], DashSpace)
    ensures Run(st, Map(ts, TrendLine)) == st.(trends := st.trends + ts)
    decreases |ts|
  {
    var lines := Map(ts, TrendLine);
    if |ts| == 0 {
      assert st.trends + ts == st.trends;
    } else {
      var next := st.(trends := st.trends + [ts[0]]);
      TrendRunFirst(st, ts);
      TrendsRun(next, ts[1..]);
      AppendHead(st.trends, ts);
    }
  }

  lemma TrendRunFirst(st: Scan, ts: seq<string>)
    requires st.section == TrendSection && |ts| > 0 && CleanFor(ts[0], DashSpace)
    ensures Run(st, Map(ts, TrendLine))
            == Run(st.(trends := st.trends + [ts[0]]), Map(ts[1..], TrendLine))
  {
    MapTail(ts, TrendLine);
    TrendStep(st, ts[0]);
  }

  /** "- t", read in the trend section, adds t. */
  lemma TrendStep(st: Scan, t: string)
    requires st.section == TrendSection && CleanFor(t, DashSpace)
    ensures Step(st, TrendLine(t)) == st.(trends := st.trends + [t])
  {
    var line := TrendLine(t);
    StripNonEmpty(line, Whitespace, 0);
    StripLeading("- ", t, DashSpace);
    StripUnchanged(t, DashSpace);
  }

  /** "n. x" with n in 1..3, read in the insight section, adds x. */
  lemma InsightStep(st: Scan, n: nat, x: string)
    requires st.section == InsightSection && 1 <= n <= 3
    requires CleanFor(x, NumberDotSpace)
    ensures Step(st, NatToString(n) + ". " + x) == st.(insights := st.insights + [x])
  {
    var number := NatToString(n);
    assert number == [DigitChar(n)];
    var line := number + ". " + x;
    assert line[..2] == number + ".";
    assert IsInsightLine(line);
    assert line[0] !in Whitespace;
    StripNonEmpty(line, Whitespace, 0);
    assert number + ". " == [line[0], '.', ' '];
    StripLeading(number + ". ", x, NumberDotSpace);
    StripUnchanged(x, NumberDotSpace);
  }

  /** The numbered lines 1..3, read in the insight section, give back the
      insights. */
  lemma {:induction false} InsightsRun(st: Scan, xs: seq<string>, from: nat)
    requires st.section == InsightSection
    requires 1 <= from && from + |xs| <= 4
    requires forall i | 0 <= i < |xs| :: CleanFor(xs[i], NumberDotSpace)
    ensures Run(st, InsightLines(xs, from)) == st.(insights := st.insights + xs)
    decreases |xs|
  {
    if |xs| == 0 {
      assert st.insights + xs == st.insights;
    } else {
      InsightsRun(st.(insights := st.insights + [xs[0]]), xs[1..], from + 1);
      InsightsRunStep(st, xs, from);
    }
  }

  /** The inductive step of `InsightsRun`. */
  lemma InsightsRunStep(st: Scan, xs: seq<string>, from: nat)
    requires st.section == InsightSection
    requires 1 <= from <= 3 && |xs| > 0 && CleanFor(xs[0], NumberDotSpace)
    requires var next := st.(insights := st.insights + [xs[0]]);
      Run(next, InsightLines(xs[1..], from + 1)) == next.(insights := next.insights + xs[1..])
    ensures Run(st, InsightLines(xs, from)) == st.(insights := st.insights + xs)
  {
    InsightRunFirst(st, xs, from);
    InsightsAppendHead(st, xs);
  }

  lemma InsightsAppendHead(st: Scan, xs: seq<string>)
    requires |xs| > 0
    ensures var next := st.(insights := st.insights + [xs[0]]);
      next.(insights := next.insights + xs[1..]) == st.(insights := st.insights + xs)
  {
    assert st.insights + [xs[0]] + xs[1..] == st.insights + xs;
  }

  lemma InsightRunFirst(st: Scan, xs: seq<string>, from: nat)
    requires st.section == InsightSection
    requires 1 <= from <= 3 && |xs| > 0 && CleanFor(xs[0], NumberDotSpace)
    ensures Run(st, InsightLines(xs, from))
            == Run(st.(insights := st.insights + [xs[0]]), InsightLines(xs[1..], from + 1))
  {
    var lines := InsightLines(xs, from);
    assert lines == [NatToString(from) + ". " + xs[0]] + InsightLines(xs[1..], from + 1);
    InsightStep(st, from, xs[0]);
    assert lines[1..] == InsightLines(xs[1..], from + 1);
  }

  lemma RunAt(st: Scan, lines: seq<string>, i: nat)
    requires i < |lines|
    ensures Run(st, lines[i..]) == Run(Step(st, lines[i]), lines[i + 1..])
  {
    assert lines[i..][1..] == lines[i + 1..];
  }

  /** The highlight block sets the highlight from its one content line and
      ends in the trend section. */
  lemma HighlightRun(st: Scan, a: TrendAnalysis)
    requires st.highlight.None?
    requires a.highlight.title == "" || a.highlight.title[0] != '#'
    ensures var line := a.highlight.title + " - " + a.highlight.description;
      Run(st, HighlightBlock(a)) == st.(section := TrendSection, highlight := Some(Trim(line)))
  {
    var line := a.highlight.title + " - " + a.highlight.description;
    var s1 := st.(section := HighlightSection);
    HeadingStep(st, HighlightSection);
    assert line[|a.highlight.title| + 1] == '-';
    StripNonEmpty(line, Whitespace, |a.highlight.title| + 1);
    assert !IsHeading(line);
    var s2 := s1.(highlight := Some(Trim(line)));
    assert Step(s1, line) == s2;
    BlankStep(s2);
    HeadingStep(s2, TrendSection);
    var b := HighlightBlock(a);
    assert b == ["### " + HighlightSection] + [line] + [""] + ["### " + TrendSection];
    RunAppend(st, ["### " + HighlightSection] + [line] + [""], ["### " + TrendSection]);
    RunAppend(st, ["### " + HighlightSection] + [line], [""]);
    RunAppend(st, ["### " + HighlightSection], [line]);
  }

  /** The closing lines: whatever the prediction line says, the last content
      line of the prediction section is the signature. */
  lemma TailRun(st: Scan, a: TrendAnalysis)
    requires !IsHeading(a.prediction)
    ensures var r := Run(st, Tail(a));
      r.prediction == Signature && r.highlight == st.highlight
      && r.trends == st.trends && r.insights == st.insights
  {
    var t := Tail(a);
    var s2 := TailOpening(st, a);
    TailClosing(s2, a);
  }

  /** The blank line, the heading and the prediction line. */
  lemma TailOpening(st: Scan, a: TrendAnalysis) returns (s2: Scan)
    requires !IsHeading(a.prediction)
    ensures Run(st, Tail(a)) == Run(s2, Tail(a)[3..])
    ensures s2.section == PredictionSection && s2.highlight == st.highlight
            && s2.trends == st.trends && s2.insights == st.insights
  {
    var t := Tail(a);
    BlankStep(st);
    var s1 := st.(section := PredictionSection);
    HeadingStep(st, PredictionSection);
    s2 := Step(s1, a.prediction);
    assert t[..] == t;
    RunAt(st, t, 0);
    RunAt(st, t, 1);
    RunAt(s1, t, 2);
  }

  /** The blank line, the rule and the signature. */
  lemma TailClosing(s2: Scan, a: TrendAnalysis)
    requires s2.section == PredictionSection
    ensures var r := Run(s2, Tail(a)[3..]);
      r == s2.(prediction := Signature)
  {
    assert Tail(a)[3..] == ["", "---", Signature];
    RunThree(s2, "", "---", Signature);
    BlankStep(s2);
    var s3 := s2.(prediction := "---");
    ContentLine("---");
    ContentStep(s2, "---");
    SignatureLine();
    ContentStep(s3, Signature);
  }

  lemma RunThree(st: Scan, x: string, y: string, z: string)
    ensures Run(st, [x, y, z]) == Step(Step(Step(st, x), y), z)
  {
    var s1 := Step(st, x);
    var s2 := Step(s1, y);
    assert [x, y, z][1..] == [y, z];
    assert [y, z][1..] == [z];
    assert [z][1..] == [];
    assert Run(s2, [z]) == Step(s2, z);
    assert Run(s1, [y, z]) == Run(s2, [z]);
  }

  lemma ContentLine(line: string)
    requires line == "---"
    ensures |line| > 0 && line[0] != '#' && line[0] !in Whitespace && line[|line| - 1] !in Whitespace
  {
    VisibleNotSpace(line[0]);
  }

  lemma SignatureLine()
    ensures var line := Signature;
      |line| > 0 && line[0] != '#' && line[0] !in Whitespace && line[|line| - 1] !in Whitespace
  {
  }

  /** A clean content line of the prediction section becomes the
      prediction. */
  lemma ContentStep(st: Scan, line: string)
    requires st.section == PredictionSection
    requires |line| > 0 && line[0] != '#' && line[0] !in Whitespace && line[|line| - 1] !in Whitespace
    ensures Step(st, line) == st.(prediction := line)
  {
    StripUnchanged(line, Whitespace);
  }

  /** The conditions under which a formatted analysis reads back: no field
      spans lines, trends and insights have no strippable ends, the highlight
      line and the prediction line do not look like headings, and there are
      one to three insights (only "1." to "3." are read). */
  predicate Readable(a: TrendAnalysis)
  {
    && '\n' !in a.date && '\n' !in a.analysisTime && '\n' !in a.prediction
    && '\n' !in a.highlight.title && '\n' !in a.highlight.description
    && (forall i | 0 <= i < |a.trends| :: '\n' !in a.trends[i] && CleanFor(a.trends[i], DashSpace))
    && (forall i | 0 <= i < |a.insights| :: '\n' !in a.insights[i] && CleanFor(a.insights[i], NumberDotSpace))
    && (a.highlight.title == "" || a.highlight.title[0] != '#')
    && !IsHeading(a.prediction)
    && 1 <= |a.trends| && 1 <= |a.insights| <= 3
  }

  predicate NoNewlines(lines: seq<string>)
  {
    forall i | 0 <= i < |lines| :: '\n' !in lines[i]
  }

  lemma NoNewlinesAppend(a: seq<string>, b: seq<string>)
    requires NoNewlines(a) && NoNewlines(b)
    ensures NoNewlines(a + b)
  {
  }

  lemma {:induction false} InsightLinesNoNewlines(xs: seq<string>, from: nat)
    requires forall i | 0 <= i < |xs| :: '\n' !in xs[i]
    ensures NoNewlines(InsightLines(xs, from))
    decreases |xs|
  {
    if |xs| > 0 {
      InsightLinesNoNewlines(xs[1..], from + 1);
      var d := NatToString(from);
      assert '\n' !in d;
      NoNewlinesAppend([d + ". " + xs[0]], InsightLines(xs[1..], from + 1));
    }
  }

  lemma FormatNoNewlines(a: TrendAnalysis)
    requires Readable(a)
    ensures NoNewlines(FormatLines(a))
  {
    HeaderNoNewlines(a);
    HighlightNoNewlines(a);
    TrendLinesNoNewlines(a.trends);
    InsightLinesNoNewlines(a.insights, 1);
    TailNoNewlines(a);
    NoNewlinesSix(Header(a), HighlightBlock(a), Map(a.trends, TrendLine), ["", "### " + InsightSection],
                  InsightLines(a.insights, 1), Tail(a));
  }

  lemma HeaderNoNewlines(a: TrendAnalysis)
    requires '\n' !in a.date && '\n' !in a.analysisTime
    ensures NoNewlines(Header(a))
  {
    var n := NatToString(a.totalProjects);
    assert '\n' !in n;
  }

  lemma HighlightNoNewlines(a: TrendAnalysis)
    requires '\n' !in a.highlight.title && '\n' !in a.highlight.description
    ensures NoNewlines(HighlightBlock(a))
  {
  }

  lemma TailNoNewlines(a: TrendAnalysis)
    requires '\n' !in a.prediction
    ensures NoNewlines(Tail(a))
  {
  }

  lemma TrendLinesNoNewlines(ts: seq<string>)
    requires forall i | 0 <= i < |ts| :: '\n' !in ts[i]
    ensures NoNewlines(Map(ts, TrendLine))
  {
  }

  lemma NoNewlinesSix(a: seq<string>, b: seq<string>, c: seq<string>, d: seq<string>, e: seq<string>, f: seq<string>)
    requires NoNewlines(a) && NoNewlines(b) && NoNewlines(c)
    requires NoNewlines(d) && NoNewlines(e) && NoNewlines(f)
    ensures NoNewlines(a + b + c + d + e + f)
  {
    NoNewlinesAppend(a, b);
    NoNewlinesAppend(a + b, c);
    NoNewlinesAppend(a + b + c, d);
    NoNewlinesAppend(a + b + c + d, e);
    NoNewlinesAppend(a + b + c + d + e, f);
  }

  lemma HeaderInert(a: TrendAnalysis)
    ensures forall i | 0 <= i < |Header(a)| :: IsHeading(Header(a)[i]) || IsBlank(Header(a)[i])
  {
    var h := Header(a);
    StripEmpty(Whitespace);
    assert h[0][..2] == "##" && h[2][..2] == "##" && h[3][..2] == "##";
  }

  /** The two lines between the trends and the insights. */
  lemma InsightOpening(st: Scan)
    ensures Run(st, ["", "### " + InsightSection]) == st.(section := InsightSection)
  {
    var m := ["", "### " + InsightSection];
    BlankStep(st);
    HeadingStep(st, InsightSection);
    assert m[..] == m;
    RunAt(st, m, 0);
    RunAt(st, m, 1);
    assert m[2..] == [];
  }

  /** Scanning the formatted lines finds the trends, the insights and the
      highlight line that were written, and the signature as prediction. */
  lemma FormatRun(a: TrendAnalysis)
    requires Readable(a)
    ensures var r := Run(Start, FormatLines(a));
      && r.trends == a.trends && r.insights == a.insights && r.prediction == Signature
      && r.highlight == Some(Trim(a.highlight.title + " - " + a.highlight.description))
  {
    var h := Header(a);
    var hb := HighlightBlock(a);
    var tl := Map(a.trends, TrendLine);
    var ih := ["", "### " + InsightSection];
    var il := InsightLines(a.insights, 1);
    var t := Tail(a);
    HeaderInert(a);
    InertRun(Start, h);
    var s0 := Run(Start, h);
    HighlightRun(s0, a);
    var s1 := Run(s0, hb);
    TrendsRun(s1, a.trends);
    var s2 := Run(s1, tl);
    assert s2.trends == a.trends;
    InsightOpening(s2);
    var s3 := Run(s2, ih);
    InsightsRun(s3, a.insights, 1);
    var s4 := Run(s3, il);
    assert s4.insights == a.insights;
    TailRun(s4, a);
    RunAppend(Start, h, hb);
    RunAppend(Start, h + hb, tl);
    RunAppend(Start, h + hb + tl, ih);
    RunAppend(Start, h + hb + tl + ih, il);
    RunAppend(Start, h + hb + tl + ih + il, t);
  }

  /** Parsing format_analysis_text's output gives back the trends (the
      first three), the insights and the highlight line; the prediction read
      back is always the signature line, which follows the prediction in the
      same section. */
  lemma FormatParse(a: TrendAnalysis, date: string, time: string)
    requires Readable(a)
    ensures var r := ParseStructured(Some(FormatAnalysisText(a)), date, time);
      && r.trends == Take(a.trends, 3) && r.insights == a.insights
      && r.prediction == Signature
      && r.highlight == FoundHighlight(Trim(a.highlight.title + " - " + a.highlight.description))
  {
    var lines := FormatLines(a);
    FormatNoNewlines(a);
    SplitJoin(lines, '\n');
    FormatRun(a);
    assert Take(a.insights, 3) == a.insights;
  }
}

=== FILE: archive.dfy ===
/** The two archive jobs: sync_arxiv_data.py copies the day's arXiv log into
    a Markdown file and a JSON preview and records the day in a Markdown
    index table; sync_projects.py copies the day's project log into a
    Markdown file and puts an entry at the head of the archive README. The
    file system is modelled by its contents: which files exist, what they
    hold and whether a write succeeds are parameters. */
module Archive {
  import opened Wrappers
  import opened Seqs
  import opened Text

  // ------------------------------------------------------ the index table

  /** `line.startswith('|')` */
  predicate IsRow(line: string)
  {
    StartsWith(line, "|")
  }

  /** A row's first cell: `line.split('|')[1].strip()`. */
  function RowDate(line: string): string
    requires IsRow(line)
  {
    RowHasCells(line);
    Trim(Split(line, "|")[1])
  }

  lemma RowHasCells(line: string)
    requires IsRow(line)
    ensures |Split(line, "|")| >= 2
  {
    FindIs(line, "|", 0);
  }

  datatype Header = NoTable | OutOfRange | HeaderAt(row: nat)

  /** The first loop of update_index from line `i` on: the first row whose
      next line holds "---". Reaching a row that is the last line reads past
      the end (`lines[i+1]` raises). */
  function FindHeader(lines: seq<string>, i: nat): (r: Header)
    requires i <= |lines|
    ensures r.HeaderAt? ==> i <= r.row && r.row + 1 < |lines| && IsRow(lines[r.row])
                            && Contains(lines[r.row + 1], "---")
    ensures r.HeaderAt? ==> forall j | i <= j < r.row :: !IsRow(lines[j]) || !Contains(lines[j + 1], "---")
    ensures r.OutOfRange? ==> 0 < |lines| && IsRow(lines[|lines| - 1])
    ensures r.NoTable? ==> forall j | i <= j < |lines| :: !IsRow(lines[j])
                                                        || (j + 1 < |lines| && !Contains(lines[j + 1], "---"))
    decreases |lines| - i
  {
    if i == |lines| then NoTable
    else if IsRow(lines[i]) && i + 1 == |lines| then OutOfRange
    else if IsRow(lines[i]) && Contains(lines[i + 1], "---") then HeaderAt(i)
    else FindHeader(lines, i + 1)
  }

  /** The first line at or after `j` that is not a row. */
  function RowsEnd(lines: seq<string>, j: nat): (k: nat)
    requires j <= |lines|
    ensures j <= k <= |lines|
    ensures forall m | j <= m < k :: IsRow(lines[m])
    ensures k < |lines| ==> !IsRow(lines[k])
    decreases |lines| - j
  {
    if j < |lines| && IsRow(lines[j]) then RowsEnd(lines, j + 1) else j
  }

  /** `table_end`: the line after the first table (the header row, the
      "---" line and the rows that follow), 0 without a table, None when
      the search reads past the end. */
  function TableEnd(lines: seq<string>): (r: Option<nat>)
    ensures r.Some? ==> r.value <= |lines|
    ensures r.Some? && r.value > 0 ==> r.value < |lines| ==> !IsRow(lines[r.value])
    ensures r.Some? && r.value > 0 ==>
              exists h | 0 <= h < r.value :: h + 1 < |lines| && IsRow(lines[h]) && Contains(lines[h + 1], "---")
    ensures r.None? ==> 0 < |lines| && IsRow(lines[|lines| - 1])
  {
    match FindHeader(lines, 0)
    case OutOfRange => None
    case NoTable => Some(0)
    case HeaderAt(h) =>
      var k := RowsEnd(lines, h + 1);
      assert h < k && h + 1 < |lines| && IsRow(lines[h]) && Contains(lines[h + 1], "---");
      Some(k)
  }

  /** The second loop: the first row at or after `from` whose date sorts
      before `today`. */
  function FirstOlder(lines: seq<string>, from: nat, today: string): (r: Option<nat>)
    requires from <= |lines|
    ensures r.Some? ==> from <= r.value < |lines| && IsRow(lines[r.value]) && Less(RowDate(lines[r.value]), today)
    ensures forall j | from <= j < |lines| && (r.None? || j < r.value) ::
              IsRow(lines[j]) ==> !Less(RowDate(lines[j]), today)
    decreases |lines| - from
  {
    if from == |lines| then None
    else if IsRow(lines[from]) && Less(RowDate(lines[from]), today) then Some(from)
    else FirstOlder(lines, from + 1, today)
  }

  /** The last row of the file. */
  function LastRow(lines: seq<string>): (r: Option<nat>)
    ensures r.Some? ==> r.value < |lines| && IsRow(lines[r.value])
    ensures r.Some? ==> forall j | r.value < j < |lines| :: !IsRow(lines[j])
    ensures r.None? ==> forall j | 0 <= j < |lines| :: !IsRow(lines[j])
  {
    if |lines| == 0 then None
    else if IsRow(lines[|lines| - 1]) then Some(|lines| - 1)
    else
      var r := LastRow(lines[..|lines| - 1]);
      assert forall j | 0 <= j < |lines| - 1 :: lines[..|lines| - 1][j] == lines[j];
      r
  }

  function InsertAt<T>(xs: seq<T>, p: nat, x: T): (r: seq<T>)
    requires p <= |xs|
    ensures |r| == |xs| + 1 && r[p] == x
    ensures r[..p] == xs[..p] && r[p + 1..] == xs[p..]
  {
    xs[..p] + [x] + xs[p..]
  }

  /** Where update_index puts the new row, as written: before the first row
      after the first table whose date sorts before `today`, else after the
      last row of the file; None when the file has no row at all. */
  function Position(lines: seq<string>, te: nat, today: string): (p: Option<nat>)
    requires te <= |lines|
    ensures p.Some? ==> p.value <= |lines|
    ensures p.None? <==> forall j | 0 <= j < |lines| :: !IsRow(lines[j])
  {
    match FirstOlder(lines, te, today)
    case Some(k) => Some(k)
    case None =>
      match LastRow(lines)
      case Some(k) => Some(k + 1)
      case None => None
  }

  /** update_index on the lines of the index, as written. None is the
      IndexError of the header search. */
  function UpdateLines(lines: seq<string>, today: string, entry: string): (r: Option<seq<string>>)
    ensures r.None? <==> TableEnd(lines).None?
    ensures r.Some? ==> (r.value == lines <==> forall j | 0 <= j < |lines| :: !IsRow(lines[j]))
    ensures r.Some? && r.value != lines ==>
              exists p | 0 <= p <= |lines| :: r.value == InsertAt(lines, p, entry)
  {
    match TableEnd(lines)
    case None => None
    case Some(te) =>
      match Position(lines, te, today)
      case None => Some(lines)
      case Some(p) => Some(InsertAt(lines, p, entry))
  }

  /** The rows of the first table come through in their places: the new row
      never goes inside it, whatever the dates say. */
  lemma TableKept(lines: seq<string>, today: string, entry: string)
    requires TableEnd(lines).Some?
    requires exists j | 0 <= j < |lines| :: IsRow(lines[j])
    ensures var te := TableEnd(lines).value;
      && UpdateLines(lines, today, entry).Some?
      && UpdateLines(lines, today, entry).value[..te] == lines[..te]
      && exists p | te <= p <= |lines| :: UpdateLines(lines, today, entry).value == InsertAt(lines, p, entry)
  {
    var te := TableEnd(lines).value;
    PositionAfterTable(lines, today);
    var p := Position(lines, te, today).value;
    var r := InsertAt(lines, p, entry);
    assert UpdateLines(lines, today, entry) == Some(r);
    InsertKeepsPrefix(lines, p, entry, te);
  }

  lemma InsertKeepsPrefix<T>(xs: seq<T>, p: nat, x: T, n: nat)
    requires n <= p <= |xs|
    ensures InsertAt(xs, p, x)[..n] == xs[..n]
  {
    assert InsertAt(xs, p, x)[..n] == InsertAt(xs, p, x)[..p][..n];
  }

  /** With a row somewhere, the place for the new row exists and lies at or
      after the table end. */
  lemma PositionAfterTable(lines: seq<string>, today: string)
    requires TableEnd(lines).Some?
    requires exists j | 0 <= j < |lines| :: IsRow(lines[j])
    ensures Position(lines, TableEnd(lines).value, today).Some?
    ensures Position(lines, TableEnd(lines).value, today).value >= TableEnd(lines).value
  {
    if TableEnd(lines).value > 0 {
      TableEndRow(lines);
    }
  }

  /** The line before a non-zero table end is a row. */
  lemma TableEndRow(lines: seq<string>)
    requires TableEnd(lines).Some? && TableEnd(lines).value > 0
    ensures IsRow(lines[TableEnd(lines).value - 1])
  {
    match FindHeader(lines, 0)
    case HeaderAt(h) =>
      var k := RowsEnd(lines, h + 1);
      if k == h + 1 {
        assert IsRow(lines[h]);
      }
  }

  /** A line is a row exactly when its first character is '|'. */
  lemma RowByFirst(line: string)
    ensures IsRow(line) <==> |line| > 0 && line[0] == '|'
  {
    if |line| > 0 {
      assert line[..1] == [line[0]];
    }
  }

  /** When the only rows are those of the first table (the index's usual
      shape), the new row goes right after the table, below every older
      date, although the code's own comment asks for newest first. */
  lemma NewestLast(lines: seq<string>, today: string, entry: string)
    requires TableEnd(lines).Some? && TableEnd(lines).value > 0
    requires forall j | TableEnd(lines).value <= j < |lines| :: !IsRow(lines[j])
    ensures UpdateLines(lines, today, entry) == Some(InsertAt(lines, TableEnd(lines).value, entry))
  {
    var te := TableEnd(lines).value;
    TableEndRow(lines);
    assert FirstOlder(lines, te, today).None?;
    var last := LastRow(lines);
    assert last.Some? && te - 1 <= last.value;
    assert last == Some(te - 1);
    assert Position(lines, te, today) == Some(te);
  }

  /** A one-row index: the row of 2024-01-01 stays above the new row of
      2024-01-02. */
  lemma NewestLastExample(entry: string)
    ensures var lines := ["# index", "", "| 日期 |", "|---|", "| 2024-01-01 |", ""];
      && Less("2024-01-01", "2024-01-02")
      && UpdateLines(lines, "2024-01-02", entry) == Some(lines[..5] + [entry] + lines[5..])
  {
    var lines := ["# index", "", "| 日期 |", "|---|", "| 2024-01-01 |", ""];
    RowByFirst(lines[0]);
    RowByFirst(lines[1]);
    RowByFirst(lines[2]);
    RowByFirst(lines[3]);
    RowByFirst(lines[4]);
    RowByFirst(lines[5]);
    assert OccursAt(lines[3], "---", 1);
    assert FindHeader(lines, 0) == HeaderAt(2);
    assert RowsEnd(lines, 3) == 5;
    NewestLast(lines, "2024-01-02", entry);
    assert Less("-01-01", "-01-02");
  }

  // --------------------------------------------- the evidently intended index

  /** Row dates in index order are newest first. */
  predicate Descending(dates: seq<string>)
  {
    forall i | 0 <= i < |dates| - 1 :: !Less(dates[i], dates[i + 1])
  }

  /** The insertion the code's comment describes: the first table's data rows
      (those after the "---" line) are compared too, and the new row goes
      before the first one whose date sorts before `today`, else after the
      last row. */
  function PositionNewestFirst(lines: seq<string>, today: string): (p: Option<nat>)
    requires TableEnd(lines).Some?
    ensures p.Some? ==> p.value <= |lines|
    ensures p.None? <==> forall j | 0 <= j < |lines| :: !IsRow(lines[j])
  {
    var te := TableEnd(lines).value;
    var from := if te == 0 then 0 else FirstDataRow(lines);
    match FirstOlder(lines, from, today)
    case Some(k) => Some(k)
    case None =>
      match LastRow(lines)
      case Some(k) => Some(k + 1)
      case None => None
  }

  /** The line after the "---" line of the first table. */
  function FirstDataRow(lines: seq<string>): (d: nat)
    requires TableEnd(lines).Some? && TableEnd(lines).value > 0
    ensures 1 <= d <= TableEnd(lines).value
  {
    match FindHeader(lines, 0)
    case HeaderAt(h) => Min(h + 2, TableEnd(lines).value)
  }

  /** update_index on the lines of the index, with the insertion its
      comment describes. */
  function UpdateLinesNewestFirst(lines: seq<string>, today: string, entry: string): (r: Option<seq<string>>)
    ensures r.None? <==> TableEnd(lines).None?
    ensures r.Some? ==> (r.value == lines <==> forall j | 0 <= j < |lines| :: !IsRow(lines[j]))
    ensures r.Some? && r.value != lines ==>
              exists p | 0 <= p <= |lines| :: r.value == InsertAt(lines, p, entry)
  {
    match TableEnd(lines)
    case None => None
    case Some(te) =>
      match PositionNewestFirst(lines, today)
      case None => Some(lines)
      case Some(p) => Some(InsertAt(lines, p, entry))
  }

  /** Inserting `today` before the first older date keeps newest-first
      dates newest first. */
  lemma InsertKeepsDescending(dates: seq<string>, today: string, p: nat)
    requires Descending(dates) && p <= |dates|
    requires forall j | 0 <= j < p :: !Less(dates[j], today)
    requires p < |dates| ==> Less(dates[p], today)
    ensures Descending(InsertAt(dates, p, today))
  {
    var r := InsertAt(dates, p, today);
    forall i | 0 <= i < |r| - 1
      ensures !Less(r[i], r[i + 1])
    {
      if i + 1 < p {
        assert r[i] == dates[i] && r[i + 1] == dates[i + 1];
      } else if i + 1 == p {
        assert r[i] == dates[i];
      } else if i == p {
        assert r[i + 1] == dates[p];
        LessAsymmetric(dates[p], today);
      } else {
        assert r[i] == dates[i - 1] && r[i + 1] == dates[i];
      }
    }
  }

  /** With the corrected insertion, a table whose data rows run newest
      first gets the new row at the place that keeps them so: every data row
      above it is no older than `today` and the row below it is older. */
  lemma NewestFirstPlace(lines: seq<string>, today: string, k: nat)
    requires TableEnd(lines).Some? && TableEnd(lines).value > 0
    requires FirstOlder(lines, FirstDataRow(lines), today) == Some(k)
    ensures PositionNewestFirst(lines, today) == Some(k)
    ensures FirstDataRow(lines) <= k && Less(RowDate(lines[k]), today)
    ensures forall j | FirstDataRow(lines) <= j < k :: IsRow(lines[j]) ==> !Less(RowDate(lines[j]), today)
  {
  }

  /** The dates of the data rows `lines[from..to]`. */
  function Dates(lines: seq<string>, from: nat, to: nat): (ds: seq<string>)
    requires from <= to <= |lines|
    requires forall j | from <= j < to :: IsRow(lines[j])
    ensures |ds| == to - from
    ensures forall i | 0 <= i < |ds| :: ds[i] == RowDate(lines[from + i])
  {
    seq(to - from, i requires 0 <= i < to - from => RowDate(lines[from + i]))
  }

  /** The whole point of the correction: when the first table's data rows
      run newest first and an older one exists, the new row (whose date is
      `today`) goes where the dates still run newest first. */
  lemma NewestFirstKeepsOrder(lines: seq<string>, today: string, k: nat)
    requires TableEnd(lines).Some? && TableEnd(lines).value > 0
    requires FirstOlder(lines, FirstDataRow(lines), today) == Some(k)
    requires k < TableEnd(lines).value
    ensures forall j | FirstDataRow(lines) <= j < TableEnd(lines).value :: IsRow(lines[j])
    ensures var d, te := FirstDataRow(lines), TableEnd(lines).value;
      Descending(Dates(lines, d, te)) ==> Descending(InsertAt(Dates(lines, d, te), k - d, today))
  {
    var d, te := FirstDataRow(lines), TableEnd(lines).value;
    TableRows(lines);
    var ds := Dates(lines, d, te);
    NewestFirstPlace(lines, today, k);
    if Descending(ds) {
      InsertKeepsDescending(ds, today, k - d);
    }
  }

  /** The lines from the header row to the table end are all rows. */
  lemma TableRows(lines: seq<string>)
    requires TableEnd(lines).Some? && TableEnd(lines).value > 0
    ensures forall j | FirstDataRow(lines) <= j < TableEnd(lines).value :: IsRow(lines[j])
  {
  }

  // ---------------------------------------------------------- the index file

  const IndexTemplate := TemplateTitle + "\n\n" + TemplateHeading + "\n" + TemplateRule + "\n"

  /** `| {today} | [{today}.md]({md_file}) | [{today}.json]({json_file}) | {sync_time} |\n` */
  function IndexEntry(today: string, mdFile: string, jsonFile: string, syncTime: string): (e: string)
    ensures OccursAt(e, today, 2)
  {
    var e := "| " + today + " | [" + today + ".md](" + mdFile + ") | [" + today + ".json](" + jsonFile + ") | " + syncTime + " |\n";
    assert e[2..2 + |today|] == today;
    e
  }

  /** The text update_index starts from: the index, or the template when
      there is none. */
  function IndexContent(index: Option<string>): string
  {
    if index.Some? then index.value else IndexTemplate
  }

  /** update_index: the index (or the template when there is none) gets the
      day's row unless the date already appears anywhere in it; None is the
      IndexError of the header search. The row goes where the code puts it
      (UpdateLines): never inside the first table. */
  function UpdateIndex(index: Option<string>, today: string, mdFile: string, jsonFile: string, syncTime: string)
    : (r: Option<string>)
    ensures Contains(IndexContent(index), today) ==> r == Some(IndexContent(index))
    ensures var lines := Split(IndexContent(index), "\n");
      !Contains(IndexContent(index), today) ==> (r.None? <==> TableEnd(lines).None?)
    ensures var lines := Split(IndexContent(index), "\n");
      r.Some? && (forall j | 0 <= j < |lines| :: !IsRow(lines[j])) ==> r.value == IndexContent(index)
    ensures var lines := Split(IndexContent(index), "\n");
      r.Some? && !Contains(IndexContent(index), today) && (exists j | 0 <= j < |lines| :: IsRow(lines[j])) ==>
        exists p | TableEnd(lines).value <= p <= |lines| ::
          r.value == Join(InsertAt(lines, p, IndexEntry(today, mdFile, jsonFile, syncTime)), "\n")
  {
    var content := IndexContent(index);
    if Contains(content, today) then Some(content)
    else
      var lines := Split(content, "\n");
      var entry := IndexEntry(today, mdFile, jsonFile, syncTime);
      JoinSplit(content, "\n");
      if TableEnd(lines).Some? && exists j | 0 <= j < |lines| :: IsRow(lines[j]) then
        TableKept(lines, today, entry);
        Some(Join(UpdateLines(lines, today, entry).value, "\n"))
      else
        var updated := UpdateLines(lines, today, entry);
        if updated.None? then None else Some(Join(updated.value, "\n"))
  }

  /** update_index with the insertion its comment describes. */
  function UpdateIndexNewestFirst(index: Option<string>, today: string, mdFile: string, jsonFile: string,
                                  syncTime: string): (r: Option<string>)
    ensures Contains(IndexContent(index), today) ==> r == Some(IndexContent(index))
    ensures !Contains(IndexContent(index), today) ==> (r.None? <==> TableEnd(Split(IndexContent(index), "\n")).None?)
  {
    var content := IndexContent(index);
    if Contains(content, today) then Some(content)
    else
      var lines := UpdateLinesNewestFirst(Split(content, "\n"), today, IndexEntry(today, mdFile, jsonFile, syncTime));
      if lines.None? then None else Some(Join(lines.value, "\n"))
  }

  /** A text joined from parts holds whatever one of the parts holds. */
  lemma {:induction false} JoinContains(parts: seq<string>, sep: string, k: nat, p: string)
    requires k < |parts| && Contains(parts[k], p)
    ensures Contains(Join(parts, sep), p)
    decreases |parts|
  {
    if |parts| == 1 {
    } else if k == 0 {
      ContainsBefore(parts[0], sep + Join(parts[1..], sep), p);
      assert parts[0] + (sep + Join(parts[1..], sep)) == Join(parts, sep);
    } else {
      JoinContains(parts[1..], sep, k - 1, p);
      ContainsAfter(parts[0] + sep, Join(parts[1..], sep), p);
    }
  }

  /** Once the day's row is in, the date appears in the index and a second
      run the same day leaves it alone: update_index is idempotent per date. */
  lemma UpdateIndexIdempotent(index: Option<string>, today: string, mdFile: string, jsonFile: string, syncTime: string,
                              mdFile2: string, jsonFile2: string, syncTime2: string)
    requires UpdateIndex(index, today, mdFile, jsonFile, syncTime).Some?
    requires exists j | 0 <= j < |Split(IndexContent(index), "\n")| :: IsRow(Split(IndexContent(index), "\n")[j])
    ensures var once := UpdateIndex(index, today, mdFile, jsonFile, syncTime);
      UpdateIndex(once, today, mdFile2, jsonFile2, syncTime2) == once
  {
    var content := IndexContent(index);
    if !Contains(content, today) {
      var lines := Split(content, "\n");
      var entry := IndexEntry(today, mdFile, jsonFile, syncTime);
      var r := UpdateLines(lines, today, entry).value;
      var p :| 0 <= p <= |lines| && r == InsertAt(lines, p, entry);
      ContainsWitness(entry, today, 2);
      JoinContains(r, "\n", p, today);
    }
  }

  /** The JSON preview: `lines[:20] if len(lines) > 20 else lines`. */
  function Preview(lines: seq<string>): (r: seq<string>)
    ensures |r| == Min(20, |lines|) && IsPrefix(r, lines)
  {
    if |lines| > 20 then lines[..20] else lines
  }

  // ------------------------------------------------------- sync_arxiv_data

  /** The greatest name under Python's string order, the last of `sorted`. */
  function Latest(names: seq<string>): (r: string)
    requires |names| > 0
    ensures r in names
    ensures forall i | 0 <= i < |names| :: !Less(r, names[i])
  {
    if |names| == 1 then
      LessIrreflexive(names[0]);
      names[0]
    else
      var m := Latest(names[1..]);
      assert m in names by {
        var j :| 0 <= j < |names| - 1 && names[1..][j] == m;
        assert names[j + 1] == m;
      }
      if Less(m, names[0]) then
        forall i | 1 <= i < |names|
          ensures !Less(names[0], names[i])
        {
          assert names[i] == names[1..][i - 1];
          if Less(names[0], names[i]) {
            LessTransitive(m, names[0], names[i]);
          }
        }
        LessIrreflexive(names[0]);
        names[0]
      else
        forall i | 0 <= i < |names|
          ensures !Less(m, names[i])
        {
          if i > 0 {
            assert names[i] == names[1..][i - 1];
          }
        }
        m
  }

  /** `Path(name).stem` for a name ending in ".txt". */
  function Stem(name: string): string
    requires EndsWith(name, ".txt")
  {
    name[..|name| - 4]
  }

  datatype ArxivSync = ArxivSync(date: string, markdown: string, linesCount: nat, preview: seq<string>,
                                 index: string)

  const ArxivHeaderLines := "> 每天16:00自动发送给121个订阅用户\n> 覆盖领域: cs.AI, cs.LG, cs.CL, cs.CV, stat.ML\n\n"

  /** The log to use: today's when it exists, else the name that sorts last
      (the date becomes its stem), else none. `logs` are the names of the
      ".txt" files in the log directory. */
  function ChooseLog(today: string, logs: seq<string>): (r: Option<(string, string)>)
    requires forall i | 0 <= i < |logs| :: EndsWith(logs[i], ".txt")
    ensures today + ".txt" in logs ==> r == Some((today + ".txt", today))
    ensures r.None? <==> today + ".txt" !in logs && |logs| == 0
    ensures r.Some? && today + ".txt" !in logs ==>
              r.value.0 in logs && forall i | 0 <= i < |logs| :: !Less(r.value.0, logs[i])
  {
    if today + ".txt" in logs then Some((today + ".txt", today))
    else if |logs| == 0 then None
    else
      var name := Latest(logs);
      Some((name, Stem(name)))
  }

  /** sync_arxiv_data: `contents(name)` is the text of a log. Ok(None) is the
      "no log" failure; Err is the IndexError of update_index. */
  function SyncArxiv(today: string, logs: seq<string>, contents: string -> string, index: Option<string>,
                     syncTime: string): (r: Result<Option<ArxivSync>>)
    requires forall i | 0 <= i < |logs| :: EndsWith(logs[i], ".txt")
    ensures r.Ok? && r.value.None? <==> today + ".txt" !in logs && |logs| == 0
    ensures r.Err? <==> ChooseLog(today, logs).Some?
                        && var date := ChooseLog(today, logs).value.1;
                           UpdateIndex(index, date, "arxiv_data/arxiv_papers_" + date + ".md",
                                       "arxiv_data/arxiv_papers_" + date + ".json", syncTime).None?
    ensures r.Ok? && r.value.Some? ==>
              var s := r.value.value;
              && s.date == ChooseLog(today, logs).value.1
              && Some(s.index) == UpdateIndex(index, s.date, "arxiv_data/arxiv_papers_" + s.date + ".md",
                                              "arxiv_data/arxiv_papers_" + s.date + ".json", syncTime)
              && |s.preview| <= 20
              && s.linesCount >= 1
              && IsPrefix(s.preview, Split(Trim(contents(ChooseLog(today, logs).value.0)), "\n"))
              && EndsWith(s.markdown, contents(ChooseLog(today, logs).value.0))
    ensures r.Ok? && r.value.Some? ==>
              var s := r.value.value;
              var c := contents(ChooseLog(today, logs).value.0);
              && s.linesCount == |Split(Trim(c), "\n")|
              && s.preview == Preview(Split(Trim(c), "\n"))
              && s.markdown == "# arXiv AI/ML论文精选 - " + s.date + "\n\n" + ArxivHeaderLines + c
  {
    match ChooseLog(today, logs)
    case None => Ok(None)
    case Some((name, date)) =>
      var content := contents(name);
      var lines := Split(Trim(content), "\n");
      var md := "arxiv_data/arxiv_papers_" + date + ".md";
      var json := "arxiv_data/arxiv_papers_" + date + ".json";
      var markdown := "# arXiv AI/ML论文精选 - " + date + "\n\n" + ArxivHeaderLines + content;
      match UpdateIndex(index, date, md, json, syncTime)
      case None => Err("IndexError")
      case Some(newIndex) =>
        assert markdown[|markdown| - |content|..] == content;
        Ok(Some(ArxivSync(date, markdown, |lines|, Preview(lines), newIndex)))
  }

  const TemplateTitle := "# arXiv论文数据归档"
  const TemplateHeading := "| 日期 | Markdown文件 | JSON文件 | 同步时间 |"
  const TemplateRule := "|------|--------------|----------|----------|"

  /** The template's lines: a title, a blank line, the heading row, the
      "---" line and the empty text after the final newline. */
  lemma TemplateLines()
    ensures Split(IndexTemplate, "\n") == [TemplateTitle, "", TemplateHeading, TemplateRule, ""]
  {
    var parts := [TemplateTitle, "", TemplateHeading, TemplateRule, ""];
    TemplateJoin();
    TemplatePartsOneLine();
    SplitJoin(parts, '\n');
  }

  lemma TemplateJoin()
    ensures Join([TemplateTitle, "", TemplateHeading, TemplateRule, ""], "\n") == IndexTemplate
  {
    JoinFive(TemplateTitle, "", TemplateHeading, TemplateRule, "", "\n");
  }

  lemma JoinFive(a: string, b: string, c: string, d: string, e: string, sep: string)
    ensures Join([a, b, c, d, e], sep) == a + sep + b + sep + c + sep + d + sep + e
  {
    var p := [a, b, c, d, e];
    assert p[1..] == [b, c, d, e] && p[1..][1..] == [c, d, e] && p[1..][1..][1..] == [d, e];
    assert [d, e][1..] == [e];
    assert Join([d, e], sep) == d + sep + e;
    assert Join([c, d, e], sep) == c + sep + (d + sep + e);
    assert Join([b, c, d, e], sep) == b + sep + (c + sep + (d + sep + e));
  }

  lemma TemplatePartsOneLine()
    ensures var p := [TemplateTitle, "", TemplateHeading, TemplateRule, ""];
            forall i | 0 <= i < |p| :: '\n' !in p[i]
  {
    TitleOneLine();
    HeadingOneLine();
    RuleOneLine();
  }

  lemma TitleOneLine() ensures '\n' !in TemplateTitle {}
  lemma HeadingOneLine() ensures '\n' !in TemplateHeading
  {
    assert '\n' !in "| 日期 | " && '\n' !in "Markdown文件" && '\n' !in " | JSON文件" && '\n' !in " | 同步时间 |";
  }

  lemma RuleOneLine() ensures '\n' !in TemplateRule
  {
    assert '\n' !in "|------|" && '\n' !in "----------" && '\n' !in "----|-----";
    assert '\n' !in "-----|----" && '\n' !in "------|";
  }

  /** The template index has a table and no data row yet: the first day's
      row goes right after the "---" line. */
  lemma TemplateFirstRow(today: string, entry: string)
    ensures var lines := Split(IndexTemplate, "\n");
      && |lines| == 5
      && UpdateLines(lines, today, entry) == Some(lines[..4] + [entry] + lines[4..])
      && UpdateLinesNewestFirst(lines, today, entry) == Some(lines[..4] + [entry] + lines[4..])
  {
    TemplateLines();
    var lines := [TemplateTitle, "", TemplateHeading, TemplateRule, ""];
    TemplateShape();
    EmptyTable(lines, today, entry);
  }

  /** Which template lines are rows, and where the "---" line is. */
  lemma TemplateShape()
    ensures var lines := [TemplateTitle, "", TemplateHeading, TemplateRule, ""];
      && !IsRow(lines[0]) && !IsRow(lines[1]) && IsRow(lines[2]) && IsRow(lines[3]) && !IsRow(lines[4])
      && Contains(lines[3], "---")
  {
    RowByFirst(TemplateTitle);
    RowByFirst("");
    RowByFirst(TemplateHeading);
    RowByFirst(TemplateRule);
    assert TemplateRule[1] == '-' && TemplateRule[2] == '-' && TemplateRule[3] == '-';
    assert TemplateRule[1..4] == [TemplateRule[1], TemplateRule[2], TemplateRule[3]];
    assert OccursAt(TemplateRule, "---", 1);
  }

  /** An index whose only table has a header and no data row, followed by
      one non-row line: both insertions put the new row after the "---"
      line. */
  lemma EmptyTable(lines: seq<string>, today: string, entry: string)
    requires |lines| == 5 && !IsRow(lines[0]) && !IsRow(lines[1]) && IsRow(lines[2]) && IsRow(lines[3])
    requires !IsRow(lines[4]) && Contains(lines[3], "---")
    ensures UpdateLines(lines, today, entry) == Some(lines[..4] + [entry] + lines[4..])
    ensures UpdateLinesNewestFirst(lines, today, entry) == Some(lines[..4] + [entry] + lines[4..])
  {
    assert FindHeader(lines, 2) == HeaderAt(2);
    assert FindHeader(lines, 1) == HeaderAt(2);
    assert FindHeader(lines, 0) == HeaderAt(2);
    assert RowsEnd(lines, 4) == 4;
    assert RowsEnd(lines, 3) == 4;
    assert TableEnd(lines) == Some(4);
    NewestLast(lines, today, entry);
    assert FirstDataRow(lines) == 4;
    assert FirstOlder(lines, 5, today).None?;
    assert FirstOlder(lines, 4, today).None?;
    assert lines[..4][..3] == lines[..3];
    assert LastRow(lines[..4]) == Some(3);
    assert LastRow(lines) == Some(3);
    assert PositionNewestFirst(lines, today) == Some(4);
  }

  // --------------------------------------------------------- sync_projects

  const ReadmeHeader := "# AI信息流项目数据归档\n\n"
  const ReadmeTemplate := ReadmeHeader + "> 每日自动同步的项目数据\n\n"

  /** The day's README entry. */
  function ReadmeEntry(today: string, length: nat): string
  {
    "## " + today + "\n\n"
    + "- [projects_" + today + ".md](projects_" + today + ".md) - " + NatToString(length) + " 字符\n"
    + "- [projects_" + today + ".json](projects_" + today + ".json) - JSON格式\n\n"
  }

  /** The entry goes right after every exact README header: a README
      without the header gets nothing, one with it gets the entry after it. */
  function InsertEntry(readme: string, entry: string): (r: string)
    ensures !Contains(readme, ReadmeHeader) ==> r == readme
    ensures Contains(readme, ReadmeHeader) ==> Contains(r, ReadmeHeader + entry)
  {
    if Contains(readme, ReadmeHeader) then
      ReplaceExtends(readme, ReadmeHeader, entry);
      Replace(readme, ReadmeHeader, ReadmeHeader + entry)
    else
      ReplaceAbsent(readme, ReadmeHeader, ReadmeHeader + entry);
      Replace(readme, ReadmeHeader, ReadmeHeader + entry)
  }

  /** A README with the header once at its head gets the entry right after
      the header, the rest unchanged. */
  lemma EntryAfterHeader(rest: string, entry: string)
    requires !Contains(rest, ReadmeHeader)
    ensures InsertEntry(ReadmeHeader + rest, entry) == ReadmeHeader + entry + rest
  {
    assert "" + ReadmeHeader + rest == ReadmeHeader + rest;
    assert !Contains("" + ReadmeHeader[..|ReadmeHeader| - 1], ReadmeHeader);
    ReplaceOnce("", ReadmeHeader, rest, ReadmeHeader + entry);
  }

  /** There is no duplicate check: a second run adds a second entry. */
  lemma SecondRunAddsAgain(rest: string, entry: string)
    requires !Contains(rest, ReadmeHeader) && !Contains(entry + rest, ReadmeHeader)
    ensures InsertEntry(InsertEntry(ReadmeHeader + rest, entry), entry) == ReadmeHeader + entry + entry + rest
  {
    EntryAfterHeader(rest, entry);
    EntryAfterHeader(entry + rest, entry);
    assert ReadmeHeader + entry + rest == ReadmeHeader + (entry + rest);
    assert ReadmeHeader + entry + (entry + rest) == ReadmeHeader + entry + entry + rest;
  }

  /** Today's text log, else the first existing of the three HTML mails. */
  function ProjectSources(today: string): seq<string>
  {
    ["logs/" + today + ".txt", "logs/" + today + "_email.html",
     "logs/" + today + "_emergency_beautiful.html", "logs/" + today + "_immediate_email.html"]
  }

  function FirstExisting(candidates: seq<string>, exists_: seq<bool>): (r: Option<nat>)
    requires |exists_| == |candidates|
    ensures r.Some? ==> r.value < |candidates| && exists_[r.value] && forall j | 0 <= j < r.value :: !exists_[j]
    ensures r.None? ==> forall j | 0 <= j < |candidates| :: !exists_[j]
  {
    if |candidates| == 0 then None
    else if exists_[0] then Some(0)
    else
      var r := FirstExisting(candidates[1..], exists_[1..]);
      if r.None? then None else Some(r.value + 1)
  }

  const ProjectsHeader := "> 每日21:00自动爬取并发送给121个订阅用户\n\n**维护者**: 谢小果 (openclaw机器人，谢苹果的数字员工)\n\n---\n\n"

  datatype ProjectsSync = ProjectsSync(ok: bool, source: Option<string>, markdown: string, projectCount: nat,
                                       readme: Option<string>)

  /** sync_daily_projects. `exists_` says which of the four sources exist,
      `content` is the source's text (None when reading fails), `mdOk`
      whether the Markdown write succeeds and `readme` the current archive
      README (None when absent). A failed JSON or README write does not
      change the outcome. */
  function SyncProjects(today: string, exists_: seq<bool>, content: Option<string>, mdOk: bool,
                        readme: Option<string>): (r: ProjectsSync)
    requires |exists_| == 4
    ensures r.ok <==> (exists j | 0 <= j < 4 :: exists_[j]) && content.Some? && mdOk
    ensures r.source.Some? ==> r.source.value in ProjectSources(today)
    ensures exists_[0] ==> r.source == Some("logs/" + today + ".txt")
    ensures r.source.Some? <==> exists j | 0 <= j < 4 :: exists_[j]
    ensures forall j | 0 <= j < 4 && exists_[j] && (forall k | 0 <= k < j :: !exists_[k]) ::
              r.source == Some(ProjectSources(today)[j])
    ensures r.ok ==> r.projectCount >= 1 && EndsWith(r.markdown, content.value)
    ensures r.ok ==> r.markdown == "# GitHub Trending Python 项目 - " + today + "\n\n" + ProjectsHeader + content.value
    ensures r.ok ==> r.projectCount == |Split(Trim(content.value), "\n")|
    ensures r.ok ==> r.readme == Some(InsertEntry(if readme.Some? then readme.value else ReadmeTemplate,
                                                  ReadmeEntry(today, |content.value|)))
  {
    var sources := ProjectSources(today);
    var found := FirstExisting(sources, exists_);
    if found.None? then ProjectsSync(false, None, "", 0, None)
    else if content.None? || !mdOk then ProjectsSync(false, Some(sources[found.value]), "", 0, None)
    else
      var text := content.value;
      var markdown := "# GitHub Trending Python 项目 - " + today + "\n\n" + ProjectsHeader + text;
      var count := |Split(Trim(text), "\n")|;
      var current := if readme.Some? then readme.value else ReadmeTemplate;
      ProjectsSync(true, Some(sources[found.value]), markdown, count,
                   Some(InsertEntry(current, ReadmeEntry(today, |text|))))
  }
}

=== FILE: arxiv.dfy ===
/** The arXiv digest (arxiv_app.py): the search query, the choice of the
    freshest papers, the shortening of summaries, the author line and the
    send to every subscriber. Publication ages (in days, None when the date
    does not parse), the AI service's answers and the SMTP outcomes are
    parameters. */
module Arxiv {
  import opened Wrappers
  import opened Seqs
  import opened Text
  import opened Sorting
  import opened Subscribers

  // ------------------------------------------------------------------ query

  const DefaultCategories: seq<string> := ["cs.AI", "cs.LG", "cs.CL", "cs.CV", "stat.ML"]

  function CategoryTerm(c: string): string { "cat:" + c }

  /** `' OR '.join(f'cat:{cat}' for cat in categories)` */
  function Query(categories: seq<string>): string
  {
    Join(Map(categories, CategoryTerm), " OR ")
  }

  /** Categories appear in the query in their list order: one more category
      adds one more " OR cat:..." term at the end. */
  lemma QuerySnoc(categories: seq<string>, c: string)
    requires |categories| > 0
    ensures Query(categories + [c]) == Query(categories) + " OR cat:" + c
  {
    var terms := Map(categories, CategoryTerm);
    MapAppend(categories, [c], CategoryTerm);
    assert Map([c], CategoryTerm) == [CategoryTerm(c)];
    JoinSnoc(terms, CategoryTerm(c), " OR ");
    assert Join(terms, " OR ") + " OR " + ("cat:" + c) == Join(terms, " OR ") + " OR cat:" + c;
  }

  // -------------------------------------------------------------- selection

  datatype Paper = Paper(id: string, title: string, authors: seq<string>, summary: string,
                         published: string, pdfUrl: string, primaryCategory: string)

  const FreshDays := 2
  const UnparsedAge := 99

  function AgeOf(age: Option<int>): int
  {
    if age.Some? then age.value else UnparsedAge
  }

  /** `(days_old, paper)` pairs, in input order. */
  function Aged(papers: seq<Paper>, ages: seq<Option<int>>): (r: seq<(int, Paper)>)
    requires |ages| == |papers|
    ensures |r| == |papers|
    ensures forall i | 0 <= i < |r| :: r[i] == (AgeOf(ages[i]), papers[i])
  {
    seq(|papers|, i requires 0 <= i < |papers| => (AgeOf(ages[i]), papers[i]))
  }

  predicate IsFresh(p: (int, Paper)) { p.0 <= FreshDays }
  predicate IsOld(p: (int, Paper)) { p.0 > FreshDays }

  /** Ascending age is descending `NegAge`. */
  function NegAge(p: (int, Paper)): int { -p.0 }

  function PaperOf(p: (int, Paper)): Paper { p.1 }

  /** The code of select_top_papers on the aged pairs: everything when there
      are at most `topN`; otherwise the young group sorted by age, cut when
      `topN` are reached (the loop appends before it tests, so at least one
      is taken), then, while short, the older group sorted by age. */
  function SelectAged(aged: seq<(int, Paper)>, topN: int): (r: seq<(int, Paper)>)
    ensures |aged| <= topN ==> r == aged
    ensures |r| <= |aged|
  {
    if |aged| <= topN then aged
    else
      var young := SortDesc(Filter(aged, IsFresh), NegAge);
      var older := SortDesc(Filter(aged, IsOld), NegAge);
      var first := Take(young, if topN < 1 then 1 else topN);
      GroupSizes(aged);
      if |first| < topN then first + Take(older, topN - |first|) else first
  }

  /** select_top_papers. */
  function SelectTopPapers(papers: seq<Paper>, ages: seq<Option<int>>, topN: int): (r: seq<Paper>)
    requires |ages| == |papers|
    ensures |papers| <= topN ==> r == papers
  {
    Map(SelectAged(Aged(papers, ages), topN), PaperOf)
  }

  lemma FilterKeepsAll<T>(xs: seq<T>, keep: T -> bool, ys: seq<T>)
    requires multiset(ys) == multiset(Filter(xs, keep))
    ensures forall j | 0 <= j < |ys| :: keep(ys[j])
  {
    forall j | 0 <= j < |ys|
      ensures keep(ys[j])
    {
      assert ys[j] in multiset(Filter(xs, keep));
    }
  }

  /** Sorted young papers followed by sorted older ones are sorted. */
  lemma GroupsSorted(young: seq<(int, Paper)>, older: seq<(int, Paper)>)
    requires SortedDesc(young, NegAge) && SortedDesc(older, NegAge)
    requires forall j | 0 <= j < |young| :: IsFresh(young[j])
    requires forall j | 0 <= j < |older| :: IsOld(older[j])
    ensures SortedDesc(young + older, NegAge)
  {
    var both := young + older;
    forall i, j | 0 <= i < j < |both|
      ensures NegAge(both[i]) >= NegAge(both[j])
    {
      if j < |young| {
      } else if i >= |young| {
        assert both[i] == older[i - |young|] && both[j] == older[j - |young|];
      } else {
        assert IsFresh(both[i]) && IsOld(both[j]);
      }
    }
  }

  /** Within one age the two groups together keep the input order. */
  lemma GroupsSameKey(aged: seq<(int, Paper)>, young: seq<(int, Paper)>, older: seq<(int, Paper)>, k: int)
    requires WithKey(young, NegAge, k) == WithKey(Filter(aged, IsFresh), NegAge, k)
    requires WithKey(older, NegAge, k) == WithKey(Filter(aged, IsOld), NegAge, k)
    ensures WithKey(young + older, NegAge, k) == WithKey(aged, NegAge, k)
  {
    WithKeyAppend(young, older, NegAge, k);
    WithKeyFilter(aged, IsFresh, NegAge, k);
    WithKeyFilter(aged, IsOld, NegAge, k);
    if k >= -FreshDays {
      assert WithKey(young + older, NegAge, k) == WithKey(aged, NegAge, k) + [];
    } else {
      assert WithKey(young + older, NegAge, k) == [] + WithKey(aged, NegAge, k);
    }
  }

  /** The young group followed by the older group is the whole list sorted
      by age: every young age is below every older age, and within one age
      both keep the input order. */
  lemma {:induction false} GroupsAreOneSort(aged: seq<(int, Paper)>)
    ensures SortDesc(Filter(aged, IsFresh), NegAge) + SortDesc(Filter(aged, IsOld), NegAge)
            == SortDesc(aged, NegAge)
  {
    var young := SortDesc(Filter(aged, IsFresh), NegAge);
    var older := SortDesc(Filter(aged, IsOld), NegAge);
    var both := young + older;
    FilterKeepsAll(aged, IsFresh, young);
    FilterKeepsAll(aged, IsOld, older);
    GroupsSorted(young, older);
    forall k
      ensures WithKey(both, NegAge, k) == WithKey(aged, NegAge, k)
    {
      GroupsSameKey(aged, young, older, k);
    }
    SortedUnique(both, SortDesc(aged, NegAge), NegAge);
  }

  /** The two groups together hold every paper once. */
  lemma GroupSizes(aged: seq<(int, Paper)>)
    ensures |SortDesc(Filter(aged, IsFresh), NegAge)| + |SortDesc(Filter(aged, IsOld), NegAge)| == |aged|
  {
    CountComplement(aged, IsFresh, IsOld);
    assert |multiset(SortDesc(Filter(aged, IsFresh), NegAge))| == |multiset(Filter(aged, IsFresh))|;
    assert |multiset(SortDesc(Filter(aged, IsOld), NegAge))| == |multiset(Filter(aged, IsOld))|;
  }

  /** Cutting the young group and topping it up from the older group is
      cutting the two groups put together. */
  lemma TopUp<T>(young: seq<T>, older: seq<T>, n: nat)
    requires 1 <= n < |young| + |older|
    ensures (if |Take(young, n)| < n then Take(young, n) + Take(older, n - |Take(young, n)|) else Take(young, n))
            == (young + older)[..n]
  {
    if |young| < n {
      assert (young + older)[..n] == young + older[..n - |young|];
    } else {
      assert (young + older)[..n] == young[..n];
    }
  }

  /** When there are more papers than wanted, the selection is the `topN`
      youngest papers by one stable sort on age, with unparsable dates
      counting as 99 days: so its ages ascend, every paper left out is at
      least as old as every paper taken, and papers of equal age keep their
      input order. */
  lemma SelectIsYoungest(aged: seq<(int, Paper)>, topN: int)
    requires |aged| > topN >= 1
    ensures SelectAged(aged, topN) == TopBy(aged, NegAge, topN)
  {
    var young := SortDesc(Filter(aged, IsFresh), NegAge);
    var older := SortDesc(Filter(aged, IsOld), NegAge);
    GroupSizes(aged);
    TopUp(young, older, topN);
    assert SelectAged(aged, topN) == (young + older)[..topN];
    GroupsAreOneSort(aged);
    assert TopBy(aged, NegAge, topN) == SortDesc(aged, NegAge)[..topN];
  }

  /** With `topN` of zero or less the loop still takes one fresh paper. */
  lemma SelectNonPositive(aged: seq<(int, Paper)>, topN: int)
    requires topN <= 0 < |aged|
    ensures |SelectAged(aged, topN)| <= 1
    ensures |SelectAged(aged, topN)| == 1 <==> exists i | 0 <= i < |aged| :: IsFresh(aged[i])
  {
    var young := SortDesc(Filter(aged, IsFresh), NegAge);
    FilterNonEmpty(aged, IsFresh);
    assert SelectAged(aged, topN) == Take(young, 1);
  }

  // ------------------------------------------------------------- shortening

  const Ellipsis := "..."
  const FullStop := "。"

  /** `text[:max_length] + "..." if len(text) > max_length else text` */
  function Shorten(text: string, maxLength: nat): (r: string)
    ensures |text| <= maxLength ==> r == text
    ensures |text| > maxLength ==> |r| == maxLength + 3 && IsPrefix(r[..maxLength], text) && EndsWith(r, Ellipsis)
  {
    if |text| > maxLength then text[..maxLength] + Ellipsis else text
  }

  /** The sentence loop: each non-empty piece of the split, with its full
      stop put back, while the running length stays within `budget`; the
      first one that does not fit ends the loop. */
  function KeepSentences(pieces: seq<string>, budget: nat): (r: string)
    ensures |r| <= budget
    ensures r != "" ==> EndsWith(r, FullStop)
    decreases |pieces|
  {
    if |pieces| == 0 then ""
    else if pieces[0] == "" then KeepSentences(pieces[1..], budget)
    else if |pieces[0]| + 1 <= budget then
      var rest := KeepSentences(pieces[1..], budget - |pieces[0]| - 1);
      pieces[0] + FullStop + rest
    else ""
  }

  /** The shortening of a translation as written: when no whole sentence
      fits, `translated` is already "" and `translated[:max_length] + "..."`
      is just "...". */
  function SummarizeAsWritten(translated: string, maxLength: nat): (r: string)
    ensures |translated| <= maxLength ==> r == translated
    ensures |r| <= maxLength || r == Ellipsis
  {
    if |translated| <= maxLength then translated
    else
      var kept := KeepSentences(Split(translated, FullStop), maxLength);
      if kept == "" then kept + Ellipsis else kept
  }

  /** A translation longer than the limit with no full stop in it is
      reduced to "..." and nothing of it is kept. */
  lemma OneLongSentenceLost(translated: string, maxLength: nat)
    requires |translated| > maxLength && '。' !in translated
    ensures SummarizeAsWritten(translated, maxLength) == Ellipsis
  {
    SplitJoin([translated], '。');
    assert Join([translated], FullStop) == translated;
  }

  /** The evidently intended shortening: the whole sentences that fit, and
      when none does, the translation's first `max_length` characters
      followed by "...". */
  function Summarize(translated: string, maxLength: nat): (r: string)
    ensures |translated| <= maxLength ==> r == translated
    ensures |r| <= maxLength + 3
    ensures |translated| > maxLength && KeepSentences(Split(translated, FullStop), maxLength) != ""
            ==> r == KeepSentences(Split(translated, FullStop), maxLength)
    ensures |translated| > maxLength && KeepSentences(Split(translated, FullStop), maxLength) == ""
            ==> r == Shorten(translated, maxLength)
  {
    if |translated| <= maxLength then translated
    else
      var kept := KeepSentences(Split(translated, FullStop), maxLength);
      if kept == "" then translated[..maxLength] + Ellipsis
      else kept
  }

  /** The counterpart of `OneLongSentenceLost`: a long translation without a
      full stop keeps its first `max_length` characters. */
  lemma OneLongSentenceKept(translated: string, maxLength: nat)
    requires |translated| > maxLength && '。' !in translated
    ensures Summarize(translated, maxLength) == translated[..maxLength] + Ellipsis
  {
    SplitJoin([translated], '。');
    assert Join([translated], FullStop) == translated;
  }

  /** The two shortenings differ only where no whole sentence fits. */
  lemma SummariesAgree(translated: string, maxLength: nat)
    requires |translated| <= maxLength || KeepSentences(Split(translated, FullStop), maxLength) != ""
    ensures Summarize(translated, maxLength) == SummarizeAsWritten(translated, maxLength)
  {
  }

  /** translate_and_summarize: without an API key, or when the call raises
      (`answer` None), the text itself shortened; otherwise the stripped
      answer shortened by whole sentences as written, so a long answer
      with no sentence that fits becomes "...". */
  function TranslateAndSummarize(text: string, maxLength: nat, hasKey: bool, answer: Option<string>): (r: string)
    ensures !hasKey || answer.None? ==> r == Shorten(text, maxLength)
    ensures !hasKey || answer.None? ==> |r| <= Max(|text|, maxLength + 3)
    ensures hasKey && answer.Some? && |Trim(answer.value)| <= maxLength ==> r == Trim(answer.value)
    ensures hasKey && answer.Some? ==> |r| <= maxLength || r == Ellipsis
  {
    if !hasKey || answer.None? then Shorten(text, maxLength)
    else SummarizeAsWritten(Trim(answer.value), maxLength)
  }

  /** A long answer without a full stop reaches the mail as "...". */
  lemma LongAnswerLost(text: string, maxLength: nat, answer: string)
    requires |Trim(answer)| > maxLength && '。' !in Trim(answer)
    ensures TranslateAndSummarize(text, maxLength, true, Some(answer)) == Ellipsis
  {
    OneLongSentenceLost(Trim(answer), maxLength);
  }

  /** translate_and_summarize with the intended shortening. */
  function TranslateAndSummarizeCorrected(text: string, maxLength: nat, hasKey: bool, answer: Option<string>): (r: string)
    ensures !hasKey || answer.None? ==> r == Shorten(text, maxLength)
    ensures hasKey && answer.Some? && |Trim(answer.value)| <= maxLength ==> r == Trim(answer.value)
    ensures hasKey && answer.Some? ==> |r| <= maxLength + 3
  {
    if !hasKey || answer.None? then Shorten(text, maxLength)
    else Summarize(Trim(answer.value), maxLength)
  }

  /** With the intended shortening that answer keeps its first
      `max_length` characters. */
  lemma LongAnswerKept(text: string, maxLength: nat, answer: string)
    requires |Trim(answer)| > maxLength && '。' !in Trim(answer)
    ensures TranslateAndSummarizeCorrected(text, maxLength, true, Some(answer))
            == Trim(answer)[..maxLength] + Ellipsis
  {
    OneLongSentenceKept(Trim(answer), maxLength);
  }

  // ---------------------------------------------------------------- authors

  /** The last run of non-whitespace characters at the end of `t`. */
  function TrailingWord(t: string): (w: string)
    ensures |w| <= |t| && w == t[|t| - |w|..]
    ensures forall i | 0 <= i < |w| :: w[i] !in Whitespace
    decreases |t|
  {
    if |t| == 0 || t[|t| - 1] in Whitespace then ""
    else TrailingWord(t[..|t| - 1]) + [t[|t| - 1]]
  }

  /** `a.split()[-1]`: the last whitespace-separated word. A blank name has
      no words and the indexing raises. */
  function LastWord(a: string): (w: Option<string>)
    ensures w.None? <==> IsBlank(a)
    ensures w.Some? ==> w.value != "" && forall i | 0 <= i < |w.value| :: w.value[i] !in Whitespace
  {
    if IsBlank(a) then None
    else
      var t := RStrip(a, Whitespace);
      StripEmptyIff(a, Whitespace);
      assert |t| > 0;
      Some(TrailingWord(t))
  }

  lemma {:induction false} TrailingWordOf(pre: string, w: string)
    requires |pre| > 0 ==> pre[|pre| - 1] in Whitespace
    requires forall i | 0 <= i < |w| :: w[i] !in Whitespace
    ensures TrailingWord(pre + w) == w
    decreases |w|
  {
    if |w| == 0 {
      assert pre + w == pre;
    } else {
      var n := |w| - 1;
      assert (pre + w)[..|pre + w| - 1] == pre + w[..n];
      TrailingWordOf(pre, w[..n]);
      assert w[..n] + [w[n]] == w;
    }
  }

  /** The surname of "Given Family" is "Family". */
  lemma LastWordOfName(given: string, family: string)
    requires family != "" && forall i | 0 <= i < |family| :: family[i] !in Whitespace
    ensures LastWord(given + " " + family) == Some(family)
  {
    var a := given + " " + family;
    assert a[|a| - 1] !in Whitespace;
    assert a[|given|] !in Whitespace || a[|a| - 1] !in Whitespace;
    NonBlankAt(a, |a| - 1);
    assert RStrip(a, Whitespace) == a;
    TrailingWordOf(given + " ", family);
  }

  /** The surnames of a list of names, or None when one is blank. */
  function LastWords(names: seq<string>): (r: Option<seq<string>>)
    ensures r.Some? ==> |r.value| == |names|
  {
    MapAll(names, LastWord)
  }

  /** The surnames are missing exactly when some name is blank. */
  lemma LastWordsBlank(names: seq<string>)
    ensures LastWords(names).None? <==> exists i | 0 <= i < |names| :: IsBlank(names[i])
  {
    MapAllNone(names, LastWord);
    if LastWords(names).None? {
      var i :| 0 <= i < |names| && LastWord(names[i]).None?;
      assert IsBlank(names[i]);
    } else {
      forall i | 0 <= i < |names| ensures !IsBlank(names[i])
      {
        assert LastWord(names[i]).Some?;
      }
    }
  }

  /** The author line of format_paper_email: the first author's surname and
      "等" when there are more than two, else the surnames of the (at most
      two) authors joined by ", "; None when a name it needs is blank (the
      indexing raises). */
  function AuthorLine(authors: seq<string>): (r: Option<string>)
    ensures |authors| > 2 ==> (r.None? <==> IsBlank(authors[0]))
    ensures |authors| > 2 && !IsBlank(authors[0]) ==> r == Some(LastWord(authors[0]).value + " 等")
    ensures |authors| <= 2 ==> (r.None? <==> exists i | 0 <= i < |authors| :: IsBlank(authors[i]))
    ensures |authors| == 1 && !IsBlank(authors[0]) ==> r == Some(LastWord(authors[0]).value)
    ensures |authors| == 0 ==> r == Some("")
  {
    if |authors| > 2 then
      var w := LastWord(authors[0]);
      if w.None? then None else Some(w.value + " 等")
    else
      var ws := LastWords(authors);
      LastWordsBlank(authors);
      LastWordsSingle(authors);
      if ws.None? then None else Some(Join(ws.value, ", "))
  }

  lemma LastWordsSingle(names: seq<string>)
    ensures |names| == 1 && LastWord(names[0]).Some? ==> LastWords(names) == Some([LastWord(names[0]).value])
  {
    if |names| == 1 && LastWord(names[0]).Some? {
      assert LastWords([]) == Some([]);
      LastWordsCons(names[0], []);
      assert [names[0]] + [] == names;
      assert [LastWord(names[0]).value] + [] == [LastWord(names[0]).value];
    }
  }

  /** One author: the surname alone. */
  lemma OneAuthor(given: string, family: string)
    requires family != "" && forall i | 0 <= i < |family| :: family[i] !in Whitespace
    ensures AuthorLine([given + " " + family]) == Some(family)
  {
    LastWordOfName(given, family);
  }

  /** Three or more authors: only the first one's surname. */
  lemma ManyAuthors(given: string, family: string, others: seq<string>)
    requires family != "" && forall i | 0 <= i < |family| :: family[i] !in Whitespace
    requires |others| >= 2
    ensures AuthorLine([given + " " + family] + others) == Some(family + " 等")
  {
    LastWordOfName(given, family);
  }

  /** Two authors: both surnames. */
  lemma TwoAuthors(given1: string, family1: string, given2: string, family2: string)
    requires family1 != "" && forall i | 0 <= i < |family1| :: family1[i] !in Whitespace
    requires family2 != "" && forall i | 0 <= i < |family2| :: family2[i] !in Whitespace
    ensures AuthorLine([given1 + " " + family1, given2 + " " + family2]) == Some(family1 + ", " + family2)
  {
    var a1, a2 := given1 + " " + family1, given2 + " " + family2;
    LastWordOfName(given1, family1);
    LastWordOfName(given2, family2);
    assert LastWords([]) == Some([]);
    LastWordsCons(a2, []);
    assert [a2] + [] == [a2];
    assert [family2] + [] == [family2];
    assert LastWords([a2]) == Some([family2]);
    LastWordsCons(a1, [a2]);
    assert [a1] + [a2] == [a1, a2];
    assert [family1] + [family2] == [family1, family2];
    assert LastWords([a1, a2]) == Some([family1, family2]);
    assert [family1, family2][1..] == [family2];
    assert Join([family1, family2], ", ") == family1 + ", " + family2;
  }

  lemma LastWordsCons(a: string, names: seq<string>)
    ensures LastWords([a] + names)
            == if LastWord(a).None? || LastWords(names).None? then None
               else Some([LastWord(a).value] + LastWords(names).value)
  {
    assert ([a] + names)[1..] == names;
  }

  /** `title.replace('\n', ' ')`: every newline of the title becomes a
      space and every other character stays where it is. */
  function OneLineTitle(title: string): (r: string)
    ensures |r| == |title|
    ensures forall i | 0 <= i < |title| :: r[i] == if title[i] == '\n' then ' ' else title[i]
    ensures '\n' !in r
  {
    ReplaceCharByChar(title, '\n', ' ');
    Replace(title, "\n", " ")
  }

  // ---------------------------------------------------------------- sending

  const SendPause: nat := 2

  /** send_to_all_subscribers: False without a subscriber file; otherwise
      one send per subscriber, a two-second pause after every successful
      send but the last one, and True when at least one send succeeded. */
  method SendToAllSubscribers(file: Option<seq<string>>, sendOk: seq<bool>)
    returns (ok: bool, successCount: nat, sleeps: seq<nat>)
    requires file.Some? ==> |sendOk| == |SubscriberList(file.value)|
    ensures file.None? ==> !ok && successCount == 0 && sleeps == []
    ensures file.Some? ==> successCount == Count(sendOk, IsTrue) && successCount <= |sendOk|
    ensures file.Some? ==> (ok <==> exists i | 0 <= i < |sendOk| :: sendOk[i])
    ensures file.Some? ==> |sleeps| == if |sendOk| == 0 then 0 else Count(sendOk[..|sendOk| - 1], IsTrue)
    ensures forall i | 0 <= i < |sleeps| :: sleeps[i] == SendPause
  {
    ok, successCount, sleeps := false, 0, [];
    if file.None? {
      return;
    }
    var n := |sendOk|;
    var i := 0;
    while i < n
      invariant 0 <= i <= n
      invariant successCount == Count(sendOk[..i], IsTrue)
      invariant |sleeps| == if i == n && n > 0 then Count(sendOk[..n - 1], IsTrue) else successCount
      invariant forall k | 0 <= k < |sleeps| :: sleeps[k] == SendPause
    {
      CountNext(sendOk, i, IsTrue);
      if sendOk[i] {
        successCount := successCount + 1;
        if i + 1 < n {
          sleeps := sleeps + [SendPause];
        }
      }
      i := i + 1;
    }
    assert sendOk[..n] == sendOk;
    CountTrue(sendOk);
    ok := successCount > 0;
  }
}

=== FILE: batching.dfy ===
/** Contiguous batches, as every batched sender in the pipeline builds them
    with `recipients[i:i + size] for i in range(0, len(recipients), size)`. */
module Batching {
  import opened Seqs

  /** The number of batches of `size` that `n` items fill. */
  function BatchCount(n: nat, size: nat): (c: nat)
    requires size > 0
    ensures size * (c - 1) < n <= size * c
    ensures n == 0 <==> c == 0
  {
    if n == 0 then 0
    else if n <= size then 1
    else
      var c := BatchCount(n - size, size);
      assert size * c == size * (c + 1) - size;
      1 + c
  }

  /** The batches of `xs`: contiguous, in order, each non-empty and at most
      `size` long, all but the last exactly `size` long. */
  function Chunks<T>(xs: seq<T>, size: nat): (r: seq<seq<T>>)
    requires size > 0
    ensures Flatten(r) == xs
    ensures |r| == BatchCount(|xs|, size)
    ensures forall i | 0 <= i < |r| :: 0 < |r[i]| <= size
    ensures forall i | 0 <= i < |r| - 1 :: |r[i]| == size
    decreases |xs|
  {
    if |xs| == 0 then []
    else if |xs| <= size then
      assert Flatten([xs]) == xs + Flatten([xs][1..]);
      [xs]
    else
      var rest := Chunks(xs[size..], size);
      assert ([xs[..size]] + rest)[1..] == rest;
      assert xs == xs[..size] + xs[size..];
      [xs[..size]] + rest
  }
}

=== FILE: crawl.dfy ===
/** The stand-alone crawl (immediate_github_crawl.py): the trending page is
    fetched through four fixed IPs and then the domain, its items become
    numbered lines, the analysis service is skipped for short input, and the
    mail goes to one confirmation address; the subscriber round exists but a
    constant switches it off. Every request, the key lookup and every send
    are parameters. */
module Crawl {
  import opened Wrappers
  import opened Seqs
  import opened Text
  import opened Batching
  import opened Display
  import EmergencySend

  // ------------------------------------------------------------- fetching

  const GithubIps := ["140.82.121.3", "140.82.121.4", "140.82.112.3", "20.205.243.166"]
  const Unreachable := "无法连接到GitHub"

  /** scrape_github_trending: the IP answers in the order the IPs are
      tried; the first 200 wins, anything else moves on; after the last IP
      the domain's page is taken whatever its status, and only a domain
      request that raises makes the whole fetch fail. */
  function Fetch(ips: seq<Response>, domain: Response): (r: Result<seq<Item>>)
    ensures r.Err? ==> domain.Raised? && forall j | 0 <= j < |ips| :: !Usable(ips[j])
    decreases |ips|
  {
    if |ips| == 0 then
      if domain.Raised? then Err(Unreachable) else Ok(domain.items)
    else if Usable(ips[0]) then Ok(ips[0].items)
    else Fetch(ips[1..], domain)
  }

  /** The first IP that answers 200 supplies the page, whatever the later
      IPs and the domain would have done. */
  lemma {:induction false} FetchPicksFirst(ips: seq<Response>, domain: Response, k: nat)
    requires k < |ips| && Usable(ips[k])
    requires forall j | 0 <= j < k :: !Usable(ips[j])
    ensures Fetch(ips, domain) == Ok(ips[k].items)
    decreases k
  {
    if k > 0 {
      FetchPicksFirst(ips[1..], domain, k - 1);
    }
  }

  /** When no IP answers 200 the domain decides: its page is used even with
      a failing status, and the fetch fails only when it raises. */
  lemma {:induction false} FetchFallsToDomain(ips: seq<Response>, domain: Response)
    requires forall j | 0 <= j < |ips| :: !Usable(ips[j])
    ensures domain.Raised? <==> Fetch(ips, domain).Err?
    ensures domain.Answered? ==> Fetch(ips, domain) == Ok(domain.items)
    decreases |ips|
  {
    if |ips| > 0 {
      assert !Usable(ips[0]);
      FetchFallsToDomain(ips[1..], domain);
    }
  }

  // -------------------------------------------------------------- parsing

  const Unknown := "未知"

  /** The link of an item: the site plus `href`, or "未知" when `href` is
      missing or empty. */
  function Url(href: Option<string>): (r: string)
    ensures href.Some? && href.value != "" ==> r == "https://github.com" + href.value
    ensures href.None? || href.value == "" ==> r == Unknown
  {
    if href.Some? && href.value != "" then "https://github.com" + href.value else Unknown
  }

  predicate Titled(it: Item)
  {
    Trim(it.title) != ""
  }

  /** The line written for the item at a 1-based page position. */
  function Line(index: nat, it: Item): (r: string)
    ensures |r| > 0
  {
    NatToString(index) + ". [" + Trim(it.title) + "]:" + Trim(it.description) + "(" + Url(it.href) + ")"
  }

  /** The lines of the titled items among `items`, which start at page
      position `from`. */
  function Lines(items: seq<Item>, from: nat): (r: seq<string>)
    ensures |r| <= |items|
    ensures r == [] <==> forall i | 0 <= i < |items| :: !Titled(items[i])
    ensures forall i | 0 <= i < |r| :: |r[i]| > 0
    decreases |items|
  {
    if |items| == 0 then []
    else
      var rest := Lines(items[1..], from + 1);
      assert forall i | 1 <= i < |items| :: items[1..][i - 1] == items[i];
      (if Titled(items[0]) then [Line(from, items[0])] else []) + rest
  }

  /** parse_trending: the lines joined by newlines; empty exactly when no
      item has a title. */
  function ParseTrending(items: seq<Item>): (r: string)
    ensures r == "" <==> forall i | 0 <= i < |items| :: !Titled(items[i])
  {
    var lines := Lines(items, 1);
    assert |lines| > 0 ==> |Join(lines, "\n")| > 0 by {
      if |lines| > 0 {
        JoinHead(lines, "\n");
      }
    }
    Join(lines, "\n")
  }

  lemma JoinHead(parts: seq<string>, sep: string)
    requires |parts| > 0
    ensures |Join(parts, sep)| >= |parts[0]|
  {
  }

  /** An item with its page position. */
  function Numbered(items: seq<Item>, from: nat): (r: seq<(nat, Item)>)
    ensures |r| == |items|
  {
    seq(|items|, i requires 0 <= i < |items| => (from + i, items[i]))
  }

  predicate TitledAt(p: (nat, Item))
  {
    Titled(p.1)
  }

  function LineAt(p: (nat, Item)): string
  {
    Line(p.0, p.1)
  }

  /** The lines are the titled items, each numbered by its position among
      ALL items, so an untitled item leaves a gap in the numbering. */
  lemma {:induction false} LinesFiltered(items: seq<Item>, from: nat)
    ensures Lines(items, from) == Map(Filter(Numbered(items, from), TitledAt), LineAt)
    decreases |items|
  {
    if |items| > 0 {
      var ns := Numbered(items, from);
      NumberedTail(items, from);
      LinesFiltered(items[1..], from + 1);
      MapFilterCons(ns, TitledAt, LineAt);
      HeadLine(ns[0]);
    }
  }

  lemma NumberedTail(items: seq<Item>, from: nat)
    requires |items| > 0
    ensures Numbered(items, from)[0] == (from, items[0])
    ensures Numbered(items, from)[1..] == Numbered(items[1..], from + 1)
  {
  }

  lemma HeadLine(p: (nat, Item))
    ensures Map(if TitledAt(p) then [p] else [], LineAt) == if Titled(p.1) then [Line(p.0, p.1)] else []
  {
  }

  /** An untitled second item: the lines are numbered 1 and 3. */
  lemma IndexGap(a: Item, b: Item, c: Item)
    requires Titled(a) && !Titled(b) && Titled(c)
    ensures Lines([a, b, c], 1) == [Line(1, a), Line(3, c)]
  {
    assert [a, b, c][1..] == [b, c];
    assert [b, c][1..] == [c];
    assert [c][1..] == [];
    assert Lines([c], 3) == [Line(3, c)];
    assert Lines([b, c], 2) == [Line(3, c)];
    assert Lines([a, b, c], 1) == [Line(1, a)] + [Line(3, c)];
  }

  // ------------------------------------------------------------- analysis

  const ShortLimit := 50
  const ShortFallback := "## 今日GitHub趋势分析报告\n\n### 最惊艳项目\n网络连接优化测试 - 使用IP直接连接GitHub成功\n为什么惊艳：系统成功绕过了DNS解析问题，直接通过IP地址访问GitHub Trending，确保了数据获取的可靠性。\n\n### 项目分类概览\n- **网络优化**: 1个，如：IP直连技术\n- **系统韧性**: 1个，如：多IP重试机制\n\n### 今日技术趋势\n网络访问优化与容错设计成为关键\n\n### 深度洞察\n1. 直接IP连接可以有效绕过DNS解析问题\n2. 多IP轮询机制提高服务可用性\n3. 网络层优化对爬虫系统至关重要\n\n### 预测建议\n未来AI系统需要内置网络故障转移和智能路由选择"
  const ReportHead := "## GitHub趋势分析报告\n\n### 状态说明\n数据获取时间: "
  const ReportCount := "\n项目数量: "
  const ReportTail := "\n\n### 网络优化成果\n✅ 成功通过IP直连技术访问GitHub\n✅ 绕过了DNS解析问题\n✅ 数据获取可靠性提升\n\n### 今日亮点\n通过技术优化确保了AI信息流的持续更新。\n\n我是谢苹果，AI信息流2.0，由nanobot实时优化。"

  /** The report written when the service cannot be used, with the time
      and the project count filled in. */
  function Report(stamp: string, count: nat): (r: string)
    ensures StartsWith(r, ReportHead + stamp + ReportCount + NatToString(count))
    ensures EndsWith(r, ReportTail)
  {
    var front := ReportHead + stamp + ReportCount + NatToString(count);
    var r := front + ReportTail;
    assert r[..|front|] == front;
    assert r[|r| - |ReportTail|..] == ReportTail;
    r
  }

  /** The count as the report computes it: the text is split at the two
      characters backslash and 'n', not at a newline. */
  function CountAsWritten(text: string): (r: nat)
    ensures r >= 1
    ensures r == 1 <==> !Contains(text, "\\n")
  {
    |Split(text, "\\n")|
  }

  /** The count the report means: the number of lines, one more than the
      number of newlines. */
  function LineCount(text: string): (r: nat)
    ensures r >= 1
    ensures r == 1 <==> '\n' !in text
  {
    assert '\n' in text <==> Contains(text, "\n") by {
      if '\n' in text {
        var i :| 0 <= i < |text| && text[i] == '\n';
        assert text[i..i + 1] == "\n";
        ContainsWitness(text, "\n", i);
      }
      if Contains(text, "\n") {
        var i :| 0 <= i <= |text| - 1 && OccursAt(text, "\n", i);
        assert text[i] == text[i..i + 1][0];
      }
    }
    |Split(text, "\n")|
  }

  /** Text holding no backslash is always counted as one project. */
  lemma CountAsWrittenIsOne(text: string)
    requires '\\' !in text
    ensures CountAsWritten(text) == 1
  {
    AbsentCharNoOccurrence(text, "\\n", 0);
  }

  /** The number of lines of newline-joined lines is their number. */
  lemma LineCountJoin(lines: seq<string>)
    requires |lines| > 0
    requires forall i | 0 <= i < |lines| :: '\n' !in lines[i]
    ensures LineCount(Join(lines, "\n")) == |lines|
  {
    SplitJoin(lines, '\n');
  }

  /** Two lines without a backslash are reported as one project as
      written, two as meant. */
  lemma CountDiscrepancy(x: string, y: string)
    requires '\\' !in x && '\\' !in y && '\n' !in x && '\n' !in y
    ensures CountAsWritten(x + "\n" + y) == 1
    ensures LineCount(x + "\n" + y) == 2
  {
    assert '\\' !in x + "\n" + y;
    CountAsWrittenIsOne(x + "\n" + y);
    LineCountJoin([x, y]);
    assert Join([x, y], "\n") == x + "\n" + Join([y], "\n");
  }

  /** ai_analysis. Text under 50 characters once stripped (the empty text
      included) gets the fixed fallback without the service; otherwise a
      missing key or a failed call gets the report, counted as written. */
  function AnalyzeAsWritten(text: string, keySet: bool, reply: Option<string>, stamp: string): (r: string)
    ensures |Trim(text)| < ShortLimit ==> r == ShortFallback
    ensures |Trim(text)| >= ShortLimit && keySet && reply.Some? ==> r == reply.value
    ensures |Trim(text)| >= ShortLimit && !(keySet && reply.Some?) ==> r == Report(stamp, CountAsWritten(text))
  {
    if text == "" || |Trim(text)| < ShortLimit then ShortFallback
    else if !keySet || reply.None? then Report(stamp, CountAsWritten(text))
    else reply.value
  }

  /** ai_analysis with the report counting lines. */
  function Analyze(text: string, keySet: bool, reply: Option<string>, stamp: string): (r: string)
    ensures |Trim(text)| < ShortLimit ==> r == ShortFallback
    ensures |Trim(text)| >= ShortLimit && keySet && reply.Some? ==> r == reply.value
    ensures |Trim(text)| >= ShortLimit && !(keySet && reply.Some?) ==> r == Report(stamp, LineCount(text))
  {
    if text == "" || |Trim(text)| < ShortLimit then ShortFallback
    else if !keySet || reply.None? then Report(stamp, LineCount(text))
    else reply.value
  }

  /** A report on parsed lines counts every line. */
  lemma ReportCountsLines(lines: seq<string>, stamp: string)
    requires |lines| > 0
    requires forall i | 0 <= i < |lines| :: '\n' !in lines[i]
    requires |Trim(Join(lines, "\n"))| >= ShortLimit
    ensures Analyze(Join(lines, "\n"), false, None, stamp) == Report(stamp, |lines|)
  {
    LineCountJoin(lines);
  }

  /** One short project is real data, yet it gets the fixed fallback. */
  lemma OneShortProject()
    ensures ParseTrending([Item("a", "", None)]) == "1. [a]:(" + Unknown + ")"
    ensures Analyze(ParseTrending([Item("a", "", None)]), true, Some("reply"), "") == ShortFallback
  {
    var it := Item("a", "", None);
    var text := "1. [a]:(" + Unknown + ")";
    StripUnchanged("a", Whitespace);
    SingleLine(it);
    ShortLine(it);
    ShortFallbackFor(text, true, Some("reply"), "");
  }

  /** A single titled item gives its own line. */
  lemma SingleLine(it: Item)
    requires Titled(it)
    ensures ParseTrending([it]) == Line(1, it)
  {
    assert [it][1..] == [];
    assert Lines([it], 1) == [Line(1, it)];
  }

  lemma ShortLine(it: Item)
    requires it == Item("a", "", None) && Trim("a") == "a"
    ensures Line(1, it) == "1. [a]:(" + Unknown + ")"
  {
    StripEmpty(Whitespace);
    assert NatToString(1) == "1";
  }

  /** Text shorter than the limit gets the fallback whatever the service
      would say. */
  lemma ShortFallbackFor(text: string, keySet: bool, reply: Option<string>, stamp: string)
    requires |text| < ShortLimit
    ensures Analyze(text, keySet, reply, stamp) == ShortFallback
  {
    assert |Trim(text)| <= |text|;
  }

  // -------------------------------------------------------------- sending

  const Confirmation := "pxxhl@qq.com"
  const SendToSubscribers := false
  const BatchSize := 20
  const BatchPause := 2

  /** The mail password: the current variable, or the old misspelt one when
      the current one is unset or empty. */
  function AuthCode(current: Option<string>, legacy: Option<string>): (r: Option<string>)
    ensures r.Some? ==> r.value != ""
    ensures current.Some? && current.value != "" ==> r == current
    ensures r.None? <==> (current.None? || current.value == "") && (legacy.None? || legacy.value == "")
  {
    if current.Some? && current.value != "" then current
    else if legacy.Some? && legacy.value != "" then legacy
    else None
  }

  /** get_emails: every line of the file, blank ones included. */
  function GetEmails(file: string): (r: seq<string>)
    ensures forall i | 0 <= i < |r| :: '\n' !in r[i]
  {
    SplitLines(file)
  }

  /** A file written line by line reads back with its blank lines. */
  lemma BlankLinesKept(lines: seq<string>)
    requires forall i | 0 <= i < |lines| :: '\n' !in lines[i]
    ensures GetEmails(Terminated(lines)) == lines
  {
    SplitLinesTerminated(lines);
  }

  /** The subscriber round the constant switches off: batches of 20 in
      order, each followed by a 2-second pause, the last one included; a
      refused batch raises and ends the round. */
  function SubscriberRound(emails: seq<string>, batchOk: seq<bool>): (r: (seq<seq<string>>, seq<nat>))
    requires |batchOk| == |Chunks(emails, BatchSize)|
    ensures var batches := Chunks(emails, BatchSize);
            && r.0 == Take(batches, EmergencySend.AcceptedRun(batchOk, |batches|))
            && |r.1| == |r.0|
            && (forall i | 0 <= i < |r.1| :: r.1[i] == BatchPause)
            && (forall i | 0 <= i < |r.0| :: 0 < |r.0[i]| <= BatchSize)
  {
    var batches := Chunks(emails, BatchSize);
    var k := EmergencySend.AcceptedRun(batchOk, |batches|);
    (batches[..k], seq(k, _ => BatchPause))
  }

  /** When every batch goes through, every subscriber gets the mail exactly
      once, in file order. */
  lemma RoundReachesAll(emails: seq<string>, batchOk: seq<bool>)
    requires |batchOk| == |Chunks(emails, BatchSize)|
    requires forall j | 0 <= j < |batchOk| :: batchOk[j]
    ensures Flatten(SubscriberRound(emails, batchOk).0) == emails
    ensures |SubscriberRound(emails, batchOk).1| == BatchCount(|emails|, BatchSize)
  {
    var batches := Chunks(emails, BatchSize);
    var k := EmergencySend.AcceptedRun(batchOk, |batches|);
    assert k == |batches|;
    assert batches[..k] == batches;
  }

  /** send_email: no password gives false before connecting; a refused
      confirmation gives false; otherwise the confirmation address alone
      gets the mail, since the subscriber round is switched off. */
  method SendEmail(current: Option<string>, legacy: Option<string>, confirmed: bool)
    returns (ok: bool, sent: seq<seq<string>>)
    ensures ok <==> AuthCode(current, legacy).Some? && confirmed
    ensures ok ==> sent == [[Confirmation]]
    ensures !ok ==> sent == []
  {
    ok, sent := false, [];
    var auth := AuthCode(current, legacy);
    if auth.None? {
      return;
    }
    if !confirmed {
      return;
    }
    sent := [[Confirmation]];
    ok := true;
  }
}

=== FILE: deals.dfy ===
/** The "AI deals" aggregator (ai_deals_all_app.py): Hacker News search hits,
    links from awesome-lists on GitHub and V2EX hot topics are filtered by
    keyword, ranked, grouped by source and written to a report; a daily job
    retries scraping and analysis up to three times; the analysis is turned
    into the body of an HTML mail. Every fetch is an oracle argument. */
module Deals {
  import opened Wrappers
  import opened Seqs
  import opened Text
  import opened Sorting
  import opened Dict
  import Retry

  /** One aggregated item, the dict every scraper appends. */
  datatype Deal = Deal(source: string, title: string, url: string, score: int)

  /** The ranking key of a deal: its points, comments or replies. */
  function DealScore(d: Deal): int
  {
    d.score
  }

  /** What a request produced: the decoded JSON list (HTTP 200), or nothing
      (another status, or an exception that the per-request handler swallowed). */
  datatype Fetch<T> = Fetched(items: seq<T>) | NotFetched

  function Items<T>(responses: seq<Fetch<T>>): (r: seq<T>)
    ensures responses == [] ==> r == []
  {
    if |responses| == 0 then []
    else (if responses[0].Fetched? then responses[0].items else []) + Items(responses[1..])
  }

  // ---------------------------------------------------------------- Hacker News

  const HnQueries: seq<string> := [
    "AI free", "GPT free", "LLM free", "AI API free",
    "ChatGPT deal", "AI launch", "AI beta", "OpenAI credit",
    "Claude free", "AI token", "AI discount", "AI promo"
  ]
  const HnAiTerms: seq<string> := ["ai", "gpt", "llm", "chatgpt", "claude", "openai", "model", "api"]
  const HnDealTerms: seq<string> := ["free", "deal", "discount", "promo", "credit", "trial", "launch", "beta"]
  const HnSource := "Hacker News"
  const HnLimit := 15

  /** A search hit. An absent `objectID` or `title` reads as "", an absent
      `points` as 0; only the `url` key is told apart from an empty value. */
  datatype Hit = Hit(objectID: string, title: string, url: Option<string>, points: int)

  /** A retained post: the deal and the `objectID` kept for de-duplication. */
  datatype HnPost = HnPost(id: string, deal: Deal)

  function PostScore(p: HnPost): int
  {
    p.deal.score
  }

  /** The two-set gate: the lowercased title names an AI term AND a deal term. */
  predicate HnGate(title: string)
  {
    ContainsAny(Lower(title), HnAiTerms) && ContainsAny(Lower(title), HnDealTerms)
  }

  function HnUrl(h: Hit): string
  {
    match h.url
    case Some(u) => u
    case None => "https://news.ycombinator.com/item?id=" + h.objectID
  }

  function HnPostOf(h: Hit): HnPost
  {
    HnPost(h.objectID, Deal(HnSource, h.title, HnUrl(h), h.points))
  }

  function Ids(posts: seq<HnPost>): (ids: seq<string>)
    ensures |ids| == |posts|
    ensures forall i | 0 <= i < |posts| :: ids[i] == posts[i].id
  {
    Map(posts, (p: HnPost) => p.id)
  }

  /** Every retained post has a non-empty id, passes the gate, and no two
      share an id. */
  predicate WellFormedPosts(posts: seq<HnPost>)
  {
    (forall i | 0 <= i < |posts| ::
       posts[i].id != "" && HnGate(posts[i].deal.title) && posts[i].deal.source == HnSource)
    && (forall i, j | 0 <= i < j < |posts| :: posts[i].id != posts[j].id)
  }

  /** The per-hit step of the search loop: skip a hit without id, skip an id
      already retained, keep a hit that passes the gate. */
  function HnStep(posts: seq<HnPost>, h: Hit): seq<HnPost>
  {
    if h.objectID == "" then posts
    else if h.objectID in Ids(posts) then posts
    else if !HnGate(h.title) then posts
    else posts + [HnPostOf(h)]
  }

  lemma HnStepFacts(posts: seq<HnPost>, h: Hit)
    requires WellFormedPosts(posts)
    ensures WellFormedPosts(HnStep(posts, h))
    ensures IsPrefix(posts, HnStep(posts, h))
    ensures forall i | |posts| <= i < |HnStep(posts, h)| :: HnStep(posts, h)[i] == HnPostOf(h)
    ensures h.objectID != "" && HnGate(h.title) ==> h.objectID in Ids(HnStep(posts, h))
    ensures forall id | id in Ids(posts) :: id in Ids(HnStep(posts, h))
  {
    var next := HnStep(posts, h);
    assert next[..|posts|] == posts;
    forall id | id in Ids(posts) ensures id in Ids(next)
    {
      var i :| 0 <= i < |posts| && Ids(posts)[i] == id;
      assert Ids(next)[i] == id;
    }
    if next != posts {
      assert Ids(next)[|posts|] == h.objectID;
      forall i | 0 <= i < |posts| ensures posts[i].id != h.objectID
      {
        assert Ids(posts)[i] == posts[i].id;
      }
    }
  }

  /** The search loop over all hits of all queries, in order. */
  function HnCollect(posts: seq<HnPost>, hits: seq<Hit>): (r: seq<HnPost>)
    requires WellFormedPosts(posts)
    ensures WellFormedPosts(r)
    ensures IsPrefix(posts, r)
    ensures forall i | |posts| <= i < |r| :: r[i] in Map(hits, HnPostOf)
    ensures forall j | 0 <= j < |hits| ::
              hits[j].objectID != "" && HnGate(hits[j].title) ==> hits[j].objectID in Ids(r)
    ensures forall id | id in Ids(posts) :: id in Ids(r)
    decreases |hits|
  {
    if |hits| == 0 then posts
    else
      var next := HnStep(posts, hits[0]);
      HnStepFacts(posts, hits[0]);
      var r := HnCollect(next, hits[1..]);
      HnCollectShift(posts, next, r, hits);
      r
  }

  lemma HnCollectShift(posts: seq<HnPost>, next: seq<HnPost>, r: seq<HnPost>, hits: seq<Hit>)
    requires |hits| > 0
    requires IsPrefix(posts, next) && IsPrefix(next, r)
    requires forall i | |posts| <= i < |next| :: next[i] == HnPostOf(hits[0])
    requires forall i | |next| <= i < |r| :: r[i] in Map(hits[1..], HnPostOf)
    requires hits[0].objectID != "" && HnGate(hits[0].title) ==> hits[0].objectID in Ids(next)
    requires forall id | id in Ids(next) :: id in Ids(r)
    requires forall j | 0 <= j < |hits[1..]| ::
               hits[1..][j].objectID != "" && HnGate(hits[1..][j].title) ==> hits[1..][j].objectID in Ids(r)
    ensures IsPrefix(posts, r)
    ensures forall i | |posts| <= i < |r| :: r[i] in Map(hits, HnPostOf)
    ensures forall j | 0 <= j < |hits| ::
              hits[j].objectID != "" && HnGate(hits[j].title) ==> hits[j].objectID in Ids(r)
  {
    assert Map(hits, HnPostOf) == [HnPostOf(hits[0])] + Map(hits[1..], HnPostOf);
    forall i | |posts| <= i < |r| ensures r[i] in Map(hits, HnPostOf)
    {
      if i < |next| {
        assert r[i] == next[i];
      }
    }
    forall j | 1 <= j < |hits| ensures hits[j] == hits[1..][j - 1] { }
  }

  /** scrape_hackernews: the hits of the 12 queries (one response per query),
      de-duplicated and gated, then the 15 highest-scoring posts, best first,
      ties in retrieval order. */
  function ScrapeHackerNews(responses: seq<Fetch<Hit>>): (r: seq<HnPost>)
    requires |responses| == |HnQueries|
    ensures |r| == Min(HnLimit, |HnCollect([], Items(responses))|)
    ensures WellFormedPosts(r)
    ensures SortedDesc(r, PostScore)
    ensures multiset(r) <= multiset(HnCollect([], Items(responses)))
    ensures forall x | x in multiset(HnCollect([], Items(responses))) - multiset(r) ::
              forall i | 0 <= i < |r| :: x.deal.score <= r[i].deal.score
    ensures forall k :: IsPrefix(WithKey(r, PostScore, k),
                                 WithKey(HnCollect([], Items(responses)), PostScore, k))
  {
    var posts := HnCollect([], Items(responses));
    var top := TopBy(posts, PostScore, HnLimit);
    SubsetKeepsWellFormed(top, posts);
    top
  }

  lemma SubsetKeepsWellFormed(sub: seq<HnPost>, posts: seq<HnPost>)
    requires WellFormedPosts(posts)
    requires multiset(sub) <= multiset(posts)
    ensures WellFormedPosts(sub)
  {
    forall i | 0 <= i < |sub|
      ensures sub[i] in posts
    {
      assert sub[i] in multiset(sub);
    }
    forall i, j | 0 <= i < j < |sub|
      ensures sub[i].id != sub[j].id
    {
      var k :| 0 <= k < |posts| && posts[k] == sub[i];
      var l :| 0 <= l < |posts| && posts[l] == sub[j];
      if k == l {
        TwiceCounted(sub, i, j);
        DistinctOnce(posts, k);
      }
    }
  }

  lemma TwiceCounted<T>(s: seq<T>, i: nat, j: nat)
    requires i < j < |s| && s[i] == s[j]
    ensures multiset(s)[s[i]] >= 2
  {
    assert s == s[..i] + [s[i]] + s[i + 1..j] + [s[j]] + s[j + 1..];
  }

  /** In a sequence with pairwise distinct ids every element occurs once. */
  lemma DistinctOnce(posts: seq<HnPost>, k: nat)
    requires k < |posts|
    requires forall i, j | 0 <= i < j < |posts| :: posts[i].id != posts[j].id
    ensures multiset(posts)[posts[k]] == 1
  {
    var x := posts[k];
    assert posts == posts[..k] + [x] + posts[k + 1..];
    assert x !in posts[..k] by {
      forall i | 0 <= i < k ensures posts[i] != x { assert posts[i].id != posts[k].id; }
    }
    assert x !in posts[k + 1..] by {
      forall j | k < j < |posts| ensures posts[j] != x { assert posts[k].id != posts[j].id; }
    }
  }

  /** The first hit with a given id wins; a later hit with the same id is
      dropped even when its title differs. */
  lemma FirstSeenWins(h1: Hit, h2: Hit)
    requires h1.objectID != "" && HnGate(h1.title)
    requires h2.objectID == h1.objectID
    ensures HnCollect([], [h1, h2]) == [HnPostOf(h1)]
  {
    var one := HnStep([], h1);
    assert one == [HnPostOf(h1)];
    assert Ids(one)[0] == h2.objectID;
    assert HnStep(one, h2) == one;
    assert [h1, h2][1..] == [h2];
    assert [h2][1..] == [];
    assert HnCollect(one, []) == one;
    assert HnCollect(one, [h2]) == HnCollect(one, []);
  }

  // ----------------------------------------------------------- GitHub awesome

  const AwesomeRepos: seq<string> := [
    "LiLittleCat/awesome-free-chatgpt",
    "sindresorhus/awesome-chatgpt",
    "f/awesome-chatgpt-prompts",
    "humanloop/awesome-chatgpt"
  ]
  const AwesomeKeywords: seq<string> := ["free", "api", "token", "credit", "trial", "免费"]
  const AwesomeLimit := 10

  /** A link in the README article: its text and its `href`, if any. */
  datatype Link = Link(text: string, href: Option<string>)

  /** `repo.split("/")[1]`. */
  function RepoName(repo: string): string
  {
    var parts := Split(repo, "/");
    if |parts| >= 2 then parts[1] else ""
  }

  /** An absolute href is kept, a relative one is resolved against github.com. */
  function LinkUrl(href: string): (u: string)
    ensures StartsWith(u, "http")
    ensures StartsWith(href, "http") ==> u == href
    ensures !StartsWith(href, "http") ==> EndsWith(u, href)
  {
    if StartsWith(href, "http") then href
    else
      assert ("https://github.com" + href)[..4] == "http";
      "https://github.com" + href
  }

  /** A link the loop keeps: its lowercased text names a keyword. */
  predicate AwesomeMatch(l: Link)
  {
    ContainsAny(Lower(l.text), AwesomeKeywords)
  }

  /** A matching link without `href`, on which `href.startswith` raises. */
  predicate Hrefless(l: Link)
  {
    AwesomeMatch(l) && l.href.None?
  }

  /** The item appended for a matching link. */
  function AwesomeDeal(source: string, text: string, href: string): Deal
  {
    Deal(source, text, LinkUrl(href), 0)
  }

  /** The link loop of one repository. A matching link without `href` raises
      (`None.startswith`); the handler around the repository drops the rest
      of its links, the items already appended stay. When every matching
      link has an href, the items are the matching links, in order. */
  function AwesomeItems(source: string, links: seq<Link>): (r: seq<Deal>)
    ensures |r| <= |links|
  {
    if |links| == 0 then []
    else if !AwesomeMatch(links[0]) then AwesomeItems(source, links[1..])
    else match links[0].href
      case None => []
      case Some(h) => [AwesomeDeal(source, links[0].text, h)] + AwesomeItems(source, links[1..])
  }

  /** Every item comes from a matching link: it carries the list's source
      name, score 0 and an absolute address. */
  lemma {:induction false} AwesomeItemsShape(source: string, links: seq<Link>)
    ensures forall i | 0 <= i < |AwesomeItems(source, links)| ::
              var d := AwesomeItems(source, links)[i];
              d.source == source && d.score == 0 && StartsWith(d.url, "http")
              && ContainsAny(Lower(d.title), AwesomeKeywords)
    decreases |links|
  {
    if |links| > 0 {
      AwesomeItemsShape(source, links[1..]);
    }
  }

  /** When every matching link has an href, the items are the matching
      links, in order: the i-th item is built from the i-th matching link. */
  lemma {:induction false} AwesomeItemsLinked(source: string, links: seq<Link>)
    requires AllLinked(links)
    ensures |AwesomeItems(source, links)| == Count(links, AwesomeMatch)
    ensures forall i | 0 <= i < |AwesomeItems(source, links)| ::
              var l := Filter(links, AwesomeMatch)[i];
              l.href.Some? && AwesomeItems(source, links)[i] == AwesomeDeal(source, l.text, l.href.value)
    decreases |links|
  {
    if |links| > 0 {
      AwesomeItemsLinked(source, links[1..]);
      var rest := AwesomeItems(source, links[1..]);
      var kept := Filter(links[1..], AwesomeMatch);
      if AwesomeMatch(links[0]) {
        var h := links[0].href.value;
        assert AwesomeItems(source, links) == [AwesomeDeal(source, links[0].text, h)] + rest;
        assert Filter(links, AwesomeMatch) == [links[0]] + kept;
      } else {
        assert AwesomeItems(source, links) == rest;
        assert Filter(links, AwesomeMatch) == kept;
      }
    }
  }

  /** No matching link lacks its href, so the link loop never raises. */
  predicate AllLinked(links: seq<Link>)
  {
    forall j | 0 <= j < |links| :: !Hrefless(links[j])
  }

  /** The item, if any, that a link which does not raise contributes. */
  function AwesomeHead(source: string, l: Link): seq<Deal>
    requires !Hrefless(l)
  {
    if AwesomeMatch(l) then [AwesomeDeal(source, l.text, l.href.value)] else []
  }

  /** One loop pass over a link that does not raise. */
  lemma AwesomeCons(source: string, l: Link, rest: seq<Link>)
    requires !Hrefless(l)
    ensures AwesomeItems(source, [l] + rest) == AwesomeHead(source, l) + AwesomeItems(source, rest)
  {
    assert ([l] + rest)[0] == l && ([l] + rest)[1..] == rest;
  }

  lemma AllLinkedTail(links: seq<Link>)
    requires |links| > 0 && AllLinked(links)
    ensures !Hrefless(links[0]) && AllLinked(links[1..])
  {
    assert forall j | 0 <= j < |links[1..]| :: links[1..][j] == links[j + 1];
  }

  /** The inductive step of `AwesomeItemsAppend`. */
  lemma AwesomeAppendStep(source: string, l: Link, rest: seq<Link>, b: seq<Link>)
    requires !Hrefless(l)
    requires AwesomeItems(source, rest + b) == AwesomeItems(source, rest) + AwesomeItems(source, b)
    ensures AwesomeItems(source, [l] + rest + b) == AwesomeItems(source, [l] + rest) + AwesomeItems(source, b)
  {
    AwesomeCons(source, l, rest + b);
    AwesomeCons(source, l, rest);
    ConsAppendStep((links: seq<Link>) => AwesomeItems(source, links), AwesomeHead(source, l), l, rest, b);
  }

  /** Links scanned in two runs give the items of both runs, provided the
      first run never raises. */
  lemma {:induction false} AwesomeItemsAppend(source: string, a: seq<Link>, b: seq<Link>)
    requires AllLinked(a)
    ensures AwesomeItems(source, a + b) == AwesomeItems(source, a) + AwesomeItems(source, b)
    decreases |a|
  {
    if |a| == 0 {
      assert a + b == b;
    } else {
      AllLinkedTail(a);
      AwesomeItemsAppend(source, a[1..], b);
      AwesomeAppendStep(source, a[0], a[1..], b);
      assert [a[0]] + a[1..] == a;
    }
  }

  /** The first matching link without an href ends the repository's items:
      the links after it are never looked at. */
  lemma AwesomeStops(source: string, a: seq<Link>, l: Link, b: seq<Link>)
    requires AllLinked(a)
    requires Hrefless(l)
    ensures AwesomeItems(source, a + [l] + b) == AwesomeItems(source, a)
  {
    assert a + [l] + b == a + ([l] + b);
    AwesomeItemsAppend(source, a, [l] + b);
    assert ([l] + b)[0] == l;
  }

  /** The items of one repository: nothing when either request failed. */
  function RepoItems(repo: string, page: Option<seq<Link>>): seq<Deal>
  {
    match page
    case None => []
    case Some(links) => AwesomeItems("GitHub/" + RepoName(repo), links)
  }

  /** The repository loop: each repository's items after the previous ones. */
  function AllAwesomeItems(repos: seq<string>, pages: seq<Option<seq<Link>>>): (r: seq<Deal>)
    requires |pages| == |repos|
    ensures (forall k | 0 <= k < |pages| :: pages[k].None?) ==> r == []
  {
    if |repos| == 0 then []
    else RepoItems(repos[0], pages[0]) + AllAwesomeItems(repos[1..], pages[1..])
  }

  /** Every item comes from a matching link of one of the repositories. */
  lemma {:induction false} AllAwesomeShape(repos: seq<string>, pages: seq<Option<seq<Link>>>)
    requires |pages| == |repos|
    ensures forall i | 0 <= i < |AllAwesomeItems(repos, pages)| ::
              var d := AllAwesomeItems(repos, pages)[i];
              d.score == 0 && StartsWith(d.url, "http") && ContainsAny(Lower(d.title), AwesomeKeywords)
              && exists k | 0 <= k < |repos| :: d.source == "GitHub/" + RepoName(repos[k])
    decreases |repos|
  {
    if |repos| > 0 {
      var head := RepoItems(repos[0], pages[0]);
      var rest := AllAwesomeItems(repos[1..], pages[1..]);
      AllAwesomeShape(repos[1..], pages[1..]);
      if pages[0].Some? {
        AwesomeItemsShape("GitHub/" + RepoName(repos[0]), pages[0].value);
      }
      var all: seq<Deal> := head + rest;
      forall i | 0 <= i < |all|
        ensures all[i].score == 0 && StartsWith(all[i].url, "http") && ContainsAny(Lower(all[i].title), AwesomeKeywords)
                && exists k | 0 <= k < |repos| :: all[i].source == "GitHub/" + RepoName(repos[k])
      {
        if i < |head| {
          assert all[i] == head[i];
          assert head[i].source == "GitHub/" + RepoName(repos[0]);
        } else {
          assert all[i] == rest[i - |head|];
          var k :| 0 <= k < |repos[1..]| && rest[i - |head|].source == "GitHub/" + RepoName(repos[1..][k]);
          assert rest[i - |head|].source == "GitHub/" + RepoName(repos[k + 1]);
        }
      }
    }
  }

  /** Repositories scanned in two runs give the items of both runs, in order. */
  lemma {:induction false} AllAwesomeAppend(repos1: seq<string>, pages1: seq<Option<seq<Link>>>,
                                            repos2: seq<string>, pages2: seq<Option<seq<Link>>>)
    requires |pages1| == |repos1| && |pages2| == |repos2|
    ensures AllAwesomeItems(repos1 + repos2, pages1 + pages2)
            == AllAwesomeItems(repos1, pages1) + AllAwesomeItems(repos2, pages2)
    decreases |repos1|
  {
    if |repos1| == 0 {
      assert repos1 + repos2 == repos2;
      assert pages1 + pages2 == pages2;
    } else {
      var repos, pages := repos1 + repos2, pages1 + pages2;
      assert repos[0] == repos1[0] && repos[1..] == repos1[1..] + repos2;
      assert pages[0] == pages1[0] && pages[1..] == pages1[1..] + pages2;
      AllAwesomeAppend(repos1[1..], pages1[1..], repos2, pages2);
      var head := RepoItems(repos1[0], pages1[0]);
      var rest1 := AllAwesomeItems(repos1[1..], pages1[1..]);
      var more := AllAwesomeItems(repos2, pages2);
      calc {
        AllAwesomeItems(repos, pages);
        head + AllAwesomeItems(repos1[1..] + repos2, pages1[1..] + pages2);
        head + (rest1 + more);
        (head + rest1) + more;
      }
    }
  }

  /** One repository gives its own items. */
  lemma AllAwesomeOne(repo: string, page: Option<seq<Link>>)
    ensures AllAwesomeItems([repo], [page]) == RepoItems(repo, page)
  {
  }

  /** scrape_github_awesome: the first 10 matching links over the four lists,
      in page order; there is no ranking, every score is 0. */
  function ScrapeGithubAwesome(pages: seq<Option<seq<Link>>>): (r: seq<Deal>)
    requires |pages| == |AwesomeRepos|
    ensures |r| == Min(AwesomeLimit, |AllAwesomeItems(AwesomeRepos, pages)|)
    ensures IsPrefix(r, AllAwesomeItems(AwesomeRepos, pages))
    ensures forall i | 0 <= i < |r| ::
              r[i].score == 0 && ContainsAny(Lower(r[i].title), AwesomeKeywords)
              && exists k | 0 <= k < |AwesomeRepos| :: r[i].source == "GitHub/" + RepoName(AwesomeRepos[k])
  {
    AllAwesomeShape(AwesomeRepos, pages);
    Take(AllAwesomeItems(AwesomeRepos, pages), AwesomeLimit)
  }

  // --------------------------------------------------------------------- V2EX

  const V2exNodes: seq<string> := ["ai", "chatgpt", "programmer", "create"]
  /** The request URL does not depend on the node: every node fetches the
      same hot-topics list. */
  const V2exHotUrl := "https://www.v2ex.com/api/topics/hot.json"
  const V2exAiTerms: seq<string> := ["ai", "gpt", "chatgpt", "claude", "openai", "llm", "大模型", "api"]
  const V2exDealTerms: seq<string> := ["free", "deal", "discount", "promo", "credit", "trial", "免费", "优惠", "折扣", "送"]
  const V2exLimit := 10

  /** A hot topic; `id` is the text `str(topic.get('id', ''))`. */
  datatype Topic = Topic(id: string, title: string, content: string, replies: int)

  /** Each keyword set may match in the lowercased title or the lowercased content. */
  predicate V2exGate(t: Topic)
  {
    (ContainsAny(Lower(t.title), V2exAiTerms) || ContainsAny(Lower(t.content), V2exAiTerms))
    && (ContainsAny(Lower(t.title), V2exDealTerms) || ContainsAny(Lower(t.content), V2exDealTerms))
  }

  function V2exDeal(t: Topic): Deal
  {
    Deal("V2EX", t.title, "https://www.v2ex.com/t/" + t.id, t.replies)
  }

  /** The topic loop: no de-duplication, every gated topic is appended. */
  function V2exCollect(topics: seq<Topic>): (r: seq<Deal>)
    ensures |r| == Count(topics, V2exGate)
    ensures forall i | 0 <= i < |r| :: r[i].source == "V2EX"
    ensures forall t | t in topics && V2exGate(t) :: V2exDeal(t) in r
  {
    var kept := Filter(topics, V2exGate);
    var r := Map(kept, V2exDeal);
    forall t | t in topics && V2exGate(t)
      ensures V2exDeal(t) in r
    {
      FilterMembers(topics, V2exGate, t);
      var j :| 0 <= j < |kept| && kept[j] == t;
      assert r[j] == V2exDeal(t);
    }
    r
  }

  /** Collecting two topic lists in a row is collecting their concatenation,
      so the deals keep the order of their topics. */
  lemma V2exCollectAppend(a: seq<Topic>, b: seq<Topic>)
    ensures V2exCollect(a + b) == V2exCollect(a) + V2exCollect(b)
  {
    FilterAppend(a, b, V2exGate);
    MapAppend(Filter(a, V2exGate), Filter(b, V2exGate), V2exDeal);
  }

  /** One topic gives its deal exactly when it passes the gate. */
  lemma V2exCollectOne(t: Topic)
    ensures V2exCollect([t]) == if V2exGate(t) then [V2exDeal(t)] else []
  {
    assert [t][1..] == [];
  }

  /** scrape_v2ex: the gated topics of the four node requests, the 10 with
      most replies, best first. */
  function ScrapeV2ex(responses: seq<Fetch<Topic>>): (r: seq<Deal>)
    requires |responses| == |V2exNodes|
    ensures |r| == Min(V2exLimit, |V2exCollect(Items(responses))|)
    ensures SortedDesc(r, DealScore)
    ensures forall i | 0 <= i < |r| :: r[i].source == "V2EX"
    ensures multiset(r) <= multiset(V2exCollect(Items(responses)))
    ensures forall x | x in multiset(V2exCollect(Items(responses))) - multiset(r) ::
              forall i | 0 <= i < |r| :: x.score <= r[i].score
    ensures forall k :: IsPrefix(WithKey(r, DealScore, k),
                                 WithKey(V2exCollect(Items(responses)), DealScore, k))
  {
    var all := V2exCollect(Items(responses));
    var top := TopBy(all, DealScore, V2exLimit);
    SubsetKeepsSource(top, all, "V2EX");
    top
  }

  lemma SubsetKeepsSource(sub: seq<Deal>, all: seq<Deal>, source: string)
    requires forall i | 0 <= i < |all| :: all[i].source == source
    requires multiset(sub) <= multiset(all)
    ensures forall i | 0 <= i < |sub| :: sub[i].source == source
  {
    forall i | 0 <= i < |sub|
      ensures sub[i].source == source
    {
      assert sub[i] in multiset(sub);
      assert sub[i] in all;
    }
  }

  /** Since all four requests return the same hot list, one qualifying topic
      is reported four times. */
  lemma V2exRepeats(t: Topic)
    requires V2exGate(t)
    ensures ScrapeV2ex([Fetched([t]), Fetched([t]), Fetched([t]), Fetched([t])])
            == [V2exDeal(t), V2exDeal(t), V2exDeal(t), V2exDeal(t)]
  {
    var rs := [Fetched([t]), Fetched([t]), Fetched([t]), Fetched([t])];
    var d := V2exDeal(t);
    FourItems(t);
    FourKept(t, V2exGate);
    FourMapped(t, V2exDeal);
    var r := ScrapeV2ex(rs);
    assert multiset(r) <= multiset([d, d, d, d]);
    FourCopies(r, d);
  }

  lemma FourItems<T>(x: T)
    ensures Items([Fetched([x]), Fetched([x]), Fetched([x]), Fetched([x])]) == [x, x, x, x]
  {
    var rs := [Fetched([x]), Fetched([x]), Fetched([x]), Fetched([x])];
    assert Items(rs[3..]) == [x] by { assert rs[3..][1..] == []; }
    assert Items(rs[2..]) == [x, x] by { assert rs[2..][1..] == rs[3..]; }
    assert Items(rs[1..]) == [x, x, x] by { assert rs[1..][1..] == rs[2..]; }
  }

  lemma FourKept<T>(x: T, keep: T -> bool)
    requires keep(x)
    ensures Filter([x, x, x, x], keep) == [x, x, x, x]
  {
    assert Filter([x], keep) == [x] by { assert [x][1..] == []; }
    assert Filter([x, x], keep) == [x, x] by { assert [x, x][1..] == [x]; }
    assert Filter([x, x, x], keep) == [x, x, x] by { assert [x, x, x][1..] == [x, x]; }
    assert [x, x, x, x][1..] == [x, x, x];
  }

  lemma FourMapped<T, U>(x: T, f: T -> U)
    ensures Map([x, x, x, x], f) == [f(x), f(x), f(x), f(x)]
  {
  }

  lemma FourCopies<T>(r: seq<T>, d: T)
    requires |r| == 4 && multiset(r) <= multiset([d, d, d, d])
    ensures r == [d, d, d, d]
  {
    forall i | 0 <= i < 4 ensures r[i] == d
    {
      assert r[i] in multiset(r);
    }
  }

  // ------------------------------------------------------------- aggregation

  /** The items of `deals` from one source, in order. */
  function FromSource(deals: seq<Deal>, source: string): seq<Deal>
  {
    if |deals| == 0 then []
    else
      FromSource(deals[..|deals| - 1], source)
      + (if deals[|deals| - 1].source == source then [deals[|deals| - 1]] else [])
  }

  /** The sources in order of first appearance. */
  function FirstSeen(deals: seq<Deal>): (r: seq<string>)
    ensures forall s :: s in r <==> exists i | 0 <= i < |deals| :: deals[i].source == s
  {
    if |deals| == 0 then []
    else
      var init := FirstSeen(deals[..|deals| - 1]);
      var last := deals[|deals| - 1];
      assert forall i | 0 <= i < |deals| - 1 :: deals[..|deals| - 1][i] == deals[i];
      if last.source in init then init else init + [last.source]
  }

  /** The `sources` dict of scrape_all_sources: one list per source, keys in
      first-appearance order, each list in input order. */
  function GroupBySource(deals: seq<Deal>): (g: Dict<string, seq<Deal>>)
    ensures DistinctKeys(g)
    ensures Keys(g) == FirstSeen(deals)
    ensures forall s | s in Keys(g) :: Get(g, s) == Some(FromSource(deals, s))
    ensures forall s | s !in Keys(g) :: FromSource(deals, s) == []
  {
    if |deals| == 0 then []
    else
      var init := deals[..|deals| - 1];
      var last := deals[|deals| - 1];
      var g0 := GroupBySource(init);
      var current := match Get(g0, last.source) case Some(l) => l case None => [];
      var g := Put(g0, last.source, current + [last]);
      GroupStep(deals, g0, current, g);
      g
  }

  lemma GroupStep(deals: seq<Deal>, g0: Dict<string, seq<Deal>>, current: seq<Deal>, g: Dict<string, seq<Deal>>)
    requires |deals| > 0
    requires var init := deals[..|deals| - 1];
             DistinctKeys(g0) && Keys(g0) == FirstSeen(init)
             && (forall s | s in Keys(g0) :: Get(g0, s) == Some(FromSource(init, s)))
             && (forall s | s !in Keys(g0) :: FromSource(init, s) == [])
    requires current == match Get(g0, deals[|deals| - 1].source) case Some(l) => l case None => []
    requires g == Put(g0, deals[|deals| - 1].source, current + [deals[|deals| - 1]])
    ensures DistinctKeys(g)
    ensures Keys(g) == FirstSeen(deals)
    ensures forall s | s in Keys(g) :: Get(g, s) == Some(FromSource(deals, s))
    ensures forall s | s !in Keys(g) :: FromSource(deals, s) == []
  {
    var init := deals[..|deals| - 1];
    var last := deals[|deals| - 1];
    assert current == FromSource(init, last.source);
    forall s | s in Keys(g) ensures Get(g, s) == Some(FromSource(deals, s))
    {
      FromSourceLast(deals, s);
      GroupKey(g0, last, current, s, FromSource(init, s), FromSource(deals, s));
    }
    forall s | s !in Keys(g) ensures FromSource(deals, s) == []
    {
      FromSourceLast(deals, s);
    }
  }

  lemma GroupKey(g0: Dict<string, seq<Deal>>, last: Deal, current: seq<Deal>, s: string,
                 before: seq<Deal>, after: seq<Deal>)
    requires DistinctKeys(g0)
    requires s == last.source ==> current == before && after == before + [last]
    requires s != last.source ==> Get(g0, s) == Some(before) && after == before
    ensures Get(Put(g0, last.source, current + [last]), s) == Some(after)
  {
    if s == last.source {
      GroupSame(g0, last, current);
    } else {
      GroupOther(g0, last, current, s);
    }
  }

  lemma GroupSame(g0: Dict<string, seq<Deal>>, last: Deal, current: seq<Deal>)
    requires DistinctKeys(g0)
    ensures Get(Put(g0, last.source, current + [last]), last.source) == Some(current + [last])
  {
  }

  lemma GroupOther(g0: Dict<string, seq<Deal>>, last: Deal, current: seq<Deal>, s: string)
    requires DistinctKeys(g0) && s != last.source
    ensures Get(Put(g0, last.source, current + [last]), s) == Get(g0, s)
  {
  }

  lemma FromSourceLast(deals: seq<Deal>, s: string)
    requires |deals| > 0
    ensures FromSource(deals, s)
            == FromSource(deals[..|deals| - 1], s)
               + (if deals[|deals| - 1].source == s then [deals[|deals| - 1]] else [])
  {
  }

  /** The item block of the report. */
  function DealText(index: nat, d: Deal): string
  {
    NatToString(index) + ". " + d.title + "\n"
    + "   链接: " + d.url + "\n"
    + (if d.score > 0 then "   热度: " + NatToString(d.score) + "\n" else "")
    + "\n"
  }

  function DealsText(deals: seq<Deal>, first: nat): string
  {
    if |deals| == 0 then "" else DealText(first, deals[0]) + DealsText(deals[1..], first + 1)
  }

  /** The heading of one source's section, with its number of deals. */
  function SectionHead(source: string, n: nat): string
  {
    "\n## " + source + " (" + NatToString(n) + "条)\n\n"
  }

  function GroupsText(g: Dict<string, seq<Deal>>): string
  {
    if |g| == 0 then ""
    else SectionHead(g[0].0, |g[0].1|) + DealsText(g[0].1, 1) + GroupsText(g[1..])
  }

  /** Every group gets its section heading. */
  lemma {:induction false} GroupsTextSections(g: Dict<string, seq<Deal>>, k: nat)
    requires k < |g|
    ensures Contains(GroupsText(g), SectionHead(g[k].0, |g[k].1|))
    decreases k
  {
    var head := SectionHead(g[0].0, |g[0].1|);
    var block := head + DealsText(g[0].1, 1);
    var rest := GroupsText(g[1..]);
    assert GroupsText(g) == block + rest;
    if k == 0 {
      ContainsWitness(head, head, 0);
      ContainsBefore(head, DealsText(g[0].1, 1), head);
      ContainsBefore(block, rest, head);
    } else {
      GroupsTextSections(g[1..], k - 1);
      ContainsAfter(block, rest, SectionHead(g[k].0, |g[k].1|));
    }
  }

  const ReportTitle := "=== AI优惠信息全网汇总 ("

  /** The report file written by scrape_all_sources: the dated title line,
      then nothing more when no deal was found. */
  function Report(date: string, deals: seq<Deal>): (r: string)
    ensures StartsWith(r, ReportTitle + date + ") ===\n\n")
    ensures |deals| == 0 ==> r == ReportTitle + date + ") ===\n\n"
  {
    var title := ReportTitle + date + ") ===\n\n";
    var r := title + GroupsText(GroupBySource(deals));
    assert r[..|title|] == title;
    r
  }

  /** Each source a deal came from has its section in the report, headed by
      the number of deals from that source. */
  lemma ReportSections(date: string, deals: seq<Deal>, s: string)
    requires s in FirstSeen(deals)
    ensures Contains(Report(date, deals), SectionHead(s, |FromSource(deals, s)|))
  {
    var g := GroupBySource(deals);
    var i := GetFound(g, s);
    GroupsTextSections(g, i);
    var title := ReportTitle + date + ") ===\n\n";
    ContainsAfter(title, GroupsText(g), SectionHead(s, |FromSource(deals, s)|));
  }

  /** The deals of the Hacker News posts, in the posts' order. */
  function HnDeals(posts: seq<HnPost>): (r: seq<Deal>)
    ensures |r| == |posts| && forall i | 0 <= i < |posts| :: r[i] == posts[i].deal
    ensures SortedDesc(posts, PostScore) ==> SortedDesc(r, DealScore)
  {
    Map(posts, (p: HnPost) => p.deal)
  }

  datatype Aggregate = Aggregate(ok: bool, deals: seq<Deal>, report: string)

  /** scrape_all_sources: Hacker News, then GitHub, then V2EX; the result is
      true iff the report was written and at least one deal was found. */
  function ScrapeAllSources(date: string, hn: seq<Fetch<Hit>>, github: seq<Option<seq<Link>>>,
                            v2ex: seq<Fetch<Topic>>, written: bool): (a: Aggregate)
    requires |hn| == |HnQueries| && |github| == |AwesomeRepos| && |v2ex| == |V2exNodes|
    ensures a.deals == HnDeals(ScrapeHackerNews(hn)) + ScrapeGithubAwesome(github) + ScrapeV2ex(v2ex)
    ensures a.ok <==> written && |a.deals| > 0
    ensures |a.deals| <= HnLimit + AwesomeLimit + V2exLimit
  {
    var deals := HnDeals(ScrapeHackerNews(hn)) + ScrapeGithubAwesome(github) + ScrapeV2ex(v2ex);
    Aggregate(written && |deals| > 0, deals, Report(date, deals))
  }

  // ---------------------------------------------------------------------- job

  /** One attempt of the job: whether scrape_all_sources reported success and
      what the analysis call returned. */
  datatype JobAttempt = JobAttempt(scraped: bool, analysis: Option<string>)

  /** `if ans:` — a missing or empty analysis is a failure. */
  predicate AttemptSucceeds(t: JobAttempt)
  {
    t.scraped && t.analysis.Some? && t.analysis.value != ""
  }

  const JobAttempts := 3
  const JobDelay := 180

  /** job: at most three attempts, 180 s between attempts and none after the
      last; the first successful analysis is the result, otherwise an error. */
  method Job(tries: seq<JobAttempt>) returns (r: Result<string>, attempts: nat, sleeps: seq<nat>)
    requires |tries| >= JobAttempts
    ensures 1 <= attempts <= JobAttempts
    ensures r.Ok? <==> exists i | 0 <= i < JobAttempts :: AttemptSucceeds(tries[i])
    ensures r.Ok? ==> AttemptSucceeds(tries[attempts - 1]) && r.value == tries[attempts - 1].analysis.value
    ensures forall i | 0 <= i < attempts - 1 :: !AttemptSucceeds(tries[i])
    ensures r.Err? ==> attempts == JobAttempts
    ensures |sleeps| == attempts - 1 && forall i | 0 <= i < |sleeps| :: sleeps[i] == JobDelay
  {
    var outcomes := Map(tries[..JobAttempts],
      (t: JobAttempt) => if AttemptSucceeds(t) then Retry.Succeeded else Retry.Failed);
    var final;
    attempts, final, sleeps := Retry.Run(outcomes, JobAttempts, _ => JobDelay);
    if final == Retry.Success {
      r := Ok(tries[attempts - 1].analysis.value);
    } else {
      r := Err("所有尝试均失败");
    }
  }

  // ------------------------------------------------------------ HTML mail body

  /** The fence handling of convert_to_html_email: strip, drop a leading
      "```html", drop a trailing "```", strip again. The result is
      stripped and never longer than the reply. */
  function StripFences(content: string): (r: string)
    ensures |r| <= |content|
    ensures Trim(r) == r
  {
    var c := Trim(content);
    var c := if StartsWith(c, "```html") then c[7..] else c;
    var c := if EndsWith(c, "```") then c[..|c| - 3] else c;
    StripIdempotent(c, Whitespace);
    Trim(c)
  }

  predicate LooksLikeHtml(c: string)
  {
    Contains(c, "<html>") || Contains(c, "<h2>")
  }

  /** Markdown-ish text becomes one line of HTML: each newline is a `<br>`,
      which is joining the text's lines with `<br>`. */
  function NewlinesToBreaks(c: string): (r: string)
    ensures r == Join(Split(c, "\n"), "<br>")
    ensures '\n' !in r
    ensures '\n' !in c ==> r == c
  {
    ReplaceCharGone(c, '\n', "<br>");
    ReplaceCharIsSplitJoin(c, '\n', "<br>");
    if '\n' in c then Replace(c, "\n", "<br>")
    else
      SingleCharAbsent(c, '\n');
      ReplaceAbsent(c, "\n", "<br>");
      Replace(c, "\n", "<br>")
  }

  /** Lines joined by newlines come out joined by `<br>`. */
  lemma BreaksBetweenLines(lines: seq<string>)
    requires |lines| >= 1
    requires forall i | 0 <= i < |lines| :: '\n' !in lines[i]
    ensures NewlinesToBreaks(Join(lines, "\n")) == Join(lines, "<br>")
  {
    SplitJoin(lines, '\n');
  }

  /** Content that already holds `<html>` or `<h2>` is used as is; otherwise
      the lines of the unfenced reply are joined by `<br>`. */
  function HtmlBody(content: string): (r: string)
    ensures LooksLikeHtml(StripFences(content)) ==> r == StripFences(content)
    ensures !LooksLikeHtml(StripFences(content)) ==> r == Join(Split(StripFences(content), "\n"), "<br>")
    ensures !LooksLikeHtml(StripFences(content)) ==> '\n' !in r
  {
    var c := StripFences(content);
    if LooksLikeHtml(c) then c else NewlinesToBreaks(c)
  }

  /** A plain reply written line by line reaches the mail as those lines
      separated by `<br>`. */
  lemma HtmlBodyOfLines(lines: seq<string>)
    requires |lines| >= 1
    requires forall i | 0 <= i < |lines| :: '\n' !in lines[i]
    requires Trim(Join(lines, "\n")) == Join(lines, "\n")
    requires !StartsWith(Join(lines, "\n"), "```html") && !EndsWith(Join(lines, "\n"), "```")
    requires !LooksLikeHtml(Join(lines, "\n"))
    ensures HtmlBody(Join(lines, "\n")) == Join(lines, "<br>")
  {
    UnfencedUnchanged(Join(lines, "\n"));
    BreaksBetweenLines(lines);
  }

  /** A fenced reply loses exactly its fences (and surrounding whitespace). */
  lemma FencesRemoved(x: string)
    ensures StripFences("```html" + x + "```") == Trim(x)
  {
    var f := "```html" + x + "```";
    StripUnchanged(f, Whitespace);
    assert f[..7] == "```html";
    assert f[7..] == x + "```";
    assert (x + "```")[|x| + 3 - 3..] == "```";
    assert (x + "```")[..|x|] == x;
  }

  /** Unfenced, already stripped content passes through unchanged. */
  lemma UnfencedUnchanged(c: string)
    requires Trim(c) == c && !StartsWith(c, "```html") && !EndsWith(c, "```")
    ensures StripFences(c) == c
  {
  }
}

=== FILE: demo.dfy ===
/** The offline demo (instant_demo.py): a saved day's log is parsed into
    projects, a highlight and a summary (with built-in data when the log is
    missing), each project gets a category from keywords in its description,
    and a few insights and a prediction are derived from the project list.
    The log's content is a parameter; the HTML page is not modelled. */
module Demo {
  import opened Wrappers
  import opened Seqs
  import opened Text
  import opened Dict

  // ------------------------------------------------------------ project lines

  datatype DemoProject = DemoProject(fullName: string, ownerRepo: Option<(string, string)>,
                                     description: string, stars: string)

  const Star := "⭐️"

  /** `repo_name.split('/', 1)` when the name holds a '/', else
      ("unknown", name). */
  function OwnerRepo(name: string): (r: (string, string))
    ensures '/' in name ==> r.0 + "/" + r.1 == name && '/' !in r.0
    ensures '/' !in name ==> r == ("unknown", name)
  {
    if '/' in name then
      var k := IndexOf(name, '/');
      assert name == name[..k] + "/" + name[k + 1..];
      (name[..k], name[k + 1..])
    else ("unknown", name)
  }

  /** A parsed project; the stars are the star glyph repeated
      `len(description) % 5 + 1` times. */
  function ParsedProject(name: string, description: string): (p: DemoProject)
    ensures p.fullName == name && p.description == description
    ensures p.ownerRepo.Some?
  {
    DemoProject(name, Some(OwnerRepo(name)), description, Repeat(Star, |description| % 5 + 1))
  }

  /** Between one and five stars, by the description's length modulo five. */
  lemma ParsedStars(name: string, description: string)
    ensures var n := |ParsedProject(name, description).stars| / |Star|;
      |ParsedProject(name, description).stars| % |Star| == 0 && 1 <= n <= 5 && n == |description| % 5 + 1
  {
    RepeatLength(Star, |description| % 5 + 1);
  }

  /** `re.match(r'^\d+\. \[', line)`: the index just past the '[' when the
      line opens with digits and ". [". */
  function ListOpening(line: string): (r: Option<nat>)
    ensures r.Some? ==> 4 <= r.value <= |line| && AllDigits(line[..r.value - 3]) && line[r.value - 3..r.value] == ". ["
  {
    var k := DigitRunEnd(line, 0);
    if k > 0 && StartsWith(line[k..], ". [") then
      assert line[k..][..3] == line[k..k + 3];
      Some(k + 3)
    else None
  }

  /** The remainder of `^\d+\. \[([^\]]+)\] ?: ?(.+)` after the opening: the
      name runs to the first ']' and is not empty; then ":" or " :"; then at
      least one character. The optional space after the colon only moves
      text between the separator and the description, which is stripped
      anyway, so the description is the stripped rest. */
  function ProjectBody(body: string): (r: Option<(string, string)>)
    ensures r.Some? ==> r.value.0 != "" && ']' !in r.value.0
  {
    var close := IndexOf(body, ']');
    if close <= 0 then None
    else
      var after := body[close + 1..];
      var rest := if StartsWith(after, ":") then Some(after[1..])
                  else if StartsWith(after, " :") then Some(after[2..])
                  else None;
      if rest.None? || rest.value == "" then None
      else Some((body[..close], rest.value))
  }

  /** One line of read_yesterday_data: stripped, then matched; the name and
      the description are stripped again. */
  function ParseDemoLine(raw: string): (r: Option<DemoProject>)
    ensures r.Some? ==> ListOpening(Trim(raw)).Some?
  {
    var line := Trim(raw);
    if line == "" then None
    else
      match ListOpening(line)
      case None => None
      case Some(k) =>
        match ProjectBody(line[k..])
        case None => None
        case Some((name, description)) => Some(ParsedProject(Trim(name), Trim(description)))
  }

  predicate DemoLineParses(raw: string)
  {
    ParseDemoLine(raw).Some?
  }

  /** The projects of the lines that parse, in order: one per such line. */
  function ParseDemoLines(lines: seq<string>): (r: seq<DemoProject>)
    ensures |r| == Count(lines, DemoLineParses)
  {
    SomesCount(lines, ParseDemoLine, DemoLineParses);
    Somes(lines, ParseDemoLine)
  }

  /** A line written as `n. [name]: description` after other lines adds its
      project after theirs. */
  lemma ParseDemoLinesBuilt(lines: seq<string>, n: nat, name: string, description: string)
    requires name != "" && ']' !in name
    requires description != "" && description[|description| - 1] !in Whitespace
    ensures ParseDemoLines(lines + [NatToString(n) + ". [" + name + "]: " + description])
            == ParseDemoLines(lines) + [ParsedProject(Trim(name), Trim(description))]
  {
    var line := NatToString(n) + ". [" + name + "]: " + description;
    SomesAppend(lines, [line], ParseDemoLine);
    SomesOne(line, ParseDemoLine);
    ParseBuiltDemoLine(n, name, description);
  }

  /** The end of the digits of a number's decimal form followed by `rest`
      that opens with a non-digit. */
  lemma DigitRunOfNumber(n: nat, rest: string)
    requires |rest| > 0 && !IsDigit(rest[0])
    ensures DigitRunEnd(NatToString(n) + rest, 0) == |NatToString(n)|
  {
    var s := NatToString(n) + rest;
    DigitRunFrom(s, 0, |NatToString(n)|);
  }

  lemma {:induction false} DigitRunFrom(s: string, i: nat, k: nat)
    requires i <= k < |s| && AllDigits(s[i..k]) && !IsDigit(s[k])
    ensures DigitRunEnd(s, i) == k
    decreases k - i
  {
    if i < k {
      assert s[i] == s[i..k][0];
      assert s[i + 1..k] == s[i..k][1..];
      DigitRunFrom(s, i + 1, k);
    }
  }

  /** A line written as `n. [name]: description` parses back to the name and
      the description. */
  lemma ParseBuiltDemoLine(n: nat, name: string, description: string)
    requires name != "" && ']' !in name
    requires description != "" && description[|description| - 1] !in Whitespace
    ensures ParseDemoLine(NatToString(n) + ". [" + name + "]: " + description)
            == Some(ParsedProject(Trim(name), Trim(description)))
  {
    var line := NatToString(n) + ". [" + name + "]: " + description;
    var body := name + "]: " + description;
    var k := |NatToString(n)| + 3;
    BuiltLineParts(n, name, description, line, k, body);
    BuiltBody(name, description);
    ParsedTrimmed(line, k, name, body, description);
  }

  lemma BuiltLineParts(n: nat, name: string, description: string, line: string, k: nat, body: string)
    requires description != "" && description[|description| - 1] !in Whitespace
    requires body == name + "]: " + description
    requires line == NatToString(n) + ". [" + body && k == |NatToString(n)| + 3
    ensures Trim(line) == line && line != ""
    ensures ListOpening(line) == Some(k) && k <= |line| && line[k..] == body
  {
    assert line == NatToString(n) + ". [" + name + "]: " + description;
    BuiltLineTrimmed(n, name, description);
    BuiltLineOpening(n, body);
  }

  /** A stripped line whose opening ends at `k` and whose body splits into
      a name and a description parses to the stripped pair. */
  lemma ParsedFrom(line: string, k: nat, name: string, rest: string)
    requires Trim(line) == line && line != ""
    requires ListOpening(line) == Some(k) && k <= |line|
    requires ProjectBody(line[k..]) == Some((name, rest))
    ensures ParseDemoLine(line) == Some(ParsedProject(Trim(name), Trim(rest)))
  {
  }

  lemma ParsedTrimmed(line: string, k: nat, name: string, body: string, description: string)
    requires Trim(line) == line && line != ""
    requires ListOpening(line) == Some(k) && k <= |line| && line[k..] == body
    requires ProjectBody(body) == Some((name, " " + description))
    ensures ParseDemoLine(line) == Some(ParsedProject(Trim(name), Trim(description)))
  {
    StripLeading(" ", description, Whitespace);
    ParsedFrom(line, k, name, " " + description);
  }

  lemma BuiltLineTrimmed(n: nat, name: string, description: string)
    requires description != "" && description[|description| - 1] !in Whitespace
    ensures var line := NatToString(n) + ". [" + name + "]: " + description;
      Trim(line) == line && line != ""
  {
    var num := NatToString(n);
    var line := num + ". [" + name + "]: " + description;
    assert line[0] == num[0];
    assert line[|line| - 1] == description[|description| - 1];
    StripUnchanged(line, Whitespace);
  }

  lemma BuiltLineOpening(n: nat, rest: string)
    ensures var line := NatToString(n) + ". [" + rest;
      ListOpening(line) == Some(|NatToString(n)| + 3) && line[|NatToString(n)| + 3..] == rest
  {
    var num := NatToString(n);
    var tail := ". [" + rest;
    assert tail[..3] == ". [" && tail[3..] == rest;
    DigitRunOfNumber(n, tail);
    assert num + ". [" + rest == num + tail;
    OpeningOf(num + tail, num, tail);
  }

  lemma OpeningOf(line: string, num: string, tail: string)
    requires line == num + tail && |num| > 0 && |tail| >= 3
    requires DigitRunEnd(line, 0) == |num| && tail[..3] == ". ["
    ensures ListOpening(line) == Some(|num| + 3) && line[|num| + 3..] == tail[3..]
  {
    assert line[|num|..] == tail;
  }

  lemma BuiltBody(name: string, description: string)
    requires name != "" && ']' !in name
    ensures ProjectBody(name + "]: " + description) == Some((name, " " + description))
  {
    var body := name + "]: " + description;
    IndexOfIs(body, ']', |name|);
    assert body[..|name|] == name;
    var after := body[|name| + 1..];
    assert after == ": " + description;
    assert after[..1] == ":";
    assert after[1..] == " " + description;
  }

  // ------------------------------------------------------- highlight, summary

  const HighlightMarker := "惊艳项目推荐"
  const SummaryMarker := "今日趋势项目关注领域和特点"
  const DefaultSummary := "主要集中在AI和机器学习领域，特点为开源、实用性、跨平台和低延迟。"

  /** `re.search(r'\[([^\]]+)\] - (.+)', line)` tried from index `i` on:
      the leftmost '[' followed by a non-empty name up to the next ']',
      then " - " and at least one more character. */
  function SearchHighlight(line: string, i: nat): (r: Option<(string, string)>)
    requires i <= |line|
    ensures r.Some? ==> r.value.0 != "" && ']' !in r.value.0 && r.value.1 != ""
    decreases |line| - i
  {
    if i == |line| then None
    else
      var m := if line[i] == '[' then BracketDash(line[i + 1..]) else None;
      if m.Some? then m else SearchHighlight(line, i + 1)
  }

  /** A found match starts at some '[' from `i` on; finding none means no
      '[' from `i` on starts a match. */
  lemma {:induction false} SearchHighlightSpec(line: string, i: nat)
    requires i <= |line|
    ensures var r := SearchHighlight(line, i);
      && (r.Some? ==> exists j | i <= j < |line| :: line[j] == '[' && BracketDash(line[j + 1..]) == r)
      && (r.None? ==> forall j | i <= j < |line| :: line[j] == '[' ==> BracketDash(line[j + 1..]).None?)
    decreases |line| - i
  {
    if i < |line| {
      var m := if line[i] == '[' then BracketDash(line[i + 1..]) else None;
      if m.None? {
        SearchHighlightSpec(line, i + 1);
      }
    }
  }

  /** Positions without '[' start no match. */
  lemma {:induction false} SearchSkip(line: string, i: nat, k: nat)
    requires i <= k <= |line|
    requires forall j | i <= j < k :: line[j] != '['
    ensures SearchHighlight(line, i) == SearchHighlight(line, k)
    decreases k - i
  {
    if i < k {
      SearchSkip(line, i + 1, k);
    }
  }

  /** `x[name] - description` with no '[' in `x` matches with that name and
      description. */
  lemma HighlightFound(x: string, name: string, description: string)
    requires '[' !in x && name != "" && ']' !in name && description != ""
    ensures SearchHighlight(x + "[" + name + "] - " + description, 0) == Some((name, description))
  {
    var line := x + "[" + name + "] - " + description;
    forall j | 0 <= j < |x|
      ensures line[j] != '['
    {
      assert line[j] == x[j];
    }
    SearchSkip(line, 0, |x|);
    assert line[|x|] == '[';
    assert line[|x| + 1..] == name + "] - " + description;
    BracketDashBuilt(name, description);
  }

  /** The text after the '[' splits at its first ']' into the name and the
      description. */
  lemma BracketDashBuilt(name: string, description: string)
    requires name != "" && ']' !in name && description != ""
    ensures BracketDash(name + "] - " + description) == Some((name, description))
  {
    var s := name + "] - " + description;
    IndexOfIs(s, ']', |name|);
    assert s[..|name|] == name;
    assert s[|name|..] == "] - " + description;
  }

  /** The match right after a '[': the name, then "] - " and the rest. */
  function BracketDash(s: string): (r: Option<(string, string)>)
    ensures r.Some? ==> r.value.0 != "" && ']' !in r.value.0 && r.value.1 != ""
    ensures r.Some? ==> s == r.value.0 + "] - " + r.value.1
  {
    var close := IndexOf(s, ']');
    if close <= 0 then None
    else
      var after := s[close..];
      if |after| > 4 && after[..4] == "] - " then
        assert s == s[..close] + after;
        assert after == "] - " + after[4..];
        Some((s[..close], after[4..]))
      else None
  }

  /** The first line holding `marker`. */
  function FirstWith(lines: seq<string>, marker: string): (r: Option<nat>)
    ensures r.Some? ==> r.value < |lines| && Contains(lines[r.value], marker)
    ensures forall j | 0 <= j < |lines| && (r.None? || j < r.value) :: !Contains(lines[j], marker)
  {
    if |lines| == 0 then None
    else if Contains(lines[0], marker) then Some(0)
    else
      var r := FirstWith(lines[1..], marker);
      assert forall j | 1 <= j < |lines| :: lines[j] == lines[1..][j - 1];
      if r.None? then None else Some(r.value + 1)
  }

  datatype Highlight = Highlight(fullName: string, description: string)

  const DefaultHighlight := Highlight("ruvnet/wifi-densepose",
    "基于WiFi的颠覆性密集人体姿态估计系统，使用商用网状路由器实现实时全身体态追踪。")

  datatype DemoData = DemoData(projects: seq<DemoProject>, highlight: Highlight, summary: string, totalCount: nat)

  const MaxProjects := 15

  /** generate_fallback_data */
  function FallbackData(): DemoData
  {
    DemoData([
      DemoProject("ruvnet/wifi-densepose", None, "基于WiFi的颠覆性密集人体姿态估计系统", "⭐⭐⭐⭐⭐"),
      DemoProject("Zipstack/unstract", None, "无代码LLM平台，用于启动API和ETL管道以结构化非结构化文档", "⭐⭐⭐⭐"),
      DemoProject("GetStream/Vision-Agents", None, "Stream的开源视觉代理，使用边缘网络实现超低延迟", "⭐⭐⭐⭐⭐"),
      DemoProject("open-webui/open-webui", None, "用户友好的AI界面（支持Ollama、OpenAI API等）", "⭐⭐⭐⭐"),
      DemoProject("anthropics/claude-quickstarts", None, "帮助开发者快速开始使用Claude API构建可部署应用程序", "⭐⭐⭐")],
      DefaultHighlight,
      "主要集中在AI和机器学习领域，包括视觉代理、AI界面、文档处理等。特点为开源、实用性、跨平台和低延迟。",
      15)
  }

  /** The first line holding `marker` is line `k`. */
  predicate FirstMarkerAt(lines: seq<string>, marker: string, k: int)
  {
    0 <= k < |lines| && Contains(lines[k], marker)
    && forall j | 0 <= j < k :: !Contains(lines[j], marker)
  }

  /** The highlight: the regex match on the first line holding the
      highlight marker, or the default project when there is no such line
      or the line does not match. */
  function DemoHighlight(lines: seq<string>): (r: Highlight)
    ensures (forall k | 0 <= k < |lines| :: !Contains(lines[k], HighlightMarker)) ==> r == DefaultHighlight
    ensures forall k | FirstMarkerAt(lines, HighlightMarker, k) ::
              r == match SearchHighlight(lines[k], 0)
                   case Some(m) => Highlight(m.0, m.1)
                   case None => DefaultHighlight
  {
    var h := FirstWith(lines, HighlightMarker);
    var found := if h.Some? then SearchHighlight(lines[h.value], 0) else None;
    if found.Some? then Highlight(found.value.0, found.value.1) else DefaultHighlight
  }

  /** The summary: the whole first line holding the summary marker, or the
      default summary. */
  function DemoSummary(lines: seq<string>): (r: string)
    ensures (forall k | 0 <= k < |lines| :: !Contains(lines[k], SummaryMarker)) ==> r == DefaultSummary
    ensures forall k | FirstMarkerAt(lines, SummaryMarker, k) :: r == lines[k]
  {
    var s := FirstWith(lines, SummaryMarker);
    if s.Some? then lines[s.value] else DefaultSummary
  }

  /** read_yesterday_data: `log` is the saved log (None when missing). At
      most 15 projects are kept, but the count is of all parsed projects,
      15 when none parsed. */
  function ReadDemoData(log: Option<string>): (r: DemoData)
    ensures log.None? ==> r == FallbackData()
    ensures log.Some? ==>
              var parsed := ParseDemoLines(Split(Trim(log.value), "\n"));
              && r.projects == Take(parsed, MaxProjects)
              && r.totalCount == (if |parsed| > 0 then |parsed| else MaxProjects)
    ensures log.Some? ==>
              var lines := Split(Trim(log.value), "\n");
              r.highlight == DemoHighlight(lines) && r.summary == DemoSummary(lines)
    ensures |r.projects| <= MaxProjects && r.totalCount > 0
  {
    if log.None? then FallbackData()
    else
      var lines := Split(Trim(log.value), "\n");
      var parsed := ParseDemoLines(lines);
      DemoData(Take(parsed, MaxProjects), DemoHighlight(lines), DemoSummary(lines),
               if |parsed| > 0 then |parsed| else MaxProjects)
  }

  /** A log whose first highlight line reads `x[name] - description`, with
      no '[' in `x`, gets that project as its highlight. */
  lemma HighlightOfLine(lines: seq<string>, k: nat, x: string, name: string, description: string)
    requires FirstMarkerAt(lines, HighlightMarker, k)
    requires lines[k] == x + "[" + name + "] - " + description
    requires '[' !in x && name != "" && ']' !in name && description != ""
    ensures DemoHighlight(lines) == Highlight(name, description)
  {
    HighlightFound(x, name, description);
  }

  // ---------------------------------------------------------------- category

  datatype Category = Category(name: string, color: string, icon: string)

  const Other := Category("其他", "#9ca3af", "📦")

  /** categorize_project's tests in order: the first group with a keyword in
      the lowered description wins. */
  const CategoryRules: seq<(Category, seq<string>)> := [
    (Category("视觉AI", "#667eea", "👁️"), ["视觉", "图像", "摄像头", "检测", "姿态"]),
    (Category("AI工具", "#10b981", "🤖"), ["llm", "ai", "模型", "智能", "gpt"]),
    (Category("开发者工具", "#f59e0b", "🔧"), ["工具", "框架", "库", "sdk"]),
    (Category("平台服务", "#8b5cf6", "🚀"), ["平台", "服务", "系统"])]

  /** `r` is the category of the first rule whose words occur in `text`,
      or `fallback` when no rule's words occur. */
  predicate IsFirstMatch(rules: seq<(Category, seq<string>)>, text: string, fallback: Category, r: Category)
  {
    && ((exists k | 0 <= k < |rules| :: ContainsAny(text, rules[k].1)) ==>
          exists k | 0 <= k < |rules| :: ContainsAny(text, rules[k].1) && r == rules[k].0
            && forall j | 0 <= j < k :: !ContainsAny(text, rules[j].1))
    && ((forall k | 0 <= k < |rules| :: !ContainsAny(text, rules[k].1)) ==> r == fallback)
  }

  /** categorize_project's test chain over `rules`. */
  function FirstMatch(rules: seq<(Category, seq<string>)>, text: string, fallback: Category): (r: Category)
    ensures IsFirstMatch(rules, text, fallback, r)
  {
    if |rules| == 0 then fallback
    else if ContainsAny(text, rules[0].1) then rules[0].0
    else
      var r := FirstMatch(rules[1..], text, fallback);
      FirstMatchStep(rules, text, fallback, r);
      r
  }

  /** A rule that does not match in front of the rules keeps the first
      match of the rest. */
  lemma FirstMatchStep(rules: seq<(Category, seq<string>)>, text: string, fallback: Category, r: Category)
    requires |rules| > 0 && !ContainsAny(text, rules[0].1)
    requires IsFirstMatch(rules[1..], text, fallback, r)
    ensures IsFirstMatch(rules, text, fallback, r)
  {
    assert forall k | 1 <= k < |rules| :: rules[k] == rules[1..][k - 1];
    if exists k | 0 <= k < |rules| :: ContainsAny(text, rules[k].1) {
      var k :| 0 <= k < |rules| && ContainsAny(text, rules[k].1);
      assert k > 0 && ContainsAny(text, rules[1..][k - 1].1);
      var k' :| 0 <= k' < |rules| - 1 && ContainsAny(text, rules[1..][k'].1) && r == rules[1..][k'].0
                && forall j | 0 <= j < k' :: !ContainsAny(text, rules[1..][j].1);
      assert ContainsAny(text, rules[k' + 1].1) && r == rules[k' + 1].0;
    }
  }

  /** categorize_project: only the lowered description is looked at. */
  function Categorize(p: DemoProject): (c: Category)
    ensures c == Other || exists k | 0 <= k < |CategoryRules| :: c == CategoryRules[k].0
  {
    FirstMatch(CategoryRules, Lower(p.description), Other)
  }

  /** A project whose description mentions vision is a vision project,
      whatever else it mentions. */
  lemma VisionFirst(p: DemoProject)
    requires Contains(Lower(p.description), "视觉")
    ensures Categorize(p).name == "视觉AI"
  {
    assert CategoryRules[0].1[0] == "视觉";
    assert ContainsAny(Lower(p.description), CategoryRules[0].1);
  }

  // --------------------------------------------------------------- insights

  const TechWords: seq<string> := ["视觉", "llm", "ai", "代理", "分析", "实时"]
  const PrivacyWords: seq<string> := ["隐私", "安全", "无摄像头", "本地化"]
  const OpenWords: seq<string> := ["开源", "免费", "社区"]

  function DescLower(p: DemoProject): string { Lower(p.description) }

  /** How many of the texts hold `w`. */
  function Having<T, K>(texts: seq<T>, holds: (T, K) -> bool, w: K): (n: nat)
    ensures n <= |texts|
  {
    if |texts| == 0 then 0
    else Having(texts[..|texts| - 1], holds, w) + (if holds(texts[|texts| - 1], w) then 1 else 0)
  }

  predicate Distinct<K(==)>(words: seq<K>)
  {
    forall i, j | 0 <= i < j < |words| :: words[i] != words[j]
  }

  function CountOf<K(==,!new)>(d: Dict<K, nat>, w: K): nat
  {
    var g := Get(d, w);
    if g.Some? then g.value else 0
  }

  /** One word's step of the inner loop:
      `tech_counts[word] = tech_counts.get(word, 0) + 1` when the text holds
      the word. */
  function CountStep<K(==,!new)>(d: Dict<K, nat>, hit: bool, v: K): (r: Dict<K, nat>)
    requires DistinctKeys(d)
    ensures DistinctKeys(r)
    ensures hit ==> Get(r, v) == Some(CountOf(d, v) + 1)
    ensures !hit ==> r == d
    ensures forall j | j != v :: Get(r, j) == Get(d, j)
  {
    if hit then
      var c: nat := CountOf(d, v) + 1;
      Put(d, v, c)
    else d
  }

  /** The inner loop over the words for one text, in word order. */
  function CountWords<T, K(==,!new)>(d: Dict<K, nat>, holds: (T, K) -> bool, text: T, words: seq<K>): (r: Dict<K, nat>)
    requires DistinctKeys(d)
    ensures DistinctKeys(r)
    decreases |words|
  {
    if |words| == 0 then d
    else CountWords(CountStep(d, holds(text, words[0]), words[0]), holds, text, words[1..])
  }

  /** One text adds one to the count of each distinct word it holds and
      leaves the other counts alone. */
  lemma {:induction false} CountWordsGet<T, K(!new)>(d: Dict<K, nat>, holds: (T, K) -> bool, text: T, words: seq<K>, w: K)
    requires DistinctKeys(d) && Distinct(words)
    ensures w in words && holds(text, w) ==> Get(CountWords(d, holds, text, words), w) == Some(CountOf(d, w) + 1)
    ensures !(w in words && holds(text, w)) ==> Get(CountWords(d, holds, text, words), w) == Get(d, w)
    decreases |words|
  {
    if |words| > 0 {
      var v := words[0];
      var hit := holds(text, v);
      var d1 := CountStep(d, hit, v);
      var tail := words[1..];
      assert CountWords(d, holds, text, words) == CountWords(d1, holds, text, tail);
      DistinctTail(words);
      CountWordsGet(d1, holds, text, tail, w);
      if w == v {
        assert w !in tail;
        assert Get(CountWords(d1, holds, text, tail), w) == Get(d1, w);
      } else {
        assert Get(d1, w) == Get(d, w);
        assert CountOf(d1, w) == CountOf(d, w);
        assert w in words <==> w in tail;
      }
    }
  }

  lemma DistinctTail<K>(words: seq<K>)
    requires |words| > 0 && Distinct(words)
    ensures Distinct(words[1..]) && words[0] !in words[1..]
    ensures forall x :: x in words <==> x == words[0] || x in words[1..]
  {
    var tail := words[1..];
    assert forall i | 0 <= i < |tail| :: tail[i] == words[i + 1];
    assert words == [words[0]] + tail;
  }

  /** The counts after the outer loop over the texts. */
  function Tally<T, K(==,!new)>(texts: seq<T>, holds: (T, K) -> bool, words: seq<K>): (d: Dict<K, nat>)
    ensures DistinctKeys(d)
  {
    if |texts| == 0 then []
    else CountWords(Tally(texts[..|texts| - 1], holds, words), holds, texts[|texts| - 1], words)
  }

  /** A word is a key of the counts exactly when it is one of the counted
      words that some text holds, and its value is the number of those
      texts. */
  lemma {:induction false} TallyGet<T, K(!new)>(texts: seq<T>, holds: (T, K) -> bool, words: seq<K>, w: K)
    requires Distinct(words)
    ensures Get(Tally(texts, holds, words), w)
            == if w in words && Having(texts, holds, w) > 0 then Some(Having(texts, holds, w)) else None
    decreases |texts|
  {
    if |texts| > 0 {
      var prefix := texts[..|texts| - 1];
      var text := texts[|texts| - 1];
      TallyGet(prefix, holds, words, w);
      CountWordsGet(Tally(prefix, holds, words), holds, text, words, w);
      assert Tally(texts, holds, words) == CountWords(Tally(prefix, holds, words), holds, text, words);
      assert Having(texts, holds, w) == Having(prefix, holds, w) + (if holds(text, w) then 1 else 0);
    }
  }

  predicate Holds(text: string, w: string) { Contains(text, w) }

  /** tech_counts of generate_insights. */
  function TechCounts(texts: seq<string>): (d: Dict<string, nat>)
    ensures DistinctKeys(d)
  {
    Tally(texts, Holds, TechWords)
  }

  lemma TechWordsDistinct()
    ensures Distinct(TechWords)
  {
    assert forall i | 0 <= i < |TechWords| :: |TechWords[i]| <= 3;
    assert TechWords[0][0] != TechWords[1][0] && TechWords[0][0] != TechWords[2][0];
  }

  /** How many descriptions mention a word. */
  function Mentions(texts: seq<string>, w: string): nat
  {
    Having(texts, Holds, w)
  }

  /** A word is a key of tech_counts exactly when it is a tech word that
      some description holds, and its value is the number of those
      descriptions. */
  lemma TechCountsGet(texts: seq<string>, w: string)
    ensures Get(TechCounts(texts), w) == if w in TechWords && Mentions(texts, w) > 0 then Some(Mentions(texts, w)) else None
  {
    TechWordsDistinct();
    TallyGet(texts, Holds, TechWords, w);
  }

  /** `max(d.items(), key=lambda x: x[1])`: the first entry with the
      greatest count. */
  function TopIndex(d: Dict<string, nat>): (t: nat)
    requires |d| > 0
    ensures t < |d|
    ensures forall j | 0 <= j < |d| :: d[j].1 <= d[t].1
    ensures forall j | 0 <= j < t :: d[j].1 < d[t].1
  {
    if |d| == 1 then 0
    else
      var t := TopIndex(d[..|d| - 1]);
      if d[|d| - 1].1 > d[t].1 then |d| - 1 else t
  }

  function TopInsight(word: string, n: nat): string
  {
    "今日趋势以" + word + "技术为主（" + NatToString(n) + "个项目）"
  }

  function PrivacyInsight(n: nat): string
  {
    "隐私友好技术成为新热点（" + NatToString(n) + "个项目）"
  }

  function OpenInsight(n: nat): string
  {
    "开源项目主导今日趋势（" + NatToString(n) + "个开源项目）"
  }

  predicate HasPrivacyWord(text: string) { ContainsAny(text, PrivacyWords) }
  predicate HasOpenWord(text: string) { ContainsAny(text, OpenWords) }

  /** The first note: the tech word with the greatest count, when any. */
  function TopNote(d: Dict<string, nat>): (r: seq<string>)
    ensures |r| <= 1 && (|r| == 1 <==> |d| > 0)
    ensures forall i | 0 <= i < |r| :: |r[i]| > 0 && r[i][0] == '今'
  {
    if |d| == 0 then []
    else
      var t := TopIndex(d);
      FirstChars(d[t].0, d[t].1);
      [TopInsight(d[t].0, d[t].1)]
  }

  function PrivacyNote(n: nat): (r: seq<string>)
    ensures |r| <= 1 && (|r| == 1 <==> n > 0)
    ensures forall i | 0 <= i < |r| :: r[i] == PrivacyInsight(n) && |r[i]| > 0 && r[i][0] == '隐'
  {
    FirstChars("", n);
    if n > 0 then [PrivacyInsight(n)] else []
  }

  function OpenNote(n: nat): (r: seq<string>)
    ensures |r| <= 1 && (|r| == 1 <==> n > 3)
    ensures forall i | 0 <= i < |r| :: r[i] == OpenInsight(n) && |r[i]| > 0 && r[i][0] == '开'
  {
    FirstChars("", n);
    if n > 3 then [OpenInsight(n)] else []
  }

  /** generate_insights, in its order: the top tech word when any tech
      word occurs, the privacy note when some description has a privacy word,
      the open-source note when more than three have an open-source word. */
  function Insights(projects: seq<DemoProject>): (r: seq<string>)
    ensures |r| <= 3
  {
    var texts := Map(projects, DescLower);
    TopNote(TechCounts(texts))
      + PrivacyNote(Count(texts, HasPrivacyWord))
      + OpenNote(Count(texts, HasOpenWord))
  }

  lemma FirstChars(w: string, n: nat)
    ensures |TopInsight(w, n)| > 0 && |PrivacyInsight(n)| > 0 && |OpenInsight(n)| > 0
    ensures TopInsight(w, n)[0] == '今' && PrivacyInsight(n)[0] == '隐' && OpenInsight(n)[0] == '开'
  {
  }

  /** Whether a note of the list starts with a given character. */
  predicate HasNote(r: seq<string>, c: char)
  {
    exists i | 0 <= i < |r| :: |r[i]| > 0 && r[i][0] == c
  }

  lemma NoteIn(a: seq<string>, b: seq<string>, e: seq<string>, c: char)
    requires forall i | 0 <= i < |a| :: |a[i]| > 0 && a[i][0] != c
    requires forall i | 0 <= i < |e| :: |e[i]| > 0 && e[i][0] != c
    requires forall i | 0 <= i < |b| :: |b[i]| > 0 && b[i][0] == c
    ensures HasNote(a + b + e, c) <==> |b| > 0
  {
    var r := a + b + e;
    if |b| > 0 {
      assert r[|a|] == b[0];
    }
  }

  lemma NoteFirst(b: seq<string>, e: seq<string>, f: seq<string>, c: char)
    requires forall i | 0 <= i < |e| :: |e[i]| > 0 && e[i][0] != c
    requires forall i | 0 <= i < |f| :: |f[i]| > 0 && f[i][0] != c
    requires forall i | 0 <= i < |b| :: |b[i]| > 0 && b[i][0] == c
    ensures HasNote(b + e + f, c) <==> |b| > 0
    ensures |b| > 0 ==> (b + e + f)[0] == b[0]
  {
    var r := b + e + f;
    if |b| > 0 {
      assert r[0] == b[0];
    } else {
      forall i | 0 <= i < |r|
        ensures |r[i]| > 0 && r[i][0] != c
      {
        if i < |e| {
          assert r[i] == e[i];
        } else {
          assert r[i] == f[i - |e|];
        }
      }
    }
  }

  lemma NoteLast(a: seq<string>, b: seq<string>, e: seq<string>, c: char)
    requires forall i | 0 <= i < |a| :: |a[i]| > 0 && a[i][0] != c
    requires forall i | 0 <= i < |b| :: |b[i]| > 0 && b[i][0] != c
    requires forall i | 0 <= i < |e| :: |e[i]| > 0 && e[i][0] == c
    ensures HasNote(a + b + e, c) <==> |e| > 0
    ensures |e| > 0 ==> e[0] in a + b + e
  {
    var r := a + b + e;
    if |e| > 0 {
      assert r[|a| + |b|] == e[0];
    } else {
      forall i | 0 <= i < |r|
        ensures |r[i]| > 0 && r[i][0] != c
      {
        if i < |a| {
          assert r[i] == a[i];
        } else {
          assert r[i] == b[i - |a|];
        }
      }
    }
  }

  /** The top tech word's note appears exactly when some description
      mentions a tech word, and it comes first. */
  lemma {:induction false} TopNoteCondition(projects: seq<DemoProject>)
    ensures var texts := Map(projects, DescLower);
      var r := Insights(projects);
      && (HasNote(r, '今') <==> exists k | 0 <= k < |TechWords| :: Mentions(texts, TechWords[k]) > 0)
      && (HasNote(r, '今') ==> |r[0]| > 0 && r[0][0] == '今')
  {
    var texts := Map(projects, DescLower);
    var top := TopNote(TechCounts(texts));
    var p := PrivacyNote(Count(texts, HasPrivacyWord));
    var o := OpenNote(Count(texts, HasOpenWord));
    NoteFirst(top, p, o, '今');
    TechKeys(texts);
  }

  /** The privacy note appears exactly when some description has a privacy
      word, and then it carries that number of descriptions. */
  lemma {:induction false} PrivacyNoteCondition(projects: seq<DemoProject>)
    ensures var texts := Map(projects, DescLower);
      var n := Count(texts, HasPrivacyWord);
      var r := Insights(projects);
      && (HasNote(r, '隐') <==> n > 0)
      && (n > 0 ==> PrivacyInsight(n) in r)
  {
    var texts := Map(projects, DescLower);
    var top := TopNote(TechCounts(texts));
    var p := PrivacyNote(Count(texts, HasPrivacyWord));
    var o := OpenNote(Count(texts, HasOpenWord));
    NoteIn(top, p, o, '隐');
    if |p| > 0 {
      assert (top + p + o)[|top|] == p[0];
    }
  }

  /** The open-source note appears exactly when more than three
      descriptions have an open-source word, and then it carries that
      number. */
  lemma {:induction false} OpenNoteCondition(projects: seq<DemoProject>)
    ensures var texts := Map(projects, DescLower);
      var n := Count(texts, HasOpenWord);
      var r := Insights(projects);
      && (HasNote(r, '开') <==> n > 3)
      && (n > 3 ==> OpenInsight(n) in r)
  {
    var texts := Map(projects, DescLower);
    var top := TopNote(TechCounts(texts));
    var p := PrivacyNote(Count(texts, HasPrivacyWord));
    var o := OpenNote(Count(texts, HasOpenWord));
    NoteLast(top, p, o, '开');
  }

  /** The counts hold an entry exactly when some tech word occurs. */
  lemma TechKeys(texts: seq<string>)
    ensures |TechCounts(texts)| > 0 <==> exists k | 0 <= k < |TechWords| :: Mentions(texts, TechWords[k]) > 0
  {
    var d := TechCounts(texts);
    if |d| > 0 {
      assert d[0].0 in Keys(d);
      TechCountsGet(texts, d[0].0);
      var k :| 0 <= k < |TechWords| && TechWords[k] == d[0].0;
      assert Mentions(texts, TechWords[k]) > 0;
    }
    if exists k | 0 <= k < |TechWords| :: Mentions(texts, TechWords[k]) > 0 {
      var k :| 0 <= k < |TechWords| && Mentions(texts, TechWords[k]) > 0;
      TechCountsGet(texts, TechWords[k]);
      assert |Keys(d)| > 0;
    }
  }

  /** The top insight names a tech word of greatest count, with its count;
      of words with equal counts, the one that entered the counts first. */
  lemma TopWordWins(texts: seq<string>)
    requires |TechCounts(texts)| > 0
    ensures var d := TechCounts(texts);
      var t := TopIndex(d);
      && d[t].0 in TechWords
      && d[t].1 == Mentions(texts, d[t].0)
      && forall k | 0 <= k < |TechWords| :: Mentions(texts, TechWords[k]) <= d[t].1
  {
    var d := TechCounts(texts);
    var t := TopIndex(d);
    assert d[t].0 in Keys(d);
    TechCountsGet(texts, d[t].0);
    GetAt(d, t);
    forall k | 0 <= k < |TechWords|
      ensures Mentions(texts, TechWords[k]) <= d[t].1
    {
      TechCountsGet(texts, TechWords[k]);
      WordBounded(d, t, TechWords[k], Mentions(texts, TechWords[k]));
    }
  }

  /** A count found in the dict is at most the greatest count. */
  lemma WordBounded(d: Dict<string, nat>, t: nat, w: string, m: nat)
    requires t < |d| && forall j | 0 <= j < |d| :: d[j].1 <= d[t].1
    requires m > 0 ==> Get(d, w) == Some(m)
    ensures m <= d[t].1
  {
    if m > 0 {
      var i := GetFound(d, w);
    }
  }

  /** In a dict with distinct keys, looking up the key at position `i` finds
      the value at position `i`. */
  lemma GetAt<K(!new), V>(d: Dict<K, V>, i: nat)
    requires DistinctKeys(d) && i < |d|
    ensures Get(d, d[i].0) == Some(d[i].1)
  {
    if i > 0 {
      assert d[1..][i - 1] == d[i];
      assert DistinctKeys(d[1..]);
      GetAt(d[1..], i - 1);
    }
  }

  const Growth := "AI与传统行业结合的项目将持续增多，边缘AI计算框架将成为下一个热点"
  const Infrastructure := "AI基础设施工具需求增加，开发者友好的AI平台将获得更多关注"

  /** generate_prediction: only the number of projects matters. */
  function Prediction(projects: seq<DemoProject>): (r: string)
    ensures r == Growth <==> |projects| > 10
    ensures r == Infrastructure <==> |projects| <= 10
  {
    assert Growth[2] != Infrastructure[2];
    if |projects| > 10 then Growth else Infrastructure
  }
}

=== FILE: dict.dfy ===
/** Python's `dict` as the model uses it: an association list that remembers
    first-insertion order. Assigning to an existing key keeps its position
    and overwrites the value; a new key goes to the end. */
module Dict {
  import opened Wrappers

  type Dict<K, V> = seq<(K, V)>

  function Keys<K, V>(d: Dict<K, V>): (ks: seq<K>)
    ensures |ks| == |d|
    ensures forall i | 0 <= i < |d| :: ks[i] == d[i].0
  {
    seq(|d|, i requires 0 <= i < |d| => d[i].0)
  }

  predicate DistinctKeys<K(==), V>(d: Dict<K, V>)
  {
    forall i, j | 0 <= i < j < |d| :: d[i].0 != d[j].0
  }

  /** Python's `d.get(k)`. */
  function Get<K(==,!new), V>(d: Dict<K, V>, k: K): (r: Option<V>)
    ensures r.None? <==> k !in Keys(d)
  {
    if |d| == 0 then None
    else if d[0].0 == k then Some(d[0].1)
    else
      assert Keys(d) == [d[0].0] + Keys(d[1..]);
      Get(d[1..], k)
  }

  /** Python's `d[k] = v`. */
  function Put<K(==,!new), V>(d: Dict<K, V>, k: K, v: V): (r: Dict<K, V>)
    requires DistinctKeys(d)
    ensures DistinctKeys(r)
    ensures Get(r, k) == Some(v)
    ensures forall j | j != k :: Get(r, j) == Get(d, j)
    ensures k in Keys(d) ==> Keys(r) == Keys(d)
    ensures k !in Keys(d) ==> Keys(r) == Keys(d) + [k]
  {
    if |d| == 0 then
      DistinctCons((k, v), []);
      ConsKeys((k, v), []);
      ConsGet((k, v), []);
      [(k, v)]
    else if d[0].0 == k then
      ConsKeys(d[0], d[1..]);
      DistinctCons(d[0], d[1..]);
      DistinctCons((k, v), d[1..]);
      ConsKeys((k, v), d[1..]);
      ConsGet((k, v), d[1..]);
      ConsGet(d[0], d[1..]);
      [(k, v)] + d[1..]
    else
      DistinctCons(d[0], d[1..]);
      var rest := Put(d[1..], k, v);
      PutStep(d, k, v, rest);
      [d[0]] + rest
  }

  /** What the recursive case of `Put` needs from the rest of the list. */
  lemma PutStep<K(!new), V>(d: Dict<K, V>, k: K, v: V, rest: Dict<K, V>)
    requires |d| > 0 && d[0].0 != k && DistinctKeys(d)
    requires DistinctKeys(rest) && Get(rest, k) == Some(v)
    requires forall j | j != k :: Get(rest, j) == Get(d[1..], j)
    requires k in Keys(d[1..]) ==> Keys(rest) == Keys(d[1..])
    requires k !in Keys(d[1..]) ==> Keys(rest) == Keys(d[1..]) + [k]
    ensures DistinctKeys([d[0]] + rest)
    ensures Get([d[0]] + rest, k) == Some(v)
    ensures forall j | j != k :: Get([d[0]] + rest, j) == Get(d, j)
    ensures k in Keys(d) ==> Keys([d[0]] + rest) == Keys(d)
    ensures k !in Keys(d) ==> Keys([d[0]] + rest) == Keys(d) + [k]
  {
    assert d == [d[0]] + d[1..];
    DistinctCons(d[0], d[1..]);
    PutStepDistinct(d[0], d[1..], k, rest);
    PutStepGet(d, k, v, rest);
    PutStepKeys(d[0], d[1..], k, rest);
  }

  lemma PutStepKeys<K, V>(e: (K, V), tail: Dict<K, V>, k: K, rest: Dict<K, V>)
    requires e.0 != k
    requires k in Keys(tail) ==> Keys(rest) == Keys(tail)
    requires k !in Keys(tail) ==> Keys(rest) == Keys(tail) + [k]
    ensures k in Keys([e] + tail) ==> Keys([e] + rest) == Keys([e] + tail)
    ensures k !in Keys([e] + tail) ==> Keys([e] + rest) == Keys([e] + tail) + [k]
  {
    ConsKeys(e, tail);
    ConsKeys(e, rest);
    assert k in Keys([e] + tail) <==> k in Keys(tail);
  }

  lemma PutStepDistinct<K, V>(e: (K, V), tail: Dict<K, V>, k: K, rest: Dict<K, V>)
    requires e.0 != k && e.0 !in Keys(tail) && DistinctKeys(rest)
    requires Keys(rest) == Keys(tail) || Keys(rest) == Keys(tail) + [k]
    ensures DistinctKeys([e] + rest)
  {
    assert e.0 !in Keys(rest);
    DistinctCons(e, rest);
  }

  lemma PutStepGet<K(!new), V>(d: Dict<K, V>, k: K, v: V, rest: Dict<K, V>)
    requires |d| > 0 && d[0].0 != k
    requires Get(rest, k) == Some(v)
    requires forall j | j != k :: Get(rest, j) == Get(d[1..], j)
    ensures Get([d[0]] + rest, k) == Some(v)
    ensures forall j | j != k :: Get([d[0]] + rest, j) == Get(d, j)
  {
    assert d == [d[0]] + d[1..];
    ConsGet(d[0], d[1..]);
    ConsGet(d[0], rest);
  }

  /** A key that is found sits at some position, with the value found. */
  lemma {:induction false} GetFound<K(!new), V>(d: Dict<K, V>, k: K) returns (i: nat)
    requires Get(d, k).Some?
    ensures i < |d| && d[i].0 == k && d[i].1 == Get(d, k).value
  {
    if d[0].0 == k {
      i := 0;
    } else {
      var j := GetFound(d[1..], k);
      i := j + 1;
    }
  }

  lemma ConsKeys<K, V>(e: (K, V), d: Dict<K, V>)
    ensures Keys([e] + d) == [e.0] + Keys(d)
  {
  }

  lemma ConsGet<K(!new), V>(e: (K, V), d: Dict<K, V>)
    ensures Get([e] + d, e.0) == Some(e.1)
    ensures forall j | j != e.0 :: Get([e] + d, j) == Get(d, j)
  {
    assert ([e] + d)[1..] == d;
  }

  /** A list with a head in front has distinct keys exactly when the rest
      does and the head's key is not among them. */
  lemma DistinctCons<K, V>(e: (K, V), d: Dict<K, V>)
    ensures DistinctKeys([e] + d) <==> e.0 !in Keys(d) && DistinctKeys(d)
  {
    var r := [e] + d;
    if e.0 !in Keys(d) && DistinctKeys(d) {
      forall i, j | 0 <= i < j < |r| ensures r[i].0 != r[j].0 {
        if i == 0 {
          assert r[j].0 == Keys(d)[j - 1];
        } else {
          assert r[i] == d[i - 1] && r[j] == d[j - 1];
        }
      }
    }
    if DistinctKeys(r) {
      forall i | 0 <= i < |d| ensures Keys(d)[i] != e.0 {
        assert r[0] == e && r[i + 1] == d[i];
      }
      forall i, j | 0 <= i < j < |d| ensures d[i].0 != d[j].0 {
        assert r[i + 1] == d[i] && r[j + 1] == d[j];
      }
    }
  }
}

=== FILE: display.dfy ===
/** The plain display of the trending page (app_simple.py and
    simple_display_test.py): each trending item becomes a numbered project
    with its repository name, rendered as plain text or as one HTML block per
    project; a small job retries the scrape three times a minute apart, and
    the mail goes to each recipient in turn, the first failure ending the
    run. Requests, the clock and SMTP are parameters. */
module Display {
  import opened Wrappers
  import opened Seqs
  import opened Text
  import Retry
  import EmergencySend

  // ------------------------------------------------------------- projects

  /** One `article.Box-row`: the link text, the description text and the
      link's `href` attribute, when it has one. */
  datatype Item = Item(title: string, description: string, href: Option<string>)

  datatype Project = Project(index: nat, title: string, repoName: string, description: string, url: string)

  /** The repository part of "owner / repo": the last '/'-field of the
      stripped title, stripped, when the title holds a '/'; otherwise the
      stripped title. */
  function RepoName(title: string): (r: string)
    ensures '/' !in title ==> r == Trim(title)
  {
    if '/' in title then Trim(Last(Split(Trim(title), "/"))) else Trim(title)
  }

  /** "owner/repo" gives "repo" back. */
  lemma RepoNameOfPath(owner: string, repo: string)
    requires '/' !in repo
    requires |owner| > 0 ==> owner[0] !in Whitespace
    requires |repo| > 0 ==> repo[|repo| - 1] !in Whitespace
    ensures RepoName(owner + "/" + repo) == Trim(repo)
  {
    var title := owner + "/" + repo;
    assert title == owner + ['/'] + repo;
    assert title[|owner|] == '/';
    StripUnchanged(title, Whitespace);
    SplitLast(owner, '/', repo);
  }

  /** Both scripts build the URL as `"https://github.com" + href`; a missing
      `href` makes that a TypeError, so every item must carry one. */
  predicate HasHrefs(items: seq<Item>)
  {
    forall i | 0 <= i < |items| :: items[i].href.Some?
  }

  function ProjectOf(item: Item, index: nat): Project
    requires item.href.Some?
  {
    Project(index, Trim(item.title), RepoName(item.title), Trim(item.description),
            "https://github.com" + item.href.value)
  }

  /** `enumerate(items, start=1)`: the projects are numbered 1..n in page
      order, one per item. */
  function ParseItems(items: seq<Item>): (r: seq<Project>)
    requires HasHrefs(items)
    ensures |r| == |items|
    ensures forall i | 0 <= i < |r| :: r[i].index == i + 1 && r[i].title == Trim(items[i].title)
    ensures forall i | 0 <= i < |r| :: r[i].url == "https://github.com" + items[i].href.value
  {
    seq(|items|, i requires 0 <= i < |items| => ProjectOf(items[i], i + 1))
  }

  // ------------------------------------------------------------ scraping

  /** What one request did: raised, or answered with a status and the
      items of the page. */
  datatype Response = Raised | Answered(status: int, items: seq<Item>)

  /** The response used: the domain's, or the fixed IP's when the domain
      request raised. */
  function Fallback(domain: Response, ip: Response): Response
  {
    if domain.Raised? then ip else domain
  }

  predicate Usable(r: Response)
  {
    r.Answered? && r.status == 200
  }

  /** scrape_simple_display of app_simple.py: the domain first, the IP when
      the domain raises, None when both raise or the status is not 200. */
  function ScrapeSimple(domain: Response, ip: Response): (r: Option<seq<Project>>)
    requires Usable(Fallback(domain, ip)) ==> HasHrefs(Fallback(domain, ip).items)
    ensures r.Some? <==> Usable(domain) || (domain.Raised? && Usable(ip))
    ensures r.Some? ==> r.value == ParseItems(Fallback(domain, ip).items)
  {
    var resp := Fallback(domain, ip);
    if resp.Raised? || resp.status != 200 then None
    else Some(ParseItems(resp.items))
  }

  /** Once the domain answers, whatever the IP would have done is irrelevant,
      even when the domain's status is not 200. */
  lemma DomainAnswerDecides(domain: Response, ip1: Response, ip2: Response)
    requires domain.Answered?
    requires Usable(domain) ==> HasHrefs(domain.items)
    ensures ScrapeSimple(domain, ip1) == ScrapeSimple(domain, ip2)
    ensures domain.status != 200 ==> ScrapeSimple(domain, ip1) == None
  {
  }

  /** scrape_simple_display of simple_display_test.py: the IP request is not
      guarded, so when both raise the exception reaches the caller. */
  function ScrapeDisplayTest(domain: Response, ip: Response): (r: Result<Option<seq<Project>>>)
    requires Usable(Fallback(domain, ip)) ==> HasHrefs(Fallback(domain, ip).items)
    ensures r.Err? <==> domain.Raised? && ip.Raised?
    ensures r.Ok? ==> r.value == ScrapeSimple(domain, ip)
  {
    if domain.Raised? && ip.Raised? then Err("IP直连失败") else Ok(ScrapeSimple(domain, ip))
  }

  // --------------------------------------------------------- text display

  const NoData := "没有获取到项目数据"
  const NoDescription := "无描述"
  const Intro := "💡 我是谢小果，是openclaw机器人，谢苹果的数字员工，从今天开始由我这个智能体负责AI信息流项目的所有维护。"

  /** What tells the two scripts' text displays apart: the heading, the
      widths of the rules, the width of the index field and the closing
      self-introduction. */
  datatype TextStyle = TextStyle(heading: string, rule: nat, dashes: nat, indexWidth: nat, intro: Option<string>)

  const AppSimpleText := TextStyle("🚀 GitHub Trending Python 项目 - ", 70, 50, 2, Some(Intro))
  const DisplayTestText := TextStyle("GitHub Trending Python 项目 - ", 60, 40, 0, None)

  /** `project['description'] or '无描述'` */
  function OrNone(description: string): string
  {
    if description == "" then NoDescription else description
  }

  function IndexText(style: TextStyle, index: nat): string
  {
    PadLeft(NatToString(index), style.indexWidth)
  }

  const RepoLabel := "   仓库: "
  const LinkLabel := "   链接: "
  const DescriptionLabel := "   描述: "

  lemma LabelsOneLine()
    ensures OneLine(RepoLabel) && OneLine(LinkLabel) && OneLine(DescriptionLabel)
    ensures OneLine(NoDescription) && OneLine("#") && OneLine(" ")
  {
  }

  /** The five lines a project shows. */
  function BlockLines(style: TextStyle, p: Project): (r: seq<string>)
    ensures |r| == 5
  {
    ["#" + IndexText(style, p.index) + " " + p.repoName,
     RepoLabel + p.title,
     LinkLabel + p.url,
     DescriptionLabel + OrNone(p.description),
     Repeat("-", style.dashes)]
  }

  /** The blocks of the projects, in order. */
  function Blocks(style: TextStyle, ps: seq<Project>): (r: seq<seq<string>>)
    ensures |r| == |ps|
    ensures forall i | 0 <= i < |ps| :: r[i] == BlockLines(style, ps[i])
  {
    Map(ps, p => BlockLines(style, p))
  }

  function ClosingLines(style: TextStyle): seq<string>
  {
    if style.intro.Some? then ["", Repeat("=", style.rule), style.intro.value] else []
  }

  /** The lines of a non-empty display: the heading with the time stamp,
      a rule and a blank line, the lines of each project, the closing. */
  function DisplayLines(style: TextStyle, ps: seq<Project>, stamp: string): seq<string>
  {
    [style.heading + stamp, Repeat("=", style.rule), ""] + Flatten(Blocks(style, ps))
    + ClosingLines(style)
  }

  /** create_text_display: a fixed message for no projects; otherwise the
      text is built line by line (`text += ... + "\n"`). */
  function TextDisplay(style: TextStyle, ps: seq<Project>, stamp: string): (r: string)
    ensures ps == [] ==> r == NoData
  {
    if |ps| == 0 then NoData else Terminated(DisplayLines(style, ps, stamp))
  }

  predicate OneLine(s: string) { '\n' !in s }

  predicate OneLineProject(p: Project)
  {
    OneLine(p.repoName) && OneLine(p.title) && OneLine(p.url) && OneLine(p.description)
  }

  predicate OneLineStyle(style: TextStyle)
  {
    OneLine(style.heading) && (style.intro.Some? ==> OneLine(style.intro.value))
  }

  /** Reading the display back line by line gives the heading, the rule, a
      blank line, the five lines of each project in order and the closing
      lines (and the empty field after the final newline), as long as no
      field holds a newline. */
  lemma TextDisplayLines(style: TextStyle, ps: seq<Project>, stamp: string)
    requires |ps| > 0 && OneLine(stamp) && OneLineStyle(style)
    requires forall i | 0 <= i < |ps| :: OneLineProject(ps[i])
    ensures Split(TextDisplay(style, ps, stamp), "\n") == DisplayLines(style, ps, stamp) + [""]
  {
    DisplayLinesOneLine(style, ps, stamp);
    TerminatedSplit(DisplayLines(style, ps, stamp));
  }

  lemma DisplayLinesOneLine(style: TextStyle, ps: seq<Project>, stamp: string)
    requires OneLine(stamp) && OneLineStyle(style)
    requires forall i | 0 <= i < |ps| :: OneLineProject(ps[i])
    ensures var lines := DisplayLines(style, ps, stamp);
            forall i | 0 <= i < |lines| :: '\n' !in lines[i]
  {
    var head := [style.heading + stamp, Repeat("=", style.rule), ""];
    var body := Flatten(Blocks(style, ps));
    var tail := ClosingLines(style);
    OneLineRules(style);
    OneLineJoin(style.heading, stamp);
    ThreeOneLine(style.heading + stamp, Repeat("=", style.rule), "");
    BodyOneLine(style, ps);
    if style.intro.Some? {
      ThreeOneLine("", Repeat("=", style.rule), style.intro.value);
    }
    AllAppend3(head, body, tail, OneLine);
    assert DisplayLines(style, ps, stamp) == head + body + tail;
  }

  lemma ThreeOneLine(a: string, b: string, c: string)
    requires OneLine(a) && OneLine(b) && OneLine(c)
    ensures var ls := [a, b, c]; forall i | 0 <= i < 3 :: OneLine(ls[i])
  {
  }

  /** Two texts without a newline make one without. */
  lemma OneLineJoin(a: string, b: string)
    requires OneLine(a) && OneLine(b)
    ensures OneLine(a + b)
  {
  }

  lemma OneLineRules(style: TextStyle)
    ensures '\n' !in Repeat("=", style.rule) && '\n' !in Repeat("-", style.dashes)
  {
    RepeatChar('=', style.rule);
    RepeatChar('-', style.dashes);
  }

  lemma IndexOneLine(style: TextStyle, index: nat)
    ensures '\n' !in IndexText(style, index)
  {
    var d := NatToString(index);
    var r := IndexText(style, index);
    forall i | 0 <= i < |r|
      ensures r[i] != '\n'
    {
      if i >= |r| - |d| {
        assert r[i] == d[i - (|r| - |d|)];
        assert IsDigit(d[i - (|r| - |d|)]);
      }
    }
  }

  lemma BlockOneLine(style: TextStyle, p: Project)
    requires OneLineProject(p)
    ensures forall i | 0 <= i < 5 :: '\n' !in BlockLines(style, p)[i]
  {
    var ls := BlockLines(style, p);
    IndexLineOneLine(style, p);
    LabelLinesOneLine(style, p);
    OneLineRules(style);
    FiveOneLine(ls[0], ls[1], ls[2], ls[3], ls[4]);
    assert ls == [ls[0], ls[1], ls[2], ls[3], ls[4]];
  }

  lemma IndexLineOneLine(style: TextStyle, p: Project)
    requires OneLine(p.repoName)
    ensures '\n' !in BlockLines(style, p)[0]
  {
    IndexOneLine(style, p.index);
    OneLineJoin("#", IndexText(style, p.index));
    OneLineJoin("#" + IndexText(style, p.index), " ");
    OneLineJoin("#" + IndexText(style, p.index) + " ", p.repoName);
  }

  lemma LabelLinesOneLine(style: TextStyle, p: Project)
    requires OneLineProject(p)
    ensures '\n' !in BlockLines(style, p)[1] && '\n' !in BlockLines(style, p)[2]
    ensures '\n' !in BlockLines(style, p)[3]
  {
    LabelsOneLine();
    OneLineJoin(RepoLabel, p.title);
    OneLineJoin(LinkLabel, p.url);
    OneLineJoin(DescriptionLabel, OrNone(p.description));
  }

  lemma FiveOneLine(a: string, b: string, c: string, d: string, e: string)
    requires OneLine(a) && OneLine(b) && OneLine(c) && OneLine(d) && OneLine(e)
    ensures var ls := [a, b, c, d, e]; forall i | 0 <= i < 5 :: '\n' !in ls[i]
  {
  }

  lemma BodyOneLine(style: TextStyle, ps: seq<Project>)
    requires forall i | 0 <= i < |ps| :: OneLineProject(ps[i])
    ensures forall i | 0 <= i < |Flatten(Blocks(style, ps))| :: OneLine(Flatten(Blocks(style, ps))[i])
  {
    var xss := Blocks(style, ps);
    forall j | 0 <= j < |xss|
      ensures |xss[j]| == 5 && forall i | 0 <= i < 5 :: '\n' !in xss[j][i]
    {
      BlockOneLine(style, ps[j]);
    }
    var body := Flatten(xss);
    FlattenUniformLength(xss, 5);
    forall i | 0 <= i < |body|
      ensures '\n' !in body[i]
    {
      FlattenUniformAt(xss, 5, i / 5, i % 5);
    }
  }

  /** The lines of the project at position `i` sit at lines 5i..5i+4 of
      the body: one block per project, in input order. */
  lemma BlockAt(style: TextStyle, ps: seq<Project>, i: nat, k: nat)
    requires i < |ps| && k < 5
    ensures var body := Flatten(Blocks(style, ps));
      |body| == 5 * |ps| && body[5 * i + k] == BlockLines(style, ps[i])[k]
  {
    var xss := Blocks(style, ps);
    FlattenUniformLength(xss, 5);
    FlattenUniformAt(xss, 5, i, k);
  }

  // --------------------------------------------------------- HTML display

  const EmptyPage := "<html><body><h2>没有获取到项目数据</h2></body></html>"

  /** The page up to the time stamp; the rules of its style sheet are not
      part of this model. */
  const PageTop := "<!DOCTYPE html>\n<html>\n<head>\n    <meta charset=\"UTF-8\">\n"
    + "    <meta name=\"viewport\" content=\"width=device-width, initial-scale=1.0\">\n"
    + "    <title>GitHub Trending Python 项目</title>\n    <style>\n    </style>\n</head>\n<body>\n"
    + "    <div class=\"container\">\n        <h1>📈 GitHub Trending Python 项目</h1>\n"
    + "        <div class=\"date\">更新时间: "
  const PageDate := "</div>\n"
  const PageEnd := "\n    </div>\n</body>\n</html>"

  /** The fixed pieces of a project's block, between its fields. */
  const BlockStart := "\n        <div class=\"project\">\n            <div class=\"project-title\">\n"
    + "                <span class=\"index\">"
  const AfterIndex := "</span>\n                <a href=\""
  const AfterHref := "\" target=\"_blank\">"
  const AfterName := "</a>\n                <span style=\"color: #6a737d; font-size: 14px;\">("
  const AfterTitle := ")</span>\n            </div>\n            <div class=\"project-description\">"
  const AfterDescription := "</div>\n            <div class=\"project-url\">🔗 "
  const BlockEnd := "</div>\n        </div>\n        "

  /** The f-string of a block, piece by piece. */
  function HtmlPieces(p: Project): (r: seq<string>)
    ensures |r| == 13
  {
    [BlockStart, "#" + NatToString(p.index), AfterIndex, p.url, AfterHref, p.repoName,
     AfterName, p.title, AfterTitle, OrNone(p.description), AfterDescription, p.url, BlockEnd]
  }

  function HtmlBlock(p: Project): string
  {
    Flatten(HtmlPieces(p))
  }

  function HtmlBlocks(ps: seq<Project>): string
  {
    Flatten(Map(ps, HtmlBlock))
  }

  /** create_html_display: a fixed page for no projects; otherwise the page
      head with the time stamp, one block per project and the page end. */
  function HtmlDisplay(ps: seq<Project>, stamp: string): (r: string)
    ensures ps == [] ==> r == EmptyPage
    ensures ps != [] ==> StartsWith(r, PageTop + stamp + PageDate) && EndsWith(r, PageEnd)
  {
    if |ps| == 0 then EmptyPage
    else
      var r := PageTop + stamp + PageDate + HtmlBlocks(ps) + PageEnd;
      assert r[..|PageTop + stamp + PageDate|] == PageTop + stamp + PageDate;
      assert r[|r| - |PageEnd|..] == PageEnd;
      r
  }

  /** The blocks of a list are the blocks of its parts, in order. */
  lemma HtmlBlocksAppend(a: seq<Project>, b: seq<Project>)
    ensures HtmlBlocks(a + b) == HtmlBlocks(a) + HtmlBlocks(b)
  {
    MapAppend(a, b, HtmlBlock);
    FlattenAppend(Map(a, HtmlBlock), Map(b, HtmlBlock));
  }

  /** A single project is rendered as its own block. */
  lemma HtmlBlocksOne(p: Project)
    ensures HtmlBlocks([p]) == HtmlBlock(p)
  {
    assert Map([p], HtmlBlock) == [HtmlBlock(p)];
    assert Flatten([HtmlBlock(p)]) == HtmlBlock(p) + Flatten([HtmlBlock(p)][1..]);
  }

  /** A project's block shows its number after '#', its repository name, its
      link and its description, or 无描述 when that is empty. */
  lemma HtmlBlockShows(p: Project)
    ensures Contains(HtmlBlock(p), "#" + NatToString(p.index))
    ensures Contains(HtmlBlock(p), p.repoName)
    ensures Contains(HtmlBlock(p), p.url)
    ensures Contains(HtmlBlock(p), OrNone(p.description))
  {
    var pieces := HtmlPieces(p);
    ContainsPiece(pieces, 1);
    ContainsPiece(pieces, 3);
    ContainsPiece(pieces, 5);
    ContainsPiece(pieces, 9);
  }

  // ------------------------------------------------------------------ job

  /** One attempt of simple_job: the scrape raised, or returned a list
      (None when the page could not be used); `saved` tells whether writing
      the text file would succeed. The write sits in the same try block, so
      a failed write is caught like a failed scrape. */
  datatype Attempt = Threw | Returned(projects: Option<seq<Project>>, saved: bool)

  /** `if projects:` — only a non-empty list, written to the log file,
      ends the loop. */
  predicate Scraped(a: Attempt)
  {
    a.Returned? && a.projects.Some? && |a.projects.value| > 0 && a.saved
  }

  datatype JobOutput = JobOutput(text: string, projects: seq<Project>, filename: string)

  /** The rendered text, the projects and the name of the log file. */
  function Output(ps: seq<Project>, date: string, stamp: string): JobOutput
  {
    JobOutput(TextDisplay(AppSimpleText, ps, stamp), ps, "logs/" + date + "_simple.txt")
  }

  const JobAttempts: nat := 3
  const JobDelay: nat := 60

  /** simple_job: at most three attempts, a minute between attempts and none
      after the last; the first non-empty list is rendered, otherwise None. */
  method SimpleJob(tries: seq<Attempt>, date: string, stamp: string)
    returns (r: Option<JobOutput>, attempts: nat, sleeps: seq<nat>)
    requires |tries| >= JobAttempts
    ensures 1 <= attempts <= JobAttempts
    ensures r.Some? <==> exists i | 0 <= i < JobAttempts :: Scraped(tries[i])
    ensures forall i | 0 <= i < attempts - 1 :: !Scraped(tries[i])
    ensures r.Some? ==>
      Scraped(tries[attempts - 1]) && r.value == Output(tries[attempts - 1].projects.value, date, stamp)
    ensures r.None? ==> attempts == JobAttempts
    ensures |sleeps| == attempts - 1 && forall i | 0 <= i < |sleeps| :: sleeps[i] == JobDelay
  {
    var found;
    attempts, found, sleeps := JobTries(tries);
    if found {
      r := Some(Output(tries[attempts - 1].projects.value, date, stamp));
    } else {
      r := None;
    }
  }

  /** A non-empty scrape whose text cannot be written fails the attempt
      and, unless it was the last, leads to another one. */
  lemma UnsavedRetried(ps: seq<Project>)
    requires |ps| > 0
    ensures !Scraped(Returned(Some(ps), false))
    ensures JobOutcomes([Returned(Some(ps), false), Threw, Threw])[0] == Retry.Failed
  {
  }

  /** The retry loop of simple_job: `found` tells whether an attempt
      returned a non-empty list, and that attempt is the last one made. */
  method JobTries(tries: seq<Attempt>) returns (attempts: nat, found: bool, sleeps: seq<nat>)
    requires |tries| >= JobAttempts
    ensures 1 <= attempts <= JobAttempts
    ensures forall i | 0 <= i < attempts - 1 :: !Scraped(tries[i])
    ensures found ==> Scraped(tries[attempts - 1])
    ensures !found ==> attempts == JobAttempts && forall i | 0 <= i < JobAttempts :: !Scraped(tries[i])
    ensures |sleeps| == attempts - 1 && forall i | 0 <= i < |sleeps| :: sleeps[i] == JobDelay
  {
    var outcomes := JobOutcomes(tries);
    var final;
    attempts, final, sleeps := Retry.Run(outcomes, JobAttempts, _ => JobDelay);
    found := final == Retry.Success;
  }

  /** The first three attempts as retry outcomes: a non-empty list succeeds,
      anything else fails and is retried. */
  function JobOutcomes(tries: seq<Attempt>): (r: seq<Retry.Outcome>)
    requires |tries| >= JobAttempts
    ensures |r| == JobAttempts
    ensures forall i | 0 <= i < JobAttempts :: r[i] == Retry.Succeeded <==> Scraped(tries[i])
    ensures forall i | 0 <= i < JobAttempts :: r[i] == Retry.Failed <==> !Scraped(tries[i])
  {
    seq(JobAttempts, i requires 0 <= i < JobAttempts =>
      if Scraped(tries[i]) then Retry.Succeeded else Retry.Failed)
  }

  // -------------------------------------------------------------- sending

  /** send_emails: one send per recipient in list order; nothing catches a
      failure, so the first refused send raises and the rest are not tried.
      `accepted` is the server's answer to each send. */
  method SendEmails(tos: seq<string>, accepted: seq<bool>) returns (sent: seq<string>, raised: bool)
    requires |accepted| == |tos|
    ensures sent == tos[..EmergencySend.AcceptedRun(accepted, |tos|)]
    ensures raised <==> exists i | 0 <= i < |tos| :: !accepted[i]
    ensures forall i | 0 <= i < |sent| :: accepted[i]
  {
    var run := EmergencySend.AcceptedRun(accepted, |tos|);
    sent := [];
    var i := 0;
    while i < |tos|
      invariant 0 <= i <= run
      invariant sent == tos[..i]
    {
      if !accepted[i] {
        raised := true;
        return;
      }
      sent := sent + [tos[i]];
      i := i + 1;
    }
    raised := false;
  }
}

=== FILE: email_sender.dfy ===
/** The mail sender of the core package (core/email_sender.py): a validated
    SMTP configuration, single sends that never raise, batch sends that
    collect one result per address, the report subject chosen by language,
    and the per-run log record. The SMTP server is an oracle: for every send
    the caller says whether the server accepted the mail. */
module EmailSender {
  import opened Wrappers
  import opened Seqs
  import opened Text
  import opened Dict

  datatype Config = Config(host: string, port: nat, email: string, password: string, useSsl: bool)

  const DefaultHost := "smtp.163.com"
  const DefaultPort := 465

  /** The constructor: a sender without an address or without a password is
      rejected with ValueError. */
  function NewSender(host: string, port: nat, email: string, password: string, useSsl: bool): (r: Result<Config>)
    ensures r.Err? <==> email == "" || password == ""
    ensures r.Ok? ==> r.value.email == email && r.value.password == password
    ensures r.Ok? ==> r.value.host == host && r.value.port == port && r.value.useSsl == useSsl
  {
    if email == "" || password == "" then Err("发件人邮箱和密码必须设置")
    else Ok(Config(host, port, email, password, useSsl))
  }

  /** A mail as handed to the SMTP library. */
  datatype Mail = Mail(to: string, subject: string, body: string)

  /** `if html_content:` — a present, non-empty HTML body replaces the text. */
  predicate HasHtml(html: Option<string>)
  {
    html.Some? && html.value != ""
  }

  /** The body actually sent. */
  function Body(content: string, html: Option<string>): (b: string)
    ensures HasHtml(html) ==> b == html.value
    ensures !HasHtml(html) ==> b == content
  {
    if HasHtml(html) then html.value else content
  }

  /** send_email: every library error is caught, so the result is simply
      whether the server accepted the mail. */
  function SendEmail(to: string, subject: string, content: string, html: Option<string>, accepted: bool)
    : (r: (bool, Mail))
    ensures r.0 == accepted
    ensures r.1.to == to && r.1.subject == subject && r.1.body == Body(content, html)
  {
    (accepted, Mail(to, subject, Body(content, html)))
  }

  // ------------------------------------------------------------- batch sends

  /** The addresses in order of first appearance: the keys of a dict filled
      in list order. */
  function Distinct(xs: seq<string>): (r: seq<string>)
    ensures |r| <= |xs|
  {
    if |xs| == 0 then []
    else
      var init := Distinct(xs[..|xs| - 1]);
      var last := xs[|xs| - 1];
      if last in xs[..|xs| - 1] then init else init + [last]
  }

  /** Deduplication loses no address and invents none. */
  lemma {:induction false} DistinctMembers(xs: seq<string>, x: string)
    ensures x in Distinct(xs) <==> x in xs
    decreases |xs|
  {
    if |xs| > 0 {
      var n := |xs| - 1;
      DistinctMembers(xs[..n], x);
      Snoc(xs);
      assert x in xs <==> x in xs[..n] || x == xs[n];
    }
  }

  /** The outcome recorded for `e`: that of its last send, since a later
      duplicate overwrites the earlier entry. */
  function LastResult(recipients: seq<string>, accepted: seq<bool>, e: string): (r: Option<bool>)
    requires |accepted| == |recipients|
    ensures r.None? <==> e !in recipients
  {
    if |recipients| == 0 then None
    else
      var n := |recipients| - 1;
      assert recipients == recipients[..n] + [recipients[n]];
      if recipients[n] == e then Some(accepted[n])
      else LastResult(recipients[..n], accepted[..n], e)
  }

  predicate Succeeded(p: (string, bool)) { p.1 }
  predicate Failed(p: (string, bool)) { !p.1 }

  function Successes(results: Dict<string, bool>): (n: nat)
    ensures n <= |results|
  {
    Count(results, Succeeded)
  }

  function Failures(results: Dict<string, bool>): (n: nat)
    ensures n <= |results|
  {
    Count(results, Failed)
  }

  lemma DistinctSnoc(xs: seq<string>, x: string)
    ensures Distinct(xs + [x]) == Distinct(xs) + (if x in xs then [] else [x])
  {
    assert (xs + [x])[..|xs|] == xs;
  }

  lemma LastResultSnoc(xs: seq<string>, acc: seq<bool>, x: string, a: bool, e: string)
    requires |acc| == |xs|
    ensures LastResult(xs + [x], acc + [a], e) == if x == e then Some(a) else LastResult(xs, acc, e)
  {
    assert (xs + [x])[..|xs|] == xs;
    assert (acc + [a])[..|xs|] == acc;
  }

  /** Recording one more send keeps the dict equal to its reference
      description. */
  lemma RecordStep(results: Dict<string, bool>, xs: seq<string>, acc: seq<bool>, x: string, a: bool)
    requires |acc| == |xs|
    requires DistinctKeys(results) && Keys(results) == Distinct(xs)
    requires forall e :: Get(results, e) == LastResult(xs, acc, e)
    ensures DistinctKeys(Put(results, x, a))
    ensures Keys(Put(results, x, a)) == Distinct(xs + [x])
    ensures forall e :: Get(Put(results, x, a), e) == LastResult(xs + [x], acc + [a], e)
  {
    DistinctSnoc(xs, x);
    DistinctMembers(xs, x);
    var r := Put(results, x, a);
    forall e
      ensures Get(r, e) == LastResult(xs + [x], acc + [a], e)
    {
      LastResultSnoc(xs, acc, x, a, e);
      if e != x {
        assert Get(r, e) == Get(results, e);
      }
    }
  }

  /** The dict send_batch_emails fills: `results[email] = success` for each
      send in list order. */
  function Record(xs: seq<string>, acc: seq<bool>): (results: Dict<string, bool>)
    requires |acc| == |xs|
    ensures DistinctKeys(results)
  {
    if |xs| == 0 then []
    else
      var n := |xs| - 1;
      Put(Record(xs[..n], acc[..n]), xs[n], acc[n])
  }

  /** The record has one entry per distinct address, in order of first
      appearance, holding the outcome of that address's last send. */
  lemma {:induction false} RecordSpec(xs: seq<string>, acc: seq<bool>)
    requires |acc| == |xs|
    ensures Keys(Record(xs, acc)) == Distinct(xs)
    ensures forall e :: Get(Record(xs, acc), e) == LastResult(xs, acc, e)
  {
    if |xs| > 0 {
      var n := |xs| - 1;
      RecordSpec(xs[..n], acc[..n]);
      Snoc(xs);
      Snoc(acc);
      RecordStep(Record(xs[..n], acc[..n]), xs[..n], acc[..n], xs[n], acc[n]);
    }
  }

  /** One more send extends the record of a prefix by one `Put`. */
  lemma RecordNext(xs: seq<string>, acc: seq<bool>, i: nat)
    requires |acc| == |xs| && i < |xs|
    ensures Record(xs[..i + 1], acc[..i + 1]) == Put(Record(xs[..i], acc[..i]), xs[i], acc[i])
  {
    var ys := xs[..i + 1];
    var bs := acc[..i + 1];
    assert ys[..i] == xs[..i] && bs[..i] == acc[..i];
    assert ys[i] == xs[i] && bs[i] == acc[i];
  }

  const BatchPause: nat := 1

  /** send_batch_emails: one send per list entry in list order, a one-second
      pause between consecutive sends, and a result dict with one entry per
      distinct address holding the outcome of its last send. */
  method SendBatch(recipients: seq<string>, subject: string, content: string, html: Option<string>,
                   accepted: seq<bool>)
    returns (results: Dict<string, bool>, mails: seq<Mail>, sleeps: seq<nat>)
    requires |accepted| == |recipients|
    ensures |mails| == |recipients|
    ensures forall i | 0 <= i < |recipients| :: mails[i] == Mail(recipients[i], subject, Body(content, html))
    ensures results == Record(recipients, accepted)
    ensures Successes(results) <= |recipients|
    ensures sleeps == Pauses(if |recipients| == 0 then 0 else |recipients| - 1)
  {
    results := [];
    mails := [];
    sleeps := [];
    var i := 0;
    while i < |recipients|
      invariant 0 <= i <= |recipients|
      invariant |mails| == i
      invariant forall k | 0 <= k < i :: mails[k] == Mail(recipients[k], subject, Body(content, html))
      invariant results == Record(recipients[..i], accepted[..i])
      invariant sleeps == Pauses(if i == |recipients| && i > 0 then i - 1 else i)
    {
      var sent := SendEmail(recipients[i], subject, content, html, accepted[i]);
      results := RecordOne(recipients, accepted, i, results, sent.0);
      mails, sleeps := Deliver(recipients, subject, content, html, i, mails, sleeps, sent.1);
      i := i + 1;
    }
    assert recipients[..i] == recipients;
    assert accepted[..i] == accepted;
    RecordSpec(recipients, accepted);
  }

  /** The `i`-th mail joins the trace, followed by a pause unless it was the
      last one. */
  method Deliver(recipients: seq<string>, subject: string, content: string, html: Option<string>,
                 i: nat, mails: seq<Mail>, sleeps: seq<nat>, mail: Mail)
    returns (mails': seq<Mail>, sleeps': seq<nat>)
    requires i < |recipients| && |mails| == i && sleeps == Pauses(i)
    requires forall k | 0 <= k < i :: mails[k] == Mail(recipients[k], subject, Body(content, html))
    requires mail == Mail(recipients[i], subject, Body(content, html))
    ensures |mails'| == i + 1
    ensures forall k | 0 <= k < i + 1 :: mails'[k] == Mail(recipients[k], subject, Body(content, html))
    ensures sleeps' == Pauses(if i + 1 == |recipients| then i else i + 1)
  {
    mails' := mails + [mail];
    sleeps' := sleeps;
    if i + 1 < |recipients| {
      sleeps' := sleeps + [BatchPause];
    }
  }

  /** `n` pauses of one second. */
  function Pauses(n: nat): (r: seq<nat>)
    ensures |r| == n && forall i | 0 <= i < n :: r[i] == BatchPause
  {
    seq(n, _ => BatchPause)
  }

  /** `results[email] = success` for the `i`-th send. */
  method RecordOne(xs: seq<string>, acc: seq<bool>, i: nat, results: Dict<string, bool>, ok: bool)
    returns (r: Dict<string, bool>)
    requires |acc| == |xs| && i < |xs| && ok == acc[i]
    requires results == Record(xs[..i], acc[..i])
    ensures r == Record(xs[..i + 1], acc[..i + 1])
  {
    RecordNext(xs, acc, i);
    r := Put(results, xs[i], ok);
  }

  // ----------------------------------------------------------------- subject

  /** The three report kinds the subject distinguishes. */
  datatype ReportKind = AiReport | Web3Report | GithubReport

  /** The subject is chosen on `language.lower()`. */
  function KindOf(language: string): (k: ReportKind)
    ensures k == AiReport <==> Lower(language) == "python"
    ensures k == Web3Report <==> Lower(language) == "rust"
  {
    var l := Lower(language);
    if l == "python" then AiReport else if l == "rust" then Web3Report else GithubReport
  }

  function Subject(kind: ReportKind, date: string): string
  {
    match kind
    case AiReport => "🚀 " + date + " AI趋势分析报告"
    case Web3Report => "🔗 " + date + " Web3趋势分析报告"
    case GithubReport => "📊 " + date + " GitHub趋势分析报告"
  }

  /** The leading symbol of each subject. */
  function Badge(kind: ReportKind): char
  {
    match kind
    case AiReport => '🚀'
    case Web3Report => '🔗'
    case GithubReport => '📊'
  }

  lemma LowerTwice(s: string)
    ensures Lower(Lower(s)) == Lower(s)
  {
  }

  /** The language is compared case-insensitively: "Python" and "PYTHON" give
      the subject of "python". */
  lemma KindIgnoresCase(language: string)
    ensures KindOf(Lower(language)) == KindOf(language)
  {
    LowerTwice(language);
  }

  /** Distinct kinds or distinct dates give distinct subjects: the subject
      identifies both the report kind (by its first symbol) and the date. */
  lemma SubjectDetermines(k1: ReportKind, d1: string, k2: ReportKind, d2: string)
    requires Subject(k1, d1) == Subject(k2, d2)
    ensures k1 == k2 && d1 == d2
  {
    var s := Subject(k1, d1);
    assert s[0] == Badge(k1);
    assert Subject(k2, d2)[0] == Badge(k2);
    assert k1 == k2;
    assert |d1| == |d2|;
    assert s[2..2 + |d1|] == d1;
    assert Subject(k2, d2)[2..2 + |d2|] == d2;
  }

  // --------------------------------------------------------------------- log

  const LoggedRecipients := 10

  datatype Log = Log(date: string, language: string, totalRecipients: nat,
                     successCount: nat, failureCount: nat, recipients: seq<string>)

  /** log_email_sending's record: every result is either a success or a
      failure, and only the first ten addresses are kept. */
  function LogOf(date: string, language: string, total: nat, results: Dict<string, bool>): (l: Log)
    ensures l.successCount + l.failureCount == |results|
    ensures l.successCount == Successes(results) && l.totalRecipients == total
    ensures |l.recipients| == Min(LoggedRecipients, |results|)
    ensures IsPrefix(l.recipients, Keys(results))
  {
    CountComplement(results, Succeeded, Failed);
    Log(date, language, total, Successes(results), Failures(results), Take(Keys(results), LoggedRecipients))
  }

  /** send_trending_email. `rendered` is the rendered HTML template (None when
      no template file is given or found; "" when rendering failed, which
      falls back to the text). The log directory is created outside any
      handler of its own, so when that fails the whole call reports `{}` even
      though the mails have gone out; a failed log write is only reported. */
  method SendTrending(recipients: seq<string>, language: string, date: string, analysis: string,
                      rendered: Option<string>, accepted: seq<bool>, logDirOk: bool)
    returns (results: Dict<string, bool>, mails: seq<Mail>, log: Option<Log>, sleeps: seq<nat>)
    requires |accepted| == |recipients|
    ensures |mails| == |recipients|
    ensures forall i | 0 <= i < |mails| :: mails[i] == Mail(recipients[i], Subject(KindOf(language), date), Body(analysis, rendered))
    ensures !logDirOk ==> results == [] && log.None?
    ensures logDirOk ==> results == Record(recipients, accepted)
    ensures logDirOk ==> log == Some(LogOf(date, language, |recipients|, results))
    ensures |sleeps| == if |recipients| == 0 then 0 else |recipients| - 1
    ensures sleeps == Pauses(if |recipients| == 0 then 0 else |recipients| - 1)
    ensures forall i | 0 <= i < |sleeps| :: sleeps[i] == BatchPause
  {
    var subject := Subject(KindOf(language), date);
    var batch;
    batch, mails, sleeps := SendBatch(recipients, subject, analysis, rendered, accepted);
    if logDirOk {
      results := batch;
      log := Some(LogOf(date, language, |recipients|, results));
    } else {
      results := [];
      log := None;
    }
  }
}

=== FILE: emergency_fix.dfy ===
/** The emergency fix script (emergency_fix.py): a two-step reachability
    probe whose 500-character preview is what the page parser sees, fifteen
    trending lines or a dated backup, an analysis with a 2000-character
    input that falls back to a fixed text, a template mail whose project
    count is the number of bracketed lines, and one test mail to the first
    subscriber. Requests, the page parser, the analysis service, file
    contents and the send are parameters. */
module EmergencyFix {
  import opened Wrappers
  import opened Seqs
  import opened Text
  import opened Subscribers
  import Display
  import opened SimpleReport
  import opened MailTemplate

  // ------------------------------------------------------------ the probe

  /** What one probe request did: raised, or answered with a status and
      the page text. */
  datatype Reply = Raised | Answered(status: int, text: string)

  const PreviewLength := 500
  const ProbeFailed := "所有网络测试失败"

  /** test_network_simple: the domain first, then the fixed IP; any answer,
      whatever its status, succeeds with the first 500 characters of the
      page. None stands for (False, "所有网络测试失败"). */
  function Probe(domain: Reply, ip: Reply): (r: Option<string>)
    ensures r.None? <==> domain.Raised? && ip.Raised?
    ensures domain.Answered? ==> r == Some(Take(domain.text, PreviewLength))
    ensures domain.Raised? && ip.Answered? ==> r == Some(Take(ip.text, PreviewLength))
    ensures r.Some? ==> |r.value| <= PreviewLength
  {
    if domain.Answered? then Some(Take(domain.text, PreviewLength))
    else if ip.Answered? then Some(Take(ip.text, PreviewLength))
    else None
  }

  // ----------------------------------------------------------- the trends

  const ParsedItems := 15

  /** The link: the site plus `href` when the attribute is present and
      non-empty, otherwise the empty text. */
  function Link(href: Option<string>): (r: string)
    ensures href.Some? && href.value != "" <==> r != ""
  {
    if href.Some? && href.value != "" then "https://github.com" + href.value else ""
  }

  /** `f"{i}. [{title}]: {description} ({url})"`. */
  function TrendLine(index: nat, it: Display.Item): (r: string)
  {
    NatToString(index) + ". [" + it.title + "]: " + it.description + " (" + Link(it.href) + ")"
  }

  /** One line per item among the first fifteen, numbered from 1 in page
      order; untitled items are kept. */
  function TrendLines(items: seq<Display.Item>): (r: seq<string>)
    ensures |r| == Min(|items|, ParsedItems)
    ensures forall i | 0 <= i < |r| :: r[i] == TrendLine(i + 1, items[i])
  {
    var kept := Take(items, ParsedItems);
    seq(|kept|, i requires 0 <= i < |kept| => TrendLine(i + 1, kept[i]))
  }

  /** Items after the fifteenth never reach the text. */
  lemma SixteenthIgnored(items: seq<Display.Item>, more: seq<Display.Item>)
    requires |items| >= ParsedItems
    ensures TrendLines(items + more) == TrendLines(items)
  {
    assert Take(items + more, ParsedItems) == Take(items, ParsedItems);
  }

  predicate OneLineItem(it: Display.Item)
  {
    '\n' !in it.title && '\n' !in it.description && (it.href.Some? ==> '\n' !in it.href.value)
  }

  lemma TrendLineOneLine(index: nat, it: Display.Item)
    requires OneLineItem(it)
    ensures '\n' !in TrendLine(index, it)
  {
    NotInDigits(NatToString(index), '\n');
  }

  /** The parsed text read back line by line gives one line per kept item,
      in order, when no field holds a line break. */
  lemma TrendsSplit(items: seq<Display.Item>)
    requires |items| > 0
    requires forall i | 0 <= i < |items| :: OneLineItem(items[i])
    ensures Split(Join(TrendLines(items), "\n"), "\n") == TrendLines(items)
    ensures |Split(Join(TrendLines(items), "\n"), "\n")| == Min(|items|, ParsedItems)
  {
    var lines := TrendLines(items);
    forall i | 0 <= i < |lines|
      ensures '\n' !in lines[i]
    {
      TrendLineOneLine(i + 1, items[i]);
    }
    SplitJoin(lines, '\n');
  }

  // ----------------------------------------------------------- the backup

  const BackupDate := "2026-02-14"

  const SampleLines := [
    "1. [wifi-densepose]: Use WiFi signals to estimate human poses (https://github.com/xyz/wifi-densepose)",
    "2. [Vision-Agents]: Multi-modal AI agents for visual tasks (https://github.com/abc/vision-agents)",
    "3. [claude-quickstarts]: Quickstart examples for Claude API (https://github.com/def/claude-quickstarts)",
    "4. [unstract]: Open-source AI platform (https://github.com/ghi/unstract)",
    "5. [open-webui]: Web UI for AI models (https://github.com/jkl/open-webui)"]

  /** get_backup_data: the saved file of 2026-02-14 with every occurrence
      of that date replaced by today's, or the five sample lines when the
      file does not exist. */
  function BackupData(file: Option<string>, today: string): (r: string)
    ensures file.None? ==> r == Join(SampleLines, "\n")
  {
    if file.Some? then Replace(file.value, BackupDate, today) else Join(SampleLines, "\n")
  }

  /** A saved file that never mentions the old date is used unchanged. */
  lemma BackupUndated(content: string, today: string)
    requires !Contains(content, BackupDate)
    ensures BackupData(Some(content), today) == content
  {
    ReplaceAbsent(content, BackupDate, today);
  }

  /** A single mention of the old date becomes today's date and nothing
      else moves. */
  lemma BackupRedated(x: string, y: string, today: string)
    requires !Contains(x + BackupDate[..|BackupDate| - 1], BackupDate) && !Contains(y, BackupDate)
    ensures BackupData(Some(x + BackupDate + y), today) == x + today + y
  {
    ReplaceOnce(x, BackupDate, y, today);
  }

  /** get_today_trends: the probe's preview, not the page, goes to the
      parser (None when the parser raises); without a preview or a parse the
      backup is used, otherwise the trend lines joined by newlines. */
  function TodayTrends(domain: Reply, ip: Reply, parse: string -> Option<seq<Display.Item>>,
                       backup: Option<string>, today: string): (r: string)
    ensures Probe(domain, ip).None? ==> r == BackupData(backup, today)
    ensures Probe(domain, ip).Some? && parse(Probe(domain, ip).value).Some?
            ==> r == Join(TrendLines(parse(Probe(domain, ip).value).value), "\n")
  {
    var preview := Probe(domain, ip);
    if preview.None? then BackupData(backup, today)
    else
      var items := parse(preview.value);
      if items.None? then BackupData(backup, today)
      else Join(TrendLines(items.value), "\n")
  }

  /** Only the first 500 characters of the answered page matter: anything
      after them cannot change the trends. */
  lemma PreviewOnly(status: int, page: string, more: string, ip: Reply,
                    parse: string -> Option<seq<Display.Item>>, backup: Option<string>, today: string)
    requires |page| >= PreviewLength
    ensures TodayTrends(Answered(status, page + more), ip, parse, backup, today)
            == TodayTrends(Answered(status, page), ip, parse, backup, today)
  {
    assert Take(page + more, PreviewLength) == Take(page, PreviewLength);
  }

  // --------------------------------------------------------- the analysis

  const AnalysisInputCap := 2000

  /** create_simple_analysis: the fixed report; the count of non-blank
      input lines it computes is never used, so the input is not a
      parameter. */
  const SimpleAnalysis := Join(SimpleLines, "\n")

  /** The key check of test_zhipuai_api: a missing key is set to the empty
      text at start-up, so only the empty key fails. */
  datatype Check = KeyMissing | CheckFailed | CheckPassed

  function ApiCheck(key: string, callOk: bool): (r: Check)
    ensures r == CheckPassed <==> key != "" && callOk
    ensures r == KeyMissing <==> key == ""
  {
    if key == "" then KeyMissing else if callOk then CheckPassed else CheckFailed
  }

  /** analyze_with_ai: a failed check or a raising call gives the fixed
      report; otherwise the reply to the first 2000 characters of the
      trends. `service` answers a user message, None when the call
      raises. */
  function Analyze(key: string, checkOk: bool, service: string -> Option<string>, trends: string): (r: string)
    ensures ApiCheck(key, checkOk) != CheckPassed ==> r == SimpleAnalysis
    ensures ApiCheck(key, checkOk) == CheckPassed && service(Take(trends, AnalysisInputCap)).Some?
            ==> r == service(Take(trends, AnalysisInputCap)).value
  {
    if ApiCheck(key, checkOk) != CheckPassed then SimpleAnalysis
    else
      var reply := service(Take(trends, AnalysisInputCap));
      if reply.None? then SimpleAnalysis else reply.value
  }

  /** The service never sees more than 2000 characters: trends that agree
      on those get the same analysis. */
  lemma AnalysisSeesPrefix(key: string, checkOk: bool, service: string -> Option<string>,
                           trends: string, more: string)
    requires |trends| >= AnalysisInputCap
    ensures Analyze(key, checkOk, service, trends + more) == Analyze(key, checkOk, service, trends)
  {
    assert Take(trends + more, AnalysisInputCap) == Take(trends, AnalysisInputCap);
  }

  // ------------------------------------------------------------- the mail

  /** A line counted as a project: it holds both '[' and ']'. */
  predicate Bracketed(line: string)
  {
    '[' in line && ']' in line
  }

  function ProjectCount(text: string): (n: nat)
    ensures n <= |Split(text, "\n")|
  {
    Count(Split(text, "\n"), Bracketed)
  }

  /** Counting over joined lines counts the lines themselves. */
  lemma {:induction false} ProjectCountJoin(lines: seq<string>)
    requires |lines| >= 1
    requires forall i | 0 <= i < |lines| :: '\n' !in lines[i]
    ensures ProjectCount(Join(lines, "\n")) == Count(lines, Bracketed)
  {
    SplitJoin(lines, '\n');
  }

  /** The fixed report has no bracketed line, so a mail built from it
      announces zero projects. */
  lemma SimpleAnalysisCountsNone()
    ensures ProjectCount(SimpleAnalysis) == 0
  {
    SimpleLinesPlain();
    ProjectCountJoin(SimpleLines);
    CountNone(SimpleLines);
  }


  lemma {:induction false} CountNone(ls: seq<string>)
    requires forall i | 0 <= i < |ls| :: '[' !in ls[i]
    ensures Count(ls, Bracketed) == 0
    decreases |ls|
  {
    if |ls| > 0 {
      assert !Bracketed(ls[0]);
      CountNone(ls[1..]);
    }
  }

  /** Every trend line is bracketed, so the trends themselves would count
      one project per line. */
  lemma TrendsAllCounted(items: seq<Display.Item>)
    requires |items| > 0
    requires forall i | 0 <= i < |items| :: OneLineItem(items[i])
    ensures ProjectCount(Join(TrendLines(items), "\n")) == Min(|items|, ParsedItems)
  {
    var lines := TrendLines(items);
    TrendsSplit(items);
    forall i | 0 <= i < |lines|
      ensures Bracketed(lines[i])
    {
      LineBracketed(i + 1, items[i]);
    }
    CountAll(lines);
  }

  lemma LineBracketed(index: nat, it: Display.Item)
    ensures Bracketed(TrendLine(index, it))
  {
    var head := NatToString(index) + ". ";
    var tail := "]: " + it.description + " (" + Link(it.href) + ")";
    var line := head + "[" + it.title + tail;
    assert TrendLine(index, it) == line;
    assert line[|head|] == '[';
    assert line[|head| + 1 + |it.title|] == tail[0] == ']';
  }

  lemma {:induction false} CountAll(ls: seq<string>)
    requires forall i | 0 <= i < |ls| :: Bracketed(ls[i])
    ensures Count(ls, Bracketed) == |ls|
    decreases |ls|
  {
    if |ls| > 0 {
      assert Bracketed(ls[0]);
      CountAll(ls[1..]);
    }
  }

  /** The page used when the template file is missing: a titled page with
      the date and the analysis in a pre-wrapped block. */
  function PlainPage(date: string, analysis: string): (r: string)
    ensures Contains(r, analysis)
  {
    var head := "<html>\n<head><title>AI信息流 " + date + "</title></head>\n<body>\n    <h1>🎯 AI信息流 "
                + date + "</h1>\n    <div>\n    ";
    var r := head + analysis + "\n    </div>\n    <p>由 nanobot 智能优化 | AI信息流2.0</p>\n</body></html>";
    assert r[|head|..|head| + |analysis|] == analysis;
    ContainsWitness(r, analysis, |head|);
    r
  }

  /** create_beautiful_email: the template's slots are filled in the order
      date, analysis, project count, insight count (always "3"); with no
      template the plain page is used. */
  function BeautifulEmail(analysis: string, date: string, template: Option<string>): (r: string)
    ensures template.None? ==> Contains(r, analysis)
  {
    if template.None? then PlainPage(date, analysis)
    else
      Fill(template.value, date, analysis, NatToString(ProjectCount(analysis)), "3")
  }

  /** A template holding the content slot once, with no other brace, and
      an analysis and date without braces give the template with the
      analysis in place of the slot. */
  lemma TemplateFilled(x: string, y: string, analysis: string, date: string)
    requires '{' !in x && '{' !in y && '{' !in analysis
    ensures BeautifulEmail(analysis, date, Some(x + ContentSlot + y)) == x + analysis + y
  {
    NotInDigits(NatToString(ProjectCount(analysis)), '{');
    ContentOnlyFilled(x, y, analysis, date, NatToString(ProjectCount(analysis)), "3");
  }

  // ------------------------------------------------------------- sending

  const DefaultRecipient := "19121220286@163.com"

  /** The test recipient: the first cleaned subscriber, or the default
      address when the file is missing or has no address. */
  function FirstRecipient(file: Option<seq<string>>): (r: string)
    ensures Clean(r)
    ensures file.None? || Count(file.value, NonBlank) == 0 ==> r == DefaultRecipient
    ensures file.Some? && Count(file.value, NonBlank) > 0 ==> r == SubscriberList(file.value)[0]
  {
    DefaultClean();
    if file.Some? && |SubscriberList(file.value)| > 0 then SubscriberList(file.value)[0]
    else DefaultRecipient
  }

  lemma DefaultClean()
    ensures Clean(DefaultRecipient)
  {
    var d := DefaultRecipient;
    assert d[0] == '1' && d[|d| - 1] == 'm';
    StripUnchanged(d, Whitespace);
  }

  /** Lines after the first address never matter. */
  lemma {:induction false} RecipientIgnoresLater(lines: seq<string>, more: seq<string>)
    requires Count(lines, NonBlank) > 0
    ensures FirstRecipient(Some(lines + more)) == FirstRecipient(Some(lines))
    decreases |lines|
  {
    SubscribersCons(lines[0], lines[1..] + more);
    SubscribersCons(lines[0], lines[1..]);
    assert lines + more == [lines[0]] + (lines[1..] + more);
    assert lines == [lines[0]] + lines[1..];
    if !NonBlank(lines[0]) {
      RecipientIgnoresLater(lines[1..], more);
    }
  }

  /** send_test_email: an empty password sends nothing; otherwise one mail
      goes to the first recipient and the result is whether the send
      raised. `to` is the address mailed, if any. */
  datatype Sent = Sent(ok: bool, to: Option<string>)

  function SendTest(password: string, file: Option<seq<string>>, sendOk: bool): (r: Sent)
    ensures password == "" ==> r == Sent(false, None)
    ensures password != "" ==> r.ok == sendOk && r.to == Some(FirstRecipient(file))
  {
    if password == "" then Sent(false, None) else Sent(sendOk, Some(FirstRecipient(file)))
  }

  // ------------------------------------------------------------- the run

  /** The script sets the mail password to a fixed non-empty code before
      anything runs; its value is not reproduced here. */
  const PresetPassword := "preset"

  datatype Report = Report(networkOk: bool, trends: string, analysis: string, html: string, sent: Sent)

  /** main: a first probe only decides what the summary prints; the trends
      probe again, then the analysis, the mail and one test send. */
  function Run(first: (Reply, Reply), second: (Reply, Reply), parse: string -> Option<seq<Display.Item>>,
               backup: Option<string>, today: string, key: string, checkOk: bool,
               service: string -> Option<string>, template: Option<string>,
               emails: Option<seq<string>>, sendOk: bool): (r: Report)
    ensures r.networkOk <==> !(first.0.Raised? && first.1.Raised?)
    ensures r.sent.ok == sendOk && r.sent.to == Some(FirstRecipient(emails))
    ensures r.analysis == Analyze(key, checkOk, service, r.trends)
    ensures r.trends == TodayTrends(second.0, second.1, parse, backup, today)
    ensures r.html == BeautifulEmail(r.analysis, today, template)
  {
    var trends := TodayTrends(second.0, second.1, parse, backup, today);
    var analysis := Analyze(key, checkOk, service, trends);
    var html := BeautifulEmail(analysis, today, template);
    Report(Probe(first.0, first.1).Some?, trends, analysis, html, SendTest(PresetPassword, emails, sendOk))
  }

  /** The first probe only decides the network flag: the trends, the
      analysis and the mail come from the second probe. */
  lemma FirstProbeIrrelevant(first1: (Reply, Reply), first2: (Reply, Reply), second: (Reply, Reply),
                             parse: string -> Option<seq<Display.Item>>, backup: Option<string>,
                             today: string, key: string, checkOk: bool,
                             service: string -> Option<string>, template: Option<string>,
                             emails: Option<seq<string>>, sendOk: bool)
    ensures var r1 := Run(first1, second, parse, backup, today, key, checkOk, service, template, emails, sendOk);
            var r2 := Run(first2, second, parse, backup, today, key, checkOk, service, template, emails, sendOk);
            r1.trends == r2.trends && r1.analysis == r2.analysis && r1.html == r2.html && r1.sent == r2.sent
  {
  }

  /** When every request raises and there is no key, the mail carries the
      fixed report and announces zero projects, whatever the backup. */
  lemma OfflineRunIsFixed(parse: string -> Option<seq<Display.Item>>, backup: Option<string>,
                          today: string, checkOk: bool, service: string -> Option<string>,
                          emails: Option<seq<string>>, sendOk: bool)
    ensures var r := Run((Raised, Raised), (Raised, Raised), parse, backup, today, "", checkOk,
                         service, None, emails, sendOk);
            && !r.networkOk
            && r.trends == BackupData(backup, today)
            && r.analysis == SimpleAnalysis
            && ProjectCount(r.analysis) == 0
  {
    SimpleAnalysisCountsNone();
  }
}

=== FILE: emergency_send.dfy ===
/** The emergency sender (emergency_send_beautiful.py): yesterday's analysis
    goes into the mail template with a notice about the outage, and the mail
    goes to every subscriber in batches of 20 with a five-second pause
    between batches. Unlike the immediate sender, a refused batch aborts the
    whole run. The password, the subscriber file, the template file and every
    SMTP outcome are parameters. */
module EmergencySend {
  import opened Wrappers
  import opened Seqs
  import opened Text
  import opened Batching
  import opened Subscribers
  import opened MailTemplate

  // --------------------------------------------------------------- the mail

  /** `'[' in line and ']' in line` */
  predicate HasBrackets(line: string)
  {
    '[' in line && ']' in line
  }

  const DefaultProjectCount := 15

  /** The project count of create_beautiful_email: lines holding both
      brackets, with 15 when there are none. */
  function ProjectCount(analysis: string): (n: nat)
    ensures n > 0
    ensures Count(Split(analysis, "\n"), HasBrackets) == 0 ==> n == DefaultProjectCount
    ensures Count(Split(analysis, "\n"), HasBrackets) > 0 ==> n == Count(Split(analysis, "\n"), HasBrackets)
  {
    var n := Count(Split(analysis, "\n"), HasBrackets);
    if n == 0 then DefaultProjectCount else n
  }

  /** A text written line by line counts its bracketed lines. */
  lemma ProjectCountOfLines(lines: seq<string>)
    requires |lines| >= 1
    requires forall i | 0 <= i < |lines| :: '\n' !in lines[i]
    requires Count(lines, HasBrackets) > 0
    ensures ProjectCount(Join(lines, "\n")) == Count(lines, HasBrackets)
  {
    SplitJoin(lines, '\n');
  }

  const Anchor := "<div class=\"trends-container\">"

  /** The outage notice (its HTML layout whitespace is not modelled). */
  function Notice(today: string, yesterday: string): string
  {
    "<div style=\"background: #fff3cd; border-left: 4px solid #ffc107; padding: 15px; margin: 20px 0; border-radius: 5px;\">"
    + "<h4 style=\"color: #856404; margin-top: 0;\">📢 技术说明</h4>"
    + "<p style=\"color: #856404; margin-bottom: 5px;\">今天（" + today
    + "）GitHub服务器网络访问出现技术问题，暂时无法获取今日最新趋势。</p>"
    + "<p style=\"color: #856404; margin-bottom: 5px;\">本次发送的是昨天（" + yesterday
    + "）的精选AI项目分析，采用全新美观界面呈现。</p>"
    + "<p style=\"color: #856404; margin-bottom: 0;\">我们正在紧急修复网络问题，明天将恢复正常服务并发送今日最新趋势。</p>"
    + "</div>"
  }

  /** The last step of create_beautiful_email: the notice goes right after
      every trends container. */
  function InsertNotice(html: string, notice: string): (r: string)
    ensures !Contains(html, Anchor) ==> r == html
    ensures Contains(html, Anchor) ==> Contains(r, Anchor + notice)
  {
    if Contains(html, Anchor) then
      ReplaceExtends(html, Anchor, notice);
      Replace(html, Anchor, Anchor + notice)
    else
      ReplaceAbsent(html, Anchor, Anchor + notice);
      Replace(html, Anchor, Anchor + notice)
  }

  /** A page with one trends container gets the notice right after it and is
      otherwise unchanged. */
  lemma NoticeAfterAnchor(before: string, after: string, notice: string)
    requires !Contains(before + Anchor[..|Anchor| - 1], Anchor) && !Contains(after, Anchor)
    ensures InsertNotice(before + Anchor + after, notice) == before + Anchor + notice + after
  {
    ReplaceOnce(before, Anchor, after, Anchor + notice);
  }

  /** The mail body: the template with its placeholders filled in this order,
      then the notice; without a template file, a built-in page that this
      model does not spell out. */
  function EmergencyEmail(template: Option<string>, analysis: string, today: string, yesterday: string)
    : (r: Option<string>)
    ensures r.Some? <==> template.Some?
  {
    if template.None? then None
    else
      var html := Fill(template.value, today, analysis, NatToString(ProjectCount(analysis)), "5");
      Some(InsertNotice(html, Notice(today, yesterday)))
  }

  /** A template whose only braces are the content slot's carries the
      analysis in place of the slot, and the notice goes after its trends
      containers (see NoticeAfterAnchor for where that is). */
  lemma TemplateFilled(x: string, y: string, analysis: string, today: string, yesterday: string)
    requires '{' !in x && '{' !in y && '{' !in analysis
    ensures EmergencyEmail(Some(x + ContentSlot + y), analysis, today, yesterday)
            == Some(InsertNotice(x + analysis + y, Notice(today, yesterday)))
  {
    NotInDigits(NatToString(ProjectCount(analysis)), '{');
    ContentOnlyFilled(x, y, analysis, today, NatToString(ProjectCount(analysis)), "5");
  }

  // -------------------------------------------------------------- sending

  const Sender := "19121220286@163.com"
  const BatchSize: nat := 20
  const BatchPause: nat := 5

  /** How many batches in a row, from the first, the server accepted (at
      most `limit`). */
  function AcceptedRun(batchOk: seq<bool>, limit: nat): (k: nat)
    requires limit <= |batchOk|
    ensures k <= limit
    ensures forall j | 0 <= j < k :: batchOk[j]
    ensures k < limit ==> !batchOk[k]
  {
    if limit == 0 || !batchOk[0] then 0
    else 1 + AcceptedRun(batchOk[1..], limit - 1)
  }

  /** `i + batch_size < len(recipients)` for the batch starting at
      `i = 20 * b` says that another batch follows. */
  lemma MoreFollow(n: nat, b: nat)
    requires b < BatchCount(n, BatchSize)
    ensures BatchSize * (b + 1) < n <==> b + 1 < BatchCount(n, BatchSize)
  {
  }

  /** One more batch sent: the prefix grows by it and so does the count. */
  lemma SentStep(chunks: seq<seq<string>>, b: nat, sent: seq<seq<string>>)
    requires b < |chunks| && sent == chunks[..b]
    ensures chunks[..b + 1] == sent + [chunks[b]]
    ensures |Flatten(sent + [chunks[b]])| == |Flatten(sent)| + |chunks[b]|
  {
    var batch := chunks[b];
    FlattenAppend(sent, [batch]);
    assert Flatten([batch]) == batch + Flatten([batch][1..]);
  }

  /** send_beautiful_email. `file` is the subscriber file (None when it does
      not exist), `batchOk` the server's answer to each batch and `logOk`
      whether the send log could be read and written (an error there is
      caught by the same handler and also reports failure). */
  method SendEmergency(password: string, file: Option<seq<string>>, batchOk: seq<bool>, logOk: bool)
    returns (ok: bool, sent: seq<seq<string>>, totalSent: nat, sleeps: seq<nat>)
    requires |batchOk| == BatchCount(|SubscribersOrSender(file, Sender)|, BatchSize)
    ensures var recipients := SubscribersOrSender(file, Sender);
      var batches := BatchCount(|recipients|, BatchSize);
      && (password == "" || recipients == [] ==> !ok && sent == [] && sleeps == [])
      && (password != "" && recipients != [] ==>
            && sent == Take(Chunks(recipients, BatchSize), AcceptedRun(batchOk, batches))
            && totalSent == |Flatten(sent)|
            && (ok <==> AcceptedRun(batchOk, batches) == batches && logOk)
            && (AcceptedRun(batchOk, batches) == batches ==> totalSent == |recipients|)
            && |sleeps| == Min(AcceptedRun(batchOk, batches), batches - 1))
    ensures forall i | 0 <= i < |sleeps| :: sleeps[i] == BatchPause
  {
    ok, sent, totalSent, sleeps := false, [], 0, [];
    if password == "" {
      return;
    }
    var recipients := SubscribersOrSender(file, Sender);
    if |recipients| == 0 {
      return;
    }
    var n := |recipients|;
    var batches := BatchCount(n, BatchSize);
    var chunks := Chunks(recipients, BatchSize);
    var run := AcceptedRun(batchOk, batches);
    var b := 0;
    while b < batches
      invariant 0 <= b <= run
      invariant sent == chunks[..b]
      invariant totalSent == |Flatten(sent)|
      invariant |sleeps| == Min(b, batches - 1)
      invariant forall i | 0 <= i < |sleeps| :: sleeps[i] == BatchPause
      invariant b <= batches
    {
      if !batchOk[b] {
        assert b == run;
        return;
      }
      var batch := chunks[b];
      SentStep(chunks, b, sent);
      sent := sent + [batch];
      totalSent := totalSent + |batch|;
      MoreFollow(n, b);
      if BatchSize * (b + 1) < n {
        sleeps := sleeps + [BatchPause];
      }
      b := b + 1;
    }
    assert chunks[..b] == chunks;
    ok := logOk;
  }
}

=== FILE: immediate_send.dfy ===
/** The immediate sender (immediate_send_now.py): the analysis text is
    scanned for project lines to fill the highlight of the mail, and the mail
    goes out in batches of 40; a batch the server refuses is retried one
    recipient at a time. Every SMTP session is an oracle outcome. */
module ImmediateSend {
  import opened Seqs
  import opened Text
  import opened Batching
  import opened Wrappers

  // ------------------------------------------------------- project extraction

  datatype Project = Project(name: string, description: string)

  /** `line.strip() and '[' in line and ']' in line and ':' in line` */
  predicate IsProjectLine(line: string)
  {
    !IsBlank(line) && '[' in line && ']' in line && ':' in line
  }

  /** The name between the first '[' and the first ']', and the text from two
      characters after that ']' (past "]:"), both stripped. */
  function ParseProjectLine(line: string): (r: Option<Project>)
    ensures r.Some? <==> IsProjectLine(line)
  {
    if IsProjectLine(line) then Some(ProjectFields(line)) else None
  }

  function ProjectFields(line: string): Project
    requires '[' in line && ']' in line
  {
    var start := IndexOf(line, '[');
    var end := IndexOf(line, ']');
    var description := if |line| > end + 2 then Trim(line[end + 2..]) else "";
    Project(Trim(Slice(line, start + 1, end)), description)
  }

  /** The projects of the analysis text, in line order. */
  function ParseProjects(lines: seq<string>): (r: seq<Project>)
    ensures |r| == Count(lines, IsProjectLine)
  {
    if |lines| == 0 then []
    else
      var p := ParseProjectLine(lines[0]);
      (if p.Some? then [p.value] else []) + ParseProjects(lines[1..])
  }

  /** A line written as `prefix[name]:description` parses back to the
      stripped name and description, provided the prefix holds no bracket and
      the name no closing bracket. */
  lemma {:induction false} ParseBuiltLine(prefix: string, name: string, description: string)
    requires '[' !in prefix && ']' !in prefix && ']' !in name
    ensures ParseProjectLine(prefix + "[" + name + "]:" + description)
      == Some(Project(Trim(name), Trim(description)))
  {
    var line := prefix + "[" + name + "]:" + description;
    BuiltLineFacts(line, prefix, name, description);
    VisibleNotSpace(line[|prefix|]);
    NonBlankAt(line, |prefix|);
    BuiltLineFields(line, prefix, name, description);
    ParsedFields(line, Project(Trim(name), Trim(description)));
  }

  lemma ParsedFields(line: string, p: Project)
    requires !IsBlank(line) && ':' in line && '[' in line && ']' in line
    requires ProjectFields(line) == p
    ensures ParseProjectLine(line) == Some(p)
  {
  }

  lemma BuiltLineFields(line: string, prefix: string, name: string, description: string)
    requires line == prefix + "[" + name + "]:" + description
    requires '[' !in prefix && ']' !in prefix && ']' !in name
    ensures '[' in line && ']' in line
    ensures ProjectFields(line) == Project(Trim(name), Trim(description))
  {
    BuiltLineFacts(line, prefix, name, description);
    FieldsAt(line, |prefix|, |prefix| + 1 + |name|, name, description);
  }

  lemma FieldsAt(line: string, start: nat, end: nat, name: string, description: string)
    requires '[' in line && ']' in line
    requires IndexOf(line, '[') == start && IndexOf(line, ']') == end
    requires start < end && end + 2 <= |line|
    requires Slice(line, start + 1, end) == name && line[end + 2..] == description
    ensures ProjectFields(line) == Project(Trim(name), Trim(description))
  {
    TailTrimmed(line, end + 2, description);
    var d := if |line| > end + 2 then Trim(line[end + 2..]) else "";
    assert d == Trim(description);
    assert ProjectFields(line) == Project(Trim(Slice(line, start + 1, end)), d);
  }

  /** The stripped tail from `k`, or "" when there is none. */
  lemma TailTrimmed(line: string, k: nat, tail: string)
    requires k <= |line| && line[k..] == tail
    ensures (if |line| > k then Trim(line[k..]) else "") == Trim(tail)
  {
    if |line| == k {
      StripEmpty(Whitespace);
    }
  }

  lemma BuiltLineFacts(line: string, prefix: string, name: string, description: string)
    requires line == prefix + "[" + name + "]:" + description
    requires '[' !in prefix && ']' !in prefix && ']' !in name
    ensures '[' in line && ']' in line && ':' in line && line[|prefix|] == '['
    ensures IndexOf(line, '[') == |prefix| && IndexOf(line, ']') == |prefix| + 1 + |name|
    ensures Slice(line, |prefix| + 1, |prefix| + 1 + |name|) == name
    ensures line[|prefix| + 3 + |name|..] == description
  {
    var start := |prefix|;
    var end := |prefix| + 1 + |name|;
    Layout(prefix, '[', name, ']', ':', description);
    IndexOfIs(line, '[', start);
    NotInConcat(']', prefix, "[");
    NotInConcat(']', prefix + "[", name);
    IndexOfIs(line, ']', end);
  }

  /** Where the pieces of `p + [a] + n + [b, c] + d` sit. */
  lemma Layout<T>(p: seq<T>, a: T, n: seq<T>, b: T, c: T, d: seq<T>)
    ensures var s := p + [a] + n + [b, c] + d;
      && s[|p|] == a && s[|p| + 1 + |n|] == b && s[|p| + 2 + |n|] == c
      && s[..|p|] == p && s[..|p| + 1 + |n|] == p + [a] + n
      && s[|p| + 1..|p| + 1 + |n|] == n && s[|p| + 3 + |n|..] == d
  {
  }

  /** The first project is parsed from the first project line. */
  lemma {:induction false} FirstProject(lines: seq<string>, k: nat)
    requires k < |lines| && IsProjectLine(lines[k])
    requires forall j | 0 <= j < k :: !IsProjectLine(lines[j])
    ensures |ParseProjects(lines)| > 0
    ensures ParseProjects(lines)[0] == ParseProjectLine(lines[k]).value
    decreases k
  {
    if k > 0 {
      FirstProject(lines[1..], k - 1);
    }
  }

  // ------------------------------------------------------------ info record

  datatype Highlight = Highlight(title: string, description: string, tag: string, tagClass: string)

  datatype Info = Info(highlight: Highlight, projectCount: nat, categoryCount: nat, subscriberCount: nat)

  const DefaultHighlight := Highlight(
    "ruvnet/wifi-densepose",
    "基于WiFi的颠覆性密集人体姿态估计系统，使用商用网状路由器实现实时全身体态追踪",
    "视觉AI", "visual")

  function DefaultInfo(subscribers: nat): Info
  {
    Info(DefaultHighlight, 15, 7, subscribers)
  }

  /** extract_analysis_info: the defaults, with the highlight and the project
      count taken from the text when it holds at least one project line. */
  function ExtractInfo(content: string, subscribers: nat): (r: Info)
    ensures var projects := ParseProjects(Split(content, "\n"));
      && (|projects| == 0 ==> r == DefaultInfo(subscribers))
      && (|projects| > 0 ==>
            && r.highlight.title == projects[0].name
            && r.highlight.description
               == (if projects[0].description != "" then projects[0].description else DefaultHighlight.description)
            && r.highlight.tag == DefaultHighlight.tag
            && r.projectCount == |projects|)
    ensures r.subscriberCount == subscribers && r.categoryCount == 7
  {
    var projects := ParseProjects(Split(content, "\n"));
    var info := DefaultInfo(subscribers);
    if |projects| == 0 then info
    else
      var first := projects[0];
      var description := if first.description != "" then first.description else info.highlight.description;
      info.(highlight := info.highlight.(title := first.name, description := description),
            projectCount := |projects|)
  }

  /** A one-line analysis `[name]: description` sets the highlight from that
      line and counts one project. */
  lemma OneLineAnalysis(name: string, description: string, subscribers: nat)
    requires ']' !in name && '\n' !in name && '\n' !in description
    ensures var r := ExtractInfo("[" + name + "]:" + description, subscribers);
      r.highlight.title == Trim(name) && r.projectCount == 1
  {
    var line := "[" + name + "]:" + description;
    assert "" + "[" + name + "]:" + description == line;
    ParseBuiltLine("", name, description);
    SplitSingle(line);
    ProjectsOfOne(line);
  }

  lemma SplitSingle(line: string)
    requires '\n' !in line
    ensures Split(line, "\n") == [line]
  {
    SplitJoin([line], '\n');
    assert Join([line], "\n") == line;
  }

  lemma ProjectsOfOne(line: string)
    requires IsProjectLine(line)
    ensures ParseProjects([line]) == [ParseProjectLine(line).value]
  {
    assert [line][1..] == [];
  }

  // ------------------------------------------------------------------ sending

  const BatchSize := 40

  lemma CountAllTrue(m: nat)
    ensures Count(seq(m, _ => true), IsTrue) == m
  {
    if m > 0 {
      assert seq(m, _ => true)[1..] == seq(m - 1, _ => true);
      CountAllTrue(m - 1);
    }
  }

  /** Which recipient received the mail when its batch of 40 was accepted or,
      after a refused batch, when its own single send was accepted. */
  function Delivered(batchOk: seq<bool>, singleOk: seq<bool>, j: nat): bool
    requires j < |singleOk| && j / BatchSize < |batchOk|
  {
    batchOk[j / BatchSize] || singleOk[j]
  }

  /** send_beautiful_emails: contiguous batches of 40; an accepted batch
      counts all its recipients; a refused batch is retried recipient by
      recipient and counts the accepted singles. No pause anywhere. */
  method SendBeautiful(recipients: seq<string>, batchOk: seq<bool>, singleOk: seq<bool>)
    returns (totalSent: nat, delivered: seq<bool>)
    requires |batchOk| == BatchCount(|recipients|, BatchSize)
    requires |singleOk| == |recipients|
    ensures |delivered| == |recipients|
    ensures forall j | 0 <= j < |recipients| :: delivered[j] == Delivered(batchOk, singleOk, j)
    ensures totalSent == Count(delivered, IsTrue)
    ensures totalSent <= |recipients|
  {
    var n := |recipients|;
    var batches := BatchCount(n, BatchSize);
    totalSent := 0;
    delivered := [];
    var b := 0;
    while b < batches
      invariant 0 <= b <= batches
      invariant |delivered| == Min(BatchSize * b, n)
      invariant forall j | 0 <= j < |delivered| :: delivered[j] == Delivered(batchOk, singleOk, j)
      invariant totalSent == Count(delivered, IsTrue)
    {
      var lo := BatchSize * b;
      var hi := Min(lo + BatchSize, n);
      var part: seq<bool>;
      var sent: nat;
      if batchOk[b] {
        part := seq(hi - lo, _ => true);
        CountAllTrue(hi - lo);
        sent := hi - lo;
      } else {
        part, sent := SendSingles(singleOk, lo, hi);
      }
      BatchAppend(batchOk, singleOk, b, delivered, part);
      CountAppend(delivered, part, IsTrue);
      delivered := delivered + part;
      totalSent := totalSent + sent;
      b := b + 1;
    }
  }

  /** The refused batch `lo..hi` sent one recipient at a time. */
  method SendSingles(singleOk: seq<bool>, lo: nat, hi: nat) returns (part: seq<bool>, sent: nat)
    requires lo <= hi <= |singleOk|
    ensures part == singleOk[lo..hi]
    ensures sent == Count(part, IsTrue)
  {
    part := [];
    sent := 0;
    var k := lo;
    while k < hi
      invariant lo <= k <= hi
      invariant part == singleOk[lo..k]
      invariant sent == Count(part, IsTrue)
    {
      CountAppend(part, [singleOk[k]], IsTrue);
      part := part + [singleOk[k]];
      if singleOk[k] {
        sent := sent + 1;
      }
      k := k + 1;
    }
  }

  /** The recipients `lo..hi` of batch `b` are numbered so that their batch
      is `b`. */
  lemma BatchOf(b: nat, j: nat)
    requires BatchSize * b <= j < BatchSize * b + BatchSize
    ensures j / BatchSize == b
  {
  }

  /** Appending batch `b`'s outcomes keeps every recipient's outcome right. */
  lemma BatchAppend(batchOk: seq<bool>, singleOk: seq<bool>, b: nat, delivered: seq<bool>, part: seq<bool>)
    requires b < |batchOk| && |delivered| == BatchSize * b
    requires |delivered| + |part| <= |singleOk| && |part| <= BatchSize
    requires forall j | 0 <= j < |delivered| :: j / BatchSize < |batchOk| && delivered[j] == Delivered(batchOk, singleOk, j)
    requires batchOk[b] ==> forall i | 0 <= i < |part| :: part[i]
    requires !batchOk[b] ==> part == singleOk[|delivered|..|delivered| + |part|]
    ensures forall j | 0 <= j < |delivered + part| :: j / BatchSize < |batchOk|
                                                  && (delivered + part)[j] == Delivered(batchOk, singleOk, j)
  {
    forall j | |delivered| <= j < |delivered + part|
      ensures j / BatchSize < |batchOk| && (delivered + part)[j] == Delivered(batchOk, singleOk, j)
    {
      BatchOf(b, j);
    }
  }
}

=== FILE: mail_template.dfy ===
/** The placeholders both emergency scripts fill in their mail template, in
    the order they fill them: `template.replace` once per slot. */
module MailTemplate {
  import opened Text

  const DateSlot := "{{date}}"
  const ContentSlot := "{{analysis_content}}"
  const CountSlot := "{{project_count}}"
  const InsightSlot := "{{ai_insights}}"

  /** The four replacements, date first, insight count last. */
  function Fill(template: string, date: string, analysis: string, count: string, insights: string): (r: string)
    ensures '{' !in template ==> r == template
  {
    KeptWithoutLead(template, DateSlot, date);
    var withDate := Replace(template, DateSlot, date);
    KeptWithoutLead(withDate, ContentSlot, analysis);
    var withContent := Replace(withDate, ContentSlot, analysis);
    KeptWithoutLead(withContent, CountSlot, count);
    var withCount := Replace(withContent, CountSlot, count);
    KeptWithoutLead(withCount, InsightSlot, insights);
    Replace(withCount, InsightSlot, insights)
  }

  /** An occurrence of a two-brace pattern around the content slot starts
      at the slot itself. */
  lemma BracesAtSlot(x: string, y: string, p: string, j: int)
    requires '{' !in x && '{' !in y
    requires |p| >= 2 && p[0] == '{' && p[1] == '{'
    requires 0 <= j
    ensures OccursAt(x + ContentSlot + y, p, j) ==> j == |x|
  {
    var t := x + ContentSlot + y;
    if j + |p| <= |t| {
      assert t[j..j + |p|][0] == t[j] && t[j..j + |p|][1] == t[j + 1];
      if j < |x| {
        assert t[j] == x[j];
      } else if j >= |x| + |ContentSlot| {
        assert t[j] == y[j - |x| - |ContentSlot|];
      } else if j + 1 >= |x| + |ContentSlot| {
        assert t[j + 1] == y[j + 1 - |x| - |ContentSlot|];
      } else if j > |x| {
        assert t[j + 1] == ContentSlot[j + 1 - |x|];
        assert forall m | 2 <= m < |ContentSlot| :: ContentSlot[m] != '{';
      }
    }
  }

  /** The date slot does not occur in a template whose only braces are the
      content slot's. */
  lemma NoDateSlot(x: string, y: string)
    requires '{' !in x && '{' !in y
    ensures !Contains(x + ContentSlot + y, DateSlot)
  {
    var t := x + ContentSlot + y;
    forall j | 0 <= j <= |t| - |DateSlot|
      ensures !OccursAt(t, DateSlot, j)
    {
      BracesAtSlot(x, y, DateSlot, j);
      assert |DateSlot| == 8 && DateSlot[2] == 'd' && ContentSlot[2] == 'a';
      if j == |x| {
        assert t[j..j + |DateSlot|][2] == t[|x| + 2] == ContentSlot[2];
      }
    }
  }

  /** A template whose only braces are those of the content slot gets the
      analysis in place of the slot and nothing else, provided the analysis
      and the count bring no brace of their own. */
  lemma ContentOnlyFilled(x: string, y: string, analysis: string, date: string, count: string, insights: string)
    requires '{' !in x && '{' !in y && '{' !in analysis && '{' !in count
    ensures Fill(x + ContentSlot + y, date, analysis, count, insights) == x + analysis + y
  {
    var t := x + ContentSlot + y;
    NoDateSlot(x, y);
    ReplaceAbsent(t, DateSlot, date);
    NoEarlyOccurrence(x, ContentSlot);
    FirstCharAbsent(y, ContentSlot);
    ReplaceOnce(x, ContentSlot, y, analysis);
    var filled := x + analysis + y;
    FirstCharAbsent(filled, CountSlot);
    ReplaceAbsent(filled, CountSlot, count);
    FirstCharAbsent(filled, InsightSlot);
    ReplaceAbsent(filled, InsightSlot, insights);
  }
}

=== FILE: preview.dfy ===
/** The offline mail preview (quick_preview.py): a template file or a
    built-in page, fixed preview data, and a renderer that fills the
    template by plain text substitution, one `replace` after another.
    Which template files exist and what they hold are parameters. */
module QuickPreview {
  import opened Wrappers
  import opened Seqs
  import opened Text

  // ------------------------------------------------------------ templates

  const ContentMark := "{{ content }}"

  /** The page read_template falls back to: a styled page whose body is the
      `{{ content }}` mark, which no substitution ever fills. */
  const BuiltinHead :=
    "<!DOCTYPE html>\n<html>\n<head>\n    <meta charset=\"UTF-8\">\n    <title>AI趋势分析</title>\n    <style>\n"
    + "        body { font-family: Arial, sans-serif; margin: 40px; }\n"
    + "        .header { background: #667eea; color: white; padding: 30px; border-radius: 10px; }\n"
    + "        .project { background: #f8f9fa; padding: 20px; margin: 20px 0; border-radius: 8px; }\n"
    + "        .tag { display: inline-block; padding: 5px 10px; margin: 5px; border-radius: 15px; }\n"
    + "    </style>\n</head>\n<body>\n    "
  const BuiltinTail := "\n</body>\n</html>"
  const Builtin := BuiltinHead + ContentMark + BuiltinTail

  lemma BuiltinMarked()
    ensures Contains(Builtin, ContentMark)
  {
    assert Builtin[|BuiltinHead|..|BuiltinHead| + |ContentMark|] == ContentMark;
    ContainsWitness(Builtin, ContentMark, |BuiltinHead|);
  }

  /** read_template: the file's text, or the built-in page when reading
      raises (None). */
  function ReadTemplate(file: Option<string>): (r: string)
    ensures file.Some? ==> r == file.value
    ensures file.None? ==> r == Builtin
  {
    if file.Some? then file.value else Builtin
  }

  const TemplatePaths := ["templates/email_python.html", "email_python.html",
                          "/root/ai-flow/templates/email_python.html"]

  /** The first listed path that exists. */
  function FirstPresent(paths: seq<string>, present: string -> bool): (r: Option<nat>)
    ensures r.Some? ==> r.value < |paths| && present(paths[r.value])
                        && forall j | 0 <= j < r.value :: !present(paths[j])
    ensures r.None? ==> forall j | 0 <= j < |paths| :: !present(paths[j])
  {
    if |paths| == 0 then None
    else if present(paths[0]) then Some(0)
    else
      var k := FirstPresent(paths[1..], present);
      assert forall j | 1 <= j < |paths| :: paths[1..][j - 1] == paths[j];
      if k.Some? then Some(k.value + 1) else None
  }

  /** The template main renders: the first existing path is read; when
      none exists, or what was read is empty, `read_template('')` is called,
      which always fails and so yields the built-in page. `read` gives a
      file's text, None when reading raises. */
  function ChooseTemplate(present: string -> bool, read: string -> Option<string>): (r: string)
    ensures r != ""
    ensures FirstPresent(TemplatePaths, present).None? ==> r == Builtin
    ensures r != Builtin ==> FirstPresent(TemplatePaths, present).Some?
                             && read(TemplatePaths[FirstPresent(TemplatePaths, present).value]) == Some(r)
  {
    var k := FirstPresent(TemplatePaths, present);
    var html := if k.Some? then ReadTemplate(read(TemplatePaths[k.value])) else "";
    if html == "" then ReadTemplate(None) else html
  }

  /** An existing but empty template file counts as no template. */
  lemma EmptyFileUsesBuiltin(present: string -> bool, read: string -> Option<string>)
    requires present(TemplatePaths[0]) && read(TemplatePaths[0]) == Some("")
    ensures ChooseTemplate(present, read) == Builtin
  {
    assert FirstPresent(TemplatePaths, present) == Some(0);
  }

  // ----------------------------------------------------------------- data

  datatype Highlight = Highlight(title: string, description: string, tag: string, tagClass: string)
  datatype CategoryData = CategoryData(name: string, count: nat, examples: string)
  datatype PreviewData = PreviewData(
    date: string,
    highlight: Highlight,
    categories: seq<CategoryData>,
    trends: seq<string>,
    insights: seq<string>,
    prediction: string,
    projectCount: nat,
    categoryCount: nat,
    subscriberCount: nat)

  // Longer literals are written in pieces at their clause boundaries, so
  // that the brace-free lemmas below examine one short piece at a time.
  const Category0 := CategoryData("AI工具", 5, "awesome-ai, " + "llm-tools, " + "model-zoo")
  const Category1 := CategoryData("计算机视觉", 3, "wifi-densepose, " + "real-time-detection")
  const Category2 := CategoryData("开发者工具", 4, "debugger, cli-helper")
  const SampleCategories := [Category0, Category1, Category2]

  /** generate_preview_data, with today's date as a parameter. */
  function SampleData(date: string): (d: PreviewData)
    ensures d.date == date && |d.categories| == 3 && |d.trends| == 3 && |d.insights| == 3
    ensures d.projectCount == 15 && d.categoryCount == 8 && d.subscriberCount == 121
  {
    PreviewData(
      date,
      Highlight("ruvnet/wifi-densepose",
                "基于WiFi的密集人体姿态估计系统，" + "无需摄像头，" + "仅通过WiFi信号就能追踪人体姿态",
                "视觉AI", "visual"),
      SampleCategories,
      ["AI工具增多", "隐私友好技术", "边缘计算"],
      ["AI工具类项目持续增多，" + "反映AI技术普及化趋势",
       "隐私友好的感知技术成为新热点" + "（如WiFi姿态估计）",
       "开源LLM基准测试工具需求增加"],
      "未来更多AI与传统行业结合的项目，" + "边缘AI计算框架将增多",
      15, 8, 121)
  }

  function CountTotal(cs: seq<CategoryData>): nat
  {
    if |cs| == 0 then 0 else cs[0].count + CountTotal(cs[1..])
  }

  /** The sample figures do not agree with the sample itself: three
      categories against a category count of eight, and twelve projects
      across them against a project count of fifteen. */
  lemma SampleCountsDisagree(date: string)
    ensures var d := SampleData(date);
            && |d.categories| != d.categoryCount
            && CountTotal(d.categories) == 12 != d.projectCount
  {
    var cs := SampleData(date).categories;
    assert cs[2..][1..] == [];
    assert cs[1..][1..] == cs[2..];
    assert CountTotal(cs[2..]) == 4;
    assert CountTotal(cs[1..]) == 7;
  }

  // ------------------------------------------------------------ rendering

  const Indent16 := "                "
  const Indent20 := Indent16 + "    "
  const EndFor := "{% endfor %}"
  const CategoryFor := "{% for category in categories %}"
  const CategoryLoop := CategoryFor + "\n" + Indent16 + CategoryFor
  const TrendHead := "{% for trend in trends %}\n" + Indent16 + "<span class=\"trend-badge\">{{ trend }}</span>\n" + Indent16
  const TrendLoop := TrendHead + EndFor
  const InsightHead := "{% for insight in insights %}\n" + Indent20 + "<div class=\"insight-item\">{{ insight }}</div>\n" + Indent20
  const InsightLoop := InsightHead + EndFor

  const CatOpen := "<div style=\"margin: 15px 0;\"><strong>"
  // The style attribute is written one declaration per piece, like the
  // sample data above.
  const CatMid := "个):</strong>" + "<div style=\"color: #718096; " + "font-size: 0.95rem; " + "margin-top: 5px;\">"
  const CatClose := "</div></div>"

  /** One category block: name, count and examples. */
  function CategoryHtml(c: CategoryData): (r: string)
    ensures |r| > 0 && r[0] == '<' && r[|r| - 1] == '>'
  {
    var r := CatOpen + c.name + " (" + NatToString(c.count) + CatMid + c.examples + CatClose;
    assert r[0] == CatOpen[0];
    assert r[|r| - 1] == CatClose[|CatClose| - 1];
    r
  }

  function CategoriesHtml(cs: seq<CategoryData>): (r: string)
    ensures |cs| > 0 ==> |r| > 0 && r[0] == '<' && r[|r| - 1] == '>'
  {
    if |cs| == 0 then ""
    else
      var rest := CategoriesHtml(cs[1..]);
      var r := CategoryHtml(cs[0]) + rest;
      assert r[0] == CategoryHtml(cs[0])[0];
      assert |rest| > 0 ==> r[|r| - 1] == rest[|rest| - 1];
      r
  }

  const BadgeOpen := "<span class=\"trend-badge\">"
  const BadgeClose := "</span> "

  function TrendsHtml(ts: seq<string>): string
  {
    if |ts| == 0 then "" else BadgeOpen + ts[0] + BadgeClose + TrendsHtml(ts[1..])
  }

  const InsightOpen := "<div class=\"insight-item\">"
  const InsightClose := "</div>"

  function InsightsHtml(xs: seq<string>): string
  {
    if |xs| == 0 then "" else InsightOpen + xs[0] + InsightClose + InsightsHtml(xs[1..])
  }

  /** The first replacements of render_template: the date and the
      highlighted project. */
  function FillScalars(t: string, d: PreviewData): (r: string)
    ensures '{' !in t ==> r == t
  {
    KeptWithoutLead(t, "{{ date }}", d.date);
    var h := Replace(t, "{{ date }}", d.date);
    KeptWithoutLead(h, "{{ highlight_project.title }}", d.highlight.title);
    var h := Replace(h, "{{ highlight_project.title }}", d.highlight.title);
    KeptWithoutLead(h, "{{ highlight_project.description }}", d.highlight.description);
    var h := Replace(h, "{{ highlight_project.description }}", d.highlight.description);
    KeptWithoutLead(h, "{{ highlight_project.tag }}", d.highlight.tag);
    var h := Replace(h, "{{ highlight_project.tag }}", d.highlight.tag);
    KeptWithoutLead(h, "{{ highlight_project.tag_class }}", d.highlight.tagClass);
    Replace(h, "{{ highlight_project.tag_class }}", d.highlight.tagClass)
  }

  /** The last replacements of render_template: the prediction and the
      three counts. */
  function FillCounts(t: string, d: PreviewData): (r: string)
    ensures '{' !in t ==> r == t
  {
    KeptWithoutLead(t, "{{ prediction }}", d.prediction);
    var h := Replace(t, "{{ prediction }}", d.prediction);
    KeptWithoutLead(h, "{{ project_count }}", NatToString(d.projectCount));
    var h := Replace(h, "{{ project_count }}", NatToString(d.projectCount));
    KeptWithoutLead(h, "{{ category_count }}", NatToString(d.categoryCount));
    var h := Replace(h, "{{ category_count }}", NatToString(d.categoryCount));
    KeptWithoutLead(h, "{{ subscriber_count }}", NatToString(d.subscriberCount));
    Replace(h, "{{ subscriber_count }}", NatToString(d.subscriberCount))
  }

  /** The loop replacements as written: the doubled category header is dropped, every
      `{% endfor %}` becomes the category blocks, and only then are the
      trend and insight loops looked for. */
  function LoopsAsWritten(t: string, d: PreviewData): (r: string)
    ensures '{' !in t ==> r == t
  {
    KeptWithoutLead(t, CategoryLoop, "");
    var h := Replace(t, CategoryLoop, "");
    KeptWithoutLead(h, EndFor, CategoriesHtml(d.categories));
    var h := Replace(h, EndFor, CategoriesHtml(d.categories));
    KeptWithoutLead(h, TrendLoop, TrendsHtml(d.trends));
    var h := Replace(h, TrendLoop, TrendsHtml(d.trends));
    KeptWithoutLead(h, InsightLoop, InsightsHtml(d.insights));
    Replace(h, InsightLoop, InsightsHtml(d.insights))
  }

  /** The loops with the trend and insight blocks replaced before their
      `{% endfor %}` is taken by the categories. */
  function LoopsCorrected(t: string, d: PreviewData): (r: string)
    ensures '{' !in t ==> r == t
  {
    KeptWithoutLead(t, TrendLoop, TrendsHtml(d.trends));
    var h := Replace(t, TrendLoop, TrendsHtml(d.trends));
    KeptWithoutLead(h, InsightLoop, InsightsHtml(d.insights));
    var h := Replace(h, InsightLoop, InsightsHtml(d.insights));
    KeptWithoutLead(h, CategoryLoop, "");
    var h := Replace(h, CategoryLoop, "");
    KeptWithoutLead(h, EndFor, CategoriesHtml(d.categories));
    Replace(h, EndFor, CategoriesHtml(d.categories))
  }

  /** render_template as written: a template without any brace holds no
      placeholder and comes back unchanged. */
  function Render(t: string, d: PreviewData): (r: string)
    ensures '{' !in t ==> r == t
  {
    FillCounts(LoopsAsWritten(FillScalars(t, d), d), d)
  }

  /** render_template with the loop order corrected. */
  function RenderCorrected(t: string, d: PreviewData): (r: string)
    ensures '{' !in t ==> r == t
  {
    FillCounts(LoopsCorrected(FillScalars(t, d), d), d)
  }

  /** No brace in any field the loops insert. */
  predicate PlainData(d: PreviewData)
  {
    && (forall i | 0 <= i < |d.categories| :: '{' !in d.categories[i].name && '{' !in d.categories[i].examples)
    && (forall i | 0 <= i < |d.trends| :: '{' !in d.trends[i])
    && (forall i | 0 <= i < |d.insights| :: '{' !in d.insights[i])
  }

  lemma {:induction false} CategoriesNoBrace(cs: seq<CategoryData>)
    requires forall i | 0 <= i < |cs| :: '{' !in cs[i].name && '{' !in cs[i].examples
    ensures '{' !in CategoriesHtml(cs)
    decreases |cs|
  {
    if |cs| > 0 {
      NotInDigits(NatToString(cs[0].count), '{');
      CatPiecesNoBrace();
      CategoriesNoBrace(cs[1..]);
    }
  }

  lemma CatPiecesNoBrace()
    ensures '{' !in CatOpen && '{' !in CatMid && '{' !in CatClose
  {
    assert '{' !in CatOpen;
    CatMidNoBrace();
  }

  lemma CatMidNoBrace()
    ensures '{' !in CatMid
  {
    var a, b, c, d := "个):</strong>", "<div style=\"color: #718096; ", "font-size: 0.95rem; ", "margin-top: 5px;\">";
    assert '{' !in a && '{' !in b && '{' !in c && '{' !in d;
    assert CatMid == a + b + c + d;
  }

  lemma {:induction false} TrendsNoBrace(ts: seq<string>)
    requires forall i | 0 <= i < |ts| :: '{' !in ts[i]
    ensures '{' !in TrendsHtml(ts)
    decreases |ts|
  {
    if |ts| > 0 {
      assert '{' !in BadgeOpen && '{' !in BadgeClose;
      TrendsNoBrace(ts[1..]);
    }
  }

  lemma {:induction false} InsightsNoBrace(xs: seq<string>)
    requires forall i | 0 <= i < |xs| :: '{' !in xs[i]
    ensures '{' !in InsightsHtml(xs)
    decreases |xs|
  {
    if |xs| > 0 {
      assert '{' !in InsightOpen && '{' !in InsightClose;
      InsightsNoBrace(xs[1..]);
    }
  }

  /** Once every `{% endfor %}` has been replaced by the category blocks,
      none is left, so no loop pattern ending in one can match: as written,
      the trend and insight steps never change the page, whatever the
      template. */
  lemma LoopStepsInert(t: string, d: PreviewData)
    requires |d.categories| > 0 && PlainData(d)
    ensures LoopsAsWritten(t, d) == Replace(Replace(t, CategoryLoop, ""), EndFor, CategoriesHtml(d.categories))
  {
    var c := CategoriesHtml(d.categories);
    var h := Replace(Replace(t, CategoryLoop, ""), EndFor, c);
    CategoriesNoBrace(d.categories);
    FirstCharAbsent(c, EndFor);
    assert '<' !in EndFor && '>' !in EndFor;
    ReplaceClears(Replace(t, CategoryLoop, ""), EndFor, c);
    AbsentSuffixPart(h, TrendHead, EndFor);
    ReplaceAbsent(h, TrendLoop, TrendsHtml(d.trends));
    AbsentSuffixPart(h, InsightHead, EndFor);
    ReplaceAbsent(h, InsightLoop, InsightsHtml(d.insights));
  }

  /** With the corrected order, a trend block in a template whose other
      text has no brace becomes the trend badges, and nothing else
      changes. */
  lemma CorrectedLoopsFill(x: string, y: string, d: PreviewData)
    requires '{' !in x && '{' !in y && PlainData(d)
    ensures LoopsCorrected(x + TrendLoop + y, d) == x + TrendsHtml(d.trends) + y
  {
    var b := TrendsHtml(d.trends);
    TrendsNoBrace(d.trends);
    assert TrendLoop[0] == '{';
    NoEarlyOccurrence(x, TrendLoop);
    FirstCharAbsent(y, TrendLoop);
    ReplaceOnce(x, TrendLoop, y, b);
    var h := x + b + y;
    assert '{' !in h;
    FirstCharAbsent(h, InsightLoop);
    ReplaceAbsent(h, InsightLoop, InsightsHtml(d.insights));
    FirstCharAbsent(h, CategoryLoop);
    ReplaceAbsent(h, CategoryLoop, "");
    FirstCharAbsent(h, EndFor);
    ReplaceAbsent(h, EndFor, CategoriesHtml(d.categories));
  }

  /** The sample data inserts no brace. */
  lemma SampleDataPlain(date: string)
    ensures PlainData(SampleData(date))
  {
    SampleCategoriesPlain(date);
    SampleTrendsPlain(date);
    SampleInsightsPlain(date);
  }

  lemma SampleCategoriesPlain(date: string)
    ensures var cs := SampleData(date).categories;
            forall i | 0 <= i < |cs| :: '{' !in cs[i].name && '{' !in cs[i].examples
  {
    assert SampleData(date).categories == SampleCategories;
    Category0Plain();
    Category1Plain();
    Category2Plain();
  }

  lemma Category0Plain()
    ensures '{' !in Category0.name && '{' !in Category0.examples
  {
  }

  lemma Category1Plain()
    ensures '{' !in Category1.name && '{' !in Category1.examples
  {
  }

  lemma Category2Plain()
    ensures '{' !in Category2.name && '{' !in Category2.examples
  {
  }

  lemma SampleTrendsPlain(date: string)
    ensures var ts := SampleData(date).trends;
            forall i | 0 <= i < |ts| :: '{' !in ts[i]
  {
    var ts := SampleData(date).trends;
    assert '{' !in ts[0] && '{' !in ts[1] && '{' !in ts[2];
  }

  lemma SampleInsightsPlain(date: string)
    ensures var xs := SampleData(date).insights;
            forall i | 0 <= i < |xs| :: '{' !in xs[i]
  {
    var xs := SampleData(date).insights;
    assert '{' !in xs[0];
    assert '{' !in xs[1];
    assert '{' !in xs[2];
  }


  // -------------------------------------------------------- substitutions

  /** In a template whose only braces open the `{{ ` slot `s`, a two-brace
      or `{%` pattern that differs from `s` somewhere within both does not
      occur. */
  lemma SlotMismatch(x: string, s: string, y: string, p: string, m: nat)
    requires '{' !in x && '{' !in y
    requires |s| >= 3 && s[0] == '{' && s[1] == '{' && forall k | 2 <= k < |s| :: s[k] != '{'
    requires |p| >= 2 && p[0] == '{' && p[1] != s[2]
    requires m < |s| && m < |p| && s[m] != p[m]
    ensures !Contains(x + s + y, p)
  {
    var t := x + s + y;
    forall j | 0 <= j <= |t| - |p|
      ensures !OccursAt(t, p, j)
    {
      assert t[j..j + |p|][0] == t[j];
      if j == |x| {
        assert t[j..j + |p|][m] == s[m];
      } else if j == |x| + 1 {
        assert t[j..j + |p|][1] == s[2];
      } else if j < |x| {
        assert t[j] == x[j];
      } else if j >= |x| + |s| {
        assert t[j] == y[j - |x| - |s|];
      } else {
        assert t[j] == s[j - |x|];
      }
    }
  }

  /** The date slot of a template that holds no other brace becomes the
      date, and nothing else changes, in either rendering. */
  lemma DateFilled(x: string, y: string, d: PreviewData)
    requires '{' !in x && '{' !in y && '{' !in d.date
    ensures Render(x + "{{ date }}" + y, d) == x + d.date + y
    ensures RenderCorrected(x + "{{ date }}" + y, d) == x + d.date + y
  {
    var s := "{{ date }}";
    var h := x + d.date + y;
    NoEarlyOccurrence(x, s);
    FirstCharAbsent(y, s);
    ReplaceOnce(x, s, y, d.date);
    assert '{' !in h;
    KeptWithoutLead(h, "{{ highlight_project.title }}", d.highlight.title);
    KeptWithoutLead(h, "{{ highlight_project.description }}", d.highlight.description);
    KeptWithoutLead(h, "{{ highlight_project.tag }}", d.highlight.tag);
    KeptWithoutLead(h, "{{ highlight_project.tag_class }}", d.highlight.tagClass);
    assert FillScalars(x + s + y, d) == h;
  }

  /** The project-count slot of a template that holds no other brace
      becomes the project count in decimal, and nothing else changes, in
      either rendering. */
  lemma ProjectCountFilled(x: string, y: string, d: PreviewData)
    requires '{' !in x && '{' !in y
    ensures Render(x + "{{ project_count }}" + y, d) == x + NatToString(d.projectCount) + y
    ensures RenderCorrected(x + "{{ project_count }}" + y, d) == x + NatToString(d.projectCount) + y
  {
    var t := x + "{{ project_count }}" + y;
    CountSlotNotScalar(x, y);
    ScalarsAbsent(t, d);
    CountSlotNotLoop(x, y);
    LoopsAbsent(t, d);
    CountSlotFilled(x, y, d);
  }

  const CountSlot := "{{ project_count }}"

  lemma CountSlotShape()
    ensures |CountSlot| == 19 && CountSlot[0] == '{' && CountSlot[1] == '{' && CountSlot[2] == ' '
    ensures forall k | 2 <= k < |CountSlot| :: CountSlot[k] != '{'
  {
  }

  lemma CountSlotNotScalar(x: string, y: string)
    requires '{' !in x && '{' !in y
    ensures var t := x + CountSlot + y;
            && !Contains(t, "{{ date }}")
            && !Contains(t, "{{ highlight_project.title }}")
            && !Contains(t, "{{ highlight_project.description }}")
            && !Contains(t, "{{ highlight_project.tag }}")
            && !Contains(t, "{{ highlight_project.tag_class }}")
  {
    CountSlotShape();
    SlotMismatch(x, CountSlot, y, "{{ date }}", 3);
    SlotMismatch(x, CountSlot, y, "{{ highlight_project.title }}", 3);
    SlotMismatch(x, CountSlot, y, "{{ highlight_project.description }}", 3);
    SlotMismatch(x, CountSlot, y, "{{ highlight_project.tag }}", 3);
    SlotMismatch(x, CountSlot, y, "{{ highlight_project.tag_class }}", 3);
  }

  lemma CountSlotNotLoop(x: string, y: string)
    requires '{' !in x && '{' !in y
    ensures var t := x + CountSlot + y;
            && !Contains(t, CategoryLoop) && !Contains(t, EndFor)
            && !Contains(t, TrendLoop) && !Contains(t, InsightLoop)
  {
    CountSlotShape();
    assert CategoryLoop[1] == '%' && EndFor[1] == '%' && TrendLoop[1] == '%' && InsightLoop[1] == '%';
    SlotMismatch(x, CountSlot, y, CategoryLoop, 1);
    SlotMismatch(x, CountSlot, y, EndFor, 1);
    SlotMismatch(x, CountSlot, y, TrendLoop, 1);
    SlotMismatch(x, CountSlot, y, InsightLoop, 1);
  }

  /** The count replacements fill the project-count slot and nothing else. */
  lemma CountSlotFilled(x: string, y: string, d: PreviewData)
    requires '{' !in x && '{' !in y
    ensures FillCounts(x + CountSlot + y, d) == x + NatToString(d.projectCount) + y
  {
    var t := x + CountSlot + y;
    CountSlotShape();
    SlotMismatch(x, CountSlot, y, "{{ prediction }}", 5);
    ReplaceAbsent(t, "{{ prediction }}", d.prediction);
    var v := NatToString(d.projectCount);
    NoEarlyOccurrence(x, CountSlot);
    FirstCharAbsent(y, CountSlot);
    ReplaceOnce(x, CountSlot, y, v);
    NotInDigits(v, '{');
    var h := x + v + y;
    assert '{' !in h;
    KeptWithoutLead(h, "{{ category_count }}", NatToString(d.categoryCount));
    KeptWithoutLead(h, "{{ subscriber_count }}", NatToString(d.subscriberCount));
  }

  /** None of the date and highlight slots occurs: the first replacements
      change nothing. */
  lemma ScalarsAbsent(t: string, d: PreviewData)
    requires !Contains(t, "{{ date }}")
    requires !Contains(t, "{{ highlight_project.title }}")
    requires !Contains(t, "{{ highlight_project.description }}")
    requires !Contains(t, "{{ highlight_project.tag }}")
    requires !Contains(t, "{{ highlight_project.tag_class }}")
    ensures FillScalars(t, d) == t
  {
    ReplaceAbsent(t, "{{ date }}", d.date);
    ReplaceAbsent(t, "{{ highlight_project.title }}", d.highlight.title);
    ReplaceAbsent(t, "{{ highlight_project.description }}", d.highlight.description);
    ReplaceAbsent(t, "{{ highlight_project.tag }}", d.highlight.tag);
    ReplaceAbsent(t, "{{ highlight_project.tag_class }}", d.highlight.tagClass);
  }

  /** None of the loop patterns occurs: both loop orders change nothing. */
  lemma LoopsAbsent(t: string, d: PreviewData)
    requires !Contains(t, CategoryLoop) && !Contains(t, EndFor)
    requires !Contains(t, TrendLoop) && !Contains(t, InsightLoop)
    ensures LoopsAsWritten(t, d) == t && LoopsCorrected(t, d) == t
  {
    ReplaceAbsent(t, CategoryLoop, "");
    ReplaceAbsent(t, EndFor, CategoriesHtml(d.categories));
    ReplaceAbsent(t, TrendLoop, TrendsHtml(d.trends));
    ReplaceAbsent(t, InsightLoop, InsightsHtml(d.insights));
  }
}

=== FILE: retry.dfy ===
/** The retry controllers of the pipeline share one shape: try an operation up
    to a fixed number of times, stop at the first success (or at an outcome
    that ends the loop without success), and sleep between attempts, never
    after the last one. The outcome of each attempt is an oracle; the sleeps
    are returned as a trace of seconds. */
module Retry {
  /** What one attempt ended with. `Stopped` ends the loop at once without
      success (the scraper's "page parsed but empty" case). */
  datatype Outcome = Succeeded | Failed | Stopped

  datatype Final = Success | Stop | Exhausted

  predicate AllFailed(outcomes: seq<Outcome>, n: nat)
    requires n <= |outcomes|
  {
    forall i | 0 <= i < n :: outcomes[i] == Failed
  }

  /** Run up to `maxAttempts` attempts; after the k-th failed attempt, if
      another attempt follows, sleep `delay(k)` seconds. */
  method Run(outcomes: seq<Outcome>, maxAttempts: nat, delay: nat -> nat)
    returns (attempts: nat, final: Final, sleeps: seq<nat>)
    requires |outcomes| >= maxAttempts
    ensures attempts <= maxAttempts
    ensures AllFailed(outcomes, if attempts == 0 then 0 else attempts - 1)
    ensures final == Exhausted <==> AllFailed(outcomes, maxAttempts)
    ensures final == Exhausted ==> attempts == maxAttempts
    ensures final == Success ==> attempts >= 1 && outcomes[attempts - 1] == Succeeded
    ensures final == Stop ==> attempts >= 1 && outcomes[attempts - 1] == Stopped
    ensures |sleeps| == if attempts == 0 then 0 else attempts - 1
    ensures forall i | 0 <= i < |sleeps| :: sleeps[i] == delay(i + 1)
  {
    attempts := 0;
    sleeps := [];
    while attempts < maxAttempts
      invariant attempts <= maxAttempts
      invariant AllFailed(outcomes, attempts)
      invariant |sleeps| == if attempts == maxAttempts && attempts > 0 then attempts - 1 else attempts
      invariant forall i | 0 <= i < |sleeps| :: sleeps[i] == delay(i + 1)
    {
      var outcome := outcomes[attempts];
      attempts := attempts + 1;
      if outcome == Succeeded {
        final := Success;
        return;
      } else if outcome == Stopped {
        final := Stop;
        return;
      }
      if attempts < maxAttempts {
        sleeps := sleeps + [delay(attempts)];
      }
    }
    final := Exhausted;
  }
}

=== FILE: run_now.dfy ===
/** The one-shot run (run_now.py): the scraped lines go to the analysis
    service capped at 4000 characters; when the service fails, a backup text
    is rebuilt from the first 15 lines; the result goes to a confirmation
    address and then to every subscriber, each subscriber's failure being
    caught and counted. The service reply and every send are parameters. */
module RunNow {
  import opened Wrappers
  import opened Seqs
  import opened Text
  import opened Subscribers

  // ----------------------------------------------------------- input cap

  const InputCap := 4000
  const CutMark := "...[截断]"

  /** A text longer than 4000 characters keeps its first 4000 and gets the
      cut mark; a shorter one is passed on as it is. */
  function CapInput(t: string): (r: string)
    ensures |t| <= InputCap ==> r == t
    ensures |t| > InputCap ==> |r| == InputCap + |CutMark| && EndsWith(r, CutMark)
    ensures r[..Min(|t|, InputCap)] == t[..Min(|t|, InputCap)]
  {
    if |t| > InputCap then
      var r := t[..InputCap] + CutMark;
      assert r[|r| - |CutMark|..] == CutMark;
      r
    else t
  }

  /** Capping a capped text changes nothing: the cut text is exactly as
      long as the cap plus the mark, so its own cut restores it. */
  lemma CapIdempotent(t: string)
    ensures CapInput(CapInput(t)) == CapInput(t)
  {
    if |t| > InputCap {
      var r := CapInput(t);
      assert r[..InputCap] == t[..InputCap];
      assert r == r[..InputCap] + CutMark;
    }
  }

  // ------------------------------------------------------- backup format

  /** The fields the backup keeps of one raw line: the title part with every
      '[' removed, the description and the link. */
  datatype Fields = Fields(title: string, description: string, url: string)

  /** The fallback's test of one line: it holds "]:" and '(', splits into
      exactly two parts at "]:", and the second part holds '('; that part is
      cut at its last '(' and the link loses its trailing ')'s. */
  function LineFields(line: string): (r: Option<Fields>)
    ensures r.Some? ==> Contains(line, "]:") && '(' in line
    ensures r.Some? ==> '[' !in r.value.title && '(' !in r.value.url
    ensures r.Some? ==> |r.value.url| > 0 ==> r.value.url[|r.value.url| - 1] != ')'
  {
    if !(Contains(line, "]:") && '(' in line) then None
    else
      var parts := Split(line, "]:");
      if |parts| != 2 || '(' !in parts[1] then None
      else
        var k := LastIndexOf(parts[1], '(');
        ReplaceCharGone(parts[0], '[', "");
        Some(Fields(Replace(parts[0], "[", ""), parts[1][..k], RStrip(parts[1][k + 1..], {')'})))
  }

  function Rebuilt(f: Fields): string
  {
    f.title + "]:" + f.description + "(" + f.url + ")"
  }

  /** The rebuilt lines of the first 15 lines, in order. */
  function RebuiltLines(lines: seq<string>): (r: seq<string>)
    ensures |r| <= |lines|
  {
    if |lines| == 0 then []
    else
      var f := LineFields(lines[0]);
      (if f.Some? then [Rebuilt(f.value)] else []) + RebuiltLines(lines[1..])
  }

  const BackupLines := 15
  const BackupKept := 10
  const Intro := "我是谢小果，是openclaw机器人，谢苹果的数字员工，从今天开始由我这个智能体负责AI信息流项目的所有维护。"
  const Trailer := "\n\n最惊艳的项目：[根据内容自行判断]\n" + "今日趋势项目关注的领域和特点：多样化的AI、开发工具和开源项目。\n\n" + Intro

  /** The backup text: at most ten rebuilt lines of the first fifteen lines,
      joined by newlines, then the fixed trailer. */
  function Backup(raw: string): (r: string)
    ensures EndsWith(r, Trailer)
    ensures StartsWith(r, Join(Take(RebuiltLines(Take(Split(raw, "\n"), BackupLines)), BackupKept), "\n"))
  {
    var body := Join(Take(RebuiltLines(Take(Split(raw, "\n"), BackupLines)), BackupKept), "\n");
    var r := body + Trailer;
    assert r[..|body|] == body;
    assert r[|r| - |Trailer|..] == Trailer;
    r
  }

  /** What scrape_projects keeps of one trending entry. */
  datatype Entry = Entry(title: string, description: string, url: string)

  /** The line scrape_projects writes for the entry at a 1-based index. */
  function RawLine(index: nat, e: Entry): string
  {
    NatToString(index) + ". [" + e.title + "]:" + e.description + "(" + e.url + ")"
  }

  /** The scraped lines, numbered from 1. */
  function RawLines(es: seq<Entry>): (r: seq<string>)
    ensures |r| == |es|
  {
    seq(|es|, i requires 0 <= i < |es| => RawLine(i + 1, es[i]))
  }

  /** An entry whose line survives the backup intact: no bracket in the
      title, no ']' in the description, no bracket or parenthesis in the
      link, and no newline anywhere. */
  predicate Plain(e: Entry)
  {
    && '[' !in e.title && ']' !in e.title && ']' !in e.description
    && ']' !in e.url && '(' !in e.url && ')' !in e.url
    && '\n' !in e.title && '\n' !in e.description && '\n' !in e.url
  }

  /** The fields the backup should recover from the entry at an index. */
  function Recovered(index: nat, e: Entry): Fields
  {
    Fields(NatToString(index) + ". " + e.title, e.description, e.url)
  }

  function RecoveredAll(es: seq<Entry>): (r: seq<Fields>)
    ensures |r| == |es|
  {
    seq(|es|, i requires 0 <= i < |es| => Recovered(i + 1, es[i]))
  }

  /** A scraped line comes back from the backup as the same line without its
      '[', as long as the entry is plain. */
  lemma ScrapedLineRebuilt(index: nat, e: Entry)
    requires Plain(e)
    ensures LineFields(RawLine(index, e)) == Some(Recovered(index, e))
    ensures Rebuilt(Recovered(index, e))
            == NatToString(index) + ". " + e.title + "]:" + e.description + "(" + e.url + ")"
  {
    var num := NatToString(index);
    var head := num + ". [" + e.title;
    var tail := e.description + "(" + e.url + ")";
    var line := RawLine(index, e);
    assert line == head + "]:" + tail;
    DigitsNoBrackets(num);
    LineHalves(head, tail);
    TailFields(e.description, e.url);
    HeadTitle(num, e.title);
    var parts := Split(line, "]:");
    assert parts[0] == head && parts[1] == tail;
    var k := LastIndexOf(parts[1], '(');
    assert LineFields(line) == Some(Fields(Replace(parts[0], "[", ""), parts[1][..k], RStrip(parts[1][k + 1..], {')'})));
  }

  /** The line splits at its one "]:" and holds a '(' after it. */
  lemma LineHalves(head: string, tail: string)
    requires ']' !in head && ']' !in tail && '(' in tail
    ensures Contains(head + "]:" + tail, "]:") && '(' in head + "]:" + tail
    ensures Split(head + "]:" + tail, "]:") == [head, tail]
  {
    var line := head + "]:" + tail;
    AbsentCharNoOccurrence(tail, "]:", 0);
    SplitOnce(head, "]:", tail);
    assert OccursAt(line, "]:", |head|);
  }

  /** The part after "]:" is cut at its last '(' into the description and
      the link with its ')' stripped. */
  lemma TailFields(description: string, url: string)
    requires '(' !in url && ')' !in url
    ensures '(' in description + "(" + url + ")"
    ensures var tail := description + "(" + url + ")";
            var k := LastIndexOf(tail, '(');
            k == |description| && tail[..k] == description && RStrip(tail[k + 1..], {')'}) == url
  {
    var tail := description + "(" + url + ")";
    assert tail == description + ['('] + (url + [')']);
    assert tail[|description|] == '(';
    LastIndexOfIs(tail, '(', |description|);
    assert tail[|description| + 1..] == url + [')'];
    RStripOne(url, ')');
  }

  /** Removing the '[' of the numbered title part leaves number and title. */
  lemma HeadTitle(num: string, title: string)
    requires AllDigits(num) && '[' !in title
    ensures Replace(num + ". [" + title, "[", "") == num + ". " + title
  {
    DigitsNoBrackets(num);
    assert num + ". [" + title == (num + ". ") + "[" + title;
    assert (num + ". ") + "["[..0] == num + ". ";
    SingleCharAbsent(num + ". ", '[');
    SingleCharAbsent(title, '[');
    ReplaceOnce(num + ". ", "[", title, "");
  }

  /** Lines that all pass the test are all rebuilt, in order. */
  lemma {:induction false} RebuiltEvery(lines: seq<string>, fs: seq<Fields>)
    requires |lines| == |fs|
    requires forall i | 0 <= i < |lines| :: LineFields(lines[i]) == Some(fs[i])
    ensures RebuiltLines(lines) == Map(fs, Rebuilt)
    decreases |lines|
  {
    if |lines| > 0 {
      var rest := lines[1..];
      var more := fs[1..];
      assert forall i | 0 <= i < |rest| :: rest[i] == lines[i + 1] && more[i] == fs[i + 1];
      RebuiltEvery(rest, more);
      RebuiltStep(lines, fs);
    }
  }

  lemma RebuiltStep(lines: seq<string>, fs: seq<Fields>)
    requires |lines| == |fs| > 0 && LineFields(lines[0]) == Some(fs[0])
    requires RebuiltLines(lines[1..]) == Map(fs[1..], Rebuilt)
    ensures RebuiltLines(lines) == Map(fs, Rebuilt)
  {
    MapCons(fs, Rebuilt);
  }

  /** When the service fails on a scrape of plain entries, the backup holds
      the first ten scraped lines, each without its '[', then the trailer. */
  lemma BackupOfScrape(es: seq<Entry>)
    requires |es| > 0
    requires forall i | 0 <= i < |es| :: Plain(es[i])
    ensures Backup(Join(RawLines(es), "\n"))
            == Join(Map(Take(RecoveredAll(es), BackupKept), Rebuilt), "\n") + Trailer
  {
    var lines := RawLines(es);
    var fs := RecoveredAll(es);
    forall i | 0 <= i < |lines|
      ensures '\n' !in lines[i] && LineFields(lines[i]) == Some(fs[i])
    {
      ScrapedAt(es, i);
    }
    SplitJoin(lines, '\n');
    var first := Take(lines, BackupLines);
    RebuiltEvery(first, Take(fs, BackupLines));
    assert Take(Map(Take(fs, BackupLines), Rebuilt), BackupKept) == Map(Take(fs, BackupKept), Rebuilt);
  }

  /** The scraped line at an index holds no newline and is recovered. */
  lemma ScrapedAt(es: seq<Entry>, i: nat)
    requires i < |es| && Plain(es[i])
    ensures '\n' !in RawLines(es)[i] && LineFields(RawLines(es)[i]) == Some(RecoveredAll(es)[i])
  {
    var e := es[i];
    assert RawLines(es)[i] == RawLine(i + 1, e);
    assert RecoveredAll(es)[i] == Recovered(i + 1, e);
    ScrapedLineRebuilt(i + 1, e);
    RawLineSingle(i + 1, e);
  }

  lemma RawLineSingle(index: nat, e: Entry)
    requires Plain(e)
    ensures '\n' !in RawLine(index, e)
  {
    DigitsNoBrackets(NatToString(index));
  }

  lemma DigitsNoBrackets(d: string)
    requires AllDigits(d)
    ensures '[' !in d && ']' !in d && '(' !in d && ')' !in d && '\n' !in d
  {
    forall i | 0 <= i < |d|
      ensures d[i] != '[' && d[i] != ']' && d[i] != '(' && d[i] != ')' && d[i] != '\n'
    {
      assert IsDigit(d[i]);
    }
  }

  // ------------------------------------------------------------ analysis

  /** How the call to the analysis service went: the client could not be
      made (before the cap is applied), the call failed (after it), or a
      reply came back. */
  datatype Service = ClientFailed | CallFailed | Replied(content: string)

  /** get_ai_analysis: the reply, or the backup rebuilt from the text as it
      stood when the failure happened. */
  function Analysis(raw: string, service: Service): (r: string)
    ensures service.Replied? ==> r == service.content
    ensures service.ClientFailed? ==> r == Backup(raw)
    ensures service.CallFailed? ==> r == Backup(CapInput(raw))
    ensures !service.Replied? ==> EndsWith(r, Trailer)
  {
    match service
    case ClientFailed => Backup(raw)
    case CallFailed => Backup(CapInput(raw))
    case Replied(content) => content
  }

  /** The service is sent the capped text. */
  function ServiceInput(raw: string): (r: string)
    ensures |r| <= InputCap + |CutMark|
  {
    CapInput(raw)
  }

  /** For a text within the cap it makes no difference where the service
      failed. */
  lemma FailurePointIrrelevant(raw: string)
    requires |raw| <= InputCap
    ensures Analysis(raw, ClientFailed) == Analysis(raw, CallFailed)
  {
  }

  // ------------------------------------------------------------- sending

  const Confirmation := "pxxhl@qq.com"

  /** send_emails: no password raises before any send; the confirmation
      send is not guarded, so its failure raises too; each subscriber send
      is caught, and the result is the number accepted. */
  method SendEmails(fileLines: seq<string>, password: string, confirmed: bool, accepted: seq<bool>)
    returns (r: Result<nat>, sent: seq<string>)
    requires |accepted| == |SubscriberList(fileLines)|
    ensures password == "" ==> r.Err? && sent == []
    ensures password != "" && !confirmed ==> r.Err? && sent == []
    ensures password != "" && confirmed ==> r == Ok(Count(accepted, IsTrue))
    ensures r.Ok? ==> r.value <= |SubscriberList(fileLines)|
    ensures |sent| <= |accepted|
    ensures forall e | e in sent :: e in SubscriberList(fileLines)
  {
    var emails := SubscriberList(fileLines);
    sent := [];
    if password == "" {
      r := Err("邮件授权码未设置");
      return;
    }
    if !confirmed {
      r := Err("确认邮件发送失败");
      return;
    }
    var count := 0;
    var i := 0;
    while i < |emails|
      invariant 0 <= i <= |emails|
      invariant count == Count(accepted[..i], IsTrue)
      invariant |sent| == count
      invariant forall e | e in sent :: e in emails
    {
      assert accepted[..i + 1] == accepted[..i] + [accepted[i]];
      CountAppend(accepted[..i], [accepted[i]], IsTrue);
      if accepted[i] {
        sent := sent + [emails[i]];
        count := count + 1;
      }
      i := i + 1;
    }
    assert accepted[..i] == accepted;
    r := Ok(count);
  }
}

=== FILE: scraper.dfy ===
/** The GitHub trending scraper of the core package (core/scraper.py): the
    request is retried with exponential backoff, the page items become
    numbered project records, star counts are read from the item texts, and
    the projects are saved as numbered lines. The HTTP responses and the
    items the HTML selectors find are oracles. */
module Scraper {
  import opened Wrappers
  import opened Seqs
  import opened Text
  import Retry
  import ImmediateSend

  const BaseUrl := "https://github.com/trending"
  const DefaultTimeout := 30
  const DefaultMaxRetries := 3

  /** The page requested: the base URL for "all", else one path segment more. */
  function TrendingUrl(language: string): (url: string)
    ensures language == "all" ==> url == BaseUrl
    ensures language != "all" ==> url == BaseUrl + "/" + language
  {
    if language == "all" then BaseUrl else BaseUrl + "/" + language
  }

  /** Different languages are different pages. */
  lemma TrendingUrlInjective(a: string, b: string)
    requires TrendingUrl(a) == TrendingUrl(b)
    ensures a == b
  {
    if a != "all" && b != "all" {
      assert a == TrendingUrl(a)[|BaseUrl| + 1..];
      assert b == TrendingUrl(b)[|BaseUrl| + 1..];
    }
  }

  // ----------------------------------------------------------------- numbers

  /** The leftmost run of digits at or after `i` (`re.search(r'\d+', s)`). */
  function FirstDigits(s: string, i: nat): (r: Option<string>)
    requires i <= |s|
    ensures r.Some? ==> |r.value| > 0 && AllDigits(r.value)
    ensures r.None? <==> forall j | i <= j < |s| :: !IsDigit(s[j])
    decreases |s| - i
  {
    if i == |s| then None
    else if IsDigit(s[i]) then Some(s[i..DigitRunEnd(s, i)])
    else FirstDigits(s, i + 1)
  }

  /** extract_number: None for empty text; otherwise the commas are removed
      and the first run of digits is read. */
  function ExtractNumber(text: string): (r: Option<nat>)
    ensures r.Some? <==> exists j | 0 <= j < |text| :: IsDigit(text[j])
  {
    if text == "" then None
    else
      var t := Replace(text, ",", "");
      var d := FirstDigits(t, 0);
      DigitsSurviveReplace(text);
      if d.None? then None
      else Some(ParseDigits(d.value))
  }

  /** Removing commas removes no digit and adds none: the text holds a digit
      exactly when it does after removal. */
  lemma {:induction false} DigitsSurviveReplace(text: string)
    ensures (exists j | 0 <= j < |Replace(text, ",", "")| :: IsDigit(Replace(text, ",", "")[j]))
            <==> exists j | 0 <= j < |text| :: IsDigit(text[j])
    decreases |text|
  {
    if |text| >= 1 {
      DigitsSurviveReplace(text[1..]);
      var rest := Replace(text[1..], ",", "");
      var head: string := if text[0] == ',' then "" else [text[0]];
      assert text[..1] == "," <==> text[0] == ',' by {
        assert text[..1][0] == text[0];
      }
      assert Replace(text, ",", "") == head + rest;
      forall j | 0 <= j < |text| - 1
        ensures text[1..][j] == text[j + 1]
      {
      }
      forall k | 0 <= k < |rest|
        ensures (head + rest)[|head| + k] == rest[k]
      {
      }
      if exists j | 0 <= j < |text| :: IsDigit(text[j]) {
        var j :| 0 <= j < |text| && IsDigit(text[j]);
        if j == 0 {
          assert (head + rest)[0] == text[0];
        } else {
          assert IsDigit(text[1..][j - 1]);
          var k :| 0 <= k < |rest| && IsDigit(rest[k]);
          assert IsDigit((head + rest)[|head| + k]);
        }
      }
      if exists j | 0 <= j < |head + rest| :: IsDigit((head + rest)[j]) {
        var j :| 0 <= j < |head + rest| && IsDigit((head + rest)[j]);
        if j < |head| {
          assert IsDigit(text[0]);
        } else {
          assert IsDigit(rest[j - |head|]);
          var k :| 0 <= k < |text| - 1 && IsDigit(text[1..][k]);
          assert IsDigit(text[k + 1]);
        }
      }
    }
  }

  /** Commas anywhere in the text do not change the number read. */
  lemma CommasIgnored(text: string)
    ensures ExtractNumber(text) == ExtractNumber(Replace(text, ",", ""))
  {
    var t := Replace(text, ",", "");
    ReplaceCharGone(text, ',', "");
    SingleCharAbsent(t, ',');
    ReplaceAbsent(t, ",", "");
    if text != "" && t == "" {
      assert FirstDigits(t, 0).None?;
    }
  }

  /** `str(n)` reads back as `n`, whatever non-digit text surrounds it. */
  lemma NumberRoundTrip(before: string, n: nat, after: string)
    requires forall j | 0 <= j < |before| :: !IsDigit(before[j]) && before[j] != ','
    requires ',' !in after && (|after| > 0 ==> !IsDigit(after[0]))
    ensures ExtractNumber(before + NatToString(n) + after) == Some(n)
  {
    var d := NatToString(n);
    var s := before + d + after;
    assert ',' !in d;
    assert ',' !in s;
    SingleCharAbsent(s, ',');
    ReplaceAbsent(s, ",", "");
    DigitsAt(before, d, after);
    ParseNatToString(n);
  }

  /** The first digit run of `before + d + after` is `d`. */
  lemma {:induction false} DigitsAt(before: string, d: string, after: string)
    requires forall j | 0 <= j < |before| :: !IsDigit(before[j])
    requires |d| > 0 && AllDigits(d)
    requires |after| > 0 ==> !IsDigit(after[0])
    ensures FirstDigits(before + d + after, 0) == Some(d)
  {
    var s := before + d + after;
    RunFrom(s, |before|, |before| + |d|);
    assert s[|before|..|before| + |d|] == d;
    SkipNonDigits(s, 0, |before|);
  }

  /** The digit run from `i` ends at `j` when all between are digits and
      `s[j]` is not. */
  lemma {:induction false} RunFrom(s: string, i: nat, j: nat)
    requires i <= j <= |s|
    requires forall k | i <= k < j :: IsDigit(s[k])
    requires j < |s| ==> !IsDigit(s[j])
    ensures DigitRunEnd(s, i) == j
    decreases j - i
  {
    if i < j {
      RunFrom(s, i + 1, j);
    }
  }

  /** A stretch without digits is skipped. */
  lemma {:induction false} SkipNonDigits(s: string, i: nat, k: nat)
    requires i <= k <= |s|
    requires forall j | i <= j < k :: !IsDigit(s[j])
    ensures FirstDigits(s, i) == FirstDigits(s, k)
    decreases k - i
  {
    if i < k {
      SkipNonDigits(s, i + 1, k);
    }
  }

  // ------------------------------------------------------------ stars today

  const StarsToday := "stars today"

  /** The end of the run of whitespace (`\s*`) starting at `j`. */
  function SpaceRunEnd(s: string, j: nat): (k: nat)
    requires j <= |s|
    ensures j <= k <= |s|
    ensures forall m | j <= m < k :: s[m] in Whitespace
    decreases |s| - j
  {
    if j < |s| && s[j] in Whitespace then SpaceRunEnd(s, j + 1) else j
  }

  /** `(\d+)\s*stars today` matched at `i`: the digits, greedily, then any
      whitespace, then the words. */
  function StarsAt(s: string, i: nat): (r: Option<string>)
    requires i < |s|
    ensures r.Some? ==> AllDigits(r.value) && |r.value| > 0
  {
    if !IsDigit(s[i]) then None
    else
      var j := DigitRunEnd(s, i);
      var k := SpaceRunEnd(s, j);
      if StartsWith(s[k..], StarsToday) then Some(s[i..j]) else None
  }

  /** The leftmost match at or after `i` (`re.search`). */
  function FirstStars(s: string, i: nat): (r: Option<string>)
    requires i <= |s|
    ensures r.Some? ==> AllDigits(r.value) && |r.value| > 0
    ensures r.None? <==> forall j | i <= j < |s| :: StarsAt(s, j).None?
    decreases |s| - i
  {
    if i == |s| then None
    else if StarsAt(s, i).Some? then StarsAt(s, i)
    else FirstStars(s, i + 1)
  }

  /** extract_stars_today, on the lowercased text. */
  function ExtractStarsToday(text: string): (r: Option<nat>)
    ensures r.Some? <==> exists i | 0 <= i < |text| :: StarsAt(Lower(text), i).Some?
  {
    if text == "" then None
    else
      var m := FirstStars(Lower(text), 0);
      if m.Some? then Some(ParseDigits(m.value)) else None
  }

  lemma LowerAppend(a: string, b: string)
    ensures Lower(a + b) == Lower(a) + Lower(b)
  {
  }

  /** "N stars today", with any spacing and any case of the words, reads
      back as N. */
  lemma StarsTodayRoundTrip(n: nat, spaces: string, words: string, after: string)
    requires forall m | 0 <= m < |spaces| :: spaces[m] in Whitespace
    requires Lower(words) == StarsToday
    ensures ExtractStarsToday(NatToString(n) + spaces + words + after) == Some(n)
  {
    var d := NatToString(n);
    LowerBuilt(d, spaces, words, after);
    StarsAtStart(d, spaces, Lower(after));
    ParseNatToString(n);
  }

  lemma LowerBuilt(d: string, spaces: string, words: string, after: string)
    requires AllDigits(d)
    requires forall m | 0 <= m < |spaces| :: spaces[m] in Whitespace
    requires Lower(words) == StarsToday
    ensures Lower(d + spaces + words + after) == d + spaces + StarsToday + Lower(after)
  {
    LowerAppend(d + spaces + words, after);
    LowerAppend(d + spaces, words);
    LowerAppend(d, spaces);
    assert Lower(d) == d;
    assert Lower(spaces) == spaces;
  }

  /** Digits, whitespace and the words at the very start are the match. */
  lemma StarsAtStart(d: string, spaces: string, after: string)
    requires |d| > 0 && AllDigits(d)
    requires forall m | 0 <= m < |spaces| :: spaces[m] in Whitespace
    ensures FirstStars(d + spaces + StarsToday + after, 0) == Some(d)
  {
    var s := d + spaces + StarsToday + after;
    RunFrom(s, 0, |d|);
    SpaceRunFrom(s, |d|, |d| + |spaces|);
    assert s[|d| + |spaces|..][..|StarsToday|] == StarsToday;
    assert s[0..|d|] == d;
  }

  lemma {:induction false} SpaceRunFrom(s: string, j: nat, k: nat)
    requires j <= k <= |s|
    requires forall m | j <= m < k :: s[m] in Whitespace
    requires k < |s| ==> s[k] !in Whitespace
    ensures SpaceRunEnd(s, j) == k
    decreases k - j
  {
    if j < k {
      SpaceRunFrom(s, j + 1, k);
    }
  }

  // ---------------------------------------------------------------- parsing

  /** What the selectors find in one `article.Box-row` (texts already
      extracted; `href` is None when the title link has none). */
  datatype Item = Item(title: string, href: Option<string>, description: string,
                       starsText: string, forksText: string, starsTodayText: string)

  datatype Project = Project(index: nat, title: string, description: string, url: string,
                             language: string, stars: Option<nat>, forks: Option<nat>,
                             starsToday: Option<nat>)

  /** `"https://github.com" + href` when the link has a non-empty href, else "". */
  function ProjectUrl(href: Option<string>): (url: string)
    ensures href.Some? && href.value != "" ==> url == "https://github.com" + href.value
    ensures href.None? || href.value == "" ==> url == ""
  {
    if href.Some? && href.value != "" then "https://github.com" + href.value else ""
  }

  function ProjectOf(item: Item, index: nat, language: string): Project
  {
    Project(index, Trim(item.title), Trim(item.description), ProjectUrl(item.href), language,
            ExtractNumber(Trim(item.starsText)), ExtractNumber(Trim(item.forksText)),
            ExtractStarsToday(Trim(item.starsTodayText)))
  }

  /** parse_response: one project per item, numbered 1..n in page order; a
      parse error (None) gives no projects. */
  function ParseResponse(items: Option<seq<Item>>, language: string): (r: seq<Project>)
    ensures items.None? ==> r == []
    ensures items.Some? ==> |r| == |items.value|
  {
    if items.None? then [] else Projects(items.value, 1, language)
  }

  /** One project per item, numbered from `from` in page order. */
  function Projects(items: seq<Item>, from: nat, language: string): (r: seq<Project>)
    ensures |r| == |items|
  {
    if |items| == 0 then [] else [ProjectOf(items[0], from, language)] + Projects(items[1..], from + 1, language)
  }

  /** The project at a position is built from the item at that position,
      numbered by its place on the page. */
  lemma {:induction false} ProjectsAt(items: seq<Item>, from: nat, language: string, i: nat)
    requires i < |items|
    ensures Projects(items, from, language)[i] == ProjectOf(items[i], from + i, language)
    decreases i
  {
    if i > 0 {
      ProjectsAt(items[1..], from + 1, language, i - 1);
    }
  }

  /** parse_response numbers the projects 1..n in page order and gives each
      the language asked for. */
  lemma ParsedNumbering(items: seq<Item>, language: string)
    ensures var r := ParseResponse(Some(items), language);
      forall i | 0 <= i < |r| :: r[i] == ProjectOf(items[i], i + 1, language)
                                 && r[i].index == i + 1 && r[i].language == language
  {
    forall i | 0 <= i < |items|
      ensures Projects(items, 1, language)[i] == ProjectOf(items[i], i + 1, language)
    {
      ProjectsAt(items, 1, language, i);
    }
  }

  // ------------------------------------------------------------------ scrape

  /** One request: a status code with the items found in the page (None
      when parsing raised), or an exception (timeout, connection or other). */
  datatype Attempt = Response(status: int, items: Option<seq<Item>>) | Raised(error: string)

  /** A 200 page succeeds when it yields projects, which is when its items
      parsed and are not empty. */
  function OutcomeOf(a: Attempt): Retry.Outcome
  {
    if a.Response? && a.status == 200 then
      (if a.items.Some? && |a.items.value| > 0 then Retry.Succeeded else Retry.Stopped)
    else Retry.Failed
  }

  lemma OutcomeOfParse(a: Attempt, language: string)
    requires a.Response? && a.status == 200
    ensures OutcomeOf(a) == Retry.Succeeded <==> |ParseResponse(a.items, language)| > 0
    ensures OutcomeOf(a) == Retry.Stopped <==> ParseResponse(a.items, language) == []
  {
  }

  function Pow2(k: nat): (r: nat)
    ensures r >= 1
  {
    if k == 0 then 1 else 2 * Pow2(k - 1)
  }

  /** scrape: up to `maxRetries` requests; a 200 page with projects succeeds;
      a 200 page without projects ends the run at once; anything else is
      retried after 2^k seconds, k being the number of attempts so far. */
  method Scrape(language: string, attempts: seq<Attempt>, maxRetries: nat)
    returns (ok: bool, projects: seq<Project>, tries: nat, sleeps: seq<nat>)
    requires |attempts| >= maxRetries
    ensures tries <= maxRetries
    ensures ok ==> tries >= 1 && |projects| > 0
    ensures ok ==> var a := attempts[tries - 1];
      a.Response? && a.status == 200 && projects == ParseResponse(a.items, language)
    ensures ok <==> tries >= 1 && OutcomeOf(attempts[tries - 1]) == Retry.Succeeded
    ensures !ok ==> projects == []
    ensures !ok && tries < maxRetries ==> tries >= 1 && OutcomeOf(attempts[tries - 1]) == Retry.Stopped
    ensures forall i | 0 <= i < tries - 1 :: OutcomeOf(attempts[i]) == Retry.Failed
    ensures |sleeps| == if tries == 0 then 0 else tries - 1
    ensures forall i | 0 <= i < |sleeps| :: sleeps[i] == Pow2(i + 1)
  {
    var final;
    tries, final, sleeps := Tries(attempts, maxRetries);
    if final == Retry.Success {
      var a := attempts[tries - 1];
      ok, projects := true, ParseResponse(a.items, language);
    } else {
      ok, projects := false, [];
    }
  }

  /** The retry loop over the attempts, each judged by its outcome. */
  method Tries(attempts: seq<Attempt>, maxRetries: nat) returns (tries: nat, final: Retry.Final, sleeps: seq<nat>)
    requires |attempts| >= maxRetries
    ensures tries <= maxRetries
    ensures final == Retry.Success ==> tries >= 1 && OutcomeOf(attempts[tries - 1]) == Retry.Succeeded
    ensures final != Retry.Success && tries < maxRetries ==> tries >= 1 && OutcomeOf(attempts[tries - 1]) == Retry.Stopped
    ensures final == Retry.Stop ==> tries >= 1 && OutcomeOf(attempts[tries - 1]) == Retry.Stopped
    ensures final == Retry.Exhausted <==> forall i | 0 <= i < maxRetries :: OutcomeOf(attempts[i]) == Retry.Failed
    ensures final == Retry.Exhausted ==> tries == maxRetries
    ensures forall i | 0 <= i < tries - 1 :: OutcomeOf(attempts[i]) == Retry.Failed
    ensures |sleeps| == if tries == 0 then 0 else tries - 1
    ensures forall i | 0 <= i < |sleeps| :: sleeps[i] == Pow2(i + 1)
  {
    var outcomes := Map(attempts[..maxRetries], OutcomeOf);
    tries, final, sleeps := Retry.Run(outcomes, maxRetries, Pow2);
  }

  // ------------------------------------------------------------------- save

  /** One line of the text file save_projects writes (without its newline):
      `"{index}. [{title}]:{description}({url})"`. */
  function SavedLine(p: Project): string
  {
    NatToString(p.index) + ". [" + p.title + "]:" + p.description + "(" + p.url + ")"
  }

  lemma DigitsHaveNoBrackets(d: string)
    requires AllDigits(d)
    ensures '[' !in d && ']' !in d
  {
  }

  /** A saved line is read back by the immediate sender's project parser:
      the title comes back as the name, and the description with its
      parenthesised URL as the description. */
  lemma SavedLineParses(p: Project)
    requires ']' !in p.title
    ensures ImmediateSend.ParseProjectLine(SavedLine(p))
      == Some(ImmediateSend.Project(Trim(p.title), Trim(p.description + "(" + p.url + ")")))
  {
    var prefix := NatToString(p.index) + ". ";
    DigitsHaveNoBrackets(NatToString(p.index));
    assert '[' !in prefix && ']' !in prefix;
    assert SavedLine(p) == prefix + "[" + p.title + "]:" + (p.description + "(" + p.url + ")");
    ImmediateSend.ParseBuiltLine(prefix, p.title, p.description + "(" + p.url + ")");
  }
}

=== FILE: seqs.dfy ===
/** Generic sequence helpers shared by the whole model: Python's `xs[:n]`,
    filtering, counting and flattening. */
module Seqs {
  import opened Wrappers

  function Min(a: int, b: int): int { if a <= b then a else b }

  function Max(a: int, b: int): int { if a >= b then a else b }

  /** Python's `xs[-1]`. */
  function Last<T>(xs: seq<T>): T
    requires |xs| > 0
  {
    xs[|xs| - 1]
  }

  /** Python's `xs[:n]` for a non-negative `n`: the first `n` elements, or all of them. */
  function Take<T>(xs: seq<T>, n: nat): (r: seq<T>)
    ensures |r| == Min(n, |xs|)
    ensures r == xs[..|r|]
  {
    if n < |xs| then xs[..n] else xs
  }

  /** Python's `xs[n:]` for a non-negative `n`. */
  function Drop<T>(xs: seq<T>, n: nat): (r: seq<T>)
    ensures |r| == |xs| - Min(n, |xs|)
    ensures r == xs[Min(n, |xs|)..]
  {
    if n < |xs| then xs[n..] else []
  }

  predicate IsPrefix<T(==)>(a: seq<T>, b: seq<T>)
  {
    |a| <= |b| && b[..|a|] == a
  }

  lemma Snoc<T>(xs: seq<T>)
    requires |xs| > 0
    ensures xs[..|xs| - 1] + [xs[|xs| - 1]] == xs
  {
  }

  lemma TakeNext<T>(xs: seq<T>, i: nat)
    requires i < |xs|
    ensures xs[..i + 1] == xs[..i] + [xs[i]]
  {
  }

  lemma HeadSplit<T>(a: seq<T>, b: seq<T>, c: seq<T>)
    requires |a| > 0
    ensures a + b + c == [a[0]] + (a[1..] + b + c)
    ensures a + c == [a[0]] + (a[1..] + c)
  {
  }

  lemma EmptyPrefix<T>(a: seq<T>, b: seq<T>, c: seq<T>)
    requires |a| == 0
    ensures a + b + c == b + c && a + c == c
  {
  }

  lemma NotInConcat<T>(x: T, a: seq<T>, b: seq<T>)
    requires x !in a && x !in b
    ensures x !in a + b
  {
  }

  /** The elements satisfying `keep`, in their original order. */
  function Filter<T>(xs: seq<T>, keep: T -> bool): (r: seq<T>)
    ensures |r| <= |xs|
    ensures forall i | 0 <= i < |r| :: keep(r[i])
  {
    if |xs| == 0 then []
    else (if keep(xs[0]) then [xs[0]] else []) + Filter(xs[1..], keep)
  }

  /** Filtering keeps exactly the elements that pass. */
  lemma {:induction false} FilterMembers<T>(xs: seq<T>, keep: T -> bool, x: T)
    ensures x in Filter(xs, keep) <==> x in xs && keep(x)
    decreases |xs|
  {
    if |xs| > 0 {
      FilterMembers(xs[1..], keep, x);
      assert x in xs <==> x == xs[0] || x in xs[1..];
    }
  }

  /** Something passes the filter exactly when some element passes. */
  lemma FilterNonEmpty<T>(xs: seq<T>, keep: T -> bool)
    ensures |Filter(xs, keep)| > 0 <==> exists i | 0 <= i < |xs| :: keep(xs[i])
  {
    var f := Filter(xs, keep);
    if |f| > 0 {
      FilterMembers(xs, keep, f[0]);
      var i :| 0 <= i < |xs| && xs[i] == f[0];
      assert keep(xs[i]);
    }
    if exists i | 0 <= i < |xs| :: keep(xs[i]) {
      var i :| 0 <= i < |xs| && keep(xs[i]);
      FilterMembers(xs, keep, xs[i]);
    }
  }

  lemma {:induction false} FilterAppend<T>(xs: seq<T>, ys: seq<T>, keep: T -> bool)
    ensures Filter(xs + ys, keep) == Filter(xs, keep) + Filter(ys, keep)
    decreases |xs|
  {
    if |xs| == 0 {
      assert xs + ys == ys;
    } else {
      assert (xs + ys)[1..] == xs[1..] + ys;
      FilterAppend(xs[1..], ys, keep);
    }
  }

  /** Python's `sum(1 for x in xs if keep(x))`. */
  function Count<T>(xs: seq<T>, keep: T -> bool): (n: nat)
    ensures n == |Filter(xs, keep)|
  {
    if |xs| == 0 then 0
    else (if keep(xs[0]) then 1 else 0) + Count(xs[1..], keep)
  }

  /** Every element is counted by exactly one of `keep` and its complement `drop`. */
  lemma {:induction false} CountComplement<T>(xs: seq<T>, keep: T -> bool, drop: T -> bool)
    requires forall i | 0 <= i < |xs| :: drop(xs[i]) == !keep(xs[i])
    ensures Count(xs, keep) + Count(xs, drop) == |xs|
    decreases |xs|
  {
    if |xs| > 0 {
      CountComplement(xs[1..], keep, drop);
    }
  }

  lemma CountAppend<T>(xs: seq<T>, ys: seq<T>, keep: T -> bool)
    ensures Count(xs + ys, keep) == Count(xs, keep) + Count(ys, keep)
  {
    FilterAppend(xs, ys, keep);
  }

  /** Counting one more element of a prefix. */
  lemma CountNext<T>(xs: seq<T>, i: nat, keep: T -> bool)
    requires i < |xs|
    ensures Count(xs[..i + 1], keep) == Count(xs[..i], keep) + (if keep(xs[i]) then 1 else 0)
  {
    TakeNext(xs, i);
    CountAppend(xs[..i], [xs[i]], keep);
    assert [xs[i]][1..] == [];
  }

  /** Concatenation of a sequence of sequences. */
  function Flatten<T>(xss: seq<seq<T>>): seq<T>
  {
    if |xss| == 0 then [] else xss[0] + Flatten(xss[1..])
  }

  lemma {:induction false} FlattenAppend<T>(xss: seq<seq<T>>, yss: seq<seq<T>>)
    ensures Flatten(xss + yss) == Flatten(xss) + Flatten(yss)
    decreases |xss|
  {
    if |xss| == 0 {
      assert xss + yss == yss;
    } else {
      assert (xss + yss)[1..] == xss[1..] + yss;
      FlattenAppend(xss[1..], yss);
    }
  }

  /** A property of every element of three pieces holds for every element
      of their concatenation. */
  lemma AllAppend3<T>(a: seq<T>, b: seq<T>, c: seq<T>, f: T -> bool)
    requires forall i | 0 <= i < |a| :: f(a[i])
    requires forall i | 0 <= i < |b| :: f(b[i])
    requires forall i | 0 <= i < |c| :: f(c[i])
    ensures forall i | 0 <= i < |a + b + c| :: f((a + b + c)[i])
  {
    var s := a + b + c;
    forall i | 0 <= i < |s|
      ensures f(s[i])
    {
      if i < |a| {
        assert s[i] == a[i];
      } else if i < |a| + |b| {
        assert s[i] == b[i - |a|];
      } else {
        assert s[i] == c[i - |a| - |b|];
      }
    }
  }

  /** Pieces all of length `k` flatten to `k` elements per piece. */
  lemma {:induction false} FlattenUniformLength<T>(xss: seq<seq<T>>, k: nat)
    requires forall j | 0 <= j < |xss| :: |xss[j]| == k
    ensures |Flatten(xss)| == k * |xss|
    decreases |xss|
  {
    if |xss| > 0 {
      FlattenUniformLength(xss[1..], k);
    }
  }

  /** Element `k` of piece `i` sits at `width * i + k` of the flattening. */
  lemma {:induction false} FlattenUniformAt<T>(xss: seq<seq<T>>, width: nat, i: nat, k: nat)
    requires forall j | 0 <= j < |xss| :: |xss[j]| == width
    requires i < |xss| && k < width
    ensures width * i + k < |Flatten(xss)|
    ensures Flatten(xss)[width * i + k] == xss[i][k]
    decreases i
  {
    FlattenUniformLength(xss, width);
    if i > 0 {
      FlattenUniformAt(xss[1..], width, i - 1, k);
      assert width * i + k == width + (width * (i - 1) + k);
    }
  }

  predicate IsTrue(b: bool) { b }

  /** Some element is true exactly when the count of true ones is positive. */
  lemma {:induction false} CountTrue(xs: seq<bool>)
    ensures Count(xs, IsTrue) > 0 <==> exists i | 0 <= i < |xs| :: xs[i]
    decreases |xs|
  {
    if |xs| > 0 {
      CountTrue(xs[1..]);
      assert forall i | 0 <= i < |xs| - 1 :: xs[1..][i] == xs[i + 1];
    }
  }

  /** The element-wise image under a partial `f`: None as soon as one
      element has no image (a comprehension that raises). */
  function MapAll<T, U>(xs: seq<T>, f: T -> Option<U>): (r: Option<seq<U>>)
    ensures r.Some? ==> |r.value| == |xs|
    decreases |xs|
  {
    if |xs| == 0 then Some([])
    else
      var y := f(xs[0]);
      var rest := MapAll(xs[1..], f);
      if y.None? || rest.None? then None else Some([y.value] + rest.value)
  }

  /** The image is missing exactly when some element has none. */
  lemma {:induction false} MapAllNone<T, U>(xs: seq<T>, f: T -> Option<U>)
    ensures MapAll(xs, f).None? <==> exists i | 0 <= i < |xs| :: f(xs[i]).None?
    decreases |xs|
  {
    if |xs| > 0 {
      MapAllNone(xs[1..], f);
      assert forall i | 1 <= i < |xs| :: xs[i] == xs[1..][i - 1];
      if MapAll(xs[1..], f).None? {
        var i :| 0 <= i < |xs| - 1 && f(xs[1..][i]).None?;
        assert f(xs[i + 1]).None?;
      }
    }
  }

  /** The images of the elements that have one, in order: a loop that
      appends `f(x)` whenever it is not None. */
  function Somes<T, U>(xs: seq<T>, f: T -> Option<U>): (r: seq<U>)
    ensures |r| <= |xs|
    decreases |xs|
  {
    if |xs| == 0 then []
    else (if f(xs[0]).Some? then [f(xs[0]).value] else []) + Somes(xs[1..], f)
  }

  lemma {:induction false} SomesAppend<T, U>(xs: seq<T>, ys: seq<T>, f: T -> Option<U>)
    ensures Somes(xs + ys, f) == Somes(xs, f) + Somes(ys, f)
    decreases |xs|
  {
    if |xs| == 0 {
      assert xs + ys == ys;
    } else {
      var h := if f(xs[0]).Some? then [f(xs[0]).value] else [];
      assert (xs + ys)[0] == xs[0];
      assert (xs + ys)[1..] == xs[1..] + ys;
      assert Somes(xs + ys, f) == h + Somes(xs[1..] + ys, f);
      SomesAppend(xs[1..], ys, f);
      assert Somes(xs, f) == h + Somes(xs[1..], f);
    }
  }

  lemma SomesOne<T, U>(x: T, f: T -> Option<U>)
    ensures Somes([x], f) == if f(x).Some? then [f(x).value] else []
  {
    assert [x][1..] == [];
  }

  /** One image per element that has one. */
  lemma {:induction false} SomesCount<T, U>(xs: seq<T>, f: T -> Option<U>, has: T -> bool)
    requires forall i | 0 <= i < |xs| :: has(xs[i]) == f(xs[i]).Some?
    ensures |Somes(xs, f)| == Count(xs, has)
    decreases |xs|
  {
    if |xs| > 0 {
      assert forall i | 0 <= i < |xs| - 1 :: xs[1..][i] == xs[i + 1];
      SomesCount(xs[1..], f, has);
    }
  }

  /** The inductive step of "f distributes over concatenation" for an `f`
      that emits a fixed head for the first element and then continues. */
  lemma ConsAppendStep<T, U>(f: seq<T> -> seq<U>, head: seq<U>, x: T, rest: seq<T>, b: seq<T>)
    requires f([x] + (rest + b)) == head + f(rest + b)
    requires f([x] + rest) == head + f(rest)
    requires f(rest + b) == f(rest) + f(b)
    ensures f([x] + rest + b) == f([x] + rest) + f(b)
  {
    assert [x] + rest + b == [x] + (rest + b);
  }

  /** The element-wise image of a sequence (Python's list comprehension). */
  function Map<T, U>(xs: seq<T>, f: T -> U): (r: seq<U>)
    ensures |r| == |xs|
    ensures forall i | 0 <= i < |xs| :: r[i] == f(xs[i])
  {
    seq(|xs|, i requires 0 <= i < |xs| => f(xs[i]))
  }

  lemma MapAppend<T, U>(xs: seq<T>, ys: seq<T>, f: T -> U)
    ensures Map(xs + ys, f) == Map(xs, f) + Map(ys, f)
  {
  }

  lemma AppendHead<T>(a: seq<T>, xs: seq<T>)
    requires |xs| > 0
    ensures a + [xs[0]] + xs[1..] == a + xs
  {
    assert xs == [xs[0]] + xs[1..];
  }

  lemma FilterCons<T>(xs: seq<T>, keep: T -> bool)
    requires |xs| > 0
    ensures Filter(xs, keep) == (if keep(xs[0]) then [xs[0]] else []) + Filter(xs[1..], keep)
  {
  }

  /** The last element of a short head followed by a rest. */
  lemma LastAfterHead<T>(head: seq<T>, rest: seq<T>)
    requires |head| <= 1
    ensures |rest| > 0 ==> (head + rest)[|head + rest| - 1] == rest[|rest| - 1]
    ensures |rest| == 0 && |head| == 1 ==> (head + rest)[|head + rest| - 1] == head[0]
  {
  }

  /** The image of a filter, one element at a time. */
  lemma MapFilterCons<T, U>(xs: seq<T>, keep: T -> bool, f: T -> U)
    requires |xs| > 0
    ensures Map(Filter(xs, keep), f)
            == Map(if keep(xs[0]) then [xs[0]] else [], f) + Map(Filter(xs[1..], keep), f)
  {
    var head := if keep(xs[0]) then [xs[0]] else [];
    assert Filter(xs, keep) == head + Filter(xs[1..], keep);
    MapAppend(head, Filter(xs[1..], keep), f);
  }

  lemma MapTail<T, U>(xs: seq<T>, f: T -> U)
    requires |xs| > 0
    ensures Map(xs, f)[1..] == Map(xs[1..], f)
  {
  }

  lemma MapCons<T, U>(xs: seq<T>, f: T -> U)
    requires |xs| > 0
    ensures Map(xs, f) == [f(xs[0])] + Map(xs[1..], f)
  {
  }
}

=== FILE: settings.dfy ===
/** The configuration module (config/settings.py): dataclass defaults,
    the values taken from the environment and `Config.validate`. The
    environment is a parameter mapping a variable name to its value, if
    set. */
module Settings {
  import opened Wrappers
  import Scraper

  datatype AIConfig = AIConfig(apiKey: string, model: string, maxRetries: nat, retryDelay: nat, timeout: nat)
  datatype EmailConfig = EmailConfig(senderEmail: string, senderPassword: string, smtpHost: string,
                                     smtpPort: nat, defaultSubject: string)
  datatype ScraperConfig = ScraperConfig(userAgent: string, timeout: nat, maxRetries: nat, baseUrl: string)
  datatype TrackingConfig = TrackingConfig(enabled: bool, baseUrl: Option<string>)
  datatype AppConfig = AppConfig(logDir: string, emailsFile: string, web3EmailsFile: string, scheduleTime: string)
  datatype Config = Config(ai: AIConfig, email: EmailConfig, scraper: ScraperConfig,
                           tracking: TrackingConfig, app: AppConfig)

  const DefaultSender := "19121220286@163.com"
  const UserAgent := "Mozilla/5.0 (Macintosh; Intel Mac OS X 10_15_7) AppleWebKit/537.36 (KHTML, like Gecko) Chrome/120.0.0.0 Safari/537.36"

  /** `os.environ.get(name, default)`. */
  function EnvOr(env: string -> Option<string>, name: string, default: string): (r: string)
    ensures env(name).None? ==> r == default
    ensures env(name).Some? ==> r == env(name).value
  {
    if env(name).Some? then env(name).value else default
  }

  /** The AI section with its defaults: glm-4-flash, six retries five
      minutes apart, a two-minute timeout. */
  function DefaultAI(apiKey: string): (r: AIConfig)
    ensures r.apiKey == apiKey && r.model == "glm-4-flash"
    ensures r.maxRetries == 6 && r.retryDelay == 300 && r.timeout == 120
  {
    AIConfig(apiKey, "glm-4-flash", 6, 300, 120)
  }

  function DefaultEmail(sender: string, password: string): (r: EmailConfig)
    ensures r.senderEmail == sender && r.senderPassword == password
    ensures r.smtpHost == "smtp.163.com" && r.smtpPort == 465
  {
    EmailConfig(sender, password, "smtp.163.com", 465, "今日AI+头条项目")
  }

  /** The scraper section: 30-second timeout, three tries, the trending
      page. */
  const DefaultScraper := ScraperConfig(UserAgent, 30, 3, "https://github.com/trending")

  const DefaultTracking := TrackingConfig(false, None)

  /** The app section: logs, the subscriber files and the 21:00 run. */
  const DefaultApp := AppConfig("logs", "emails.txt", "web3_emails.txt", "21:00")

  /** `Config()`: the key and the password default to empty, the sender to
      the fixed address; everything else takes the dataclass defaults. */
  function Load(env: string -> Option<string>): (c: Config)
    ensures c.ai.apiKey == EnvOr(env, "ZHIPUAI_API_KEY", "")
    ensures c.email.senderPassword == EnvOr(env, "WANGYI_EMAIL_AUTH", "")
    ensures env("SENDER_EMAIL").None? ==> c.email.senderEmail == DefaultSender
    ensures env("SENDER_EMAIL").Some? ==> c.email.senderEmail == env("SENDER_EMAIL").value
    ensures c.ai.model == "glm-4-flash"
    ensures c.email.smtpHost == "smtp.163.com" && c.email.smtpPort == 465
    ensures c.email.defaultSubject == "今日AI+头条项目"
    ensures c.scraper == DefaultScraper && c.tracking == DefaultTracking && c.app == DefaultApp
    ensures c.ai.maxRetries == 6 && c.ai.retryDelay == 300 && c.ai.timeout == 120
    ensures c.scraper.timeout == 30 && c.scraper.maxRetries == 3
    ensures c.app.scheduleTime == "21:00" && c.app.emailsFile == "emails.txt"
  {
    Config(DefaultAI(EnvOr(env, "ZHIPUAI_API_KEY", "")),
           DefaultEmail(EnvOr(env, "SENDER_EMAIL", DefaultSender), EnvOr(env, "WANGYI_EMAIL_AUTH", "")),
           DefaultScraper, DefaultTracking, DefaultApp)
  }

  /** `Config.validate`: the key is checked first, then the password. The
      result says which warning was printed, if any. */
  datatype Verdict = Valid | NoApiKey | NoPassword

  function Validate(c: Config): (r: Verdict)
    ensures r == Valid <==> c.ai.apiKey != "" && c.email.senderPassword != ""
    ensures r == NoApiKey <==> c.ai.apiKey == ""
    ensures r == NoPassword <==> c.ai.apiKey != "" && c.email.senderPassword == ""
  {
    if c.ai.apiKey == "" then NoApiKey
    else if c.email.senderPassword == "" then NoPassword
    else Valid
  }

  /** A loaded configuration is valid exactly when both secrets are set to
      something non-empty; a variable set to the empty text counts as
      unset. */
  lemma LoadedValid(env: string -> Option<string>)
    ensures Validate(Load(env)) == Valid
            <==> env("ZHIPUAI_API_KEY").Some? && env("ZHIPUAI_API_KEY").value != ""
                 && env("WANGYI_EMAIL_AUTH").Some? && env("WANGYI_EMAIL_AUTH").value != ""
  {
  }

  /** The scraper section agrees with the scraper's own constructor
      defaults and base address. */
  lemma ScraperDefaultsAgree()
    ensures DefaultScraper.timeout == Scraper.DefaultTimeout
    ensures DefaultScraper.maxRetries == Scraper.DefaultMaxRetries
    ensures DefaultScraper.baseUrl == Scraper.BaseUrl
  {
  }
}

=== FILE: simple_report.dfy ===
/** The fixed report of emergency_fix.py (create_simple_analysis), line by
    line, and the fact that none of its lines holds a line break or an
    opening bracket. */
module SimpleReport {
  // A long line is written in pieces at its clause boundaries, so that the
  // lemmas below examine one short piece at a time.
  const SimpleLines := [
    "## 今日GitHub趋势分析报告",
    "### 最惊艳项目",
    "wifi-densepose - " + "使用WiFi信号估计人体姿态",
    "为什么惊艳：" + "这项技术展示了无摄像头隐私保护的人体感知新方向，" + "将日常WiFi信号转化为视觉信息，" + "具有创新性和实用价值。",
    "",
    "### 项目分类概览",
    "- **视觉AI**: 2个，" + "如：" + "wifi-densepose、" + "Vision-Agents",
    "- **开发者工具**: 3个，" + "如：" + "claude-quickstarts、" + "open-webui",
    "- **AI平台**: 2个，" + "如：unstract",
    "",
    "### 今日技术趋势",
    "隐私友好AI感知技术兴起",
    "",
    "### 深度洞察",
    "1. WiFi-based感知技术" + "开辟了隐私保护AI新赛道",
    "2. 多模态AI代理成为开发者关注焦点",
    "3. 开源AI平台工具持续丰富生态系统",
    "",
    "### 预测建议",
    "关注无摄像头感知技术和边缘AI部署方案。"]

  /** A line the project counter never counts and that stays one line. */
  predicate PlainLine(line: string)
  {
    '\n' !in line && '[' !in line
  }

  lemma PlainJoin(a: string, b: string)
    requires PlainLine(a) && PlainLine(b)
    ensures PlainLine(a + b)
  {
  }

  lemma SimpleLinesPlain()
    ensures forall i | 0 <= i < |SimpleLines| :: PlainLine(SimpleLines[i])
  {
    LinePlain0();
    LinePlain1();
    LinePlain2();
    LinePlain3();
    LinePlain4();
    LinePlain5();
    LinePlain6();
    LinePlain7();
    LinePlain8();
    LinePlain9();
    LinePlain10();
    LinePlain11();
    LinePlain12();
    LinePlain13();
    LinePlain14();
    LinePlain15();
    LinePlain16();
    LinePlain17();
    LinePlain18();
    LinePlain19();
  }

  lemma LinePlain0()
    ensures PlainLine(SimpleLines[0])
  {
  }

  lemma LinePlain1()
    ensures PlainLine(SimpleLines[1])
  {
  }

  lemma LinePlain2()
    ensures PlainLine(SimpleLines[2])
  {
    var a, b := "wifi-densepose - ", "使用WiFi信号估计人体姿态";
    assert PlainLine(a) && PlainLine(b);
    PlainJoin(a, b);
  }

  /** The first two pieces of line 3. */
  lemma LineHead3()
    ensures PlainLine("为什么惊艳：" + "这项技术展示了无摄像头隐私保护的人体感知新方向，")
  {
    var a, b := "为什么惊艳：", "这项技术展示了无摄像头隐私保护的人体感知新方向，";
    assert PlainLine(a) && PlainLine(b);
    PlainJoin(a, b);
  }

  lemma LinePlain3()
    ensures PlainLine(SimpleLines[3])
  {
    var a, b, c, d := "为什么惊艳：", "这项技术展示了无摄像头隐私保护的人体感知新方向，", "将日常WiFi信号转化为视觉信息，", "具有创新性和实用价值。";
    LineHead3();
    assert PlainLine(c) && PlainLine(d);
    PlainJoin(a + b, c);
    PlainJoin(a + b + c, d);
  }

  lemma LinePlain4()
    ensures PlainLine(SimpleLines[4])
  {
  }

  lemma LinePlain5()
    ensures PlainLine(SimpleLines[5])
  {
  }

  /** The first two pieces of line 6. */
  lemma LineHead6()
    ensures PlainLine("- **视觉AI**: 2个，" + "如：")
  {
    var a, b := "- **视觉AI**: 2个，", "如：";
    assert PlainLine(a) && PlainLine(b);
    PlainJoin(a, b);
  }

  lemma LinePlain6()
    ensures PlainLine(SimpleLines[6])
  {
    var a, b, c, d := "- **视觉AI**: 2个，", "如：", "wifi-densepose、", "Vision-Agents";
    LineHead6();
    assert PlainLine(c) && PlainLine(d);
    PlainJoin(a + b, c);
    PlainJoin(a + b + c, d);
  }

  /** The first two pieces of line 7. */
  lemma LineHead7()
    ensures PlainLine("- **开发者工具**: 3个，" + "如：")
  {
    var a, b := "- **开发者工具**: 3个，", "如：";
    assert PlainLine(a) && PlainLine(b);
    PlainJoin(a, b);
  }

  lemma LinePlain7()
    ensures PlainLine(SimpleLines[7])
  {
    var a, b, c, d := "- **开发者工具**: 3个，", "如：", "claude-quickstarts、", "open-webui";
    LineHead7();
    assert PlainLine(c) && PlainLine(d);
    PlainJoin(a + b, c);
    PlainJoin(a + b + c, d);
  }

  lemma LinePlain8()
    ensures PlainLine(SimpleLines[8])
  {
    var a, b := "- **AI平台**: 2个，", "如：unstract";
    assert PlainLine(a) && PlainLine(b);
    PlainJoin(a, b);
  }

  lemma LinePlain9()
    ensures PlainLine(SimpleLines[9])
  {
  }

  lemma LinePlain10()
    ensures PlainLine(SimpleLines[10])
  {
  }

  lemma LinePlain11()
    ensures PlainLine(SimpleLines[11])
  {
  }

  lemma LinePlain12()
    ensures PlainLine(SimpleLines[12])
  {
  }

  lemma LinePlain13()
    ensures PlainLine(SimpleLines[13])
  {
  }

  lemma LinePlain14()
    ensures PlainLine(SimpleLines[14])
  {
    var a, b := "1. WiFi-based感知技术", "开辟了隐私保护AI新赛道";
    assert PlainLine(a) && PlainLine(b);
    PlainJoin(a, b);
  }

  lemma LinePlain15()
    ensures PlainLine(SimpleLines[15])
  {
  }

  lemma LinePlain16()
    ensures PlainLine(SimpleLines[16])
  {
  }

  lemma LinePlain17()
    ensures PlainLine(SimpleLines[17])
  {
  }

  lemma LinePlain18()
    ensures PlainLine(SimpleLines[18])
  {
  }

  lemma LinePlain19()
    ensures PlainLine(SimpleLines[19])
  {
  }
}

=== FILE: sorting.dfy ===
/** Python's `sorted(xs, key=..., reverse=True)` and `xs.sort(key=..., reverse=True)`:
    a stable sort by descending integer key. An ascending stable sort is the
    same sort on the negated key. */
module Sorting {
  import opened Seqs

  predicate SortedDesc<T>(xs: seq<T>, key: T -> int)
  {
    forall i, j | 0 <= i < j < |xs| :: key(xs[i]) >= key(xs[j])
  }

  /** The elements whose key is `k`, in their order in `xs`. A sort is stable
      exactly when it keeps each of these subsequences unchanged. */
  function WithKey<T>(xs: seq<T>, key: T -> int, k: int): seq<T>
  {
    if |xs| == 0 then []
    else (if key(xs[0]) == k then [xs[0]] else []) + WithKey(xs[1..], key, k)
  }

  /** Put `x` in front of the first element whose key is at most `key(x)`:
      `x` precedes every later element with the same key. */
  function InsertFront<T>(xs: seq<T>, x: T, key: T -> int): seq<T>
  {
    if |xs| == 0 || key(xs[0]) <= key(x) then [x] + xs
    else [xs[0]] + InsertFront(xs[1..], x, key)
  }

  lemma {:induction false} InsertFrontKeepsOrder<T>(xs: seq<T>, x: T, key: T -> int)
    requires SortedDesc(xs, key)
    ensures SortedDesc(InsertFront(xs, x, key), key)
    decreases |xs|
  {
    if |xs| > 0 && key(xs[0]) > key(x) {
      var rest := InsertFront(xs[1..], x, key);
      InsertFrontKeepsOrder(xs[1..], x, key);
      InsertFrontBounded(xs[1..], x, key, key(xs[0]));
      SortedCons(xs[0], rest, key);
    } else if |xs| > 0 {
      SortedCons(x, xs, key);
    }
  }

  lemma SortedCons<T>(a: T, xs: seq<T>, key: T -> int)
    requires SortedDesc(xs, key)
    requires forall i | 0 <= i < |xs| :: key(xs[i]) <= key(a)
    ensures SortedDesc([a] + xs, key)
  {
  }

  lemma {:induction false} InsertFrontBounded<T>(xs: seq<T>, x: T, key: T -> int, b: int)
    requires forall i | 0 <= i < |xs| :: key(xs[i]) <= b
    requires key(x) <= b
    ensures forall i | 0 <= i < |InsertFront(xs, x, key)| :: key(InsertFront(xs, x, key)[i]) <= b
    decreases |xs|
  {
    if |xs| > 0 && key(xs[0]) > key(x) {
      InsertFrontBounded(xs[1..], x, key, b);
    }
  }

  lemma {:induction false} InsertFrontPermutes<T>(xs: seq<T>, x: T, key: T -> int)
    ensures multiset(InsertFront(xs, x, key)) == multiset{x} + multiset(xs)
    ensures |InsertFront(xs, x, key)| == |xs| + 1
    decreases |xs|
  {
    if |xs| > 0 && key(xs[0]) > key(x) {
      InsertFrontPermutes(xs[1..], x, key);
      assert xs == [xs[0]] + xs[1..];
    }
  }

  lemma {:induction false} InsertFrontWithKey<T>(xs: seq<T>, x: T, key: T -> int, k: int)
    ensures WithKey(InsertFront(xs, x, key), key, k)
            == (if key(x) == k then [x] else []) + WithKey(xs, key, k)
    decreases |xs|
  {
    if |xs| == 0 || key(xs[0]) <= key(x) {
      WithKeyCons(x, xs, key, k);
    } else {
      var rest := InsertFront(xs[1..], x, key);
      InsertFrontWithKey(xs[1..], x, key, k);
      WithKeyCons(xs[0], rest, key, k);
      WithKeyCons(xs[0], xs[1..], key, k);
      assert xs == [xs[0]] + xs[1..];
    }
  }

  /** One element in front adds itself exactly when its key is `k`. */
  lemma WithKeyCons<T>(x: T, xs: seq<T>, key: T -> int, k: int)
    ensures WithKey([x] + xs, key, k) == (if key(x) == k then [x] else []) + WithKey(xs, key, k)
  {
    assert ([x] + xs)[1..] == xs;
  }

  /** Stable descending insertion sort. */
  function SortDesc<T>(xs: seq<T>, key: T -> int): (r: seq<T>)
    ensures SortedDesc(r, key)
    ensures multiset(r) == multiset(xs) && |r| == |xs|
    ensures forall k :: WithKey(r, key, k) == WithKey(xs, key, k)
  {
    if |xs| == 0 then []
    else
      var sorted := SortDesc(xs[1..], key);
      InsertFrontKeepsOrder(sorted, xs[0], key);
      InsertFrontPermutes(sorted, xs[0], key);
      assert xs == [xs[0]] + xs[1..];
      forall k ensures WithKey(InsertFront(sorted, xs[0], key), key, k) == WithKey(xs, key, k)
      {
        InsertFrontWithKey(sorted, xs[0], key, k);
      }
      InsertFront(sorted, xs[0], key)
  }

  lemma {:induction false} WithKeyOfPrefix<T>(xs: seq<T>, m: nat, key: T -> int, k: int)
    requires m <= |xs|
    ensures IsPrefix(WithKey(xs[..m], key, k), WithKey(xs, key, k))
    decreases m
  {
    if m > 0 {
      assert xs[..m][1..] == xs[1..][..m - 1];
      WithKeyOfPrefix(xs[1..], m - 1, key, k);
    }
  }

  /** Everything left out of a prefix of a descending sequence ranks at most
      as high as everything kept. */
  lemma PrefixDominates<T>(sorted: seq<T>, m: nat, key: T -> int)
    requires m <= |sorted| && SortedDesc(sorted, key)
    ensures multiset(sorted) - multiset(sorted[..m]) == multiset(sorted[m..])
    ensures multiset(sorted[..m]) <= multiset(sorted)
    ensures forall x | x in multiset(sorted) - multiset(sorted[..m]) ::
              forall i | 0 <= i < m :: key(x) <= key(sorted[i])
  {
    assert sorted == sorted[..m] + sorted[m..];
    assert multiset(sorted) == multiset(sorted[..m]) + multiset(sorted[m..]);
    forall x | x in multiset(sorted[m..])
      ensures forall i | 0 <= i < m :: key(x) <= key(sorted[i])
    {
      var j :| 0 <= j < |sorted[m..]| && sorted[m..][j] == x;
      assert sorted[m + j] == x;
    }
  }

  lemma TopStable<T>(xs: seq<T>, key: T -> int, m: nat)
    requires m <= |xs|
    ensures forall k :: IsPrefix(WithKey(SortDesc(xs, key)[..m], key, k), WithKey(xs, key, k))
  {
    var sorted := SortDesc(xs, key);
    forall k ensures IsPrefix(WithKey(sorted[..m], key, k), WithKey(xs, key, k))
    {
      WithKeyOfPrefix(sorted, m, key, k);
    }
  }

  lemma TopSorted<T>(xs: seq<T>, key: T -> int, m: nat)
    requires m <= |xs|
    ensures SortedDesc(SortDesc(xs, key)[..m], key)
  {
  }

  /** Python's `sorted(xs, key=key, reverse=True)[:n]`: the `n` best elements
      by key, best first; among equal keys the earliest ones win. */
  function TopBy<T>(xs: seq<T>, key: T -> int, n: nat): (r: seq<T>)
    ensures |r| == Min(n, |xs|)
    ensures SortedDesc(r, key)
    ensures multiset(r) <= multiset(xs)
    ensures forall x | x in multiset(xs) - multiset(r) ::
              forall i | 0 <= i < |r| :: key(x) <= key(r[i])
    ensures forall k :: IsPrefix(WithKey(r, key, k), WithKey(xs, key, k))
  {
    var m := Min(n, |xs|);
    var sorted := SortDesc(xs, key);
    PrefixDominates(sorted, m, key);
    TopStable(xs, key, m);
    TopSorted(xs, key, m);
    sorted[..m]
  }

  lemma {:induction false} WithKeyAppend<T>(xs: seq<T>, ys: seq<T>, key: T -> int, k: int)
    ensures WithKey(xs + ys, key, k) == WithKey(xs, key, k) + WithKey(ys, key, k)
    decreases |xs|
  {
    if |xs| == 0 {
      assert xs + ys == ys;
    } else {
      assert xs + ys == [xs[0]] + (xs[1..] + ys);
      assert xs == [xs[0]] + xs[1..];
      WithKeyAppend(xs[1..], ys, key, k);
      WithKeyCons(xs[0], xs[1..] + ys, key, k);
      WithKeyCons(xs[0], xs[1..], key, k);
    }
  }

  /** Filtering by a test that every element of key `k` passes keeps all of
      them; one that they all fail keeps none. */
  lemma {:induction false} WithKeyFilter<T>(xs: seq<T>, keep: T -> bool, key: T -> int, k: int)
    ensures (forall x :: key(x) == k ==> keep(x)) ==> WithKey(Filter(xs, keep), key, k) == WithKey(xs, key, k)
    ensures (forall x :: key(x) == k ==> !keep(x)) ==> WithKey(Filter(xs, keep), key, k) == []
    decreases |xs|
  {
    if |xs| > 0 {
      WithKeyFilter(xs[1..], keep, key, k);
      var head := if keep(xs[0]) then [xs[0]] else [];
      WithKeyAppend(head, Filter(xs[1..], keep), key, k);
    }
  }

  /** In a descending sequence, an element of key `k` means the first key is
      at least `k`. */
  lemma {:induction false} WithKeyBound<T>(xs: seq<T>, key: T -> int, k: int)
    requires SortedDesc(xs, key) && |WithKey(xs, key, k)| > 0
    ensures |xs| > 0 && key(xs[0]) >= k
    decreases |xs|
  {
    if key(xs[0]) != k {
      WithKeyBound(xs[1..], key, k);
    }
  }

  lemma WithKeyHead<T>(xs: seq<T>, key: T -> int)
    requires |xs| > 0
    ensures |WithKey(xs, key, key(xs[0]))| > 0 && WithKey(xs, key, key(xs[0]))[0] == xs[0]
  {
  }

  /** A stable sort has only one possible result: two descending sequences
      with the same elements of every key, in the same order, are equal. */
  lemma {:induction false} SortedUnique<T>(a: seq<T>, b: seq<T>, key: T -> int)
    requires SortedDesc(a, key) && SortedDesc(b, key)
    requires forall k :: WithKey(a, key, k) == WithKey(b, key, k)
    ensures a == b
    decreases |a|
  {
    if |a| > 0 {
      WithKeyHead(a, key);
      assert |WithKey(b, key, key(a[0]))| > 0;
    }
    if |b| > 0 {
      WithKeyHead(b, key);
      assert |WithKey(a, key, key(b[0]))| > 0;
    }
    if |a| > 0 && |b| > 0 {
      SameHeads(a, b, key);
      TailsAgree(a, b, key);
      SortedUnique(a[1..], b[1..], key);
      assert a == [a[0]] + a[1..] && b == [b[0]] + b[1..];
    }
  }

  /** The first elements of two such sequences coincide. */
  lemma SameHeads<T>(a: seq<T>, b: seq<T>, key: T -> int)
    requires |a| > 0 && |b| > 0
    requires SortedDesc(a, key) && SortedDesc(b, key)
    requires forall k :: WithKey(a, key, k) == WithKey(b, key, k)
    ensures a[0] == b[0]
  {
    var ka := key(a[0]);
    var kb := key(b[0]);
    WithKeyHead(a, key);
    WithKeyHead(b, key);
    assert WithKey(a, key, kb) == WithKey(b, key, kb);
    WithKeyBound(a, key, kb);
    assert WithKey(b, key, ka) == WithKey(a, key, ka);
    WithKeyBound(b, key, ka);
    assert ka == kb;
    assert WithKey(a, key, ka)[0] == a[0];
  }

  /** With equal heads, the tails have the same elements of every key. */
  lemma TailsAgree<T>(a: seq<T>, b: seq<T>, key: T -> int)
    requires |a| > 0 && |b| > 0 && a[0] == b[0]
    requires forall k :: WithKey(a, key, k) == WithKey(b, key, k)
    ensures forall k :: WithKey(a[1..], key, k) == WithKey(b[1..], key, k)
  {
    forall k
      ensures WithKey(a[1..], key, k) == WithKey(b[1..], key, k)
    {
      var head := if key(a[0]) == k then [a[0]] else [];
      assert a == [a[0]] + a[1..] && b == [b[0]] + b[1..];
      WithKeyCons(a[0], a[1..], key, k);
      WithKeyCons(b[0], b[1..], key, k);
      assert WithKey(a, key, k) == WithKey(b, key, k);
      assert WithKey(a[1..], key, k) == WithKey(a, key, k)[|head|..];
    }
  }
}

=== FILE: subscribers.dfy ===
/** The subscriber list every sender script reads from emails.txt:
    `[line.strip() for line in f if line.strip()]`. The file is given as its
    sequence of lines. */
module Subscribers {
  import opened Wrappers
  import opened Seqs
  import opened Text

  predicate NonBlank(line: string)
  {
    !IsBlank(line)
  }

  /** A cleaned address: non-empty and without surrounding whitespace. */
  predicate Clean(s: string)
  {
    s != "" && Trim(s) == s
  }

  lemma TrimClean(s: string)
    requires NonBlank(s)
    ensures Clean(Trim(s))
  {
    StripIdempotent(s, Whitespace);
  }

  /** A clean line is kept as it is. */
  lemma CleanKept(s: string)
    requires Clean(s)
    ensures NonBlank(s) && Trim(s) == s
  {
  }

  /** The stripped non-blank lines, in file order. */
  function SubscriberList(lines: seq<string>): (r: seq<string>)
    ensures |r| == Count(lines, NonBlank)
    ensures forall i | 0 <= i < |r| :: Clean(r[i])
  {
    if |lines| == 0 then []
    else
      var rest := SubscriberList(lines[1..]);
      if NonBlank(lines[0]) then
        TrimClean(lines[0]);
        [Trim(lines[0])] + rest
      else rest
  }

  /** Reading the cleaned list back gives the same list. */
  lemma {:induction false} SubscribersIdempotent(lines: seq<string>)
    ensures SubscriberList(SubscriberList(lines)) == SubscriberList(lines)
    decreases |lines|
  {
    if |lines| > 0 {
      SubscribersIdempotent(lines[1..]);
      var rest := SubscriberList(lines[1..]);
      if NonBlank(lines[0]) {
        var t := Trim(lines[0]);
        TrimClean(lines[0]);
        CleanKept(t);
        assert ([t] + rest)[1..] == rest;
      }
    }
  }

  lemma SubscribersCons(x: string, xs: seq<string>)
    ensures SubscriberList([x] + xs) == (if NonBlank(x) then [Trim(x)] else []) + SubscriberList(xs)
  {
    assert ([x] + xs)[1..] == xs;
  }

  /** Blank lines anywhere do not change the list. */
  lemma {:induction false} BlankLinesIgnored(before: seq<string>, blank: string, after: seq<string>)
    requires !NonBlank(blank)
    ensures SubscriberList(before + [blank] + after) == SubscriberList(before + after)
    decreases |before|
  {
    if |before| == 0 {
      SubscribersCons(blank, after);
      EmptyPrefix(before, [blank], after);
    } else {
      BlankLinesIgnored(before[1..], blank, after);
      HeadSplit(before, [blank], after);
      SubscribersCons(before[0], before[1..] + [blank] + after);
      SubscribersCons(before[0], before[1..] + after);
    }
  }

  /** get_subscribers of the emergency sender: the list from the file, or the
      sender's own address when the file does not exist. */
  function SubscribersOrSender(file: Option<seq<string>>, sender: string): (r: seq<string>)
    ensures file.None? ==> r == [sender]
    ensures file.Some? ==> r == SubscriberList(file.value)
  {
    if file.Some? then SubscriberList(file.value) else [sender]
  }
}

=== FILE: text.dfy ===
/** Python's string operations on `str`, over Dafny strings (`seq<char>`):
    `in`, `find`, `startswith`, `replace`, `split`, `join`, `strip`,
    `lower`, `str(n)` and `int(s)`. Each is modelled with Python's exact
    semantics (left-to-right non-overlapping `replace`, `split` keeping empty
    fields, whitespace as `str.isspace` defines it). */
module Text {
  import opened Seqs

  /** `p` occurs in `s` starting at index `i`. */
  predicate OccursAt(s: string, p: string, i: int)
  {
    0 <= i && i + |p| <= |s| && s[i..i + |p|] == p
  }

  /** Python's `p in s` for strings. */
  predicate Contains(s: string, p: string)
  {
    exists i | 0 <= i <= |s| - |p| :: OccursAt(s, p, i)
  }

  predicate StartsWith(s: string, p: string)
  {
    |p| <= |s| && s[..|p|] == p
  }

  predicate EndsWith(s: string, p: string)
  {
    |p| <= |s| && s[|s| - |p|..] == p
  }

  lemma OccursInTail(s: string, p: string, j: nat)
    requires |s| > 0
    ensures OccursAt(s[1..], p, j) <==> OccursAt(s, p, j + 1)
  {
    if j + |p| <= |s| - 1 {
      assert s[1..][j..j + |p|] == s[j + 1..j + 1 + |p|];
    }
  }

  /** The first occurrence of `p` at or after index `i`, or -1. */
  function FindFrom(s: string, p: string, i: nat): (r: int)
    requires i <= |s|
    ensures r == -1 || (i <= r && OccursAt(s, p, r))
    ensures r == -1 ==> forall j | i <= j :: !OccursAt(s, p, j)
    ensures forall j | i <= j < r :: !OccursAt(s, p, j)
    decreases |s| - i
  {
    if i + |p| > |s| then -1
    else if s[i..i + |p|] == p then i
    else FindFrom(s, p, i + 1)
  }

  /** Python's `s.find(p)`: the index of the first occurrence, or -1. */
  function Find(s: string, p: string): (r: int)
    ensures r == -1 || OccursAt(s, p, r)
    ensures r == -1 <==> !Contains(s, p)
    ensures forall j | 0 <= j < r :: !OccursAt(s, p, j)
  {
    FindFrom(s, p, 0)
  }

  lemma ContainsWitness(s: string, p: string, i: int)
    requires OccursAt(s, p, i)
    ensures Contains(s, p)
  {
  }

  /** The first occurrence is the unique occurrence with none before it. */
  lemma FindIs(s: string, p: string, k: nat)
    requires OccursAt(s, p, k)
    requires forall j | 0 <= j < k :: !OccursAt(s, p, j)
    ensures Find(s, p) == k
  {
    ContainsWitness(s, p, k);
  }

  /** An occurrence inside a prefix of `s` is an occurrence in `s`. */
  lemma OccursInPrefix(s: string, n: nat, p: string, j: int)
    requires n <= |s|
    requires OccursAt(s[..n], p, j)
    ensures OccursAt(s, p, j)
  {
    assert s[..n][j..j + |p|] == s[j..j + |p|];
  }

  /** The text before the first occurrence of `p` does not contain `p`. */
  lemma NoOccurrenceBeforeFind(s: string, p: string)
    requires |p| > 0
    requires Find(s, p) >= 0
    ensures !Contains(s[..Find(s, p)], p)
  {
    var k := Find(s, p);
    forall j | 0 <= j <= k - |p|
      ensures !OccursAt(s[..k], p, j)
    {
      if OccursAt(s[..k], p, j) {
        OccursInPrefix(s, k, p, j);
      }
    }
  }

  /** Python's `s.find(c)` for a single character. */
  function IndexOf(s: string, c: char): (r: int)
    ensures r == -1 <==> c !in s
    ensures r != -1 ==> 0 <= r < |s| && s[r] == c && c !in s[..r]
  {
    if |s| == 0 then -1
    else if s[0] == c then 0
    else
      var k := IndexOf(s[1..], c);
      if k < 0 then -1
      else
        assert s[..k + 1] == [s[0]] + s[1..][..k];
        k + 1
  }

  /** The first occurrence of `c` is where `c` occurs with none before it. */
  lemma IndexOfIs(s: string, c: char, k: nat)
    requires k < |s| && s[k] == c && c !in s[..k]
    ensures IndexOf(s, c) == k
  {
  }

  /** Python's `s.rfind(c)` for a single character. */
  function LastIndexOf(s: string, c: char): (r: int)
    ensures r == -1 <==> c !in s
    ensures r != -1 ==> 0 <= r < |s| && s[r] == c && c !in s[r + 1..]
  {
    if |s| == 0 then -1
    else if s[|s| - 1] == c then |s| - 1
    else
      var k := LastIndexOf(s[..|s| - 1], c);
      if k < 0 then
        assert s == s[..|s| - 1] + [s[|s| - 1]];
        -1
      else
        assert s[k + 1..] == s[..|s| - 1][k + 1..] + [s[|s| - 1]];
        k
  }

  /** Python's `s.replace(p, r)`: every non-overlapping occurrence of `p`,
      scanned left to right, is replaced by `r`. */
  function Replace(s: string, p: string, r: string): string
    requires |p| > 0
    decreases |s|
  {
    if |s| < |p| then s
    else if s[..|p|] == p then r + Replace(s[|p|..], p, r)
    else [s[0]] + Replace(s[1..], p, r)
  }

  /** Replacing a pattern that does not occur changes nothing. */
  lemma {:induction false} ReplaceAbsent(s: string, p: string, r: string)
    requires |p| > 0
    requires !Contains(s, p)
    ensures Replace(s, p, r) == s
    decreases |s|
  {
    if |s| < |p| {
    } else if s[..|p|] == p {
      ContainsWitness(s, p, 0);
    } else {
      if Contains(s[1..], p) {
        var j :| 0 <= j <= |s| - 1 - |p| && OccursAt(s[1..], p, j);
        OccursInTail(s, p, j);
        ContainsWitness(s, p, j + 1);
      }
      ReplaceAbsent(s[1..], p, r);
    }
  }

  /** `replace` keeps the text before the first occurrence, substitutes it,
      and continues after it: the first step of Python's scan. */
  lemma {:induction false} ReplaceAtFirst(s: string, p: string, r: string)
    requires |p| > 0
    requires Find(s, p) >= 0
    ensures Replace(s, p, r)
            == s[..Find(s, p)] + r + Replace(s[Find(s, p) + |p|..], p, r)
    decreases |s|
  {
    var k := Find(s, p);
    if k == 0 {
      assert s[..|p|] == p;
      assert s[..0] == "";
    } else {
      assert !OccursAt(s, p, 0);
      FindTail(s, p);
      ReplaceAtFirst(s[1..], p, r);
      ReplaceSkip(s, p, r, k);
    }
  }

  /** A pattern occurring exactly once, with no occurrence overlapping its
      start, is replaced exactly there. */
  lemma ReplaceOnce(x: string, p: string, y: string, r: string)
    requires |p| > 0
    requires !Contains(x + p[..|p| - 1], p) && !Contains(y, p)
    ensures Replace(x + p + y, p, r) == x + r + y
  {
    var s := x + p + y;
    var m := |x| + |p| - 1;
    assert s[..m] == x + p[..|p| - 1];
    assert s[|x|..|x| + |p|] == p;
    forall j | 0 <= j < |x|
      ensures !OccursAt(s, p, j)
    {
      if OccursAt(s, p, j) {
        assert s[..m][j..j + |p|] == s[j..j + |p|];
        ContainsWitness(s[..m], p, j);
      }
    }
    FindIs(s, p, |x|);
    ReplaceAtFirst(s, p, r);
    assert s[..|x|] == x && s[|x| + |p|..] == y;
    ReplaceAbsent(y, p, r);
  }

  lemma ReplaceSkip(s: string, p: string, r: string, k: nat)
    requires |p| > 0 && 0 < k && k + |p| <= |s|
    requires s[..|p|] != p
    requires Replace(s[1..], p, r)
             == s[1..][..k - 1] + r + Replace(s[1..][k - 1 + |p|..], p, r)
    ensures Replace(s, p, r) == s[..k] + r + Replace(s[k + |p|..], p, r)
  {
    var t := s[1..];
    assert t[k - 1 + |p|..] == s[k + |p|..];
    assert s[..k] == [s[0]] + t[..k - 1];
    Regroup(Replace(s, p, r), s[0], Replace(t, p, r), t[..k - 1], r,
            Replace(s[k + |p|..], p, r), s[..k]);
  }

  lemma Regroup(a: string, x: char, b: string, pre: string, r: string, rest: string, xpre: string)
    requires a == [x] + b && b == pre + r + rest && xpre == [x] + pre
    ensures a == xpre + r + rest
  {
  }

  /** When `s` does not start with `p`, the first occurrence in `s` is one
      after the first occurrence in `s[1..]`. */
  lemma FindTail(s: string, p: string)
    requires |s| > 0 && Find(s, p) > 0
    ensures Find(s[1..], p) == Find(s, p) - 1
  {
    var k := Find(s, p);
    OccursInTail(s, p, k - 1);
    forall j | 0 <= j < k - 1
      ensures !OccursAt(s[1..], p, j)
    {
      OccursInTail(s, p, j);
    }
    FindIs(s[1..], p, k - 1);
  }

  /** Replacing every occurrence of a character by a text without it leaves
      no occurrence. */
  lemma {:induction false} ReplaceCharGone(s: string, c: char, r: string)
    requires c !in r
    ensures c !in Replace(s, [c], r)
    decreases |s|
  {
    if |s| >= 1 {
      if s[..1] == [c] {
        ReplaceCharGone(s[1..], c, r);
      } else {
        assert s[0] != c by {
          assert s[..1][0] == s[0];
        }
        ReplaceCharGone(s[1..], c, r);
      }
    }
  }

  /** Each `c` of the text becomes `r`, every other character stays. */
  function MapChar(s: string, c: char, r: string): string
    decreases |s|
  {
    if |s| == 0 then "" else (if s[0] == c then r else [s[0]]) + MapChar(s[1..], c, r)
  }

  /** `replace` of a one-character pattern maps that character. */
  lemma {:induction false} ReplaceCharIsMap(s: string, c: char, r: string)
    ensures Replace(s, [c], r) == MapChar(s, c, r)
    decreases |s|
  {
    if |s| >= 1 {
      assert s[..1] == [c] <==> s[0] == c by {
        assert s[..1][0] == s[0];
      }
      ReplaceCharIsMap(s[1..], c, r);
    }
  }

  lemma {:induction false} MapCharAppend(a: string, b: string, c: char, r: string)
    ensures MapChar(a + b, c, r) == MapChar(a, c, r) + MapChar(b, c, r)
    decreases |a|
  {
    if |a| > 0 {
      assert (a + b)[1..] == a[1..] + b;
      MapCharAppend(a[1..], b, c, r);
    } else {
      assert a + b == b;
    }
  }

  lemma {:induction false} MapCharAbsent(s: string, c: char, r: string)
    requires c !in s
    ensures MapChar(s, c, r) == s
    decreases |s|
  {
    if |s| > 0 {
      MapCharAbsent(s[1..], c, r);
    }
  }

  /** Mapping the separator of a join replaces the separator. */
  lemma {:induction false} MapCharJoin(parts: seq<string>, c: char, r: string)
    requires forall i | 0 <= i < |parts| :: c !in parts[i]
    ensures MapChar(Join(parts, [c]), c, r) == Join(parts, r)
    decreases |parts|
  {
    if |parts| == 1 {
      MapCharAbsent(parts[0], c, r);
    } else if |parts| > 1 {
      var rest := Join(parts[1..], [c]);
      MapCharAppend(parts[0] + [c], rest, c, r);
      MapCharAppend(parts[0], [c], c, r);
      MapCharAbsent(parts[0], c, r);
      assert MapChar([c], c, r) == r by {
        assert [c][1..] == "";
      }
      MapCharJoin(parts[1..], c, r);
    }
  }

  /** A field of a split on one character does not hold that character. */
  lemma SplitFieldsLackChar(s: string, c: char)
    ensures forall i | 0 <= i < |Split(s, [c])| :: c !in Split(s, [c])[i]
  {
    var parts := Split(s, [c]);
    forall i | 0 <= i < |parts|
      ensures c !in parts[i]
    {
      if c in parts[i] {
        var j :| 0 <= j < |parts[i]| && parts[i][j] == c;
        assert parts[i][j..j + 1] == [c];
        ContainsWitness(parts[i], [c], j);
      }
    }
  }

  /** Python's identity `s.replace(c, r) == r.join(s.split(c))` for a
      one-character pattern. */
  lemma ReplaceCharIsSplitJoin(s: string, c: char, r: string)
    ensures Replace(s, [c], r) == Join(Split(s, [c]), r)
  {
    JoinSplit(s, [c]);
    SplitFieldsLackChar(s, c);
    MapCharJoin(Split(s, [c]), c, r);
    ReplaceCharIsMap(s, c, r);
  }

  /** Replacing one character by one character keeps the length and maps
      each position on its own. */
  lemma {:induction false} ReplaceCharByChar(s: string, c: char, d: char)
    ensures |Replace(s, [c], [d])| == |s|
    ensures forall i | 0 <= i < |s| :: Replace(s, [c], [d])[i] == if s[i] == c then d else s[i]
  {
    ReplaceCharIsMap(s, c, [d]);
    MapCharByChar(s, c, d);
  }

  lemma {:induction false} MapCharByChar(s: string, c: char, d: char)
    ensures |MapChar(s, c, [d])| == |s|
    ensures forall i | 0 <= i < |s| :: MapChar(s, c, [d])[i] == if s[i] == c then d else s[i]
    decreases |s|
  {
    if |s| > 0 {
      MapCharByChar(s[1..], c, d);
      var m := MapChar(s, c, [d]);
      assert m == [if s[0] == c then d else s[0]] + MapChar(s[1..], c, [d]);
      forall i | 1 <= i < |s|
        ensures m[i] == if s[i] == c then d else s[i]
      {
        assert s[1..][i - 1] == s[i];
      }
    }
  }

  /** A pattern whose only newline is its first character never spans a
      newline, so `replace` works on the text before a newline and on the
      text from it on separately. */
  lemma {:induction false} ReplaceAtNewline(a: string, b: string, p: string, r: string)
    requires |p| > 0 && p[0] == '\n' && '\n' !in p[1..]
    requires b == "" || b[0] == '\n'
    ensures Replace(a + b, p, r) == Replace(a, p, r) + Replace(b, p, r)
    decreases |a|
  {
    var s := a + b;
    if b == "" {
      assert s == a;
    } else if |a| == 0 {
      assert s == b;
    } else if |s| >= |p| {
      if |a| < |p| {
        NoMatchAcrossNewline(a, b, p);
      }
      if s[..|p|] == p {
        ReplaceAtNewline(a[|p|..], b, p, r);
        ReplaceMatchStep(a, b, p, r);
      } else {
        ReplaceAtNewline(a[1..], b, p, r);
        ReplaceSkipStep(a, b, p, r);
      }
    }
  }

  /** One matching step of `ReplaceAtNewline`. */
  lemma ReplaceMatchStep(a: string, b: string, p: string, r: string)
    requires 0 < |p| <= |a| && (a + b)[..|p|] == p
    requires Replace(a[|p|..] + b, p, r) == Replace(a[|p|..], p, r) + Replace(b, p, r)
    ensures Replace(a + b, p, r) == Replace(a, p, r) + Replace(b, p, r)
  {
    var s := a + b;
    assert a[..|p|] == s[..|p|];
    assert s[|p|..] == a[|p|..] + b;
  }

  /** One copying step of `ReplaceAtNewline`. */
  lemma ReplaceSkipStep(a: string, b: string, p: string, r: string)
    requires 0 < |p| <= |a + b| && 0 < |a| && (a + b)[..|p|] != p
    requires Replace(a[1..] + b, p, r) == Replace(a[1..], p, r) + Replace(b, p, r)
    ensures Replace(a + b, p, r) == Replace(a, p, r) + Replace(b, p, r)
  {
    var s := a + b;
    assert s[1..] == a[1..] + b;
    assert Replace(s, p, r) == [a[0]] + (Replace(a[1..], p, r) + Replace(b, p, r));
    if |a| >= |p| {
      assert a[..|p|] == s[..|p|];
      SkipHead(a, p, r);
    } else {
      assert Replace(a[1..], p, r) == a[1..];
    }
  }

  /** Without a match at its head, `replace` copies the first character. */
  lemma SkipHead(a: string, p: string, r: string)
    requires 0 < |p| <= |a| && a[..|p|] != p
    ensures Replace(a, p, r) == [a[0]] + Replace(a[1..], p, r)
  {
  }

  /** A match starting inside `a` cannot reach the newline that opens `b`. */
  lemma NoMatchAcrossNewline(a: string, b: string, p: string)
    requires |p| > 0 && '\n' !in p[1..]
    requires 0 < |a| < |p| <= |a + b| && b[0] == '\n'
    ensures (a + b)[..|p|] != p
  {
    var s := a + b;
    assert s[..|p|][|a|] == '\n';
    assert p[1..][|a| - 1] in p[1..];
  }

  /** Replacing by a newline-led text keeps a newline-led text newline-led. */
  lemma ReplaceKeepsLead(b: string, p: string, r: string)
    requires |p| > 0 && |r| > 0 && r[0] == '\n'
    requires b == "" || b[0] == '\n'
    ensures Replace(b, p, r) == "" || Replace(b, p, r)[0] == '\n'
  {
  }

  /** Python's `any(w in s for w in words)`. */
  predicate ContainsAny(s: string, words: seq<string>)
  {
    exists i | 0 <= i < |words| :: Contains(s, words[i])
  }

  /** Python's `s.split(sep)` for a non-empty separator: the fields between
      occurrences, scanned left to right; empty fields are kept. */
  function Split(s: string, sep: string): (parts: seq<string>)
    requires |sep| > 0
    ensures |parts| >= 1
    ensures forall i | 0 <= i < |parts| :: !Contains(parts[i], sep)
    decreases |s|
  {
    var k := Find(s, sep);
    if k < 0 then [s]
    else
      NoOccurrenceBeforeFind(s, sep);
      [s[..k]] + Split(s[k + |sep|..], sep)
  }

  /** Python's `sep.join(parts)`. */
  function Join(parts: seq<string>, sep: string): string
  {
    if |parts| == 0 then ""
    else if |parts| == 1 then parts[0]
    else parts[0] + sep + Join(parts[1..], sep)
  }

  /** One more part goes at the end, after one more separator. */
  lemma {:induction false} JoinSnoc(parts: seq<string>, x: string, sep: string)
    requires |parts| > 0
    ensures Join(parts + [x], sep) == Join(parts, sep) + sep + x
    decreases |parts|
  {
    if |parts| > 1 {
      assert (parts + [x])[1..] == parts[1..] + [x];
      JoinSnoc(parts[1..], x, sep);
    } else {
      assert parts + [x] == [parts[0], x];
    }
  }

  /** Joining the fields of a split with the same separator restores the text. */
  lemma {:induction false} JoinSplit(s: string, sep: string)
    requires |sep| > 0
    ensures Join(Split(s, sep), sep) == s
    decreases |s|
  {
    var k := Find(s, sep);
    if k >= 0 {
      var rest := s[k + |sep|..];
      var tail := Split(rest, sep);
      JoinSplit(rest, sep);
      var parts := [s[..k]] + tail;
      assert Split(s, sep) == parts;
      assert parts[1..] == tail;
      assert Join(parts, sep) == s[..k] + sep + Join(tail, sep);
      assert s[k..k + |sep|] == sep;
      assert s == s[..k] + s[k..k + |sep|] + rest;
    }
  }

  /** Splitting a join on a one-character separator that no field contains
      gives back the fields. */
  lemma {:induction false} SplitJoin(parts: seq<string>, c: char)
    requires |parts| >= 1
    requires forall i | 0 <= i < |parts| :: c !in parts[i]
    ensures Split(Join(parts, [c]), [c]) == parts
    decreases |parts|
  {
    var s := Join(parts, [c]);
    if |parts| == 1 {
      SingleCharAbsent(s, c);
    } else {
      var rest := Join(parts[1..], [c]);
      assert s == parts[0] + [c] + rest;
      FindSingleChar(parts[0], rest, c);
      assert s[..|parts[0]|] == parts[0];
      assert s[|parts[0]| + 1..] == rest;
      SplitJoin(parts[1..], c);
    }
  }

  lemma SingleCharAbsent(s: string, c: char)
    requires c !in s
    ensures !Contains(s, [c])
  {
    forall j | 0 <= j < |s|
      ensures !OccursAt(s, [c], j)
    {
      assert s[j..j + 1][0] == s[j];
    }
  }

  lemma FindSingleChar(a: string, b: string, c: char)
    requires c !in a
    ensures Find(a + [c] + b, [c]) == |a|
  {
    var s := a + [c] + b;
    assert s[|a|..|a| + 1] == [c];
    forall j | 0 <= j < |a|
      ensures !OccursAt(s, [c], j)
    {
      assert s[j..j + 1][0] == a[j];
    }
    FindIs(s, [c], |a|);
  }

  /** The characters Python's `str.isspace` accepts (`str.strip()` and
      `str.split()` use these). */
  const Whitespace: set<char> := {
    ' ', '\t', '\n', '\r', '\U{000B}', '\U{000C}',
    '\U{001C}', '\U{001D}', '\U{001E}', '\U{001F}', '\U{0085}', '\U{00A0}',
    '\U{1680}', '\U{2000}', '\U{2001}', '\U{2002}', '\U{2003}', '\U{2004}',
    '\U{2005}', '\U{2006}', '\U{2007}', '\U{2008}', '\U{2009}', '\U{200A}',
    '\U{2028}', '\U{2029}', '\U{202F}', '\U{205F}', '\U{3000}'
  }

  predicate IsSpace(c: char)
  {
    c == ' ' || '\t' <= c <= '\r' || '\U{001C}' <= c <= '\U{001F}' || c == '\U{0085}' || c == '\U{00A0}'
    || c == '\U{1680}' || '\U{2000}' <= c <= '\U{200A}' || c == '\U{2028}' || c == '\U{2029}'
    || c == '\U{202F}' || c == '\U{205F}' || c == '\U{3000}'
  }

  /** The visible ASCII characters are not whitespace. */
  lemma VisibleNotSpace(c: char)
    requires '!' <= c <= '~'
    ensures c !in Whitespace
  {
  }

  /** Python's `s.lstrip(chars)`, with the characters as a set. */
  function LStrip(s: string, cs: set<char>): (r: string)
    ensures |r| <= |s| && r == s[|s| - |r|..]
    ensures |r| > 0 ==> r[0] !in cs
    ensures forall i | 0 <= i < |s| - |r| :: s[i] in cs
  {
    if |s| > 0 && s[0] in cs then
      var r := LStrip(s[1..], cs);
      assert s[1..][|s| - 1 - |r|..] == s[|s| - |r|..];
      assert forall i | 1 <= i < |s| - |r| :: s[i] == s[1..][i - 1];
      r
    else s
  }

  /** Python's `s.rstrip(chars)`, with the characters as a set. */
  function RStrip(s: string, cs: set<char>): (r: string)
    ensures |r| <= |s| && r == s[..|r|]
    ensures |r| > 0 ==> r[|r| - 1] !in cs
    ensures forall i | |r| <= i < |s| :: s[i] in cs
  {
    if |s| > 0 && s[|s| - 1] in cs then
      var r := RStrip(s[..|s| - 1], cs);
      assert s[..|s| - 1][..|r|] == s[..|r|];
      assert forall i | |r| <= i < |s| - 1 :: s[i] == s[..|s| - 1][i];
      r
    else s
  }

  /** Python's `s.strip(chars)`: the longest middle slice whose ends are not
      in `chars`. Defined by peeling one character at a time; `StripIsLR`
      shows it is `rstrip` after `lstrip`. */
  function Strip(s: string, cs: set<char>): (r: string)
    ensures |r| <= |s|
    ensures |r| > 0 ==> r[0] !in cs && r[|r| - 1] !in cs
    decreases |s|
  {
    if |s| > 0 && s[0] in cs then Strip(s[1..], cs)
    else if |s| > 0 && s[|s| - 1] in cs then Strip(s[..|s| - 1], cs)
    else s
  }

  /** The strip is empty exactly when every character is strippable. */
  lemma {:induction false} StripEmptyIff(s: string, cs: set<char>)
    ensures Strip(s, cs) == "" <==> forall i | 0 <= i < |s| :: s[i] in cs
    decreases |s|
  {
    if |s| > 0 && s[0] in cs {
      StripEmptyIff(s[1..], cs);
      assert forall i | 1 <= i < |s| :: s[i] == s[1..][i - 1];
    } else if |s| > 0 && s[|s| - 1] in cs {
      StripEmptyIff(s[..|s| - 1], cs);
      assert forall i | 0 <= i < |s| - 1 :: s[i] == s[..|s| - 1][i];
    }
  }

  /** A character outside the strip set keeps the strip non-empty. */
  lemma StripNonEmpty(s: string, cs: set<char>, i: nat)
    requires i < |s| && s[i] !in cs
    ensures Strip(s, cs) != ""
  {
    StripEmptyIff(s, cs);
  }

  /** Peeling from both ends is Python's definition: `lstrip` then `rstrip`. */
  lemma {:induction false} StripIsLR(s: string, cs: set<char>)
    ensures Strip(s, cs) == RStrip(LStrip(s, cs), cs)
    decreases |s|
  {
    if |s| > 0 && s[0] in cs {
      StripIsLR(s[1..], cs);
    } else if |s| > 0 && s[|s| - 1] in cs {
      var t := s[..|s| - 1];
      StripIsLR(t, cs);
      assert |t| > 0 ==> t[0] == s[0];
    }
  }

  /** Strippable characters in front are stripped away. */
  lemma {:induction false} StripLeading(pre: string, s: string, cs: set<char>)
    requires forall i | 0 <= i < |pre| :: pre[i] in cs
    ensures Strip(pre + s, cs) == Strip(s, cs)
    decreases |pre|
  {
    if |pre| > 0 {
      assert (pre + s)[1..] == pre[1..] + s;
      StripLeading(pre[1..], s, cs);
    } else {
      assert pre + s == s;
    }
  }

  /** Python's `s.strip()`. */
  function Trim(s: string): string
  {
    Strip(s, Whitespace)
  }

  /** Python's `not s.strip()`: the text is empty or all whitespace. */
  predicate IsBlank(s: string)
  {
    Trim(s) == ""
  }

  /** A character outside the whitespace keeps the text from being blank. */
  lemma NonBlankAt(s: string, i: nat)
    requires i < |s| && s[i] !in Whitespace
    ensures !IsBlank(s)
  {
    StripNonEmpty(s, Whitespace, i);
  }

  lemma StripEmpty(cs: set<char>)
    ensures Strip("", cs) == ""
  {
  }

  /** Stripping twice strips nothing more. */
  lemma StripIdempotent(s: string, cs: set<char>)
    ensures Strip(Strip(s, cs), cs) == Strip(s, cs)
  {
    var t := Strip(s, cs);
    StripUnchanged(t, cs);
  }

  /** A text whose ends are not strippable is its own strip. */
  lemma StripUnchanged(s: string, cs: set<char>)
    requires |s| > 0 ==> s[0] !in cs && s[|s| - 1] !in cs
    ensures Strip(s, cs) == s
  {
  }

  function LowerChar(c: char): char
  {
    if 'A' <= c <= 'Z' then (c as int + 32) as char else c
  }

  /** Python's `s.lower()` restricted to ASCII letters. */
  function Lower(s: string): (r: string)
    ensures |r| == |s|
    ensures forall i | 0 <= i < |s| :: r[i] == LowerChar(s[i])
  {
    seq(|s|, i requires 0 <= i < |s| => LowerChar(s[i]))
  }

  predicate IsDigit(c: char)
  {
    '0' <= c <= '9'
  }

  predicate AllDigits(s: string)
  {
    forall i | 0 <= i < |s| :: IsDigit(s[i])
  }

  /** The end of the run of ASCII digits starting at `i`. */
  function DigitRunEnd(s: string, i: nat): (j: nat)
    requires i <= |s|
    ensures i <= j <= |s|
    ensures AllDigits(s[i..j])
    ensures j < |s| ==> !IsDigit(s[j])
    decreases |s| - i
  {
    if i < |s| && IsDigit(s[i]) then DigitRunEnd(s, i + 1) else i
  }

  function DigitChar(d: nat): (c: char)
    requires d < 10
    ensures IsDigit(c) && c as int - '0' as int == d
  {
    ('0' as int + d) as char
  }

  /** Python's `str(n)` for a non-negative integer. */
  function NatToString(n: nat): (s: string)
    ensures |s| >= 1 && AllDigits(s)
    ensures |s| > 1 ==> s[0] != '0'
  {
    if n < 10 then [DigitChar(n)]
    else NatToString(n / 10) + [DigitChar(n % 10)]
  }

  /** Python's `int(s)` for a string of decimal digits. */
  function ParseDigits(s: string): nat
    requires AllDigits(s)
  {
    if |s| == 0 then 0
    else 10 * ParseDigits(s[..|s| - 1]) + (s[|s| - 1] as int - '0' as int)
  }

  /** `int(str(n)) == n`. */
  lemma {:induction false} ParseNatToString(n: nat)
    ensures ParseDigits(NatToString(n)) == n
  {
    if n >= 10 {
      var s := NatToString(n);
      assert s[..|s| - 1] == NatToString(n / 10);
      ParseNatToString(n / 10);
    }
  }

  /** Python's `s * n`. */
  function Repeat(s: string, n: nat): string
  {
    if n == 0 then "" else s + Repeat(s, n - 1)
  }

  /** `s * n` has `n` copies of `s`. */
  lemma {:induction false} RepeatLength(s: string, n: nat)
    ensures |Repeat(s, n)| == |s| * n
  {
    if n > 0 {
      RepeatLength(s, n - 1);
    }
  }

  /** Python's `s[lo:hi]` for non-negative bounds: both are clamped to the
      length and an inverted range is empty. */
  function Slice(s: string, lo: nat, hi: nat): (r: string)
    ensures |r| <= |s|
    ensures lo <= hi <= |s| ==> r == s[lo..hi]
    ensures hi <= lo ==> r == ""
  {
    var h := Min(hi, |s|);
    if lo < h then s[lo..h] else ""
  }

  /** An occurrence survives putting text in front and behind. */
  lemma ContainsWithin(a: string, s: string, c: string, p: string)
    requires Contains(s, p)
    ensures Contains(a + s + c, p)
  {
    var j :| 0 <= j <= |s| - |p| && OccursAt(s, p, j);
    assert (a + s + c)[|a| + j..|a| + j + |p|] == s[j..j + |p|];
    ContainsWitness(a + s + c, p, |a| + j);
  }

  /** An occurrence survives putting text behind. */
  lemma ContainsBefore(s: string, c: string, p: string)
    requires Contains(s, p)
    ensures Contains(s + c, p)
  {
    var j :| 0 <= j <= |s| - |p| && OccursAt(s, p, j);
    assert (s + c)[j..j + |p|] == s[j..j + |p|];
    ContainsWitness(s + c, p, j);
  }

  /** An occurrence survives putting text in front. */
  lemma ContainsAfter(a: string, s: string, p: string)
    requires Contains(s, p)
    ensures Contains(a + s, p)
  {
    var j :| 0 <= j <= |s| - |p| && OccursAt(s, p, j);
    assert (a + s)[|a| + j..|a| + j + |p|] == s[j..j + |p|];
    ContainsWitness(a + s, p, |a| + j);
  }

  /** Replacing a pattern by itself followed by more text: wherever the
      pattern occurred, the extended text now occurs. */
  lemma {:induction false} ReplaceExtends(s: string, p: string, x: string)
    requires |p| > 0 && Contains(s, p)
    ensures Contains(Replace(s, p, p + x), p + x)
    decreases |s|
  {
    var j :| 0 <= j <= |s| - |p| && OccursAt(s, p, j);
    if s[..|p|] == p {
      var rest := Replace(s[|p|..], p, p + x);
      assert Replace(s, p, p + x) == (p + x) + rest;
      ContainsWitness(p + x, p + x, 0);
      ContainsBefore(p + x, rest, p + x);
    } else {
      assert s[0..|p|] == s[..|p|];
      assert !OccursAt(s, p, 0);
      assert s[1..][j - 1..j - 1 + |p|] == s[j..j + |p|];
      ContainsWitness(s[1..], p, j - 1);
      ReplaceExtends(s[1..], p, x);
      assert Replace(s, p, p + x) == [s[0]] + Replace(s[1..], p, p + x);
      ContainsAfter([s[0]], Replace(s[1..], p, p + x), p + x);
    }
  }

  /** Every piece of a concatenation occurs in it. */
  lemma {:induction false} ContainsPiece(pieces: seq<string>, i: nat)
    requires i < |pieces|
    ensures Contains(Flatten(pieces), pieces[i])
  {
    var tail := Flatten(pieces[1..]);
    if i == 0 {
      ContainsWitness(pieces[0], pieces[0], 0);
      ContainsWithin("", pieces[0], tail, pieces[0]);
      assert "" + pieces[0] + tail == Flatten(pieces);
    } else {
      ContainsPiece(pieces[1..], i - 1);
      ContainsWithin(pieces[0], tail, "", pieces[i]);
      assert pieces[0] + tail + "" == Flatten(pieces);
    }
  }

  /** A text that lacks one character of a pattern does not contain it. */
  lemma AbsentCharNoOccurrence(s: string, p: string, i: nat)
    requires i < |p| && p[i] !in s
    ensures !Contains(s, p)
  {
    forall j | 0 <= j <= |s| - |p|
      ensures !OccursAt(s, p, j)
    {
      assert s[j..j + |p|][i] == s[j + i];
    }
  }

  /** Splitting at a separator that occurs once, where nothing before it
      starts like it, gives the two sides. */
  lemma SplitOnce(x: string, sep: string, y: string)
    requires |sep| > 0 && sep[0] !in x && !Contains(y, sep)
    ensures Split(x + sep + y, sep) == [x, y]
  {
    var s := x + sep + y;
    assert s[|x|..|x| + |sep|] == sep;
    forall j | 0 <= j < |x|
      ensures !OccursAt(s, sep, j)
    {
      if j + |sep| <= |s| {
        assert s[j..j + |sep|][0] == x[j];
      }
    }
    FindIs(s, sep, |x|);
    assert s[..|x|] == x;
    assert s[|x| + |sep|..] == y;
    assert Split(y, sep) == [y];
  }

  /** The last occurrence is the one with none after it. */
  lemma LastIndexOfIs(s: string, c: char, k: nat)
    requires k < |s| && s[k] == c && c !in s[k + 1..]
    ensures LastIndexOf(s, c) == k
  {
    var r := LastIndexOf(s, c);
    assert s[k] == c;
    forall j | k < j < |s|
      ensures s[j] != c
    {
      assert s[j] == s[k + 1..][j - k - 1];
    }
    forall j | r < j < |s|
      ensures s[j] != c
    {
      assert s[j] == s[r + 1..][j - r - 1];
    }
  }

  /** `rstrip` of one trailing character that the text does not hold. */
  lemma RStripOne(s: string, c: char)
    requires c !in s
    ensures RStrip(s + [c], {c}) == s
  {
    var t := s + [c];
    var r := RStrip(t, {c});
    assert t[|s|] == c;
    forall i | 0 <= i < |s|
      ensures t[i] != c
    {
      assert t[i] == s[i];
    }
  }

  // ------------------------------------------------------------ line output

  /** Text built line by line with `text += line + "\n"`. */
  function Terminated(lines: seq<string>): (r: string)
    ensures lines == [] ==> r == ""
  {
    if |lines| == 0 then "" else lines[0] + "\n" + Terminated(lines[1..])
  }

  lemma {:induction false} TerminatedAppend(a: seq<string>, b: seq<string>)
    ensures Terminated(a + b) == Terminated(a) + Terminated(b)
    decreases |a|
  {
    if |a| > 0 {
      assert (a + b)[1..] == a[1..] + b;
      TerminatedAppend(a[1..], b);
    } else {
      assert a + b == b;
    }
  }

  lemma {:induction false} TerminatedJoin(lines: seq<string>)
    ensures Terminated(lines) == Join(lines + [""], "\n")
    decreases |lines|
  {
    if |lines| > 0 {
      assert (lines + [""])[1..] == lines[1..] + [""];
      TerminatedJoin(lines[1..]);
    }
  }

  /** Splitting line-terminated text at newlines gives back its lines and
      the empty field after the last newline. */
  lemma TerminatedSplit(lines: seq<string>)
    requires forall i | 0 <= i < |lines| :: '\n' !in lines[i]
    ensures Split(Terminated(lines), "\n") == lines + [""]
  {
    var all := lines + [""];
    assert forall i | 0 <= i < |all| :: '\n' !in all[i] by {
      forall i | 0 <= i < |all|
        ensures '\n' !in all[i]
      {
        if i < |lines| {
          assert all[i] == lines[i];
        }
      }
    }
    TerminatedJoin(lines);
    SplitJoin(all, '\n');
  }

  /** Python's `s.splitlines()` for text whose only line break is '\n':
      the fields between newlines, without the empty field a final newline
      leaves; blank lines in the middle are kept. */
  function SplitLines(s: string): (r: seq<string>)
    ensures forall i | 0 <= i < |r| :: '\n' !in r[i]
  {
    if s == "" then []
    else
      var parts := Split(s, "\n");
      assert forall i | 0 <= i < |parts| :: '\n' !in parts[i] by {
        forall i | 0 <= i < |parts|
          ensures '\n' !in parts[i]
        {
          NoCharNoOccurrence(parts[i], '\n');
        }
      }
      if Last(parts) == "" then parts[..|parts| - 1] else parts
  }

  /** A single character is in a text exactly when the text contains it as
      a one-character pattern. */
  lemma NoCharNoOccurrence(s: string, c: char)
    requires !Contains(s, [c])
    ensures c !in s
  {
    forall j | 0 <= j < |s|
      ensures s[j] != c
    {
      assert !OccursAt(s, [c], j);
      assert s[j..j + 1][0] == s[j];
    }
  }

  /** Reading back line-terminated text gives every line, blank ones
      included. */
  lemma SplitLinesTerminated(lines: seq<string>)
    requires forall i | 0 <= i < |lines| :: '\n' !in lines[i]
    ensures SplitLines(Terminated(lines)) == lines
  {
    if |lines| > 0 {
      TerminatedSplit(lines);
      assert Terminated(lines) != "" by {
        assert |Terminated(lines)| >= |lines[0]| + 1;
      }
      assert (lines + [""])[..|lines|] == lines;
    }
  }

  /** The last field of a split at a character is what follows its last
      occurrence. */
  lemma {:induction false} SplitLast(x: string, c: char, y: string)
    requires c !in y
    ensures Last(Split(x + [c] + y, [c])) == y
    decreases |x|
  {
    if c in x {
      var k := IndexOf(x, c);
      var rest := x[k + 1..] + [c] + y;
      assert Last(Split(x + [c] + y, [c])) == Last(Split(rest, [c])) by {
        assert x + [c] + y == x[..k] + [c] + rest by {
          assert x == x[..k] + [c] + x[k + 1..];
        }
        SplitAtFirst(x[..k], rest, c);
      }
      SplitLast(x[k + 1..], c, y);
    } else {
      assert Last(Split(x + [c] + y, [c])) == Last(Split(y, [c])) by {
        SplitAtFirst(x, y, c);
      }
      assert Split(y, [c]) == [y] by {
        SingleCharAbsent(y, c);
      }
    }
  }

  /** A split at a character peels off the text before its first
      occurrence. */
  lemma SplitAtFirst(a: string, b: string, c: char)
    requires c !in a
    ensures Split(a + [c] + b, [c]) == [a] + Split(b, [c])
    ensures Last(Split(a + [c] + b, [c])) == Last(Split(b, [c]))
  {
    var s := a + [c] + b;
    FindSingleChar(a, b, c);
    assert s[..|a|] == a;
    assert s[|a| + 1..] == b;
  }

  /** `f"{n:2d}"` and the like: right-aligned in a field of `width`
      characters, never cut. */
  function PadLeft(s: string, width: nat): (r: string)
    ensures |r| == if |s| < width then width else |s|
    ensures r[|r| - |s|..] == s
    ensures forall i | 0 <= i < |r| - |s| :: r[i] == ' '
  {
    if |s| < width then
      RepeatChar(' ', width - |s|);
      Repeat(" ", width - |s|) + s
    else s
  }

  lemma {:induction false} RepeatChar(c: char, n: nat)
    ensures |Repeat([c], n)| == n
    ensures forall i | 0 <= i < n :: Repeat([c], n)[i] == c
  {
    if n > 0 {
      RepeatChar(c, n - 1);
      assert Repeat([c], n) == [c] + Repeat([c], n - 1);
    }
  }

  // ------------------------------------------------------------ ordering

  /** Python's `a < b` on strings: code point by code point, a proper prefix
      first. */
  predicate Less(a: string, b: string)
    decreases |a|
  {
    if |a| == 0 then |b| > 0
    else if |b| == 0 then false
    else a[0] < b[0] || (a[0] == b[0] && Less(a[1..], b[1..]))
  }

  lemma {:induction false} LessIrreflexive(a: string)
    ensures !Less(a, a)
    decreases |a|
  {
    if |a| > 0 {
      LessIrreflexive(a[1..]);
    }
  }

  lemma {:induction false} LessAsymmetric(a: string, b: string)
    requires Less(a, b)
    ensures !Less(b, a)
    decreases |a|
  {
    if |a| > 0 && |b| > 0 && a[0] == b[0] {
      LessAsymmetric(a[1..], b[1..]);
    }
  }

  /** Two different strings are ordered one way or the other. */
  lemma {:induction false} LessTotal(a: string, b: string)
    requires a != b
    ensures Less(a, b) || Less(b, a)
    decreases |a|
  {
    if |a| > 0 && |b| > 0 && a[0] == b[0] {
      assert a == [a[0]] + a[1..] && b == [b[0]] + b[1..];
      LessTotal(a[1..], b[1..]);
    }
  }

  lemma {:induction false} LessTransitive(a: string, b: string, c: string)
    requires Less(a, b) && Less(b, c)
    ensures Less(a, c)
    decreases |a|
  {
    if |a| > 0 && a[0] == b[0] && b[0] == c[0] {
      LessTransitive(a[1..], b[1..], c[1..]);
    }
  }

  /** The start of `replace`'s output: either the first `n` characters of
      `s` come through untouched, or the output agrees with `s` up to some
      `k < n` where a replacement begins (k is returned, -1 otherwise). */
  lemma {:induction false} ReplacePrefix(s: string, p: string, r: string, n: nat) returns (k: int)
    requires |p| > 0 && |r| > 0 && n <= |s|
    ensures k == -1 ==> |Replace(s, p, r)| >= n && Replace(s, p, r)[..n] == s[..n]
    ensures k != -1 ==> 0 <= k < n && k < |Replace(s, p, r)| && Replace(s, p, r)[k] == r[0]
                        && Replace(s, p, r)[..k] == s[..k]
    decreases |s|
  {
    var out := Replace(s, p, r);
    if n == 0 {
      k := -1;
    } else if |s| < |p| {
      k := -1;
    } else if s[..|p|] == p {
      k := 0;
      assert out == r + Replace(s[|p|..], p, r);
    } else {
      var rest := Replace(s[1..], p, r);
      assert out == [s[0]] + rest;
      var k1 := ReplacePrefix(s[1..], p, r, n - 1);
      if k1 == -1 {
        k := -1;
        assert out[..n] == [s[0]] + rest[..n - 1];
        assert s[..n] == [s[0]] + s[1..][..n - 1];
      } else {
        k := k1 + 1;
        assert out[k] == rest[k1];
        assert out[..k] == [s[0]] + rest[..k1];
        assert s[..k] == [s[0]] + s[1..][..k1];
      }
    }
  }

  /** A replacement that neither holds the pattern nor ends with one of its
      characters, followed by a text without the pattern, gives a text
      without the pattern. */
  lemma AbsentAcross(r: string, rest: string, p: string)
    requires |p| > 0 && |r| > 0
    requires r[|r| - 1] !in p && !Contains(r, p) && !Contains(rest, p)
    ensures !Contains(r + rest, p)
  {
    var out := r + rest;
    forall i | 0 <= i <= |out| - |p|
      ensures !OccursAt(out, p, i)
    {
      if i + |p| <= |r| {
        assert out[i..i + |p|] == r[i..i + |p|];
        if OccursAt(r, p, i) {
          ContainsWitness(r, p, i);
        }
      } else if i < |r| {
        assert out[i..i + |p|][|r| - 1 - i] == r[|r| - 1];
      } else {
        assert out[i..i + |p|] == rest[i - |r|..i - |r| + |p|];
        if OccursAt(rest, p, i - |r|) {
          ContainsWitness(rest, p, i - |r|);
        }
      }
    }
  }

  /** After `replace`, no occurrence of the pattern is left, provided the
      replacement holds none and its first and last characters are not in
      the pattern (so none can straddle its ends). */
  lemma {:induction false} ReplaceClears(s: string, p: string, r: string)
    requires |p| > 0 && |r| > 0
    requires r[0] !in p && r[|r| - 1] !in p && !Contains(r, p)
    ensures !Contains(Replace(s, p, r), p)
    decreases |s|
  {
    var out := Replace(s, p, r);
    if |s| < |p| {
    } else if s[..|p|] == p {
      var rest := Replace(s[|p|..], p, r);
      ReplaceClears(s[|p|..], p, r);
      assert out == r + rest;
      AbsentAcross(r, rest, p);
    } else {
      var rest := Replace(s[1..], p, r);
      ReplaceClears(s[1..], p, r);
      assert out == [s[0]] + rest;
      var k := ReplacePrefix(s[1..], p, r, |p| - 1);
      forall i | 0 <= i <= |out| - |p|
        ensures !OccursAt(out, p, i)
      {
        if i == 0 {
          if k == -1 {
            assert out[..|p|] == [s[0]] + rest[..|p| - 1];
            assert s[..|p|] == [s[0]] + s[1..][..|p| - 1];
          } else {
            assert out[..|p|][k + 1] == rest[k] == r[0];
          }
        } else {
          assert out[i..i + |p|] == rest[i - 1..i - 1 + |p|];
          if OccursAt(rest, p, i - 1) {
            ContainsWitness(rest, p, i - 1);
          }
        }
      }
    }
  }

  /** A text that does not hold `q` does not hold `u + q` either. */
  lemma AbsentSuffixPart(s: string, u: string, q: string)
    requires !Contains(s, q)
    ensures !Contains(s, u + q)
  {
    forall j | 0 <= j <= |s| - |u + q|
      ensures !OccursAt(s, u + q, j)
    {
      assert !OccursAt(s, q, j + |u|);
      assert s[j..j + |u + q|][|u|..] == s[j + |u|..j + |u| + |q|];
      assert (u + q)[|u|..] == q;
    }
  }

  /** A text without the pattern's first character does not hold it. */
  lemma FirstCharAbsent(s: string, p: string)
    requires |p| > 0 && p[0] !in s
    ensures !Contains(s, p)
  {
    forall j | 0 <= j <= |s| - |p|
      ensures !OccursAt(s, p, j)
    {
      assert s[j..j + |p|][0] == s[j];
    }
  }

  /** Text lacking a pattern's first character is left alone by `replace`;
      stated as an implication so a chain of replacements can carry it. */
  lemma KeptWithoutLead(s: string, p: string, r: string)
    requires |p| > 0
    ensures p[0] !in s ==> Replace(s, p, r) == s
  {
    if p[0] !in s {
      FirstCharAbsent(s, p);
      ReplaceAbsent(s, p, r);
    }
  }

  /** The pattern cannot start inside `x` when `x` lacks its first
      character, so `x` followed by all of the pattern but its last
      character does not hold it. */
  lemma NoEarlyOccurrence(x: string, p: string)
    requires |p| > 0 && p[0] !in x
    ensures !Contains(x + p[..|p| - 1], p)
  {
    var s := x + p[..|p| - 1];
    forall j | 0 <= j <= |s| - |p|
      ensures !OccursAt(s, p, j)
    {
      assert s[j..j + |p|][0] == s[j] == x[j];
    }
  }

  /** The decimal digits of `str(n)` hold no other character. */
  lemma NotInDigits(d: string, c: char)
    requires AllDigits(d) && !IsDigit(c)
    ensures c !in d
  {
    forall i | 0 <= i < |d|
      ensures d[i] != c
    {
      assert IsDigit(d[i]);
    }
  }
}

=== FILE: urgent.dfy ===
/** The urgent send (urgent_send_now.py): today's analysis file or its
    emergency twin, the cleaned subscriber list, one test recipient chosen
    by mail provider, a constant summary whose only live field is the
    subscriber count, and an 800-character excerpt of the raw analysis.
    File existence and the send are parameters. */
module UrgentSend {
  import opened Wrappers
  import opened Seqs
  import opened Text
  import opened Subscribers

  // ------------------------------------------------------------ choosing

  /** The analysis file: today's, else today's emergency file, else none
      (the script exits). */
  function AnalysisFile(today: string, present: string -> bool): (r: Option<string>)
    ensures present("/root/ai-flow/logs/" + today + ".txt") ==> r == Some("/root/ai-flow/logs/" + today + ".txt")
    ensures r.None? <==> !present("/root/ai-flow/logs/" + today + ".txt")
                         && !present("/root/ai-flow/logs/" + today + "_emergency.txt")
    ensures r.Some? ==> present(r.value)
  {
    var main := "/root/ai-flow/logs/" + today + ".txt";
    var emergency := "/root/ai-flow/logs/" + today + "_emergency.txt";
    if present(main) then Some(main)
    else if present(emergency) then Some(emergency)
    else None
  }

  /** An address at one of the three providers a person is likely to read. */
  predicate Preferred(email: string)
  {
    Contains(email, "163.com") || Contains(email, "qq.com") || Contains(email, "gmail.com")
  }

  function FirstPreferred(emails: seq<string>): (r: Option<nat>)
    ensures r.Some? ==> r.value < |emails| && Preferred(emails[r.value])
                        && forall j | 0 <= j < r.value :: !Preferred(emails[j])
    ensures r.None? ==> forall j | 0 <= j < |emails| :: !Preferred(emails[j])
  {
    if |emails| == 0 then None
    else if Preferred(emails[0]) then Some(0)
    else
      var k := FirstPreferred(emails[1..]);
      assert forall j | 1 <= j < |emails| :: emails[1..][j - 1] == emails[j];
      if k.Some? then Some(k.value + 1) else None
  }

  /** The test recipient: the first preferred address, else the first
      address, and none for an empty list. */
  function TestRecipient(emails: seq<string>): (r: Option<string>)
    ensures r.Some? <==> |emails| > 0
    ensures r.Some? ==> r.value in emails
  {
    if |emails| == 0 then None
    else
      var k := FirstPreferred(emails);
      if k.Some? then Some(emails[k.value]) else Some(emails[0])
  }

  /** The preferred address that comes first wins, wherever it stands. */
  lemma RecipientIsFirstPreferred(emails: seq<string>, k: nat)
    requires k < |emails| && Preferred(emails[k])
    requires forall j | 0 <= j < k :: !Preferred(emails[j])
    ensures TestRecipient(emails) == Some(emails[k])
  {
    var f := FirstPreferred(emails);
    assert f.Some?;
    assert !(f.value < k) && !(k < f.value);
  }

  /** With no preferred address the first one is used. */
  lemma RecipientFallsBackToFirst(emails: seq<string>)
    requires |emails| > 0
    requires forall j | 0 <= j < |emails| :: !Preferred(emails[j])
    ensures TestRecipient(emails) == Some(emails[0])
  {
  }

  /** The recipient chosen from the subscriber file is a cleaned address. */
  lemma RecipientClean(lines: seq<string>)
    requires TestRecipient(SubscriberList(lines)).Some?
    ensures Clean(TestRecipient(SubscriberList(lines)).value)
  {
    var emails := SubscriberList(lines);
    var r := TestRecipient(emails).value;
    var i :| 0 <= i < |emails| && emails[i] == r;
  }

  // ----------------------------------------------------------- the summary

  datatype Category = Category(name: string, count: nat, examples: string)

  datatype Info = Info(
    highlightTitle: string,
    categories: seq<Category>,
    trends: seq<string>,
    insightCount: nat,
    projectCount: nat,
    categoryCount: nat,
    subscriberCount: nat)

  const FixedCategories := [
    Category("视觉AI", 1, "ruvnet/wifi-densepose"),
    Category("开发者工具", 2, "Comfy-Org/ComfyUI-Manager, mistralai/mistral-vibe"),
    Category("AI平台", 3, "HKUDS/RAG-Anything, Zipstack/unstract, The-Pocket/PocketFlow"),
    Category("数据分析", 1, "plotly/dash"),
    Category("基础设施工具", 1, "yt-dlp/yt-dlp"),
    Category("机器学习框架", 2, "shiyu-coder/Kronos, karpathy/nanoGPT"),
    Category("创新应用", 1, "home-assistant/core")]

  /** extract_analysis_info: the analysis text is not looked at; every
      field is fixed except the subscriber count. The insights are kept as
      their number (three). */
  function ExtractInfo(content: string, subscribers: seq<string>): (r: Info)
    ensures r.subscriberCount == |subscribers|
    ensures r.projectCount == 11 && r.categoryCount == 7
  {
    Info("ruvnet/wifi-densepose", FixedCategories, ["隐私友好AI感知技术兴起"], 3, 11, 7, |subscribers|)
  }

  /** Two different analyses give the same summary. */
  lemma InfoIgnoresContent(a: string, b: string, subscribers: seq<string>)
    ensures ExtractInfo(a, subscribers) == ExtractInfo(b, subscribers)
  {
  }

  function CountSum(cs: seq<Category>): nat
  {
    if |cs| == 0 then 0 else cs[0].count + CountSum(cs[1..])
  }

  /** The fixed figures agree with each other: the categories number seven
      and their counts add up to the eleven projects. */
  lemma InfoConsistent(content: string, subscribers: seq<string>)
    ensures var info := ExtractInfo(content, subscribers);
            && |info.categories| == info.categoryCount
            && CountSum(info.categories) == info.projectCount
  {
    var cs := FixedCategories;
    assert CountSum(cs[6..]) == 1;
    assert cs[5..][1..] == cs[6..];
    assert cs[4..][1..] == cs[5..];
    assert cs[3..][1..] == cs[4..];
    assert cs[2..][1..] == cs[3..];
    assert cs[1..][1..] == cs[2..];
    assert cs[1..] == cs[1..];
    assert CountSum(cs[5..]) == 3;
    assert CountSum(cs[4..]) == 4;
    assert CountSum(cs[3..]) == 5;
    assert CountSum(cs[2..]) == 8;
    assert CountSum(cs[1..]) == 10;
  }

  // ------------------------------------------------------------ rendering

  const ExcerptLength := 800

  /** `{{ raw_analysis[:800] }}...`: the first 800 characters, then three
      dots whatever the length. */
  function Excerpt(raw: string): (r: string)
    ensures |r| == Min(|raw|, ExcerptLength) + 3
    ensures r[..|r| - 3] == raw[..Min(|raw|, ExcerptLength)]
    ensures EndsWith(r, "...")
  {
    var r := Take(raw, ExcerptLength) + "...";
    assert r[|r| - 3..] == "...";
    r
  }

  /** Nothing after the 800th character reaches the mail. */
  lemma ExcerptIgnoresTail(raw: string, more: string)
    requires |raw| >= ExcerptLength
    ensures Excerpt(raw + more) == Excerpt(raw)
  {
    assert (raw + more)[..ExcerptLength] == raw[..ExcerptLength];
  }

  // -------------------------------------------------------------- the run

  /** `Failed.delivered` records a mail that went out before the HTML copy
      could not be saved: the same handler reports both as a failure. */
  datatype Outcome = NoAnalysis | NoEmailFile | Sent(to: Option<string>) | Failed(to: Option<string>, delivered: bool)

  /** The script: no analysis file or no subscriber file exits; otherwise one
      mail goes to the test recipient (the address may be missing when the
      file has no address). The send and the saving of the HTML copy share
      one try block, so the run succeeds only when both do. */
  function Run(today: string, present: string -> bool, emailLines: Option<seq<string>>, sendOk: bool,
               saveOk: bool): (r: Outcome)
    ensures AnalysisFile(today, present).None? <==> r == NoAnalysis
    ensures AnalysisFile(today, present).Some? && emailLines.None? <==> r == NoEmailFile
    ensures r.Sent? <==> AnalysisFile(today, present).Some? && emailLines.Some? && sendOk && saveOk
    ensures (r.Sent? || r.Failed?) ==> r.to == TestRecipient(SubscriberList(emailLines.value))
    ensures r.Failed? ==> (r.delivered <==> sendOk)
  {
    if AnalysisFile(today, present).None? then NoAnalysis
    else if emailLines.None? then NoEmailFile
    else
      var to := TestRecipient(SubscriberList(emailLines.value));
      if sendOk && saveOk then Sent(to) else Failed(to, sendOk)
  }

  /** A mail delivered to a recipient still counts as a failure when the HTML
      copy cannot be written afterwards. */
  lemma DeliveredButFailed(today: string, present: string -> bool, lines: seq<string>)
    requires AnalysisFile(today, present).Some?
    ensures Run(today, present, Some(lines), true, false) == Failed(TestRecipient(SubscriberList(lines)), true)
  {
  }
}

=== FILE: wrappers.dfy ===
/** Optional values and results with an error message: the model's stand-ins
    for Python's `None` and for exceptions that a caller observes. */
module Wrappers {
  datatype Option<+T> = None | Some(value: T)

  datatype Result<+T> = Ok(value: T) | Err(error: string)
}

=== FILE: yesterday.dfy ===
/** The offline mail test (test_with_yesterday_data.py): the project lines
    of the first usable log file, or a fixed sample; the analysis styled by
    fixed replacements; one send per test address with a pause after each.
    File contents, the password and every send are parameters. */
module YesterdayTest {
  import opened Wrappers
  import opened Seqs
  import opened Text
  import EmergencySend

  // ------------------------------------------------------------ reading

  /** The candidate files in the order they are tried; the first is named
      after today's date although the function is about yesterday. */
  function Candidates(today: string): (r: seq<string>)
    ensures |r| == 3 && r[0] == "logs/" + today + ".txt"
  {
    ["logs/" + today + ".txt", "logs/2026-02-14.txt", "logs/2026-02-13.txt"]
  }

  /** A stripped line is a project line when it is non-empty, starts with a
      digit and holds ". [". */
  predicate ProjectLine(t: string)
  {
    t != "" && IsDigit(t[0]) && Contains(t, ". [")
  }

  /** `content.split('\n')`. */
  function FileLines(content: string): seq<string>
  {
    Split(content, "\n")
  }

  /** The stripped project lines of a file, in file order. */
  function Extract(content: string): (r: seq<string>)
    ensures forall i | 0 <= i < |r| :: ProjectLine(r[i])
  {
    Filter(Map(FileLines(content), Trim), ProjectLine)
  }

  /** A line is extracted exactly when some line of the file strips to it
      and it passes the test. */
  lemma ExtractMembers(content: string, t: string)
    ensures t in Extract(content)
            <==> ProjectLine(t) && exists i | 0 <= i < |FileLines(content)| :: Trim(FileLines(content)[i]) == t
  {
    var parts := FileLines(content);
    var stripped := Map(parts, Trim);
    FilterMembers(stripped, ProjectLine, t);
    if t in stripped {
      var i :| 0 <= i < |stripped| && stripped[i] == t;
      assert Trim(parts[i]) == t;
    }
    forall i | 0 <= i < |parts| && Trim(parts[i]) == t
      ensures t in stripped
    {
      assert stripped[i] == t;
    }
  }

  const SampleSource := "示例数据"
  const Sample := "1. [ruvnet / wifi-densepose]: InvisPose - 基于WiFi的颠覆性密集人体姿态估计系统，使用商用网状路由器实现实时全身体态追踪。\n2. [Zipstack / unstract]: 无代码LLM平台，用于启动API和ETL管道以结构化非结构化文档。\n3. [GetStream / Vision-Agents]: Stream的开源视觉代理。快速构建任何模型或视频提供商的视觉代理。使用Stream的边缘网络实现超低延迟。\n4. [open-webui / open-webui]: 用户友好的AI界面（支持Ollama、OpenAI API等）。\n5. [music-assistant / server]: 音乐助手是一个开源的媒体库管理器，可连接到您的流媒体服务和各种连接的扬声器。"

  /** The projects and where they came from: the first candidate that exists
      and yields at least one project line; a file with none is passed over
      like a missing one. */
  function ReadFrom(paths: seq<string>, files: string -> Option<string>): (r: (string, string))
    ensures r.1 == SampleSource || r.1 in paths
    ensures r.1 != SampleSource ==> files(r.1).Some? && |Extract(files(r.1).value)| > 0
                                    && r.0 == Join(Extract(files(r.1).value), "\n")
    ensures SampleSource !in paths && r.1 == SampleSource ==> r.0 == Sample
    decreases |paths|
  {
    if |paths| == 0 then (Sample, SampleSource)
    else
      var f := files(paths[0]);
      if f.Some? && |Extract(f.value)| > 0 then (Join(Extract(f.value), "\n"), paths[0])
      else ReadFrom(paths[1..], files)
  }

  /** load_yesterday_data: the projects come from the candidate file the
      source names, or are the sample. */
  function ReadYesterday(today: string, files: string -> Option<string>): (r: (string, string))
    ensures r.1 == SampleSource || r.1 in Candidates(today)
    ensures r.1 != SampleSource ==> files(r.1).Some? && |Extract(files(r.1).value)| > 0
                                    && r.0 == Join(Extract(files(r.1).value), "\n")
    ensures r.1 == SampleSource ==> r.0 == Sample
  {
    var paths := Candidates(today);
    assert SampleSource !in paths by {
      assert forall i | 0 <= i < |paths| :: paths[i][0] == 'l';
      assert SampleSource[0] != 'l';
    }
    ReadFrom(paths, files)
  }

  /** The first candidate with project lines decides, whatever the later
      ones hold. */
  lemma {:induction false} FirstUsableFile(paths: seq<string>, files: string -> Option<string>, k: nat)
    requires k < |paths| && files(paths[k]).Some? && |Extract(files(paths[k]).value)| > 0
    requires forall j | 0 <= j < k :: files(paths[j]).None? || Extract(files(paths[j]).value) == []
    ensures ReadFrom(paths, files) == (Join(Extract(files(paths[k]).value), "\n"), paths[k])
    decreases k
  {
    if k > 0 {
      FirstUsableFile(paths[1..], files, k - 1);
    }
  }

  /** With no candidate holding a project line, the sample is used. */
  lemma {:induction false} NoUsableFile(paths: seq<string>, files: string -> Option<string>)
    requires forall j | 0 <= j < |paths| :: files(paths[j]).None? || Extract(files(paths[j]).value) == []
    ensures ReadFrom(paths, files) == (Sample, SampleSource)
    decreases |paths|
  {
    if |paths| > 0 {
      NoUsableFile(paths[1..], files);
    }
  }

  /** The date shown in the mail: the fixed date when the source names it,
      today otherwise. */
  function DataDate(source: string, today: string): (r: string)
    ensures Contains(source, "2026-02-14") ==> r == "2026-02-14"
    ensures !Contains(source, "2026-02-14") ==> r == today
  {
    if Contains(source, "2026-02-14") then "2026-02-14" else today
  }

  // ------------------------------------------------------------ styling

  /** What follows the newline of a styled heading and of a list item;
      both start with '<' and hold no newline. */
  const H3Body := "</div>" + "<div class=\"section\">" + "<h3>"
  const LiBody := "<li>"
  const H3 := "\n" + H3Body
  const Li := "\n" + LiBody
  const HeadingPatterns := ["\n### ", "\n###"]
  const ListPatterns := ["\n- ", "\n1. ", "\n2. ", "\n3. "]

  predicate NonEmptyAll(pats: seq<string>)
  {
    forall i | 0 <= i < |pats| :: |pats[i]| > 0
  }

  /** The replacements applied one after the other, in list order. */
  function ReplaceAll(s: string, pats: seq<string>, r: string): string
    requires NonEmptyAll(pats)
    decreases |pats|
  {
    if |pats| == 0 then s else ReplaceAll(Replace(s, pats[0], r), pats[1..], r)
  }

  /** create_beautiful_html's styling of the analysis: the headings first,
      the spaced form before the bare one, then the list markers. */
  function Style(s: string): string
  {
    ReplaceAll(ReplaceAll(s, HeadingPatterns, H3), ListPatterns, Li)
  }

  lemma {:induction false} ReplaceAllAppend(s: string, a: seq<string>, b: seq<string>, r: string)
    requires NonEmptyAll(a) && NonEmptyAll(b)
    ensures NonEmptyAll(a + b)
    ensures ReplaceAll(s, a + b, r) == ReplaceAll(ReplaceAll(s, a, r), b, r)
    decreases |a|
  {
    if |a| > 0 {
      assert (a + b)[1..] == a[1..] + b;
      ReplaceAllAppend(Replace(s, a[0], r), a[1..], b, r);
    } else {
      assert a + b == b;
    }
  }

  /** Patterns that do not occur leave the text as it is. */
  lemma {:induction false} ReplaceAllAbsent(s: string, pats: seq<string>, r: string)
    requires NonEmptyAll(pats)
    requires forall i | 0 <= i < |pats| :: !Contains(s, pats[i])
    ensures ReplaceAll(s, pats, r) == s
    decreases |pats|
  {
    if |pats| > 0 {
      ReplaceAbsent(s, pats[0], r);
      ReplaceAllAbsent(s, pats[1..], r);
    }
  }

  /** Patterns whose only newline is their first character. */
  predicate NewlineLed(pats: seq<string>)
  {
    forall i | 0 <= i < |pats| :: |pats[i]| > 0 && pats[i][0] == '\n' && '\n' !in pats[i][1..]
  }

  lemma PatternsNewlineLed()
    ensures NewlineLed(HeadingPatterns) && NewlineLed(ListPatterns)
  {
  }

  /** The replacements work on the text before a newline and on the text
      from it on separately. */
  lemma {:induction false} ReplaceAllAtNewline(a: string, b: string, pats: seq<string>, r: string)
    requires NonEmptyAll(pats) && NewlineLed(pats) && |r| > 0 && r[0] == '\n'
    requires b == "" || b[0] == '\n'
    ensures ReplaceAll(a + b, pats, r) == ReplaceAll(a, pats, r) + ReplaceAll(b, pats, r)
    ensures ReplaceAll(b, pats, r) == "" || ReplaceAll(b, pats, r)[0] == '\n'
    decreases |pats|
  {
    if |pats| > 0 {
      ReplaceAtNewline(a, b, pats[0], r);
      ReplaceKeepsLead(b, pats[0], r);
      ReplaceAllAtNewline(Replace(a, pats[0], r), Replace(b, pats[0], r), pats[1..], r);
    }
  }

  /** Styling splits at every newline: the styled text is the styled part
      before a newline followed by the styled rest. */
  lemma StyleAppend(a: string, b: string)
    requires b == "" || b[0] == '\n'
    ensures Style(a + b) == Style(a) + Style(b)
  {
    PatternsNewlineLed();
    ReplaceAllAtNewline(a, b, HeadingPatterns, H3);
    ReplaceAllAtNewline(ReplaceAll(a, HeadingPatterns, H3), ReplaceAll(b, HeadingPatterns, H3), ListPatterns, Li);
  }

  /** Text with its only newline at `k`. */
  predicate NewlineOnlyAt(s: string, k: nat)
  {
    k < |s| && s[k] == '\n' && forall j | 0 <= j < |s| && j != k :: s[j] != '\n'
  }

  /** A pattern starting with a newline that differs, at offset `m`, from
      what follows the text's only newline does not occur. */
  lemma Mismatch(s: string, k: nat, p: string, m: nat)
    requires NewlineOnlyAt(s, k) && |p| > m > 0 && p[0] == '\n'
    requires k + m < |s| ==> s[k + m] != p[m]
    ensures !Contains(s, p)
  {
    forall j | 0 <= j <= |s| - |p|
      ensures !OccursAt(s, p, j)
    {
      assert s[j..j + |p|][0] == s[j];
      if j == k {
        assert s[j..j + |p|][m] == s[k + m];
      }
    }
  }

  /** A single newline-led pattern in a text whose only other characters
      are not newlines is replaced in place. */
  lemma ReplaceLed(x: string, p: string, y: string, r: string)
    requires |p| > 0 && p[0] == '\n' && '\n' !in x && '\n' !in y
    ensures Replace(x + p + y, p, r) == x + r + y
  {
    var t := x + p[..|p| - 1];
    forall j | 0 <= j <= |t| - |p|
      ensures !OccursAt(t, p, j)
    {
      assert t[j..j + |p|][0] == t[j] == x[j];
    }
    AbsentCharNoOccurrence(y, p, 0);
    ReplaceOnce(x, p, y, r);
  }

  /** After a heading or a list item is styled, the text's only newline is
      followed by '<', so no pattern matches any more. */
  lemma StyledIsFinal(x: string, body: string, y: string)
    requires '\n' !in x && '\n' !in y && |body| > 0 && body[0] == '<' && '\n' !in body
    ensures NonEmptyAll(HeadingPatterns) && NonEmptyAll(ListPatterns)
    ensures forall i | 0 <= i < |HeadingPatterns| :: !Contains(x + ("\n" + body) + y, HeadingPatterns[i])
    ensures forall i | 0 <= i < |ListPatterns| :: !Contains(x + ("\n" + body) + y, ListPatterns[i])
  {
    var s := x + ("\n" + body) + y;
    assert NewlineOnlyAt(s, |x|) by {
      forall j | 0 <= j < |s| && j != |x|
        ensures s[j] != '\n'
      {
        if j < |x| {
          assert s[j] == x[j];
        } else if j <= |x| + |body| {
          assert s[j] == body[j - |x| - 1];
        } else {
          assert s[j] == y[j - |x| - 1 - |body|];
        }
      }
    }
    assert s[|x| + 1] == '<';
    forall i | 0 <= i < |HeadingPatterns|
      ensures !Contains(s, HeadingPatterns[i])
    {
      Mismatch(s, |x|, HeadingPatterns[i], 1);
    }
    forall i | 0 <= i < |ListPatterns|
      ensures !Contains(s, ListPatterns[i])
    {
      Mismatch(s, |x|, ListPatterns[i], 1);
    }
  }

  lemma TagsFinal()
    ensures |H3Body| > 0 && H3Body[0] == '<' && '\n' !in H3Body
    ensures |LiBody| > 0 && LiBody[0] == '<' && '\n' !in LiBody
  {
  }

  lemma HeadingSteps(s: string)
    ensures NonEmptyAll(HeadingPatterns)
    ensures ReplaceAll(s, HeadingPatterns, H3) == Replace(Replace(s, HeadingPatterns[0], H3), HeadingPatterns[1], H3)
  {
    assert HeadingPatterns[1..] == [HeadingPatterns[1]];
    assert HeadingPatterns[1..][1..] == [];
  }

  /** Text without a newline is not styled at all. */
  lemma StyleNoNewline(s: string)
    requires '\n' !in s
    ensures Style(s) == s
  {
    forall i | 0 <= i < |HeadingPatterns|
      ensures !Contains(s, HeadingPatterns[i])
    {
      AbsentCharNoOccurrence(s, HeadingPatterns[i], 0);
    }
    forall i | 0 <= i < |ListPatterns|
      ensures !Contains(s, ListPatterns[i])
    {
      AbsentCharNoOccurrence(s, ListPatterns[i], 0);
    }
    ReplaceAllAbsent(s, HeadingPatterns, H3);
    ReplaceAllAbsent(s, ListPatterns, Li);
  }

  /** "### " after a newline becomes a section heading, the space eaten. */
  lemma HeadingSpacedLine(x: string, y: string)
    requires '\n' !in x && '\n' !in y
    ensures Style(x + "\n### " + y) == x + H3 + y
  {
    var p0, p1 := HeadingPatterns[0], HeadingPatterns[1];
    var s := x + p0 + y;
    var t := x + H3 + y;
    assert ReplaceAll(s, HeadingPatterns, H3) == t by {
      HeadingSteps(s);
      ReplaceLed(x, p0, y, H3);
      TagsFinal();
      StyledIsFinal(x, H3Body, y);
      ReplaceAbsent(t, p1, H3);
    }
    assert ReplaceAll(t, ListPatterns, Li) == t by {
      TagsFinal();
      StyledIsFinal(x, H3Body, y);
      ReplaceAllAbsent(t, ListPatterns, Li);
    }
  }

  /** "###" with no space after it becomes the same heading: both forms
      render alike only because the spaced one is replaced first. */
  lemma HeadingBareLine(x: string, y: string)
    requires '\n' !in x && '\n' !in y && (y == "" || y[0] != ' ')
    ensures Style(x + "\n###" + y) == x + H3 + y
  {
    var p0, p1 := HeadingPatterns[0], HeadingPatterns[1];
    var s := x + p1 + y;
    var t := x + H3 + y;
    assert ReplaceAll(s, HeadingPatterns, H3) == t by {
      HeadingSteps(s);
      BareNoSpaced(x, y);
      ReplaceAbsent(s, p0, H3);
      ReplaceLed(x, p1, y, H3);
    }
    assert ReplaceAll(t, ListPatterns, Li) == t by {
      TagsFinal();
      StyledIsFinal(x, H3Body, y);
      ReplaceAllAbsent(t, ListPatterns, Li);
    }
  }

  lemma BareNoSpaced(x: string, y: string)
    requires '\n' !in x && '\n' !in y && (y == "" || y[0] != ' ')
    ensures !Contains(x + "\n###" + y, "\n### ")
  {
    var s := x + "\n###" + y;
    assert NewlineOnlyAt(s, |x|) by {
      forall j | 0 <= j < |s| && j != |x|
        ensures s[j] != '\n'
      {
        if j < |x| {
          assert s[j] == x[j];
        } else if j > |x| + 3 {
          assert s[j] == y[j - |x| - 4];
        }
      }
    }
    if |x| + 4 < |s| {
      assert s[|x| + 4] == y[0];
    }
    Mismatch(s, |x|, "\n### ", 4);
  }

  /** The headings replaced the other way round. */
  const ReversedHeadings := [HeadingPatterns[1], HeadingPatterns[0]]

  /** With the bare form replaced first, the space would survive. */
  lemma ReversedOrderKeepsSpace(x: string, y: string)
    requires '\n' !in x && '\n' !in y
    ensures NonEmptyAll(ReversedHeadings)
    ensures ReplaceAll(x + HeadingPatterns[0] + y, ReversedHeadings, H3) == x + H3 + (" " + y)
  {
    var s := x + HeadingPatterns[0] + y;
    var t := x + H3 + (" " + y);
    BareFirst(x, y);
    SpacedAfter(x, y);
    var rest := ReversedHeadings[1..];
    assert ReversedHeadings[0] == HeadingPatterns[1];
    assert rest == [HeadingPatterns[0]] && rest[1..] == [];
    assert ReplaceAll(s, ReversedHeadings, H3) == ReplaceAll(t, rest, H3);
    assert ReplaceAll(t, rest, H3) == ReplaceAll(t, rest[1..], H3);
  }

  /** The bare pattern matches the spaced heading, leaving its space. */
  lemma BareFirst(x: string, y: string)
    requires '\n' !in x && '\n' !in y
    ensures Replace(x + HeadingPatterns[0] + y, HeadingPatterns[1], H3) == x + H3 + (" " + y)
  {
    assert x + HeadingPatterns[0] + y == x + HeadingPatterns[1] + (" " + y);
    ReplaceLed(x, HeadingPatterns[1], " " + y, H3);
  }

  /** Nothing is left for the spaced pattern afterwards. */
  lemma SpacedAfter(x: string, y: string)
    requires '\n' !in x && '\n' !in y
    ensures Replace(x + H3 + (" " + y), HeadingPatterns[0], H3) == x + H3 + (" " + y)
  {
    TagsFinal();
    StyledIsFinal(x, H3Body, " " + y);
    ReplaceAbsent(x + H3 + (" " + y), HeadingPatterns[0], H3);
  }

  /** A list marker after a newline ("- ", "1. ", "2. " or "3. ") becomes a
      list item. */
  lemma ListItemLine(x: string, i: nat, y: string)
    requires i < |ListPatterns| && '\n' !in x && '\n' !in y
    ensures Style(x + ListPatterns[i] + y) == x + Li + y
  {
    var p := ListPatterns[i];
    var s := x + p + y;
    assert NewlineOnlyAt(s, |x|) by {
      forall j | 0 <= j < |s| && j != |x|
        ensures s[j] != '\n'
      {
        if j < |x| {
          assert s[j] == x[j];
        } else if j >= |x| + |p| {
          assert s[j] == y[j - |x| - |p|];
        } else {
          assert s[j] == p[j - |x|];
        }
      }
    }
    assert s[|x| + 1] == p[1];
    forall h | 0 <= h < |HeadingPatterns|
      ensures !Contains(s, HeadingPatterns[h])
    {
      Mismatch(s, |x|, HeadingPatterns[h], 1);
    }
    ReplaceAllAbsent(s, HeadingPatterns, H3);
    var before := ListPatterns[..i];
    var after := ListPatterns[i + 1..];
    assert ListPatterns == before + [p] + after;
    forall h | 0 <= h < |before|
      ensures !Contains(s, before[h])
    {
      Mismatch(s, |x|, before[h], 1);
    }
    ReplaceAllAbsent(s, before, Li);
    ReplaceLed(x, p, y, Li);
    TagsFinal();
    StyledIsFinal(x, LiBody, y);
    forall h | 0 <= h < |after|
      ensures !Contains(x + Li + y, after[h])
    {
      assert after[h] == ListPatterns[i + 1 + h];
    }
    ReplaceAllAbsent(x + Li + y, after, Li);
    ReplaceAllAppend(s, before, [p], Li);
    ReplaceAllAppend(s, before + [p], after, Li);
  }

  /** A "### " heading on any line of the text: that line becomes a section
      heading and the text around it is styled on its own. */
  lemma HeadingSpaced(x: string, y: string, z: string)
    requires '\n' !in y && (z == "" || z[0] == '\n')
    ensures Style(x + "\n### " + y + z) == Style(x) + (H3 + y) + Style(z)
  {
    var line := "\n### " + y;
    calc {
      Style(x + "\n### " + y + z);
      { assert x + "\n### " + y + z == (x + line) + z; }
      Style((x + line) + z);
      { StyleAppend(x + line, z); }
      Style(x + line) + Style(z);
      { StyleAppend(x, line); }
      Style(x) + Style(line) + Style(z);
      { HeadingSpacedLine("", y); EmptyLead("\n### ", y); EmptyLead(H3, y); }
      Style(x) + (H3 + y) + Style(z);
    }
  }

  /** A bare "###" heading on any line of the text. */
  lemma HeadingBare(x: string, y: string, z: string)
    requires '\n' !in y && (y == "" || y[0] != ' ') && (z == "" || z[0] == '\n')
    ensures Style(x + "\n###" + y + z) == Style(x) + (H3 + y) + Style(z)
  {
    var line := "\n###" + y;
    calc {
      Style(x + "\n###" + y + z);
      { assert x + "\n###" + y + z == (x + line) + z; }
      Style((x + line) + z);
      { StyleAppend(x + line, z); }
      Style(x + line) + Style(z);
      { StyleAppend(x, line); }
      Style(x) + Style(line) + Style(z);
      { HeadingBareLine("", y); EmptyLead("\n###", y); EmptyLead(H3, y); }
      Style(x) + (H3 + y) + Style(z);
    }
  }

  /** A list marker opening any line of the text. */
  lemma ListItem(x: string, i: nat, y: string, z: string)
    requires i < |ListPatterns| && '\n' !in y && (z == "" || z[0] == '\n')
    ensures Style(x + ListPatterns[i] + y + z) == Style(x) + (Li + y) + Style(z)
  {
    var line := ListPatterns[i] + y;
    calc {
      Style(x + ListPatterns[i] + y + z);
      { assert x + ListPatterns[i] + y + z == (x + line) + z; }
      Style((x + line) + z);
      { StyleAppend(x + line, z); }
      Style(x + line) + Style(z);
      { StyleAppend(x, line); }
      Style(x) + Style(line) + Style(z);
      { ListItemLine("", i, y); EmptyLead(ListPatterns[i], y); EmptyLead(Li, y); }
      Style(x) + (Li + y) + Style(z);
    }
  }

  lemma EmptyLead(a: string, b: string)
    ensures "" + a + b == a + b
  {
  }

  /** How one line after a newline comes out of the styling, read line by
      line: a heading, a list item, or the line as it was. */
  function StyleLine(l: string): (r: string)
    ensures |r| > 0 && r[0] == '\n'
  {
    if |l| >= 4 && l[..4] == "### " then H3 + l[4..]
    else if |l| >= 3 && l[..3] == "###" then H3 + l[3..]
    else if |l| >= 2 && l[..2] == "- " then Li + l[2..]
    else if |l| >= 3 && l[..3] in ["1. ", "2. ", "3. "] then Li + l[3..]
    else "\n" + l
  }

  /** The text's lines styled one by one: the first line, which no newline
      precedes, is kept. */
  function StyleLines(lines: seq<string>): string
  {
    if |lines| == 0 then ""
    else if |lines| == 1 then lines[0]
    else StyleLines(lines[..|lines| - 1]) + StyleLine(lines[|lines| - 1])
  }

  /** The sequence of replacements styles a text exactly as styling it line
      by line does. */
  lemma {:induction false} StyleByLines(lines: seq<string>)
    requires forall i | 0 <= i < |lines| :: '\n' !in lines[i]
    ensures Style(Join(lines, "\n")) == StyleLines(lines)
    decreases |lines|
  {
    if |lines| == 1 {
      StyleNoNewline(lines[0]);
    } else if |lines| > 1 {
      var init, last := lines[..|lines| - 1], lines[|lines| - 1];
      assert lines == init + [last];
      JoinSnoc(init, last, "\n");
      assert Join(lines, "\n") == Join(init, "\n") + ("\n" + last);
      StyleAppend(Join(init, "\n"), "\n" + last);
      StyleByLines(init);
      StyleOneLine(last);
    }
  }

  /** One line after a newline is styled as StyleLine says. */
  lemma StyleOneLine(l: string)
    requires '\n' !in l
    ensures Style("\n" + l) == StyleLine(l)
  {
    if |l| >= 4 && l[..4] == "### " {
      SpacedLine(l);
    } else if |l| >= 3 && l[..3] == "###" {
      BareLine(l);
    } else if |l| >= 2 && l[..2] == "- " {
      ListLine(l, 0);
    } else if |l| >= 3 && l[..3] in ["1. ", "2. ", "3. "] {
      var i := if l[..3] == "1. " then 1 else if l[..3] == "2. " then 2 else 3;
      ListLine(l, i);
    } else {
      PlainLine(l);
    }
  }

  /** A line opened by "### ". */
  lemma SpacedLine(l: string)
    requires '\n' !in l && |l| >= 4 && l[..4] == "### "
    ensures Style("\n" + l) == H3 + l[4..]
  {
    LeadSplit(l, "### ");
    assert "\n" + "### " == "\n### ";
    HeadingSpacedLine("", l[4..]);
    EmptyLead("\n### ", l[4..]);
    EmptyLead(H3, l[4..]);
  }

  /** A line opened by "###" and no space. */
  lemma BareLine(l: string)
    requires '\n' !in l && |l| >= 3 && l[..3] == "###" && !(|l| >= 4 && l[..4] == "### ")
    ensures Style("\n" + l) == H3 + l[3..]
  {
    if |l| > 3 {
      assert l[3] != ' ' by {
        assert l[..4] == l[..3] + [l[3]];
      }
    }
    LeadSplit(l, "###");
    assert "\n" + "###" == "\n###";
    HeadingBareLine("", l[3..]);
    EmptyLead("\n###", l[3..]);
    EmptyLead(H3, l[3..]);
  }

  /** A line opened by the `i`th list marker. */
  lemma ListLine(l: string, i: nat)
    requires '\n' !in l && i < |ListPatterns|
    requires |l| >= |ListPatterns[i]| - 1 && l[..|ListPatterns[i]| - 1] == ListPatterns[i][1..]
    ensures Style("\n" + l) == Li + l[|ListPatterns[i]| - 1..]
  {
    var p := ListPatterns[i];
    var y := l[|p| - 1..];
    assert "\n" + l == p + y by {
      assert l == p[1..] + y;
      assert p == "\n" + p[1..];
    }
    ListItemLine("", i, y);
    EmptyLead(p, y);
    EmptyLead(Li, y);
  }

  /** A text opening with a newline and a given prefix of the line. */
  lemma LeadSplit(l: string, q: string)
    requires |l| >= |q| && l[..|q|] == q
    ensures "\n" + l == "\n" + q + l[|q|..]
  {
    assert l == q + l[|q|..];
  }

  /** A line opened by none of the markers is left as it is. */
  lemma PlainLine(l: string)
    requires '\n' !in l
    requires !(|l| >= 3 && l[..3] == "###")
    requires !(|l| >= 2 && l[..2] == "- ")
    requires !(|l| >= 3 && l[..3] in ["1. ", "2. ", "3. "])
    ensures Style("\n" + l) == "\n" + l
  {
    var s := "\n" + l;
    assert NewlineOnlyAt(s, 0);
    forall i | 0 <= i < |HeadingPatterns|
      ensures !Contains(s, HeadingPatterns[i])
    {
      var p := HeadingPatterns[i];
      if |s| >= |p| {
        assert s[..|p|][1..4] == l[..3];
        assert p[1..4] == "###";
      }
      NoMatchAtLead(s, p);
    }
    forall i | 0 <= i < |ListPatterns|
      ensures !Contains(s, ListPatterns[i])
    {
      var p := ListPatterns[i];
      if |s| >= |p| {
        assert s[..|p|][1..] == l[..|p| - 1];
      }
      NoMatchAtLead(s, p);
    }
    ReplaceAllAbsent(s, HeadingPatterns, H3);
    ReplaceAllAbsent(s, ListPatterns, Li);
  }

  /** In a text whose only newline opens it, a newline-led pattern occurs
      only at the start. */
  lemma NoMatchAtLead(s: string, p: string)
    requires NewlineOnlyAt(s, 0) && |p| > 1 && p[0] == '\n'
    requires !(|s| >= |p| && s[..|p|] == p)
    ensures !Contains(s, p)
  {
    if |s| < |p| {
      Mismatch(s, 0, p, |s|);
    } else {
      var m :| 0 < m < |p| && s[m] != p[m] by {
        assert s[..|p|][0] == p[0];
      }
      Mismatch(s, 0, p, m);
    }
  }

  // ------------------------------------------------------------ sending

  const TestEmails := ["houlongapple@icloud.com", "pxxhl@qq.com"]
  const SendPause := 1

  /** send_test_email: no password gives false before connecting; the
      addresses are sent to in order with a one-second pause after each
      send, the last included; a failed connection or a refused send raises
      and gives false. */
  method SendTest(password: Option<string>, connected: bool, accepted: seq<bool>)
    returns (ok: bool, sent: seq<string>, sleeps: seq<nat>)
    requires |accepted| == |TestEmails|
    ensures password.None? || password.value == "" || !connected ==> !ok && sent == [] && sleeps == []
    ensures ok <==> password.Some? && password.value != "" && connected
                    && forall j | 0 <= j < |accepted| :: accepted[j]
    ensures |sent| <= |TestEmails| && sent == TestEmails[..|sent|] && |sleeps| == |sent|
    ensures forall j | 0 <= j < |sleeps| :: sleeps[j] == SendPause
    ensures password.Some? && password.value != "" && connected
            ==> |sent| == EmergencySend.AcceptedRun(accepted, |accepted|)
  {
    ok, sent, sleeps := false, [], [];
    if password.None? || password.value == "" || !connected {
      return;
    }
    var i := 0;
    while i < |TestEmails|
      invariant 0 <= i <= |TestEmails|
      invariant sent == TestEmails[..i] && |sleeps| == i
      invariant forall j | 0 <= j < i :: accepted[j]
      invariant forall j | 0 <= j < |sleeps| :: sleeps[j] == SendPause
    {
      if !accepted[i] {
        AcceptedRunIs(accepted, i);
        return;
      }
      sent := sent + [TestEmails[i]];
      sleeps := sleeps + [SendPause];
      i := i + 1;
    }
    AcceptedRunIs(accepted, i);
    ok := true;
  }

  /** The accepted run is the first refusal's position, or everything. */
  lemma AcceptedRunIs(ok: seq<bool>, k: nat)
    requires k <= |ok| && forall j | 0 <= j < k :: ok[j]
    requires k < |ok| ==> !ok[k]
    ensures EmergencySend.AcceptedRun(ok, |ok|) == k
  {
  }
}
